=== FILE: README.md ===
# AstroBox core, modelled in Dafny

AstroBox is a desktop and mobile companion app for Xiaomi wearables. It
talks to a watch or band over Bluetooth Classic SPP, using the MiWear
framing protocol. It installs watch faces, firmware and third-party apps,
and keeps a paired-device list and a plugin and resource store. This
project models the core of that system and proves properties of the model:

- **MiWear framing** (`Packet`): the `A5 A5` frame with type, sequence number,
  little-endian body length and CRC-16/ARC of the body. It covers building
  a frame, parsing a batch of frames out of a receive buffer, and the
  channel/opcode header of data frames.
- **The device session** (`Device`, `BtRecv`, `CommandPool`, `Auth`):
  - the receive buffer that pops complete frames and acknowledges them;
  - the sequence counter and fragmentation to the negotiated frame size;
  - the waiters for protobuf replies;
  - the prioritised command pool;
  - the authentication key schedule (HKDF-SHA256, RFC 5869) and the check
    of the watch's signature;
  - the receive dispatcher.
- **The network stack over SPP** (`Dhcp`, `Meter`):
  - the DHCP Offer/Ack that the app's small DHCP server answers the watch
    with, wrapped in UDP and IPv4 headers with the RFC 1071 checksum;
  - the traffic meter's sliding window.
- **Mass transfer** (`MassPacket`, `Mass`):
  - the mass packet: a header, the data and a CRC-32;
  - the part loop, which resumes from the part the watch reported and
    cuts the packet into slices of the size the watch asked for;
  - the numbering of the parts.
- **Helpers and configuration** (`Tools`, `ResUtils`, `Config`, `Accounts`,
  `FrontApi`):
  - hex and string helpers;
  - resource type detection and the watch-face id;
  - the JSON configuration store with deep merge;
  - third-party accounts;
  - the commands that patch a watch-face id and manage paired devices.
- **The three SPP back ends** (`WinSpp`, `MacSpp`, `AndroidSpp`):
  - address text formats;
  - scan de-duplication;
  - the ordered connection attempts;
  - send paths, including the Android send actor that writes 512-byte
    chunks;
  - the connected callback and disconnection.
- **The stores** (`Community`, `PluginStore`, `Permission`): CDN URL rewriting,
  search, filtering, sorting, pagination and look-up in the resource and
  plugin repositories, and the plugin permission rule.
- **Front-end utilities** (`TaskQueue`, `TimeText`, `PathHelper`, `I18n`):
  - the download and install task list;
  - the human-readable duration;
  - file names from paths;
  - the language choice and the translation look-up.

Shared definitions sit in `Wrappers` (Option, Result), `Bytes` (byte and
little- and big-endian helpers), `Strings` (ASCII text helpers) and
`Crypto`. Hash, HMAC, CRC-32 and AES functions are parameters of the
operations that use them, typed only by their output length.

Code that changes state in place is modelled as a Dafny class. This covers
the device session, the receive buffer, the command pool, the meter, the SPP
back ends, the configuration store and the task list. Each method is proved
against a function of the old state. Code that only computes is modelled as
functions with lemmas.

Whatever the model cannot see becomes a parameter:

- sockets and radios;
- the clock;
- the watch's answers;
- HTTP responses;
- the actions a task runs.

## Model

| member | source | states |
|---|---|---|
| Packet.PktTypeFromByte | src-tauri/src/miwear/packet.rs:25-34 | only the low nibble of the byte decides the type: 1 is Ack, 2 is SessionConfig, anything else is Data |
| Packet.PktTypeRoundTrip | src-tauri/src/miwear/packet.rs:25-39 | decoding the byte a packet type encodes to gives that type back |
| Packet.ChannelFromByte | src-tauri/src/miwear/packet.rs:54-69 | channel codes 1 to 9 map to their channels and every other byte falls back to Pb |
| Packet.ChannelRoundTrip | src-tauri/src/miwear/packet.rs:54-74 | decoding the byte a channel encodes to gives that channel back |
| Packet.CrcShiftBranch | src-tauri/src/miwear/packet.rs:207-211 | one shift round of the reflected 0xA001 polynomial: the low bit decides whether the polynomial is xored in |
| Packet.CrcAbsorb | src-tauri/src/miwear/packet.rs:205-212 | the eight shift rounds applied to one input byte equal the byte step of the CRC function |
| Packet.Crc16Arc | src-tauri/src/miwear/packet.rs:202-215 | the byte loop computes exactly the CRC-16/ARC value of the data |
| Packet.Crc16Empty | src-tauri/src/miwear/packet.rs:202-215 | the CRC of no bytes is the initial value 0 |
| Packet.Crc16Snoc | src-tauri/src/miwear/packet.rs:202-215 | appending a byte advances the CRC by one byte step |
| Packet.Crc16CheckValue | src-tauri/src/miwear/packet.rs:202-215 | the CRC of the ASCII string "123456789" is 0xBB3D, the published CRC-16/ARC check value |
| Packet.Encode | src-tauri/src/miwear/packet.rs:172-184 | a frame is A5 A5, the type byte, the sequence number, the body length little-endian, the body CRC little-endian, then the body |
| Packet.Parse | src-tauri/src/miwear/packet.rs:101-128 | fewer than 8 bytes is "Incomplete header", a wrong magic is "Magic mismatch", a short body is "Incomplete frame", a wrong CRC is a CRC error, and success returns the decoded header and body |
| Packet.ParseAccepted | src-tauri/src/miwear/packet.rs:101-128 | a successful parse means the buffer starts with a full frame whose CRC checks |
| Packet.ParseRejects | src-tauri/src/miwear/packet.rs:113-121 | a frame whose body is cut short or whose CRC byte is wrong is rejected |
| Packet.ParseEncode | src-tauri/src/miwear/packet.rs:101-128 | parsing an encoded packet, whatever follows it, gives the packet back |
| Packet.ParseAllSpecFrame | src-tauri/src/miwear/packet.rs:136-148 | a magic at the front of the buffer yields that frame and the parse of what follows it |
| Packet.ParseAllSpecSkip | src-tauri/src/miwear/packet.rs:138-140 | bytes before the first magic are skipped |
| Packet.ParseAllSpecLost | src-tauri/src/miwear/packet.rs:141-143 | a non-empty remainder with no magic is the error "Magic not found" |
| Packet.ParseAll | src-tauri/src/miwear/packet.rs:131-151 | the scanning loop returns exactly the frames of the buffer, or the first error |
| Packet.ParseAllEncodeAll | src-tauri/src/miwear/packet.rs:131-151 | parsing the concatenation of encoded packets gives the packets back in order |
| Packet.ParseAllSkipsJunk | src-tauri/src/miwear/packet.rs:136-140 | junk without the magic in front of a stream of frames does not change the result |
| Packet.ParseAllNoMagic | src-tauri/src/miwear/packet.rs:138-143 | a non-empty buffer holding no magic is the error "Magic not found" |
| Packet.ParseAllBadFrame | src-tauri/src/miwear/packet.rs:145 | one damaged frame makes the whole parse fail with that frame's error |
| Packet.DataFields | src-tauri/src/miwear/packet.rs:154-169 | the data fields exist exactly when the packet is a data packet with at least two body bytes, and they are the channel, the op code and the rest of the body |
| Packet.NewData | src-tauri/src/miwear/packet.rs:187-198 | a data packet carries the channel and op code as its first two body bytes and the payload after them |
| Packet.DataFieldsNewData | src-tauri/src/miwear/packet.rs:154-198 | reading the data fields of a new data packet gives back its channel, op code and payload |
| Device.NextSeq | src-tauri/src/miwear/device.rs:508-513 | the sequence counter goes up by one and wraps from 255 to 0 |
| Device.SeqAfterCycles | src-tauri/src/miwear/device.rs:508-513 | after k frames the counter holds k modulo 256 |
| Device.Scan | src-tauri/src/miwear/device.rs:577-628 | a scan never consumes more bytes than the buffer holds |
| Device.ScanFramesComplete | src-tauri/src/miwear/device.rs:577-628 | the bytes a scan returns are a sequence of whole frames, each its magic, header and full body |
| Device.ScanKeepsIncomplete | src-tauri/src/miwear/device.rs:606-623 | a frame whose body has not all arrived returns nothing and consumes nothing |
| Device.ScanShort | src-tauri/src/miwear/device.rs:577 | a buffer of 8 bytes or fewer yields nothing and consumes nothing |
| Device.ScanFrameStep | src-tauri/src/miwear/device.rs:586-609 | a complete frame at the front is returned and the scan goes on after it |
| Device.ScanIncompleteStep | src-tauri/src/miwear/device.rs:606-623 | an incomplete frame stops the scan |
| Device.ScanSkipStep | src-tauri/src/miwear/device.rs:624-631 | a byte that does not start a magic is skipped and consumed |
| Device.ScanFrontFrame | src-tauri/src/miwear/device.rs:577-628 | an encoded frame at the front is returned followed by whatever the rest of the buffer yields |
| Device.ScanEncodedFrames | src-tauri/src/miwear/device.rs:577-628 | a run of encoded frames followed by a header-only frame is returned whole and entirely consumed |
| Device.FragmentWritesDeliver | src-tauri/src/miwear/device.rs:286-301 | when nothing fails, the written pieces concatenate to the frame, none exceeds the maximum size, and a small frame goes out in one write |
| Device.FragmentWritesPrefix | src-tauri/src/miwear/device.rs:286-301 | a failed write stops the sending: what went out is a prefix of the frame |
| Device.MiWearDevice.constructor | src-tauri/src/miwear/device.rs:93-253 | a new device takes the link's name, or the requested one when the link reports none, and the link's address; it has 977-byte frames over SPP and 244 over BLE, the stored MTU, no codename, an empty buffer, counter 0, no keys and no pending waits; its only protobuf subscriber is the ThirdpartyApp callback that `connect` registers last |
| Device.MiWearDevice.PushRecvData | src-tauri/src/miwear/device.rs:553-555 | the received bytes are appended to the buffer and nothing else changes |
| Device.MiWearDevice.PopBtPacket | src-tauri/src/miwear/device.rs:557-640 | returns the scan's frames when there are any, and drops exactly the consumed bytes from the buffer |
| Device.MiWearDevice.BuildFrame | src-tauri/src/miwear/device.rs:492-518 | the frame is the encoded data packet with the current counter, encrypted with the session key for an encrypted op, and the counter advances |
| Device.MiWearDevice.Send | src-tauri/src/miwear/device.rs:278-284 | the payload is written once; the result reports the link's failure |
| Device.MiWearDevice.SendFragments | src-tauri/src/miwear/device.rs:286-301 | the writes are the fragments of the frame up to the first failure, and the result fails, with the write error, exactly when a write failed |
| Device.MiWearDevice.Request | src-tauri/src/miwear/device.rs:392-405 | the frame is built with the next sequence number and written in fragments; a failed write returns the write error and leaves the waiter registered; after a good send the reply is returned and its waiter gone, or a dropped sender or a timeout returns that error with the waiter still registered |
| Device.MiWearDevice.TakeSeqPending | src-tauri/src/miwear/device.rs:520-522 | the waiter for a sequence number is found exactly when one was pending, and it is removed |
| Device.MiWearDevice.SubscribeProto | src-tauri/src/miwear/device.rs:424-433 | the callback is appended to the callbacks of its packet type and no other type changes |
| Device.MiWearDevice.WaitProto | src-tauri/src/miwear/device.rs:435-490 | a key already waited on is refused with a message naming the key; otherwise the wait returns the delivered reply, or the dropped-sender or timeout message naming the key, and the table of pending keys is left as it was |
| Device.SaveStateProperties | src-tauri/src/miwear/device.rs:539-547 | after the write-back the device is current, each paired device of the same name is replaced by it in place, the others are kept, an unpaired device is not added, and writing back twice is writing back once |
| Device.WaitErrorsNameKey | src-tauri/src/miwear/device.rs:445-488 | the three errors of a protobuf wait are distinct and each contains the key as "(type, id)" |
| CommandPool.PriorityIndex | src-tauri/src/miwear/command_pool/mod.rs:16-20 | the rank of a channel is at most the length of the priority list |
| CommandPool.PriorityIndexFirst | src-tauri/src/miwear/command_pool/mod.rs:16-20 | the rank is the first position of the channel in the list, and equals the length exactly when the channel is not listed |
| CommandPool.DefaultPriorityOrder | src-tauri/src/miwear/command_pool/mod.rs:9-10 | by default Mass goes before Pb, Pb before NetWork, and NetWork before every unlisted channel |
| CommandPool.InsertPos | src-tauri/src/miwear/command_pool/mod.rs:73-77 | the insertion point follows every queued command of equal or higher priority and precedes every command of lower priority |
| CommandPool.InsertKeepsSorted | src-tauri/src/miwear/command_pool/mod.rs:73-78 | inserting at that point keeps a queue ordered by priority |
| CommandPool.InsertIsStable | src-tauri/src/miwear/command_pool/mod.rs:73-78 | on a sorted queue the new command goes after all commands of the same priority, so commands of one priority stay first in, first out |
| CommandPool.InsertedContents | src-tauri/src/miwear/command_pool/mod.rs:73-78 | the queue after a push is the old queue with exactly the new command added at the insertion point |
| CommandPool.Pool.constructor | src-tauri/src/miwear/command_pool/mod.rs:9-10 | a new pool has an empty queue and the default priority Mass, Pb, NetWork |
| CommandPool.Pool.SetChannelPriority | src-tauri/src/miwear/command_pool/mod.rs:12-14 | the priority list is replaced and the queue is untouched |
| CommandPool.Pool.Push | src-tauri/src/miwear/command_pool/mod.rs:68-81 | the queue becomes the insertion of the command, one longer with the same commands plus the new one, and stays sorted |
| CommandPool.Pool.Pop | src-tauri/src/miwear/command_pool/mod.rs:83-90 | the front command is removed and returned; an empty queue yields nothing and stays empty |
| CommandPool.Pool.ToJsonTable | src-tauri/src/miwear/command_pool/mod.rs:152-177 | one row per queued command, labelled "CMD #" with its 1-based position and the status "Pending" |
| CommandPool.Process | src-tauri/src/miwear/command_pool/mod.rs:103-150 | each command builds one frame and sends its fragments; a failed send drops the responder, Send answers Done, RegisterAck answers with a receiver and leaves the ACK waiter registered, WaitAck answers Done only for an ACK within the timeout and "Ack timeout" otherwise |
| BtRecv.ToPacketData | src-tauri/src/miwear/btrecv.rs:77-111 | Pb content becomes a protobuf packet or stops the handling when it does not decode, Mass and FileFitness become data, NetWork becomes network bytes, anything else is unsupported, and non-protobuf content is passed on unchanged |
| BtRecv.DataContent | src-tauri/src/miwear/btrecv.rs:67-75 | plain content is used as is; encrypted content is decrypted, which needs a 16-byte decryption key |
| BtRecv.AckFrameBytes | src-tauri/src/miwear/btrecv.rs:159-165 | the ACK hex string decodes without error to the encoded empty Ack frame A5 A5 01 seq 00 00 00 00 |
| BtRecv.AckHexIsFrame | src-tauri/src/miwear/btrecv.rs:161 | the ACK string is the lower-case hex of the ACK frame |
| BtRecv.AckEncoding | src-tauri/src/miwear/btrecv.rs:161 | the ACK frame is the packet encoding of an empty Ack packet for that sequence number |
| BtRecv.HelloPrefix | src-tauri/src/miwear/btrecv.rs:19 | the hex string starts with "badcfe" exactly when the data starts with the bytes BA DC FE |
| BtRecv.HelloOnly | src-tauri/src/miwear/btrecv.rs:18-24 | a batch starting BA DC FE is answered by writing exactly the session-config frame to the link; the handling panics exactly when that write fails; nothing is parsed and no other state changes; the frame written parses as the SessionConfig packet |
| BtRecv.SendSessionConfig | src-tauri/src/miwear/device/hello.rs:16-22 | the session-config frame is written to the link and the device changes as the hello step prescribes; a failed write panics |
| BtRecv.SessionConfigFrame | src-tauri/src/miwear/device/hello.rs:17-18 | the session-config hex decodes without error to the 30-byte frame, and the packet parser reads that frame back as a SessionConfig packet with seq 0 and its 22-byte body |
| BtRecv.SessionConfigEncoded | src-tauri/src/miwear/device/hello.rs:17 | the session-config frame is the packet encoding of a SessionConfig packet with seq 0: magic, type 2, length 22 and the body's CRC |
| BtRecv.SessionConfigCrc | src-tauri/src/miwear/device/hello.rs:17 | the CRC-16/ARC of the session-config body is 0x4D1D, the value its header carries |
| BtRecv.SessionConfigHexMatches | src-tauri/src/miwear/device/hello.rs:17 | the session-config frame printed as lower-case hex is exactly the source's hex string |
| BtRecv.HelloFrame | src-tauri/src/miwear/device/hello.rs:10 | the hello hex decodes without error to the 11-byte hello frame, which begins with the BA DC FE marker the receive path treats as a hello |
| BtRecv.StartHello | src-tauri/src/miwear/device/hello.rs:9-14 | the hello frame is written to the link; the result is an error exactly when the write fails; nothing else on the link changes |
| BtRecv.AckAndSessionConfig | src-tauri/src/miwear/btrecv.rs:42-57 | an Ack packet wakes the ACK waiter when there is one and clears it; a SessionConfig packet changes nothing |
| BtRecv.PbDecodeFailureStops | src-tauri/src/miwear/btrecv.rs:96-99 | a Pb payload that does not decode ends the handling without waking a waiter or sending an ACK |
| BtRecv.HandleAllStopped | src-tauri/src/miwear/btrecv.rs:96-99 | once the handling has stopped, later packets of the batch are not handled |
| BtRecv.DeliverWakesSeqWaiter | src-tauri/src/miwear/btrecv.rs:113-116 | a data packet wakes the request waiting on its sequence number first, exactly when one waits, and removes it |
| BtRecv.ProtoReachesSubscribers | src-tauri/src/miwear/btrecv.rs:118-129 | a protobuf packet wakes the waiter for its type and id, then calls every subscriber of its type in order |
| BtRecv.NetworkForwardedUnlessClaimed | src-tauri/src/miwear/btrecv.rs:132-149 | a network packet goes to the network stack exactly when the DHCP responder did not claim it and the stack is running |
| BtRecv.DeliverAcknowledges | src-tauri/src/miwear/btrecv.rs:157-165 | every handled data packet is answered with one ACK frame for its sequence number; a failed ACK write stops the handling |
| BtRecv.HandleBatchParsed | src-tauri/src/miwear/btrecv.rs:27-29 | a batch that is not a hello is the handling, in order, of the frames the parser finds |
| BtRecv.CallSubscribers | src-tauri/src/miwear/btrecv.rs:124-129 | the loop over the callbacks calls each subscriber once, in order |
| BtRecv.DeliverProto | src-tauri/src/miwear/btrecv.rs:118-130 | the protobuf delivery updates the device as the protobuf step prescribes |
| BtRecv.DeliverNetwork | src-tauri/src/miwear/btrecv.rs:132-149 | the network delivery updates the pool as the network step prescribes |
| BtRecv.SendAck | src-tauri/src/miwear/btrecv.rs:157-165 | the ACK write updates the device as the ACK step prescribes |
| BtRecv.Deliver | src-tauri/src/miwear/btrecv.rs:113-165 | the delivery of one data packet produces exactly the state and effects of the delivery step |
| BtRecv.HandleOne | src-tauri/src/miwear/btrecv.rs:41-168 | the handling of one packet produces exactly the state and effects of the packet step |
| BtRecv.HandleBtPacket | src-tauri/src/miwear/btrecv.rs:11-176 | the handling of a received batch produces exactly the state and effects of the batch step, including the session-config write and its panic for a hello batch |
| Dhcp.Fold | src-tauri/src/miwear/network_stack/dhcp.rs:19-21 | folding the carries gives a 16-bit value that is 0 only for a zero sum |
| Dhcp.FoldMod | src-tauri/src/miwear/network_stack/dhcp.rs:19-21 | folding keeps the sum's value modulo 0xFFFF, the ones'-complement addition of section 3.1 of RFC 1071 |
| Dhcp.FoldUnique | src-tauri/src/miwear/network_stack/dhcp.rs:19-21 | the folded value is the only 16-bit value congruent to the sum modulo 0xFFFF that is zero exactly for a zero sum |
| Dhcp.ComputeChecksum | src-tauri/src/miwear/network_stack/dhcp.rs:6-24 | the two loops compute the complement of the folded big-endian word sum, an odd last byte being padded with zero |
| Dhcp.WordSumConcat | src-tauri/src/miwear/network_stack/dhcp.rs:10-17 | the word sum of two buffers is the sum of their word sums when the first has even length |
| Dhcp.ChecksumVerifies | src-tauri/src/miwear/network_stack/dhcp.rs:6-24 | writing the checksum into its zeroed field makes the checksum of the whole buffer 0, as a receiver checks it |
| Dhcp.ReplyChoice | src-tauri/src/miwear/network_stack/dhcp.rs:48-101 | the reply is a BootReply offering 10.1.10.2 from server 10.1.10.1, keeps the request's other fields, carries mask 255.255.255.0, router 10.1.10.1, lease 269352960 and server id 10.1.10.1, and answers Discover with Offer and Request with Ack |
| Dhcp.ReplyOptions | src-tauri/src/miwear/network_stack/dhcp.rs:59-101 | the reply carries no option other than message type, subnet mask, router, lease time and server identifier |
| Dhcp.BuildReplyPacket | src-tauri/src/miwear/network_stack/dhcp.rs:117-193 | the reply packet is built as the IPv4 and UDP wrapping of the encoded DHCP message |
| Dhcp.ReplyLayout | src-tauri/src/miwear/network_stack/dhcp.rs:119-193 | the packet is a 20-byte IPv4 header from 255.255.255.255 to 10.1.10.1 with TTL 64 and protocol UDP, then UDP ports 67 to 68 with length and checksum, then the DHCP message |
| Dhcp.IpHeaderVerifies | src-tauri/src/miwear/network_stack/dhcp.rs:175-187 | the emitted IPv4 header checksums to 0 |
| Dhcp.UdpChecksumVerifies | src-tauri/src/miwear/network_stack/dhcp.rs:133-156 | the UDP datagram with its pseudo header checksums to 0 |
| Dhcp.ReplyLengths | src-tauri/src/miwear/network_stack/dhcp.rs:119-120 | for a message that fits, the UDP length is the message plus 8 and the IP length the UDP length plus 20 |
| Dhcp.DhcpDecision | src-tauri/src/miwear/network_stack/dhcp.rs:26-48 | non-IP or non-UDP traffic and traffic on other ports is not handled; a DHCP packet shorter than the header offset panics on the slice; a handled packet was a decodable BootRequest whose reply encodes, and the reply sent is that reply's packet |
| Dhcp.DhcpDecisionNotHandled | src-tauri/src/miwear/network_stack/dhcp.rs:117-227 | a BootReply, an unknown opcode, an undecodable message or a failed encode leaves the packet unhandled |
| Dhcp.ProcessDhcp | src-tauri/src/miwear/network_stack/dhcp.rs:26-237 | the outcome is the decision, and a handled packet queues exactly one plain NetWork send of the reply |
| Meter.Evict | src-tauri/src/miwear/network_stack/meter.rs:12-20 | eviction drops a prefix of the queue: every dropped event is older than the window and the first kept one is inside it |
| Meter.EvictChronological | src-tauri/src/miwear/network_stack/meter.rs:12-20 | eviction keeps a queue in time order |
| Meter.EvictKeepsWindow | src-tauri/src/miwear/network_stack/meter.rs:12-20 | on a time-ordered queue, eviction keeps exactly the events inside the window |
| Meter.InWindowAppend | src-tauri/src/miwear/network_stack/meter.rs:22-27 | an event inside the window is kept after the earlier events that are |
| Meter.PushKeepsWindow | src-tauri/src/miwear/network_stack/meter.rs:22-27 | pushing an event stamped now and evicting leaves the old events inside the window followed by the new event |
| Meter.Speed | src-tauri/src/miwear/network_stack/meter.rs:37-50 | the speed is never negative and is zero exactly when no bytes are in the window |
| Meter.BandwidthMeter.constructor | src-tauri/src/miwear/network_stack/meter.rs:29-35 | a new meter has the given window and no events |
| Meter.BandwidthMeter.EvictOld | src-tauri/src/miwear/network_stack/meter.rs:12-20 | the loop pops from the front exactly the events the eviction function drops |
| Meter.BandwidthMeter.AddWritten | src-tauri/src/miwear/network_stack/meter.rs:52-54 | the write queue gets the event and is evicted, stays time-ordered, and the read queue is untouched |
| Meter.BandwidthMeter.AddRead | src-tauri/src/miwear/network_stack/meter.rs:56-58 | the read queue gets the event and is evicted, stays time-ordered, and the write queue is untouched |
| Meter.BandwidthMeter.WriteSpeed | src-tauri/src/miwear/network_stack/meter.rs:60-62 | the write queue is evicted and the speed is computed over what is left |
| Meter.BandwidthMeter.ReadSpeed | src-tauri/src/miwear/network_stack/meter.rs:64-66 | the read queue is evicted and the speed is computed over what is left |
| MassPacket.DataTypeCode | src-tauri/src/miwear/device/mass/packet.rs:5-11 | the data types are coded 16, 32, 50 and 64 |
| MassPacket.DataTypeCodeInjective | src-tauri/src/miwear/device/mass/packet.rs:5-11 | distinct data types have distinct codes |
| MassPacket.Build | src-tauri/src/miwear/device/mass/packet.rs:22-29 | the packet keeps the data and its type, carries a 16-byte MD5, and records the length when it fits in 32 bits |
| MassPacket.EncodeLayout | src-tauri/src/miwear/device/mass/packet.rs:33-64 | the encoding is a zero byte, the type code, the MD5, the length little-endian, the data, then the CRC-32 of everything before it little-endian, 26 bytes more than the data |
| Mass.ResumeAfterAck | src-tauri/src/miwear/device/mass.rs:202-208 | an ACK of part k records part k+1 as the next to send, and clears the state once that passes the total |
| Mass.AckPartsClears | src-tauri/src/miwear/device/mass.rs:202-208 | after every part up to the total is acknowledged in order, no resume state is left |
| Mass.ResumeContinues | src-tauri/src/miwear/device/mass.rs:51-69 | after part k of the same file to the same device is acknowledged, the next transfer starts at part k+1 |
| Mass.ResumeStore.constructor | src-tauri/src/miwear/device/mass.rs:24 | the resume state starts empty |
| Mass.ResumeStore.Clear | src-tauri/src/miwear/device/mass.rs:26-28 | clearing forgets the resume state |
| Mass.ResumeStore.Begin | src-tauri/src/miwear/device/mass.rs:51-69 | the same file to the same device resumes from the recorded part; anything else starts a fresh state at part 1 |
| Mass.ResumeStore.OnAck | src-tauri/src/miwear/device/mass.rs:202-208 | the state after an ACK is the one the ACK rule gives |
| Mass.FragmentMax | src-tauri/src/miwear/device/mass.rs:114-126 | the fragment capacity is the slice length minus the 6 bytes of channel, op, part count and part number, and a slice of 6 bytes or fewer is an error, with its own message for 0 |
| Mass.TotalPartsCover | src-tauri/src/miwear/device/mass.rs:128-133 | the part count is the ceiling of the payload length over the capacity: the parts cover the payload and the last one is not empty |
| Mass.Fragment | src-tauri/src/miwear/device/mass.rs:153-159 | each fragment is non-empty and at most the capacity |
| Mass.PartPayload | src-tauri/src/miwear/device/mass.rs:161-169 | each part payload is the part count and the 1-based part number little-endian, then the fragment |
| Mass.ChunksCount | src-tauri/src/miwear/device/mass.rs:128-133 | chunking a payload gives the ceiling of its length over the capacity |
| Mass.FragmentsCover | src-tauri/src/miwear/device/mass.rs:150-159 | the fragments of all parts, in order, are exactly the payload |
| Mass.BuildPrepareRequest | src-tauri/src/miwear/device/mass.rs:227-248 | the prepare request carries the type code, the MD5 as the data id, and the file length |
| Mass.Plan | src-tauri/src/miwear/device/mass.rs:71-126 | the transfer goes ahead exactly when the prepare reply is present, READY and allows a non-empty fragment; a reply that is not READY gives "Mass data prepare was not READY." |
| Mass.PartLoopComplete | src-tauri/src/miwear/device/mass.rs:150-215 | without interruption, every part from the start part to the total is queued in order with its count and number |
| Mass.ProgressMatchesParts | src-tauri/src/miwear/device/mass.rs:172-177 | the progress reports follow the queued parts one for one with each part's number, count and payload length, a disconnect adds the report of the part it stopped, and every fraction lies in (0, 1] and reaches 1 exactly at the last part |
| Mass.SendParts | src-tauri/src/miwear/device/mass.rs:150-215 | the loop queues the parts from the start part up to the first disconnect or failed send, reports that error, and gives the progress callback one report per part reached, before the disconnect check |
| Mass.SendMass | src-tauri/src/miwear/device/mass.rs:38-225 | the resume state is taken or reset, a failed prepare ends the transfer with its error and sends and reports nothing, otherwise the parts are queued and reported from the start part and the sending flag is cleared only when the loop finishes |
| Auth.HexKeyPairs | src-tauri/src/miwear/device/auth.rs:199-213 | the key reads as 16 bytes exactly when it has 32 characters and every pair is a hex byte, and byte j is the value of pair j |
| Auth.HexKeyRoundTrip | src-tauri/src/miwear/device/auth.rs:199-213 | the lower-case hex of 16 bytes reads back as those bytes |
| Auth.StringToU8x16 | src-tauri/src/miwear/device/auth.rs:199-213 | the pair loop returns the key's bytes, or nothing for a wrong length or a bad pair |
| Auth.TBlock | src-tauri/src/miwear/device/auth.rs:232-238 | the first block is chained from nothing and each expansion block is 32 bytes |
| Auth.Expand | src-tauri/src/miwear/device/auth.rs:227-243 | the expansion yields exactly the requested number of bytes |
| Auth.KdfBlockLayout | src-tauri/src/miwear/device/auth.rs:215-243 | the 64-byte block is T1 and T2 of an HKDF-style expansion with info "miwear-auth", keyed by the HMAC of the secret under the phone nonce then the watch nonce |
| Auth.KdfMiwear | src-tauri/src/miwear/device/auth.rs:215-243 | the counter loop fills the output with the chained blocks and returns that key block |
| Auth.SplitKeys | src-tauri/src/miwear/device/auth.rs:130-133 | the first 40 bytes of the block are cut into the decryption key, the encryption key, the decryption nonce and the encryption nonce, 16, 16, 4 and 4 bytes |
| Auth.PacketNonce | src-tauri/src/miwear/device/auth.rs:160-165 | the CCM nonce is the 4-byte encryption nonce followed by eight zero bytes |
| Auth.Step2Accepts | src-tauri/src/miwear/device/auth.rs:121-142 | the device's answer is accepted exactly when its random has 16 bytes, its signature 32, the stored key is hex, and the signature is the HMAC of the device random then the phone random under the decryption key; a wrong length is "nonce/hmac length mismatch"; the confirmation is the HMAC of the two randoms under the encryption key and the CCM encryption of the device record |
| Auth.BuildAuthStep2 | src-tauri/src/miwear/device/auth.rs:111-197 | the outcome is the second step's, and the session keys are stored exactly when it is confirmed |
| Auth.AuthOutcomes | src-tauri/src/miwear/device/auth.rs:15-89 | the keys are stored exactly when the verify reply is the device's answer and step 2 accepts it, and they are that answer's session keys; the confirm request is made exactly then, so the counter advances by two, otherwise by one; success without keys happens exactly on a verify reply of another type, and success with keys exactly when the confirm is answered by a protobuf packet |
| Auth.MalformedKeyPanics | src-tauri/src/miwear/device/auth.rs:121-129 | a stored auth key that is not 32 hex characters makes step 2 panic once the device's answer passes the length check, with no keys stored and only the verify request made |
| Auth.DoAuth | src-tauri/src/miwear/device/auth.rs:15-89 | the handshake's result or panic, the keys and the link (counter, writes, seq waiters) after its one or two plain protobuf requests are those of the handshake's specification |
| Auth.SendConfirm | src-tauri/src/miwear/device/auth.rs:38-69 | the confirm request advances the counter, writes its frame, leaves its waiter by the request rule, and ends with the request's error, "Packet type error" for a reply that is not protobuf, a panic on a missing payload, or success |
| Auth.StartAuth | src-tauri/src/miwear/device.rs:529-551 | an authenticated device refuses with "The device has been authenticated" and nothing changes; otherwise the key is stored, the handshake runs with its requests' effect on the link, the keys are those step 2 stored (kept when the confirm then fails), and unless the handshake panicked the device state is written to the configuration whatever its result, which is returned |
| ResUtils.CharLen | src-tauri/src/miwear/device/resutils.rs:51 | each UTF-8 step consumes one to four bytes and never runs past the input |
| ResUtils.AsciiIsUtf8 | src-tauri/src/miwear/device/resutils.rs:51 | bytes below 0x80 are always valid UTF-8 |
| ResUtils.FileTypeNameInjective | src-tauri/src/miwear/device/resutils.rs:4-62 | the type names "null", "abp", "quickapp", "zip", "text", "watchface" and "binary" are distinct |
| ResUtils.TailBytes | src-tauri/src/miwear/device/resutils.rs:38-42 | the tail is the last 256 bytes, or the whole file when it is shorter |
| ResUtils.ExtensionCases | src-tauri/src/miwear/device/resutils.rs:32-33 | the extension is what follows the last dot of a name with a non-empty stem; a name whose only dot leads it, or without a dot, has none |
| ResUtils.FileTypeOf | src-tauri/src/miwear/device/resutils.rs:4-62 | an empty file is "null"; a ZIP magic decides among abp, quickapp and zip; "abp" needs the ZIP magic and the abp extension; a non-ZIP file is "text" exactly when it is valid UTF-8 |
| ResUtils.ZipKinds | src-tauri/src/miwear/device/resutils.rs:37-47 | a ZIP without the abp extension is a quick app exactly when "toolkit" occurs in its last 256 bytes, and a plain zip otherwise |
| ResUtils.WatchfaceMagic | src-tauri/src/miwear/device/resutils.rs:55-58 | a file starting 5A A5 34 12 is a watch face, since that prefix is never valid UTF-8 |
| ResUtils.AsciiIsText | src-tauri/src/miwear/device/resutils.rs:50-53 | a non-empty ASCII file without the ZIP magic is text |
| ResUtils.WatchfaceId | src-tauri/src/miwear/device/resutils.rs:64-75 | the id is the 16 bytes at offset 34, and there is none for a file shorter than 50 bytes |
| Tools.LowerHexDigitVal | src-tauri/src/tools.rs:8-10 | every lower-case hex digit reads back as its value |
| Tools.ToHexString | src-tauri/src/tools.rs:8-10 | the hex string has two characters per byte, the high then the low nibble as lower-case digits |
| Tools.HexStreamToBytes | src-tauri/src/tools.rs:12-21 | an odd-length string is the error "Hex string has an odd length", and success gives one byte per pair of characters |
| Tools.HexStreamStep | src-tauri/src/tools.rs:17-20 | a string whose first pair parses and whose rest decodes decodes to that byte followed by the rest |
| Tools.PairParses | src-tauri/src/tools.rs:19 | the two digits written for a byte parse back as that byte |
| Tools.HexRoundTrip | src-tauri/src/tools.rs:8-21 | decoding the hex string of any bytes gives those bytes back |
| Tools.PlusSignAccepted | src-tauri/src/tools.rs:19 | a pair of a plus sign and any character parses as the pair "0" and that character: the digit's value for a hex digit, an error otherwise, as radix parsing allows a leading sign |
| Tools.VecToArray16 | src-tauri/src/tools.rs:23-25 | the conversion succeeds exactly for 16 bytes and keeps them |
| Tools.UuidToString | src-tauri/src/tools.rs:33 | the UUID text is 36 characters with a dash after the first eight |
| Tools.FindChar | src-tauri/src/tools.rs:37 | the search returns the first position of the character, and nothing exactly when it does not occur |
| Tools.HexHasNoDash | src-tauri/src/tools.rs:37 | hex digits never contain a dash |
| Tools.UuidPrefixOnly | src-tauri/src/tools.rs:32-46 | with the prefix flag, only the eight digits of the first four bytes are searched |
| Tools.RemoveColonsGone | src-tauri/src/tools.rs:92 | no colon is left after removing every colon |
| Tools.UnlockInputColonFree | src-tauri/src/tools.rs:92-98 | removing the colons from the MAC beforehand does not change the hashed text |
| Tools.UnlockDigits | src-tauri/src/tools.rs:102-106 | the code is ten decimal digits, digit i being byte i of the hash modulo 10 |
| Tools.CalcUnlockCode | src-tauri/src/tools.rs:90-109 | the code is the ten digits of the SHA-256 of the colon-free trimmed MAC, the trimmed serial number and "XIAOMI" |
| Config.MergePatchKeys | src-tauri/src/config.rs:113-122 | merging two objects gives an object with the keys of both; a key in both is merged recursively and a key only in the patch is copied |
| Config.MergeUntouched | src-tauri/src/config.rs:113-122 | keys of the target that the patch does not mention keep their values |
| Config.MergeNonObject | src-tauri/src/config.rs:123 | when either side is not an object the patch value replaces the target, so a null in the patch overwrites rather than deletes |
| Config.MergeEmpty | src-tauri/src/config.rs:113-122 | an empty patch object leaves an object unchanged |
| Config.MergeSelf | src-tauri/src/config.rs:113-125 | merging a value with itself gives that value |
| Config.MergeIdempotent | src-tauri/src/config.rs:113-125 | applying the same patch twice is the same as applying it once |
| Config.MergeObjects | src-tauri/src/config.rs:114-122 | merging two objects folds the patch's fields into the target's fields |
| Config.MergeFieldsStep | src-tauri/src/config.rs:116-120 | each patch key either merges into the existing field or inserts the patch value, and leaves the other fields alone |
| Config.MergeInto | src-tauri/src/config.rs:113-125 | the recursive merge computes the merge function |
| Config.MergeFieldsInto | src-tauri/src/config.rs:116-121 | the loop over the patch's fields yields the target's fields with every patch field folded in |
| Config.MergeEntry | src-tauri/src/config.rs:117-120 | one patch field is folded into the fields built so far |
| Config.ConfigStore.constructor | src-tauri/src/config.rs:94-97 | a store holds its initial configuration and has persisted nothing |
| Config.ConfigStore.Read | src-tauri/src/config.rs:94-97 | a read returns the callback applied to the current configuration |
| Config.ConfigStore.Write | src-tauri/src/config.rs:99-111 | a write replaces the configuration with the callback's update and returns its result; the snapshot is persisted when saving succeeds and a failed save is only logged |
| Accounts.WithoutId | src-tauri/src/account.rs:63 | filtering by id keeps no account with that id and never grows the list |
| Accounts.ListAccounts | src-tauri/src/account.rs:81-83 | the provider's list, or the empty list for an unknown provider |
| Accounts.AddAccountProperties | src-tauri/src/account.rs:60-67 | after an add the provider's list ends with the new account, holds exactly one account with its id, keeps the other accounts in order, and no other provider changes |
| Accounts.RemoveAccountProperties | src-tauri/src/account.rs:69-79 | an unknown provider or an index past the end changes nothing and returns nothing; otherwise the account at the index is returned and the rest keep their order |
| Accounts.AddAccount | src-tauri/src/account.rs:60-67 | the stored accounts become the add update of the old ones, persisted through the configuration write |
| Accounts.RemoveAccount | src-tauri/src/account.rs:69-79 | the stored accounts and the result are the remove update of the old ones, persisted through the configuration write |
| FrontApi.IdField | src-tauri/src/frontapi.rs:870-879 | the written id is the first 12 bytes of the new id, padded with zero bytes when it is shorter |
| FrontApi.PatchedId | src-tauri/src/frontapi.rs:877-879 | patching rewrites exactly the 12 bytes at offset 0x28 and keeps every other byte |
| FrontApi.ModifyWatchfaceId | src-tauri/src/frontapi.rs:861-880 | a file shorter than 0x28 + 12 bytes is refused with "File too small to modify" and left as it was; otherwise the buffer is patched in place |
| FrontApi.PatchIdempotent | src-tauri/src/frontapi.rs:861-880 | patching twice with the same id is patching once |
| FrontApi.PatchedIdReadBack | src-tauri/src/frontapi.rs:861-880 | after patching, the watch face id read at offset 34 is the six original bytes before offset 0x28 followed by the first ten bytes of the written id |
| FrontApi.NewDevice | src-tauri/src/frontapi.rs:813-824 | a new paired device carries the given name, address and auth key, no keys, no frame size, an 800-byte MTU and no codename |
| FrontApi.FindAddr | src-tauri/src/frontapi.rs:828 | the search finds the first paired device with the address, and nothing exactly when none has it |
| FrontApi.FindAddrFirst | src-tauri/src/frontapi.rs:828 | the first device with the address is the one found |
| FrontApi.UpsertProperties | src-tauri/src/frontapi.rs:826-834 | after adding, a device with the address carries the new auth key; the list grows by one only when the address was new; other devices are unchanged; distinct addresses stay distinct |
| FrontApi.UpsertIdempotent | src-tauri/src/frontapi.rs:826-834 | adding the same device twice is adding it once |
| FrontApi.AddNewDevice | src-tauri/src/frontapi.rs:812-835 | the stored paired devices become the upsert of the old list, persisted through the configuration write |
| FrontApi.RemoveAddr | src-tauri/src/frontapi.rs:126 | removal keeps exactly the devices with other addresses |
| FrontApi.RemoveAddrProperties | src-tauri/src/frontapi.rs:126 | removing an absent address changes nothing, and removing twice is removing once |
| FrontApi.RemoveDeviceForgets | src-tauri/src/frontapi.rs:125-132 | after removal no paired device and no current device has the address, and another current device is kept |
| FrontApi.RemoveDevice | src-tauri/src/frontapi.rs:116-135 | the current device is disconnected exactly when it has the address, and the configuration becomes the removal update |
| FrontApi.PatchedConfig | src-tauri/src/frontapi.rs:722-729 | the patch is accepted exactly when the merged configuration reads back |
| FrontApi.EmptyPatchKeepsConfig | src-tauri/src/frontapi.rs:722-730 | an empty patch leaves a configuration that reads back unchanged |
| FrontApi.AppWriteConfig | src-tauri/src/frontapi.rs:722-731 | a patch that does not read back is refused and nothing is written; otherwise the merged configuration is stored and returned |
| FrontApi.MiwearConnect | src-tauri/src/frontapi.rs:78-101 | the corrected step, with the read guard released before the disconnect (see Findings): connecting to the connected device succeeds and changes nothing; another connected device is disconnected first and a failed disconnect returns its error with that device still connected; otherwise the result is the connect's, success leaves the new device connected and emits the event, failure leaves none connected |
| FrontApi.ConnectIdempotent | src-tauri/src/frontapi.rs:78-101 | connecting again to the device just connected succeeds without a disconnect, a connect or an event |
| FrontApi.ConnectAsWrittenAgrees | src-tauri/src/frontapi.rs:79-85 | the code as written never completes exactly when it switches devices over a successful disconnect, since the disconnect's write lock on CONNECTED_DEVICE waits for the command's own read guard; every other run ends as the corrected step |
| FrontApi.SwitchHangsAsWritten | src-tauri/src/frontapi.rs:79-85 | switching from one device to another with both link operations succeeding hangs as written, where the corrected step connects the new device and emits the event |
| WinSpp.UpperHexDigitVal | src-tauri/plugins/btclassic-spp/src/win/implementation.rs:41 | every upper-case hex digit reads back as its value and is neither a colon nor a sign |
| WinSpp.BthAddrToStringShape | src-tauri/plugins/btclassic-spp/src/win/implementation.rs:38-44 | the address text is 17 characters, six pairs separated by colons, and only the low 48 bits of the address matter |
| WinSpp.FromBEBytesBE | src-tauri/plugins/btclassic-spp/src/win/implementation.rs:39 | reading back the big-endian bytes of a number gives the number modulo 256 to the power of their count |
| WinSpp.FromBEBound | src-tauri/plugins/btclassic-spp/src/win/implementation.rs:56 | n big-endian bytes hold a value below 256 to the power n |
| WinSpp.ParseHexPair | src-tauri/plugins/btclassic-spp/src/win/implementation.rs:53 | an upper-case hex pair parses back as its byte |
| WinSpp.LastBadPart | src-tauri/plugins/btclassic-spp/src/win/implementation.rs:52-55 | the loop runs from the last part to the first, so the part reported is the last one that is not a hex byte, and there is none exactly when every part parses |
| WinSpp.ParseAddr | src-tauri/plugins/btclassic-spp/src/win/implementation.rs:46-57 | the text parses exactly when it splits into six colon-separated parts that are all hex bytes, and the value is then below 2 to the 48 |
| WinSpp.ParseRejectsWrongCount | src-tauri/plugins/btclassic-spp/src/win/implementation.rs:48-50 | text without exactly five colons is the error "Invalid Bluetooth address format: " followed by the text |
| WinSpp.ParseAddrBadPart | src-tauri/plugins/btclassic-spp/src/win/implementation.rs:52-55 | when a part is bad, the error names the last bad part: "Invalid hex byte in address: " followed by it |
| WinSpp.FillAddrBuffer | src-tauri/plugins/btclassic-spp/src/win/implementation.rs:51-55 | the loop stops at the last bad part, or fills bytes 2 to 7 of the 8-byte buffer with the six parts and leaves bytes 0 and 1 zero |
| WinSpp.BufferValue | src-tauri/plugins/btclassic-spp/src/win/implementation.rs:56 | the filled buffer read big-endian is the parsed address |
| WinSpp.StringToBthAddr | src-tauri/plugins/btclassic-spp/src/win/implementation.rs:46-57 | the loop-and-buffer parse returns exactly the address parse |
| WinSpp.AddrRoundTrip | src-tauri/plugins/btclassic-spp/src/win/implementation.rs:38-57 | parsing the text of any address gives back its low 48 bits |
| WinSpp.AddrRoundTripExact | src-tauri/plugins/btclassic-spp/src/win/implementation.rs:38-57 | parsing the text of a 48-bit address gives back the address |
| WinSpp.Utf16UntilNul | src-tauri/plugins/btclassic-spp/src/win/implementation.rs:59-62 | the name is the longest NUL-free prefix of the UTF-16 buffer, ending at the first NUL if there is one |
| WinSpp.ScanFoundKeepsDistinct | src-tauri/plugins/btclassic-spp/src/win/implementation.rs:286-293 | a reported device is listed afterwards, no address is listed twice, and earlier entries keep their places |
| WinSpp.ScanReportsDistinct | src-tauri/plugins/btclassic-spp/src/win/implementation.rs:286-293 | after any run of reports no address is listed twice, every reported address is listed and nothing listed is lost |
| WinSpp.StartThenReports | src-tauri/plugins/btclassic-spp/src/win/implementation.rs:195-212 | once a scan starts, the list holds each reported address once and nothing that was not reported |
| WinSpp.DisconnectIdempotent | src-tauri/plugins/btclassic-spp/src/win/implementation.rs:813-838 | disconnecting drops the socket and the connected device, keeps the scan list and the callback, and a second disconnect changes nothing |
| WinSpp.OnConnectedStores | src-tauri/plugins/btclassic-spp/src/win/implementation.rs:629-646 | the callback is stored, and it runs at once exactly when a device is already connected |
| WinSpp.Attempts | src-tauri/plugins/btclassic-spp/src/win/implementation.rs:575-589 | RFCOMM channel 5 is tried first, then channel 1, then the SPP service UUID, and the last error is the one reported |
| WinSpp.ConnectSameAddress | src-tauri/plugins/btclassic-spp/src/win/implementation.rs:494-500 | connecting to the address already connected stops any scan and changes nothing else |
| WinSpp.ConnectTearsDownFirst | src-tauri/plugins/btclassic-spp/src/win/implementation.rs:500-522 | any other address drops the old connection before the address is parsed, so a malformed address leaves nothing connected |
| WinSpp.ConnectOutcome | src-tauri/plugins/btclassic-spp/src/win/implementation.rs:522-619 | a connect to a new well-formed address succeeds exactly when one of the three attempts does; the socket and the address are then recorded and a stored callback runs once |
| WinSpp.SendEmpty | src-tauri/plugins/btclassic-spp/src/win/implementation.rs:798 | empty data is sent without a single send call |
| WinSpp.SendAllAtOnce | src-tauri/plugins/btclassic-spp/src/win/implementation.rs:797-806 | when every send takes all it is given, the data goes out |
| WinSpp.SendFirstRefused | src-tauri/plugins/btclassic-spp/src/win/implementation.rs:800-805 | a send that takes nothing fails with "send failed with error: " followed by the last error |
| WinSpp.WinBt.constructor | src-tauri/plugins/btclassic-spp/src/win/implementation.rs:85-97 | the global state starts uninitialised, with no devices, no scan, no connection and no callback |
| WinSpp.WinBt.StartScan | src-tauri/plugins/btclassic-spp/src/win/implementation.rs:195-212 | WinSock is started, a running scan stopped, and the new scan begins with an empty list; a failed start-up is reported and changes nothing |
| WinSpp.WinBt.StopScan | src-tauri/plugins/btclassic-spp/src/win/implementation.rs:365-399 | the scanning flag is cleared and the found devices stay |
| WinSpp.WinBt.ScanFound | src-tauri/plugins/btclassic-spp/src/win/implementation.rs:286-293 | the search over the list appends the device exactly when its address is not listed |
| WinSpp.WinBt.DisconnectInternal | src-tauri/plugins/btclassic-spp/src/win/implementation.rs:813-838 | the state becomes the disconnected state |
| WinSpp.WinBt.OnConnected | src-tauri/plugins/btclassic-spp/src/win/implementation.rs:629-646 | the state becomes the one with the callback stored |
| WinSpp.WinBt.Connect | src-tauri/plugins/btclassic-spp/src/win/implementation.rs:485-620 | the state and the result are those of the connect function |
| WinSpp.WinBt.Send | src-tauri/plugins/btclassic-spp/src/win/implementation.rs:793-811 | the send loop returns the send function's result: "Not connected. Cannot send data." without a socket, otherwise the loop's outcome |
| MacSpp.NormalizeAddr | src-tauri/plugins/btclassic-spp/src/macos/implementation.rs:23-25 | every dash becomes a colon and every other character is upper-cased, so the result has the same length and no dash |
| MacSpp.ToMacosAddr | src-tauri/plugins/btclassic-spp/src/macos/implementation.rs:29-31 | every colon becomes a dash and every other character is upper-cased, so the result has the same length and no colon |
| MacSpp.MacRoundTrip | src-tauri/plugins/btclassic-spp/src/macos/implementation.rs:21-31 | a canonical upper-case colon address survives the trip to the macOS dash form and back unchanged |
| MacSpp.NormalizeIdempotent | src-tauri/plugins/btclassic-spp/src/macos/implementation.rs:23-25 | normalising an already normalised address changes nothing |
| MacSpp.ToMacosIdempotent | src-tauri/plugins/btclassic-spp/src/macos/implementation.rs:29-31 | converting an address already in macOS form changes nothing |
| MacSpp.NormalizeCanonical | src-tauri/plugins/btclassic-spp/src/macos/implementation.rs:21-25 | whatever macOS delivers, the normalised address is in the canonical form (no dash, no lower-case letter) |
| MacSpp.DeviceFoundKeepsDistinct | src-tauri/plugins/btclassic-spp/src/macos/implementation.rs:98-117 | a found device keeps the scanned addresses distinct, makes its normalised address known and leaves earlier entries in place |
| MacSpp.DeviceFoundDeduplicatesForms | src-tauri/plugins/btclassic-spp/src/macos/implementation.rs:108-116 | a second report of the same device, in dash or colon form or another letter case, changes nothing |
| MacSpp.InquiryRestartRule | src-tauri/plugins/btclassic-spp/src/macos/implementation.rs:120-148 | a new inquiry runs exactly when the scan loop is on, the round was not aborted and the restart succeeds; a failed restart ends the loop; the list is untouched |
| MacSpp.StartScanClears | src-tauri/plugins/btclassic-spp/src/macos/implementation.rs:254-271 | starting a scan empties the list and turns the loop on, and succeeds, with an inquiry running, exactly when the first inquiry starts |
| MacSpp.TryChannels | src-tauri/plugins/btclassic-spp/src/macos/implementation.rs:345-348 | the channels tried are the SDP-reported one when it is non-zero, then 5, then 1 |
| MacSpp.FirstAccepted | src-tauri/plugins/btclassic-spp/src/macos/implementation.rs:351-382 | the chosen channel is the first whose open request is accepted, and none is chosen exactly when all are refused |
| MacSpp.FirstAcceptedAt | src-tauri/plugins/btclassic-spp/src/macos/implementation.rs:351-382 | a channel accepted after only refusals is the one chosen |
| MacSpp.ConnectOutcome | src-tauri/plugins/btclassic-spp/src/macos/implementation.rs:323-386 | connect returns true exactly when some channel accepts, then records the device under the given address; otherwise it reports the last refusal status and leaves the connected device as it was |
| MacSpp.ConnectOrder | src-tauri/plugins/btclassic-spp/src/macos/implementation.rs:345-348 | without an SDP channel, channel 5 is used whenever it accepts and channel 1 only when 5 refuses |
| MacSpp.DisconnectIdempotent | src-tauri/plugins/btclassic-spp/src/macos/implementation.rs:442-465 | after disconnect no channel is open and no device is recorded, and a second disconnect changes nothing |
| MacSpp.SendShortWhole | src-tauri/plugins/btclassic-spp/src/macos/implementation.rs:422-440 | on an open channel, data shorter than 65536 bytes is written whole |
| MacSpp.MacBt.constructor | src-tauri/plugins/btclassic-spp/src/macos/implementation.rs:60-68 | a fresh state has an empty list, no scan loop, no device, no channel and no callbacks |
| MacSpp.MacBt.DeviceFound | src-tauri/plugins/btclassic-spp/src/macos/implementation.rs:98-117 | the state after a found-device callback is the one DeviceFoundKeepsDistinct describes |
| MacSpp.MacBt.InquiryComplete | src-tauri/plugins/btclassic-spp/src/macos/implementation.rs:120-148 | the state after a finished inquiry round is the one InquiryRestartRule describes |
| MacSpp.MacBt.StopScan | src-tauri/plugins/btclassic-spp/src/macos/implementation.rs:273-287 | the loop flag is cleared and any running inquiry stopped, nothing else changes |
| MacSpp.MacBt.StartScan | src-tauri/plugins/btclassic-spp/src/macos/implementation.rs:254-271 | scan start stops any earlier scan, clears the list, turns the loop on and reports a failed first inquiry with its status code |
| MacSpp.MacBt.Connect | src-tauri/plugins/btclassic-spp/src/macos/implementation.rs:323-386 | connect stops scanning, fails with "Device not found" for an unknown address, and otherwise behaves as ConnectOutcome describes |
| MacSpp.MacBt.OpenComplete | src-tauri/plugins/btclassic-spp/src/macos/implementation.rs:168-187 | a successful open keeps the channel and runs the connected callback when there is one; a failed open forgets the device and tells the listener "Connection closed" |
| MacSpp.MacBt.OnConnected | src-tauri/plugins/btclassic-spp/src/macos/implementation.rs:397-403 | the connected callback is installed and nothing else changes |
| MacSpp.MacBt.SetDataListener | src-tauri/plugins/btclassic-spp/src/macos/implementation.rs:405-413 | the data listener is installed and nothing else changes |
| MacSpp.MacBt.Disconnect | src-tauri/plugins/btclassic-spp/src/macos/implementation.rs:442-465 | the channel is closed and the recorded device cleared, nothing else changes |
| MacSpp.MacBt.ChannelClosed | src-tauri/plugins/btclassic-spp/src/macos/implementation.rs:189-210 | a closed channel forgets the device, tells the listener, then disconnects and stops scanning |
| MacSpp.MacBt.Send | src-tauri/plugins/btclassic-spp/src/macos/implementation.rs:422-440 | without a channel nothing is written and "Device not connected" is returned; otherwise the first len mod 65536 bytes go out and a non-zero status is reported as an error |
| AndroidSpp.SendBuffersWhenClosed | src-tauri/plugins/btclassic-spp/android/src/main/java/BTSpp.kt:308-317 | with no open send actor (never connected, disconnected, or closed by a write error) a payload is kept in the pending pool and nothing is written |
| AndroidSpp.ActorStepDelivers | src-tauri/plugins/btclassic-spp/android/src/main/java/BTSpp.kt:174-189 | a payload written without error reaches the stream as non-empty chunks of at most 512 bytes that concatenate to the payload, followed by one flush, and the actor moves on to the next payload |
| AndroidSpp.ActorStopsOnError | src-tauri/plugins/btclassic-spp/android/src/main/java/BTSpp.kt:184-187 | a write or flush error is reported once and closes the actor, after which sends go to the pending pool |
| AndroidSpp.ActorStepFails | src-tauri/plugins/btclassic-spp/android/src/main/java/BTSpp.kt:176-187 | when chunk k's write throws, exactly the chunks before it were written, one error is counted and the actor is closed |
| AndroidSpp.ActorStepSucceeds | src-tauri/plugins/btclassic-spp/android/src/main/java/BTSpp.kt:176-183 | without an error every chunk is written, then the stream is flushed and the payload leaves the inbox |
| AndroidSpp.ChunkLoopStep | src-tauri/plugins/btclassic-spp/android/src/main/java/BTSpp.kt:177-182 | each pass of the offset loop writes exactly the next 512-byte chunk (shorter only at the end) and advances the offset past it |
| AndroidSpp.PayloadChunkCount | src-tauri/plugins/btclassic-spp/android/src/main/java/BTSpp.kt:178-181 | an empty payload gives no chunks, otherwise the chunk count is the payload length divided by 512, rounded up |
| AndroidSpp.TriedStrategies | src-tauri/plugins/btclassic-spp/android/src/main/java/BTSpp.kt:163-166 | channel 5 is tried first, then channel 1, then the SDP UUID, stopping at the first that connects |
| AndroidSpp.Plan | src-tauri/plugins/btclassic-spp/android/src/main/java/BTSpp.kt:120-207 | a connect succeeds only through a strategy that connected, and fails with "No SPP channel/UUID available" only after all three were tried |
| AndroidSpp.InvalidMacFailsEarly | src-tauri/plugins/btclassic-spp/android/src/main/java/BTSpp.kt:142-160 | an invalid MAC address fails before bonding or any socket attempt, and an already bonded device is never bonded again |
| AndroidSpp.AllStrategiesFail | src-tauri/plugins/btclassic-spp/android/src/main/java/BTSpp.kt:162-166 | when every strategy fails, the connect answers false with "No SPP channel/UUID available" after trying all three in order |
| AndroidSpp.CallbackFiresOnce | src-tauri/plugins/btclassic-spp/android/src/main/java/BTSpp.kt:197-216 | a callback stored while disconnected is posted on the next successful connect and cleared, so a later connect does not post it again |
| AndroidSpp.DisconnectIdempotent | src-tauri/plugins/btclassic-spp/android/src/main/java/BTSpp.kt:341-353 | disconnect empties the pool and forgets the device, and a second disconnect changes nothing |
| AndroidSpp.PooledPayloadsDrainInOrder | src-tauri/plugins/btclassic-spp/android/src/main/java/BTSpp.kt:191-195 | payloads sent while disconnected are handed to the new actor in the order they were sent and the pool is left empty |
| AndroidSpp.ScanFoundKeepsDistinct | src-tauri/plugins/btclassic-spp/android/src/main/java/BTSpp.kt:356-364 | the scan receiver keeps the device list free of duplicates and lists every found device |
| AndroidSpp.BtSpp.constructor | src-tauri/plugins/btclassic-spp/android/src/main/java/BTSpp.kt:49-69 | a new object has no devices, no socket, no actor, an empty pool and no callback |
| AndroidSpp.BtSpp.Send | src-tauri/plugins/btclassic-spp/android/src/main/java/BTSpp.kt:308-317 | send appends to the open actor's inbox or to the pool, nothing else changes, and it always answers true |
| AndroidSpp.BtSpp.ActorStep | src-tauri/plugins/btclassic-spp/android/src/main/java/BTSpp.kt:174-189 | one payload of the actor's loop, written chunk by chunk by the offset loop, leaves the state ActorStepDelivers and ActorStopsOnError describe |
| AndroidSpp.BtSpp.Connect | src-tauri/plugins/btclassic-spp/android/src/main/java/BTSpp.kt:120-207 | connect answers what Plan answers; on success it records the device, drains the pool into a new actor in order and posts the stored callback once |
| AndroidSpp.BtSpp.OnConnected | src-tauri/plugins/btclassic-spp/android/src/main/java/BTSpp.kt:210-216 | the callback is posted at once when a device is connected and stored otherwise |
| AndroidSpp.BtSpp.Disconnect | src-tauri/plugins/btclassic-spp/android/src/main/java/BTSpp.kt:341-353 | the actor is dropped, the pool emptied, and the socket and device cleared |
| AndroidSpp.BtSpp.StartScan | src-tauri/plugins/btclassic-spp/android/src/main/java/BTSpp.kt:97-110 | starting a scan clears the device list and changes nothing else |
| AndroidSpp.BtSpp.ScanFound | src-tauri/plugins/btclassic-spp/android/src/main/java/BTSpp.kt:356-364 | a found device is appended unless it is already listed |
| Community.CdnFromName | src-tauri/src/community/provider/official.rs:63-68 | "jsdelivr" and "ghfast" choose those mirrors; any other name, or none, chooses raw GitHub |
| Community.ConvertUrl | src-tauri/src/community/provider/official.rs:33-50 | a URL that does not mention the raw GitHub host is returned unchanged, and the raw mirror never changes a URL |
| Community.ConvertGhFast | src-tauri/src/community/provider/official.rs:45-48 | the ghfast mirror puts its proxy in front of the raw URL with the "https://" dropped |
| Community.ConvertJsDelivr | src-tauri/src/community/provider/official.rs:39-44 | the jsDelivr mirror swaps the host for its own prefix and every "/refs/heads/main/" for "@main/" |
| Community.JsDelivrPrefixClean | src-tauri/src/community/provider/official.rs:39-44 | the "/refs/heads/main/" replacement cannot match inside the jsDelivr prefix, so it only touches the path |
| Community.FuzzyMatchIgnoresCase | src-tauri/src/community/provider/official.rs:173-175 | the keyword test gives the same answer whatever the case of the text or the keyword |
| Community.FuzzyMatchSubstring | src-tauri/src/community/provider/official.rs:173-175 | a keyword occurring literally in the text matches, and the empty keyword matches every text |
| Community.SplitSemicolon | src-tauri/src/community/provider/official/models.rs:3-9 | the pieces are the semicolon-separated parts of the field, each trimmed |
| Community.SplitSemicolonProperties | src-tauri/src/community/provider/official/models.rs:3-9 | there is one piece more than there are semicolons, a field without one gives itself trimmed, and a field without whitespace is rebuilt by joining the pieces |
| Community.CategoryListsMembers | src-tauri/src/community/provider/official.rs:214-226 | device codenames are exactly the non-empty requested categories other than the two hidden ones, and "paid" or "force_paid" is hidden exactly when its hidden category was requested |
| Community.CategoryListsOf | src-tauri/src/community/provider/official.rs:215-226 | the loop over the requested categories builds the device list and the hidden paid types CategoryListsMembers describes |
| Community.FilterIndex | src-tauri/src/community/provider/official.rs:227-251 | the filtered list holds exactly the resources whose name or a tag matches the keyword, that carry one of the requested devices (or none were requested), and whose paid type is not hidden |
| Community.Page | src-tauri/src/community/provider/official.rs:265-269 | the page is the slice from page times limit of at most limit entries, empty past the end |
| Community.PageOfIndex | src-tauri/src/community/provider/official.rs:265-271 | every resource is on exactly one page, at position i mod limit of page i div limit |
| Community.ToItem | src-tauri/src/community/provider/official.rs:273-285 | each item carries the resource's name, type and paid type, repeats the type as its description, and has its cover and icon rewritten for the mirror |
| Community.GetPageFiltered | src-tauri/src/community/provider/official.rs:211-287 | with a keyword or a category the page is the slice of the filtered index in index order, each resource turned into its item, and every listed resource passed the filter |
| Community.FindByNameProperties | src-tauri/src/community/provider/official.rs:289-295 | the lookup fails with "resource not found" exactly when no resource has the name, and otherwise returns the first resource with it |
| Community.TotalItems | src-tauri/src/community/provider/official.rs:384-393 | without a keyword the total is the size of the index |
| Community.TotalAtMostFiltered | src-tauri/src/community/provider/official.rs:384-393 | the keyword total counts names only, so it never exceeds what a keyword search pages through |
| Community.TotalEmptyKeyword | src-tauri/src/community/provider/official.rs:384-393 | the empty keyword counts every resource |
| Community.InsertSorted | src-tauri/src/community/provider/official.rs:205-206 | inserting into a strictly sorted list keeps it strictly sorted and adds only the new value |
| Community.StrictlySortedUnique | src-tauri/src/community/provider/official.rs:205-206 | two strictly sorted lists with the same elements are equal, so the sorted, de-duplicated list is unique |
| Community.GetCategories | src-tauri/src/community/provider/official.rs:199-209 | the categories are "hidden_paid" and "hidden_force_paid", then exactly the device codenames, sorted and without duplicates |
| Community.ProgressDueAsWritten | src-tauri/src/community/provider/official.rs:358-360 | the progress test fails with a division by zero exactly when less than 100 ms have passed and the total is between 1 and 99 bytes |
| Community.ProgressDue | src-tauri/src/community/provider/official.rs:358-360 | the corrected test never fails, reports at least every hundredth of a known total, and agrees with the written test wherever that one does not panic |
| PluginStore.WithOneSlash | src-tauri/src/pluginstore/provider/official.rs:66 | the text ends in exactly one slash, and only trailing slashes of the input were dropped |
| PluginStore.WithOneSlashIdempotent | src-tauri/src/pluginstore/provider/official.rs:66 | normalising an already normalised base or folder changes nothing |
| PluginStore.WithOneSlashTrailing | src-tauri/src/pluginstore/provider/official.rs:66 | extra trailing slashes make no difference |
| PluginStore.ToRaw | src-tauri/src/pluginstore/provider/official.rs:70-80 | the raw location always ends in a slash, and a raw GitHub URL or any non-GitHub location keeps its text up to one trailing slash |
| PluginStore.ToRawGithub | src-tauri/src/pluginstore/provider/official.rs:73-76 | a GitHub repository page becomes the raw host plus the repository path plus "/refs/heads/main/" |
| PluginStore.ToRawTrailing | src-tauri/src/pluginstore/provider/official.rs:70-80 | a trailing slash on the repository text does not change its raw location |
| PluginStore.BuildFileUrlGithub | src-tauri/src/pluginstore/provider/official.rs:82-85 | on the raw mirror a file of a GitHub repository is found under the main branch, in its folder with one trailing slash |
| PluginStore.Rewrite | src-tauri/src/pluginstore/provider/official.rs:145-154 | icon, entry and every additional file become download URLs of the entry's repository and folder, and no other manifest field changes |
| PluginStore.FilterByName | src-tauri/src/pluginstore/provider/official.rs:135-137 | the filtered entries are exactly those whose manifest name matches the keyword, ignoring case |
| PluginStore.InsertByNameMultiset | src-tauri/src/pluginstore/provider/official.rs:138 | inserting an entry adds exactly that entry |
| PluginStore.InsertByNameSorted | src-tauri/src/pluginstore/provider/official.rs:138 | inserting into a list sorted by name keeps it sorted |
| PluginStore.SortByNameProperties | src-tauri/src/pluginstore/provider/official.rs:138 | sorting yields a permutation of the filtered entries whose names never decrease |
| PluginStore.RewriteAll | src-tauri/src/pluginstore/provider/official.rs:145-155 | each manifest of the page is its entry rewritten, in page order |
| PluginStore.GetPage | src-tauri/src/pluginstore/provider/official.rs:133-157 | the page is the slice of the name-sorted filtered entries, each manifest rewritten |
| PluginStore.PushRewritten | src-tauri/src/pluginstore/provider/official.rs:144-155 | the loop pushes exactly the rewritten manifests of the slice, in order |
| PluginStore.SortFiltered | src-tauri/src/pluginstore/provider/official.rs:138 | sorting the filtered entries one insertion at a time gives the name-sorted list |
| PluginStore.PageFromIndex | src-tauri/src/pluginstore/provider/official.rs:133-157 | a page holds at most limit manifests, each a rewritten index entry whose name matches |
| PluginStore.PageSortedByName | src-tauri/src/pluginstore/provider/official.rs:138-143 | the names on a page never decrease |
| PluginStore.SortedPage | src-tauri/src/pluginstore/provider/official.rs:139-145 | a page of a name-sorted list is name-sorted |
| PluginStore.TotalIsPageSource | src-tauri/src/pluginstore/provider/official.rs:215-221 | the total is the number of entries the page listing runs over, and the whole index without a keyword |
| PluginStore.FindEntryProperties | src-tauri/src/pluginstore/provider/official.rs:159-164 | the lookup fails with "plugin not found" exactly when no manifest has the name, and otherwise returns the first entry with it |
| PluginStore.FindPluginProperties | src-tauri/src/pluginstore/provider/official.rs:159-174 | get_item fails exactly when no manifest has the name, and otherwise returns the first such entry with its files rewritten |
| Permission.PermissionCheck | src-tauri/src/pluginsystem/utils.rs:24-53 | a call is allowed exactly when the plugin is loaded and, in a debug build, lists the permission or "debug", or, in a release build, lists the permission and it is not "debug"; the debug-disabled error comes exactly from the release-build cases involving "debug", and every other refusal names the permission |
| Permission.UnknownPluginDenied | src-tauri/src/pluginsystem/utils.rs:30-42 | a plugin that is not loaded is refused every permission |
| Permission.DebugGrantsAll | src-tauri/src/pluginsystem/utils.rs:33-37 | in a debug build a plugin holding "debug" is granted every permission |
| Permission.ReleaseDebugRefused | src-tauri/src/pluginsystem/utils.rs:44-46 | in a release build "debug" without the permission itself gives the debug-disabled error, never a grant |
| TaskQueue.ApplyPatch | src/taskqueue/tasklist.ts:43 | a patched task keeps its id, takes every field the patch sets and keeps every other field |
| TaskQueue.UpdateItems | src/taskqueue/tasklist.ts:42-45 | update patches every task with the id and leaves every other task as it was, in place |
| TaskQueue.WithoutIdMembers | src/taskqueue/tasklist.ts:61 | removal keeps exactly the tasks whose id differs |
| TaskQueue.AddProperties | src/taskqueue/tasklist.ts:53-59 | adding a known id changes nothing; otherwise the task is appended and its id recorded, and ids stay distinct and equal to the recorded set |
| TaskQueue.RemoveProperties | src/taskqueue/tasklist.ts:60-65 | remove keeps exactly the other tasks, forgets the id, and resets the status to pending only when the list becomes empty, keeping ids distinct and recorded |
| TaskQueue.WithoutIdValid | src/taskqueue/tasklist.ts:60-62 | removing an id from a list with distinct ids leaves distinct ids, the old set minus that id |
| TaskQueue.UpdateProperties | src/taskqueue/tasklist.ts:42-45 | update keeps the ids valid and leaves every task with another id unchanged |
| TaskQueue.ProgressOf | src/taskqueue/tasklist.ts:31-34 | an empty list is at 100 percent |
| TaskQueue.ProgressInRange | src/taskqueue/tasklist.ts:31-34 | with every task between 0 and 100 percent the mean progress is too |
| TaskQueue.AttemptIdsAttemptable | src/taskqueue/tasklist.ts:77-78 | every task a run attempts has a pending or error status |
| TaskQueue.AttemptIdsPrefix | src/taskqueue/tasklist.ts:77-84 | the attempts made before a stop are a prefix of the attempts of a full run |
| TaskQueue.MarkFailed | src/taskqueue/tasklist.ts:90-100 | a task whose action threw keeps its id, name, description, URL and progress, and gets the error status and the thrown message |
| TaskQueue.ResetStatuses | src/taskqueue/tasklist.ts:104-107 | with auto-clean disabled every task with a payload is back to pending, and none is added, dropped or moved |
| TaskQueue.RunProperties | src/taskqueue/tasklist.ts:73-112 | a run always ends pending with valid ids, attempts in list order only pending or error tasks, all of them unless stopped, and no more than the actions run before the stop |
| TaskQueue.RunOutcome | src/taskqueue/tasklist.ts:73-112 | the list is emptied exactly when the run completed without a failure and auto-clean applies (always for downloads); otherwise every task stays, a failed one carrying its message |
| TaskQueue.FailedAppend | src/taskqueue/tasklist.ts:90-92 | a run has failed after one more attempt exactly when it had failed before or that action threw |
| TaskQueue.TaskList.constructor | src/taskqueue/tasklist.ts:35-37 | a new list of the given kind is empty and pending |
| TaskQueue.TaskList.Update | src/taskqueue/tasklist.ts:42-45 | the tasks become UpdateItems of the old tasks, nothing else changes |
| TaskQueue.TaskList.Add | src/taskqueue/tasklist.ts:53-59 | the new state is the one AddProperties describes, and a run starts exactly when the task was new and the list is an idle download list |
| TaskQueue.TaskList.Remove | src/taskqueue/tasklist.ts:60-65 | the new state is the one RemoveProperties describes |
| TaskQueue.TaskList.Clear | src/taskqueue/tasklist.ts:66-71 | the list is emptied, its ids forgotten and its status pending |
| TaskQueue.TaskList.Stop | src/taskqueue/tasklist.ts:113-119 | a running list is marked stopping, any other list is left alone |
| TaskQueue.TaskList.Run | src/taskqueue/tasklist.ts:73-112 | the loop over the tasks at the start of the run leaves the state and attempts RunProperties and RunOutcome describe, and keeps the ids valid |
| TimeText.UnitMs | src/tools/time.ts:2-14 | every unit is a positive number of milliseconds |
| TimeText.Bucket | src/tools/time.ts:1-16 | the number shown is the duration floored to whole units of the chosen unit |
| TimeText.TimeToRead | src/tools/time.ts:1-16 | the text is the floored count followed by the unit's suffix |
| TimeText.BucketThresholds | src/tools/time.ts:2-15 | seconds are used below one minute, minutes below one hour, hours below one day and days from one day on; minutes show 1 to 59, hours 1 to 23, days at least 1 |
| TimeText.BucketMonotone | src/tools/time.ts:2-15 | a longer duration never falls in a smaller unit |
| TimeText.OneSuffix | src/tools/time.ts:4-15 | the text ends in exactly one unit's suffix, that of its bucket, and before it holds only digits and a sign |
| PathHelper.SplitPath | src/filesystem/pathhelper.ts:4 | splitting on slash and backslash always gives at least one piece |
| PathHelper.SplitPathPieces | src/filesystem/pathhelper.ts:4 | no piece contains a slash or a backslash |
| PathHelper.SplitPathLast | src/filesystem/pathhelper.ts:4-5 | the last piece is the end of the text, right after its last separator when it has one |
| PathHelper.LastStep | src/filesystem/pathhelper.ts:4-5 | a trailing separator gives an empty last piece, and any other last character extends the last piece |
| PathHelper.GetFilename | src/filesystem/pathhelper.ts:1-6 | an empty path gives no filename, a path that does not decode fails, and otherwise the filename is the last piece of the decoded path |
| PathHelper.FilenameProperties | src/filesystem/pathhelper.ts:1-6 | the filename of a decodable path holds no separator, is what follows the last separator of the decoded path, and is empty when that path ends in a separator |
| I18n.DefaultLangAsWrittenAcceptsPrototypeName | src/i18n/index.tsx:42-58 | as written, a stored "toString" passes the membership test and becomes the language although no resource of that name exists |
| I18n.GetDefaultLang | src/i18n/index.tsx:42-58 | the starting language is always one with resources: the stored one when it is one, else the browser's with dashes turned to underscores when that is one, else en_US |
| I18n.DefaultLangAgrees | src/i18n/index.tsx:42-58 | without inherited property names in play, the corrected choice equals the written one |
| I18n.BrowserTagMapped | src/i18n/index.tsx:53-55 | with nothing stored, a browser reporting the tag of any supported language (its name with "-" for "_") starts in that language |
| I18n.ParseIndex | src/i18n/index.tsx:71 | only a string of decimal digits indexes an array or a string |
| I18n.ResolveMissing | src/i18n/index.tsx:71 | once a segment is missing, every longer key stays undefined without an error |
| I18n.ResolveAppend | src/i18n/index.tsx:71 | resolving a key in two parts is resolving the second part from where the first led |
| I18n.ResolveFields | src/i18n/index.tsx:71 | through nested objects, each segment selects the field of that name |
| I18n.T | src/i18n/index.tsx:63-69 | a null, undefined or empty key gives the empty string |
| I18n.TLookup | src/i18n/index.tsx:70-74 | a key gives the current language's string when its path leads to one, else English's, else the key itself |
| I18n.TTopLevel | src/i18n/index.tsx:70-72 | a key without a dot names a top-level string of the current language |
| I18n.I18nProvider.constructor | src/i18n/index.tsx:60-61 | the provider starts in the corrected default language (GetDefaultLang) of the stored and browser languages; the code as written calls the uncorrected choice, which differs only on inherited names (see Findings) |
| I18n.I18nProvider.SetLang | src/i18n/index.tsx:77-80 | setLang saves the language and switches to it |
| I18n.SetLangPersists | src/i18n/index.tsx:42-48 | a language saved with setLang is the one the next start picks, whatever the browser reports |

## Left out

- Bluetooth, sockets, files, HTTP, the Tauri bridge and the WebView are not modelled. What they answer (write success, channel status, connect outcome, downloaded bytes, watch replies) is a parameter of the operation that asks.
- Concurrency is not modelled: locks, async tasks, worker threads, the read threads of each SPP back end, and callbacks posted to other threads. Every operation is one sequential step on the state it guards, so interleavings such as two overlapping connects are not covered.
- MD5, SHA-256, HMAC-SHA256, CRC-32 and AES-128-CTR are library calls. They are parameters typed only by their output length, so nothing depends on their internals.
- JSON, JSON5, CSV, protobuf and serde encoding and decoding are parameters or are left out. The configuration tree is a JSON value type.
- Panics that the source reaches on bad input are modelled as outcomes (`Panicked`, `Panic(...)`) where the receive path and the DHCP server can reach them. Elsewhere they are modelled as preconditions, listed below by member.
- Community.GetPage: requires both search fields because `get_page` unwraps them and panics when either is missing.
- Device.MiWearDevice.BuildFrame: requires the session keys for an encrypted frame because `build_frame` unwraps them.
- Community.GetPage: the seeded shuffle of an unfiltered listing is a parameter. The randomness and hashing behind it are not modelled.
- Community.Page: the offset `page * limit` is an unbounded product, where both stores compute it in `u32`. A request large enough to overflow is not modelled.
- `download` in both stores is not modelled as an operation: streaming to a temporary file, zipping, and float progress reports. Only the progress condition of the community store is modelled (Community.ProgressDue).
- `refresh_index`, `get_banner`, `get_device_map` and the manifest fetches of both stores are HTTP calls. Only the URL rewriting and the index they produce are modelled.
- Text is a sequence of characters with ASCII case folding and ASCII whitespace. Rust `to_lowercase`/`to_uppercase`, JavaScript `toLowerCase` and `trim` also fold or strip non-ASCII characters, which the model does not.
- Lossy UTF-8 and UTF-16 decoding (`from_utf8_lossy`, device names read from Windows) becomes a given string. `decodeURIComponent` is a parameter that may fail.
- ResUtils: the file name taken from a URL or a path is the `fileName` parameter. The search for "toolkit" in the lossily decoded tail is a byte search.
- Dhcp.Checksum: the word sum is an unbounded natural number where the source adds into a `u32`. The two agree for every packet shorter than 128 KiB, far above a DHCP reply.
- Meter.Speed: the speed is an exact real quotient where the source divides `f64` values.
- Mass.TotalParts: the part count is the exact integer ceiling, saturated to 65535 as the float-to-`u16` cast does. The `f32` rounding of very large files is not modelled.
- Mass.ResumeAfterAck: the part counter is a `u16` that wraps, as in a release build. A debug build panics on the overflow instead.
- Auth.StartAuth: in the source a method of the device; it lives in Auth here because the handshake it runs depends on the device.
- Auth.DoAuth: protobuf encoding and decoding are not modelled: the verify request's bytes and the confirm's encoding are parameters, and each reply comes already classified (`VerifyReply`, `ConfirmReply`). The random nonce is a parameter. A panic ends the handshake without a result (`Panic`); the unwinding of the task is not modelled.
- Device.MiWearDevice.constructor: the BLE characteristic search, the start of the network stack, the Bluetooth link subscription and the configuration write at the end of `connect` are not modelled. The ThirdpartyApp registration is modelled, but the type's protobuf number is a parameter because the protobuf definitions are not part of this model. The codename stays empty because `update_codename` is not modelled.
- Device.MiWearDevice.Request: the reply is the parameter `reply`, which the receive path delivers under the frame's sequence number. The length of the timeout is not modelled, only whether it expires.
- Mass.SendParts: each report's fraction is an exact real, where the source divides `f32` values.
- FrontApi.MiwearConnect: it models the command with the guard released before the disconnect; the code as written hangs on that path (see Findings). The 500 ms pause after a disconnect, the work inside `MiWearDevice::connect` and the clearing of the network sender by a failed disconnect are not modelled.
- WinSpp: pairing, radio enumeration and the errors of stopping a scan are ignored, as the source ignores them. The "already scanning" branch of `start_scan` cannot run after the `stop_scan` that precedes it, so it is not modelled.
- WinSpp.WinBt.Connect: a connect to the address already connected returns early without a new socket, but it still stops a running scan first, following the code.
- MacSpp: the data callback that forwards received bytes to the listener is not modelled; only the count of errors reported to the listener is kept.
- MacSpp.MacBt.Connect: a connect does not close a previous channel. The channel counts as open once an open request is accepted, even when IOBluetooth hands back no channel object.
- MacSpp.MacBt.StartScan: the scan-loop flag stays set after a failed first inquiry, as in the source.
- AndroidSpp.BtSpp.Connect: a second connect replaces the send actor without closing the old one, and the old actor's unsent payloads are not tracked.
- AndroidSpp.Plan: the SDP strategy's 20 retries, UUID prefix selection and insecure-then-secure fallback are one boolean `sdpConnects`. The socket time-outs are not modelled.
- TaskQueue.ProgressOf: the progress is an exact real mean, where the source divides JavaScript numbers (IEEE doubles).
- TaskQueue: subscription listeners and `notify` are not modelled. The updates an action makes to its own task while running are not modelled either; only whether it throws, and its message, are.
- TaskQueue.TaskList.Run: `stopAfter` stands for `stop()` being called while the action of that attempt runs, the only point where the loop can observe it.
- I18n: `t` looks keys up in own properties and array or string indices only, not in `Object.prototype`. `localStorage` and `navigator` are parameters.
- FrontApi.PatchedIdReadBack: `modify_watchface_id` writes the id at offset 0x28 (40), while `get_watchface_id` reads it at offset 34. The lemma states what the reader then sees. The intended layout is not documented in the source, so this is recorded as stated behaviour and not claimed as a finding.
- FrontApi.AppWriteConfig: the error text of a patch that does not decode omits serde's detail.
- Accounts: the accounts store reuses the configuration store's write path. `list_account_types` in src-tauri/src/account.rs is a constant list and is not modelled.
- Permission.PermissionCheck: whether the build is a debug build is a parameter. A failure to reach the plugin manager is treated like an unknown plugin, as the source does.

## Findings

| source | as written | input that shows it | evidently intended | confidence | as-written member | corrected member |
|---|---|---|---|---|---|---|
| src/i18n/index.tsx:46-54 | `lang in resources` also accepts names inherited from `Object.prototype` | a stored language "toString" | only the seven languages with resources are accepted | not executed | I18n.DefaultLangAsWrittenAcceptsPrototypeName | I18n.GetDefaultLang |
| src-tauri/src/community/provider/official.rs:358-360 | `downloaded % (total / 100)` divides by zero when the total is below 100 bytes | a 50-byte resource whose first chunk arrives within 100 ms | report progress at every hundredth of the total without panicking | not executed | Community.ProgressDueAsWritten | Community.ProgressDue |
| src-tauri/src/frontapi.rs:79-85 | the read guard of `CONNECTED_DEVICE.read()` lives through the `if let` body, and a successful `disconnect()` then waits for `CONNECTED_DEVICE.write()` (src-tauri/src/miwear.rs:25-26), which that guard holds off | switching from a connected device to another address when the Bluetooth disconnect succeeds | release the guard (clone the current device) before disconnecting, so the switch goes on to connect | not executed | FrontApi.MiwearConnectAsWritten | FrontApi.MiwearConnect |

=== FILE: account.dfy ===
/**
 * Stored third-party accounts: a map from provider name to that provider's
 * list of accounts, kept behind a lock and persisted after every write.
 */
module Accounts {
  import opened Wrappers
  import opened Config

  datatype Account = Account(id: string, username: string, avatar: string, data: map<string, string>)

  type AccountMap = map<string, seq<Account>>

  /** `accounts.retain(|a| a.id != id)` */
  function WithoutId(accounts: seq<Account>, id: string): (r: seq<Account>)
    ensures |r| <= |accounts|
    ensures forall j :: 0 <= j < |r| ==> r[j].id != id
    decreases |accounts|
  {
    if |accounts| == 0 then []
    else (if accounts[0].id != id then [accounts[0]] else []) + WithoutId(accounts[1..], id)
  }

  /** How many accounts carry `id`. */
  function CountId(accounts: seq<Account>, id: string): nat
    decreases |accounts|
  {
    if |accounts| == 0 then 0
    else (if accounts[0].id == id then 1 else 0) + CountId(accounts[1..], id)
  }

  lemma {:induction false} CountIdNone(accounts: seq<Account>, id: string)
    requires forall j :: 0 <= j < |accounts| ==> accounts[j].id != id
    ensures CountId(accounts, id) == 0
    decreases |accounts|
  {
    if |accounts| > 0 {
      CountIdNone(accounts[1..], id);
    }
  }

  lemma {:induction false} CountIdAppend(accounts: seq<Account>, a: Account, id: string)
    ensures CountId(accounts + [a], id) == CountId(accounts, id) + (if a.id == id then 1 else 0)
    decreases |accounts|
  {
    if |accounts| == 0 {
      assert accounts + [a] == [a];
    } else {
      assert (accounts + [a])[1..] == accounts[1..] + [a];
      CountIdAppend(accounts[1..], a, id);
    }
  }

  /** `list_accounts`: the provider's list, empty for an unknown provider. */
  function ListAccounts(m: AccountMap, name: string): (r: seq<Account>)
    ensures name !in m ==> r == []
    ensures name in m ==> r == m[name]
  {
    if name in m then m[name] else []
  }

  /** `add_account`'s update: any account with the same id is dropped, then the new one is pushed. */
  function AddAccountSpec(m: AccountMap, name: string, account: Account): (r: AccountMap)
  {
    m[name := WithoutId(ListAccounts(m, name), account.id) + [account]]
  }

  /**
   * After `add_account` the provider exists, exactly one of its accounts has
   * the id and it is the last, the others keep their order, and no other
   * provider changes.
   */
  lemma AddAccountProperties(m: AccountMap, name: string, account: Account)
    ensures var r := AddAccountSpec(m, name, account);
      name in r && |r[name]| > 0 && r[name][|r[name]| - 1] == account &&
      CountId(r[name], account.id) == 1 &&
      r[name][..|r[name]| - 1] == WithoutId(ListAccounts(m, name), account.id)
    ensures forall n :: n in m && n != name ==> n in AddAccountSpec(m, name, account) && AddAccountSpec(m, name, account)[n] == m[n]
  {
    hide WithoutId, ListAccounts;
    var rest := WithoutId(ListAccounts(m, name), account.id);
    var r := AddAccountSpec(m, name, account);
    assert r[name] == rest + [account];
    CountIdNone(rest, account.id);
    CountIdAppend(rest, account, account.id);
    assert (rest + [account])[..|rest|] == rest;
  }

  /** `remove_account`'s update and result: the element at `index` when the provider has one there. */
  function RemoveAccountSpec(m: AccountMap, name: string, index: nat): (AccountMap, Option<Account>)
  {
    if name in m && index < |m[name]| then
      (m[name := m[name][..index] + m[name][index + 1..]], Some(m[name][index]))
    else (m, None)
  }

  /**
   * An unknown provider or an index past the end changes nothing; a valid
   * index returns that account and leaves the others in order.
   */
  lemma RemoveAccountProperties(m: AccountMap, name: string, index: nat)
    ensures !(name in m && index < |m[name]|) ==> RemoveAccountSpec(m, name, index) == (m, None)
    ensures name in m && index < |m[name]| ==>
      var (r, out) := RemoveAccountSpec(m, name, index);
      out == Some(m[name][index]) && name in r && |r[name]| == |m[name]| - 1 &&
      (forall j :: 0 <= j < index ==> r[name][j] == m[name][j]) &&
      (forall j :: index <= j < |r[name]| ==> r[name][j] == m[name][j + 1])
  {
  }

  /** `add_account`: inside `write`, the provider's list is filtered and the account pushed. */
  method AddAccount(store: ConfigStore<AccountMap>, name: string, account: Account, persistOk: bool)
    modifies store
    ensures store.config == AddAccountSpec(old(store.config), name, account)
    ensures store.persisted == (if persistOk then Some(store.config) else old(store.persisted))
  {
    var _ := store.Write((m: AccountMap) => (AddAccountSpec(m, name, account), ()), persistOk);
  }

  /** `remove_account` */
  method RemoveAccount(store: ConfigStore<AccountMap>, name: string, index: nat, persistOk: bool) returns (r: Option<Account>)
    modifies store
    ensures (store.config, r) == RemoveAccountSpec(old(store.config), name, index)
    ensures store.persisted == (if persistOk then Some(store.config) else old(store.persisted))
  {
    r := store.Write((m: AccountMap) => RemoveAccountSpec(m, name, index), persistOk);
  }
}

=== FILE: auth.dfy ===
/**
 * The authentication handshake's key handling: the stored auth key as 32 hex
 * characters, the key schedule (an HKDF-SHA256 extract and expand, sections
 * 2.2 and 2.3 of RFC 5869, with the two nonces as salt and "miwear-auth" as
 * info), the split of the 64-byte block into keys and nonces, the check of
 * the device's signature and the storing of the session keys; then the
 * handshake itself, its two requests over the link, and `start_auth`, which
 * runs it and writes the device back to the configuration.
 */
module Auth {
  import opened Wrappers
  import opened Bytes
  import opened Crypto
  import opened Tools
  import opened Device
  import opened Packet
  import Config

  /* ---- string_to_u8_16 ---- */

  /** The pair of characters at byte position `j`, as `u8::from_str_radix` reads it. */
  function PairAt(s: string, j: nat): Result<byte>
    requires 2 * j + 1 < |s|
  {
    ParseHexByte(s[2 * j], s[2 * j + 1])
  }

  /** The 16-byte key written as exactly 32 hex characters, or nothing. */
  function HexKey(s: string): Option<Digest16> {
    if |s| != 32 then None
    else
      match HexStreamToBytes(s)
      case Ok(b) => var k: Digest16 := b; Some(k)
      case Err(_) => None
  }

  /** `hex_stream_to_bytes` succeeds exactly when every pair parses, and yields the pairs' values in order. */
  lemma {:induction false} HexStreamPairs(hex: string)
    requires |hex| % 2 == 0
    ensures HexStreamToBytes(hex).Ok? <==> forall j :: 0 <= j < |hex| / 2 ==> PairAt(hex, j).Ok?
    ensures HexStreamToBytes(hex).Ok? ==>
      forall j :: 0 <= j < |hex| / 2 ==> HexStreamToBytes(hex).value[j] == PairAt(hex, j).value
    decreases |hex|
  {
    if |hex| > 0 {
      var tail := hex[2..];
      HexStreamPairs(tail);
      forall j | 0 <= j < |tail| / 2
        ensures PairAt(tail, j) == PairAt(hex, j + 1)
      {
        assert tail[2 * j] == hex[2 * (j + 1)] && tail[2 * j + 1] == hex[2 * (j + 1) + 1];
      }
      if HexStreamToBytes(hex).Ok? {
        forall j | 0 <= j < |hex| / 2
          ensures PairAt(hex, j).Ok?
        {
          if j > 0 {
            assert PairAt(tail, j - 1).Ok?;
          }
        }
      } else if PairAt(hex, 0).Ok? {
        var j :| 0 <= j < |tail| / 2 && PairAt(tail, j).Err?;
        assert PairAt(hex, j + 1).Err?;
      }
    }
  }

  /**
   * `string_to_u8_16` accepts exactly the 32-character strings whose every
   * pair of characters parses as hex, and then gives those 16 values in order.
   */
  lemma HexKeyPairs(s: string)
    ensures HexKey(s).Some? <==> |s| == 32 && forall j :: 0 <= j < 16 ==> PairAt(s, j).Ok?
    ensures HexKey(s).Some? ==> forall j :: 0 <= j < 16 ==> HexKey(s).value[j] == PairAt(s, j).value
  {
    if |s| == 32 {
      HexStreamPairs(s);
    }
  }

  /** Writing a key with `to_hex_string` and reading it back gives the key. */
  lemma HexKeyRoundTrip(key: Digest16)
    ensures HexKey(ToHexString(key)) == Some(key)
  {
    HexRoundTrip(key);
  }

  /** `string_to_u8_16`: the array filled pair by pair, or `None` at the first bad pair. */
  method StringToU8x16(s: string) returns (r: Option<Digest16>)
    ensures r == HexKey(s)
  {
    if |s| != 32 {
      return None;
    }
    HexStreamPairs(s);
    var result := new byte[16](_ => 0);
    for i := 0 to 16
      invariant forall j :: 0 <= j < i ==> PairAt(s, j) == Ok(result[j])
    {
      var v := ParseHexByte(s[i * 2], s[i * 2 + 1]);
      assert v == PairAt(s, i);
      if v.Err? {
        return None;
      }
      result[i] := v.value;
    }
    var key: Digest16 := result[..];
    assert key == HexStreamToBytes(s).value;
    return Some(key);
  }

  /* ---- kdf_miwear ---- */

  /** The info string of the expansion, "miwear-auth" in ASCII. */
  const INFO: seq<byte> := [0x6d, 0x69, 0x77, 0x65, 0x61, 0x72, 0x2d, 0x61, 0x75, 0x74, 0x68]

  /** HKDF-Extract (section 2.2 of RFC 5869): the pseudorandom key is the HMAC of the input keying material under the salt. */
  function Extract(salt: seq<byte>, ikm: seq<byte>, hmac: HmacFn): Digest32 {
    hmac(salt, ikm)
  }

  /** The blocks `T(i)` of HKDF-Expand (section 2.3 of RFC 5869), with `T(0)` empty. */
  function TBlock(prk: seq<byte>, info: seq<byte>, i: nat, hmac: HmacFn): (t: seq<byte>)
    requires i < 256
    ensures i == 0 <==> t == []
    ensures i > 0 ==> |t| == 32
  {
    if i == 0 then [] else hmac(prk, TBlock(prk, info, i - 1, hmac) + info + [i])
  }

  /** `T(1) | ... | T(n)`. */
  function Blocks(prk: seq<byte>, info: seq<byte>, n: nat, hmac: HmacFn): (b: seq<byte>)
    requires n < 256
    ensures |b| == 32 * n
  {
    if n == 0 then [] else Blocks(prk, info, n - 1, hmac) + TBlock(prk, info, n, hmac)
  }

  /** HKDF-Expand: the first `len` bytes of `T(1) | ... | T(N)` with `N = ceil(len / 32)`. */
  function Expand(prk: seq<byte>, info: seq<byte>, len: nat, hmac: HmacFn): (okm: seq<byte>)
    requires len <= 255 * 32
    ensures |okm| == len
  {
    Blocks(prk, info, (len + 31) / 32, hmac)[..len]
  }

  /** The 64-byte key block of a handshake. */
  function KdfBlock(secret: Digest16, phoneNonce: Digest16, watchNonce: Digest16, hmac: HmacFn): seq<byte> {
    Expand(Extract(phoneNonce + watchNonce, secret, hmac), INFO, 64, hmac)
  }

  /**
   * The block is the first two expansion blocks: `T(1) = HMAC(prk, "miwear-auth" | 1)`
   * and `T(2) = HMAC(prk, T(1) | "miwear-auth" | 2)`, where `prk` is the HMAC
   * of the secret under the phone nonce followed by the watch nonce.
   */
  lemma KdfBlockLayout(secret: Digest16, phoneNonce: Digest16, watchNonce: Digest16, hmac: HmacFn)
    ensures var prk := hmac(phoneNonce + watchNonce, secret);
      var t1 := hmac(prk, INFO + [1]);
      KdfBlock(secret, phoneNonce, watchNonce, hmac) == t1 + hmac(prk, t1 + INFO + [2])
  {
    var prk := hmac(phoneNonce + watchNonce, secret);
    assert TBlock(prk, INFO, 0, hmac) + INFO + [1] == INFO + [1];
    assert Blocks(prk, INFO, 2, hmac) == TBlock(prk, INFO, 1, hmac) + TBlock(prk, INFO, 2, hmac);
  }

  /** `kdf_miwear`: the counter loop fills the 64-byte output block by block, carrying the previous block. */
  method KdfMiwear(secret: Digest16, phoneNonce: Digest16, watchNonce: Digest16, hmac: HmacFn) returns (block: seq<byte>)
    ensures block == KdfBlock(secret, phoneNonce, watchNonce, hmac)
  {
    var initKey := phoneNonce + watchNonce;
    var prk := hmac(initKey, secret);
    var okm := new byte[64](_ => 0);
    var offset := 0;
    var prev: seq<byte> := [];
    for counter := 1 to 4
      invariant prev == TBlock(prk, INFO, counter - 1, hmac)
      invariant offset == if counter <= 3 then 32 * (counter - 1) else 64
      invariant okm[..offset] == Blocks(prk, INFO, counter - 1, hmac)[..offset]
    {
      prev := hmac(prk, prev + INFO + [counter]);
      var end := if offset + 32 < 64 then offset + 32 else 64;
      forall j | offset <= j < end {
        okm[j] := prev[j - offset];
      }
      assert okm[..end] == Blocks(prk, INFO, counter, hmac)[..end];
      offset := end;
    }
    block := okm[..];
  }

  /* ---- build_auth_step_2 ---- */

  /** The key block cut into the session keys: decryption key, encryption key, then the two 4-byte nonces. */
  function SplitKeys(block: seq<byte>): (k: SecurityKeys)
    requires |block| >= 40
    ensures k.decKey + k.encKey + k.decNonce + k.encNonce == block[..40]
    ensures |k.decKey| == 16 && |k.encKey| == 16 && |k.decNonce| == 4 && |k.encNonce| == 4
  {
    assert block[0..16] + block[16..32] + block[32..36] + block[36..40] == block[..40];
    SecurityKeys(encKey := block[16..32], decKey := block[0..16], encNonce := block[36..40], decNonce := block[32..36])
  }

  /** The 12-byte CCM nonce: the encryption nonce then two zero 32-bit counters, little-endian. */
  function PacketNonce(encNonce: seq<byte>): (n: seq<byte>)
    requires |encNonce| == 4
    ensures |n| == 12 && n[..4] == encNonce && n[4..] == Zeros(8)
  {
    encNonce + U32Le(0) + U32Le(0)
  }

  /** AES-128-CCM encryption: key, 12-byte nonce, associated data, plaintext. */
  type CcmFn = (Digest16, seq<byte>, seq<byte>, seq<byte>) -> seq<byte>

  /** The device's `DeviceVerify` answer: its random and its signature. */
  datatype DeviceVerify = DeviceVerify(random: seq<byte>, sign: seq<byte>)

  /** The `AppConfirm` the phone answers with. */
  datatype AppConfirm = AppConfirm(encryptedSigns: seq<byte>, encryptedDeviceInfo: seq<byte>)

  /** How the second step ends: a confirmation, an error, or a panic on an unreadable stored auth key. */
  datatype Step2 = Confirmed(confirm: AppConfirm) | Failed(msg: string) | Panicked

  const LENGTH_MISMATCH := "nonce/hmac length mismatch"
  const HMAC_MISMATCH := "Auth HMAC mismatch - wrong auth key?"

  /**
   * The second step as a function of the stored auth key, the phone's random,
   * the device's answer and the encoded companion-device record.
   */
  function Step2Outcome(authKey: string, pRandom: Digest16, verify: DeviceVerify, hmac: HmacFn, ccm: CcmFn,
                        companion: seq<byte>): Step2
  {
    if |verify.random| != 16 || |verify.sign| != 32 then Failed(LENGTH_MISMATCH)
    else match HexKey(authKey)
      case None => Panicked
      case Some(secret) =>
        var keys := SplitKeys(KdfBlock(secret, pRandom, verify.random, hmac));
        if verify.sign != hmac(keys.decKey, verify.random + pRandom) then Failed(HMAC_MISMATCH)
        else
          var encKey: Digest16 := keys.encKey;
          Confirmed(AppConfirm(hmac(encKey, pRandom + verify.random),
                               ccm(encKey, PacketNonce(keys.encNonce), [], companion)))
  }

  /** The keys a successful second step stores. */
  function SessionKeys(authKey: string, pRandom: Digest16, watchRandom: seq<byte>, hmac: HmacFn): SecurityKeys
    requires HexKey(authKey).Some? && |watchRandom| == 16
  {
    SplitKeys(KdfBlock(HexKey(authKey).value, pRandom, watchRandom, hmac))
  }

  /**
   * The device's answer is accepted exactly when its random has 16 bytes, its
   * signature 32 bytes, the stored key reads as hex, and the signature is the
   * HMAC of the device random then the phone random under the decryption key.
   */
  lemma Step2Accepts(authKey: string, pRandom: Digest16, verify: DeviceVerify, hmac: HmacFn, ccm: CcmFn,
                     companion: seq<byte>)
    ensures var out := Step2Outcome(authKey, pRandom, verify, hmac, ccm, companion);
      out.Confirmed? <==>
        |verify.random| == 16 && |verify.sign| == 32 && HexKey(authKey).Some?
        && verify.sign == hmac(SessionKeys(authKey, pRandom, verify.random, hmac).decKey, verify.random + pRandom)
    ensures var out := Step2Outcome(authKey, pRandom, verify, hmac, ccm, companion);
      out.Confirmed? ==>
        var keys := SessionKeys(authKey, pRandom, verify.random, hmac);
        out.confirm.encryptedSigns == hmac(keys.encKey, pRandom + verify.random)
        && out.confirm.encryptedDeviceInfo == ccm(keys.encKey, PacketNonce(keys.encNonce), [], companion)
    ensures |verify.random| != 16 || |verify.sign| != 32 ==>
      Step2Outcome(authKey, pRandom, verify, hmac, ccm, companion) == Failed(LENGTH_MISMATCH)
  {
  }

  /**
   * `build_auth_step_2`: the length check, the key block from the stored key
   * and the two randoms, the signature check, the confirmation, and only then
   * the session keys written into the device state.
   */
  method BuildAuthStep2(device: MiWearDevice, pRandom: Digest16, verify: DeviceVerify, hmac: HmacFn, ccm: CcmFn,
                        companion: seq<byte>)
    returns (out: Step2)
    modifies device
    ensures out == Step2Outcome(old(device.authKey), pRandom, verify, hmac, ccm, companion)
    ensures out.Confirmed? ==> device.secKeys == Some(SessionKeys(old(device.authKey), pRandom, verify.random, hmac))
    ensures !out.Confirmed? ==> device.secKeys == old(device.secKeys)
    ensures device.authKey == old(device.authKey) && device.recvBuffer == old(device.recvBuffer)
      && device.seqCounter == old(device.seqCounter) && device.pendingSeq == old(device.pendingSeq)
      && device.pendingAck == old(device.pendingAck) && device.pendingProto == old(device.pendingProto)
      && device.subscribers == old(device.subscribers) && device.networkRunning == old(device.networkRunning)
      && device.written == old(device.written) && device.isSendingMass == old(device.isSendingMass)
  {
    var wRandom := verify.random;
    var wSign := verify.sign;
    if |wRandom| != 16 || |wSign| != 32 {
      return Failed(LENGTH_MISMATCH);
    }
    var secret := StringToU8x16(device.authKey);
    if secret.None? {
      return Panicked;
    }
    var block := KdfMiwear(secret.value, pRandom, wRandom, hmac);
    var decKey := block[0..16];
    var encKey: Digest16 := block[16..32];
    var decNonce := block[32..36];
    var encNonce := block[36..40];
    var expected := hmac(decKey, wRandom + pRandom);
    if wSign != expected {
      return Failed(HMAC_MISMATCH);
    }
    var encryptedSigns := hmac(encKey, pRandom + wRandom);
    var pktNonce := encNonce + U32Le(0) + U32Le(0);
    var encryptedDeviceInfo := ccm(encKey, pktNonce, [], companion);
    device.secKeys := Some(SecurityKeys(encKey, decKey, encNonce, decNonce));
    return Confirmed(AppConfirm(encryptedSigns, encryptedDeviceInfo));
  }

  /* ---- do_auth ---- */

  const PACKET_TYPE_ERROR := "Packet type error"
  const NO_ACCOUNT := "Account field was not present in the received protobuf."
  const NO_DEVICE_VERIFY := "Auth device verify field was not present in the received protobuf."

  /**
   * The reply to the verify request as `do_auth` reads it: not a protobuf
   * packet; a protobuf packet of a type other than Account (the handshake is
   * skipped); an Account packet without the payload, or with an Account
   * without its payload, both of which the code unwraps; a payload other than
   * an Account; an Account other than the device's verify answer; or that answer.
   */
  datatype VerifyReply =
    | VerifyNotProtobuf
    | VerifyOtherType
    | VerifyMissingPayload
    | VerifyNotAccount
    | VerifyNotDeviceVerify
    | VerifyDeviceVerify(verify: DeviceVerify)

  /** The reply to the confirm request: not protobuf, a protobuf packet missing a payload the code unwraps, or any other protobuf packet. */
  datatype ConfirmReply = ConfirmNotProtobuf | ConfirmMissingPayload | ConfirmProtobuf

  /** How one request of the handshake goes on the link: the failing write, if any, how the wait ends, and the reply delivered. */
  datatype RequestRun<D> = RequestRun(failAt: Option<nat>, wait: WaitOutcome, reply: D)

  /**
   * What the handshake works from besides the link: the phone's random
   * nonce, HMAC-SHA256, AES-128-CCM, the encoded companion-device record,
   * the encoded verify request and the encoding of a confirm request.
   */
  datatype AuthEnv = AuthEnv(nonce: Digest16, hmac: HmacFn, ccm: CcmFn, companion: seq<byte>,
                             verifyPayload: seq<byte>, encodeConfirm: AppConfirm -> seq<byte>)

  /** How the handshake ends: it returns a result, or its task panics on an `unwrap`. */
  datatype AuthEnd = Returned(result: Result<()>) | Panic

  /** The end of the handshake, the session keys step 2 stored (if it got that far), and the link after its requests. */
  datatype AuthTrace = AuthTrace(end: AuthEnd, keys: Option<SecurityKeys>, link: LinkState)

  /** A plain frame on the protobuf channel. */
  function PbFrame(seqNo: byte, payload: seq<byte>): seq<byte> {
    Encode(NewData(seqNo, Pb, Plain, payload))
  }

  /** Whether a plain protobuf request from link state `l` went through and its reply was delivered. */
  function Answered<D>(l: LinkState, max: nat, payload: seq<byte>, run: RequestRun<D>): bool
    requires max > 0
  {
    Sent(PbFrame(l.seqCounter, payload), max, run.failAt) && run.wait == Delivered
  }

  /** The second step on the device's verify answer. */
  function Step2Of(authKey: string, env: AuthEnv, dv: DeviceVerify): Step2 {
    Step2Outcome(authKey, env.nonce, dv, env.hmac, env.ccm, env.companion)
  }

  /**
   * `do_auth` from link state `l` with stored key `authKey`: the verify
   * request, the reading of its reply, step 2 and, once step 2 has stored the
   * keys, the confirm request and the reading of its reply.
   */
  function DoAuthSpec(authKey: string, l: LinkState, max: nat, env: AuthEnv,
                      v: RequestRun<VerifyReply>, c: RequestRun<ConfirmReply>): AuthTrace
    requires max > 0
  {
    var f1 := PbFrame(l.seqCounter, env.verifyPayload);
    var l1 := AfterRequest(l, f1, max, v.failAt, v.wait);
    match RequestResult(Sent(f1, max, v.failAt), v.wait, v.reply)
    case Err(e) => AuthTrace(Returned(Err(e)), None, l1)
    case Ok(reply) =>
      match reply
      case VerifyNotProtobuf => AuthTrace(Returned(Err(PACKET_TYPE_ERROR)), None, l1)
      case VerifyOtherType => AuthTrace(Returned(Ok(())), None, l1)
      case VerifyMissingPayload => AuthTrace(Panic, None, l1)
      case VerifyNotAccount => AuthTrace(Returned(Err(NO_ACCOUNT)), None, l1)
      case VerifyNotDeviceVerify => AuthTrace(Returned(Err(NO_DEVICE_VERIFY)), None, l1)
      case VerifyDeviceVerify(dv) =>
        match Step2Of(authKey, env, dv)
        case Failed(m) => AuthTrace(Returned(Err(m)), None, l1)
        case Panicked => AuthTrace(Panic, None, l1)
        case Confirmed(conf) =>
          ConfirmSpec(Some(SessionKeys(authKey, env.nonce, dv.random, env.hmac)), l1, max, env.encodeConfirm(conf), c)
  }

  /** The confirm request, made once step 2 has stored `keys`, and the reading of its reply. */
  function ConfirmSpec(keys: Option<SecurityKeys>, l: LinkState, max: nat, payload: seq<byte>,
                       c: RequestRun<ConfirmReply>): AuthTrace
    requires max > 0
  {
    var f := PbFrame(l.seqCounter, payload);
    var l2 := AfterRequest(l, f, max, c.failAt, c.wait);
    match RequestResult(Sent(f, max, c.failAt), c.wait, c.reply)
    case Err(e) => AuthTrace(Returned(Err(e)), keys, l2)
    case Ok(reply) =>
      match reply
      case ConfirmNotProtobuf => AuthTrace(Returned(Err(PACKET_TYPE_ERROR)), keys, l2)
      case ConfirmMissingPayload => AuthTrace(Panic, keys, l2)
      case ConfirmProtobuf => AuthTrace(Returned(Ok(())), keys, l2)
  }

  /**
   * The outcomes of the handshake: keys are stored exactly when the verify
   * reply is the device's answer and step 2 accepts it, and they are the
   * session keys of that answer; the confirm request is made exactly then,
   * so the counter advances by two, and by one otherwise; success with keys
   * needs the confirm answered by a protobuf packet, and success without
   * keys happens only on a verify reply of another type.
   */
  lemma AuthOutcomes(authKey: string, l: LinkState, max: nat, env: AuthEnv,
                     v: RequestRun<VerifyReply>, c: RequestRun<ConfirmReply>)
    requires max > 0
    ensures var t := DoAuthSpec(authKey, l, max, env, v, c);
      t.keys.Some? <==>
        Answered(l, max, env.verifyPayload, v) && v.reply.VerifyDeviceVerify?
        && Step2Of(authKey, env, v.reply.verify).Confirmed?
    ensures var t := DoAuthSpec(authKey, l, max, env, v, c);
      t.keys.Some? ==>
        HexKey(authKey).Some? && |v.reply.verify.random| == 16
        && t.keys.value == SessionKeys(authKey, env.nonce, v.reply.verify.random, env.hmac)
    ensures var t := DoAuthSpec(authKey, l, max, env, v, c);
      t.link.seqCounter == if t.keys.Some? then NextSeq(NextSeq(l.seqCounter)) else NextSeq(l.seqCounter)
    ensures var t := DoAuthSpec(authKey, l, max, env, v, c);
      t.end == Returned(Ok(())) && t.keys.None? <==> Answered(l, max, env.verifyPayload, v) && v.reply == VerifyOtherType
    ensures var t := DoAuthSpec(authKey, l, max, env, v, c);
      t.end == Returned(Ok(())) && t.keys.Some? <==>
        t.keys.Some? && c.reply == ConfirmProtobuf
        && Answered(AfterRequest(l, PbFrame(l.seqCounter, env.verifyPayload), max, v.failAt, v.wait), max,
                    env.encodeConfirm(Step2Of(authKey, env, v.reply.verify).confirm), c)
  {
    hide Encode, FragmentWrites, SessionKeys, Step2Outcome;
    var t := DoAuthSpec(authKey, l, max, env, v, c);
    if v.reply.VerifyDeviceVerify? && Answered(l, max, env.verifyPayload, v) {
      Step2Accepts(authKey, env.nonce, v.reply.verify, env.hmac, env.ccm, env.companion);
    }
  }

  /**
   * A stored auth key that is not 32 hex characters makes step 2 panic as
   * soon as the device's answer passes the length check: the keys are not
   * stored and only the verify request was made.
   */
  lemma MalformedKeyPanics(authKey: string, l: LinkState, max: nat, env: AuthEnv,
                           v: RequestRun<VerifyReply>, c: RequestRun<ConfirmReply>)
    requires max > 0
    requires Answered(l, max, env.verifyPayload, v) && v.reply.VerifyDeviceVerify?
    requires |v.reply.verify.random| == 16 && |v.reply.verify.sign| == 32 && HexKey(authKey).None?
    ensures var t := DoAuthSpec(authKey, l, max, env, v, c);
      t.end == Panic && t.keys.None?
      && t.link == AfterRequest(l, PbFrame(l.seqCounter, env.verifyPayload), max, v.failAt, v.wait)
  {
  }

  /**
   * `do_auth`: the verify request, its reply read as the source reads it,
   * step 2 on the device's answer and, after step 2 has stored the keys, the
   * confirm request. Both requests are plain frames on the protobuf channel.
   */
  method DoAuth(device: MiWearDevice, env: AuthEnv, v: RequestRun<VerifyReply>, c: RequestRun<ConfirmReply>)
    returns (end: AuthEnd)
    requires device.maxFrameSize > 0
    modifies device
    ensures var t := DoAuthSpec(old(device.authKey), old(device.Link()), device.maxFrameSize, env, v, c);
      end == t.end && device.Link() == t.link
      && device.secKeys == (if t.keys.Some? then t.keys else old(device.secKeys))
    ensures device.authKey == old(device.authKey) && device.recvBuffer == old(device.recvBuffer)
      && device.pendingAck == old(device.pendingAck) && device.pendingProto == old(device.pendingProto)
      && device.subscribers == old(device.subscribers) && device.networkRunning == old(device.networkRunning)
      && device.isSendingMass == old(device.isSendingMass)
  {
    hide Encode, FragmentWrites, SessionKeys, Step2Outcome;
    // Plain frames are not encrypted; the cipher is never applied.
    var aes: AesCtrFn := (k, n, d) => d;
    var seq1, r1 := device.Request(Pb, Plain, env.verifyPayload, aes, v.failAt, v.wait, v.reply);
    if r1.Err? {
      return Returned(Err(r1.error));
    }
    match r1.value
    case VerifyNotProtobuf => return Returned(Err(PACKET_TYPE_ERROR));
    case VerifyOtherType => return Returned(Ok(()));
    case VerifyMissingPayload => return Panic;
    case VerifyNotAccount => return Returned(Err(NO_ACCOUNT));
    case VerifyNotDeviceVerify => return Returned(Err(NO_DEVICE_VERIFY));
    case VerifyDeviceVerify(dv) =>
      var step2 := BuildAuthStep2(device, env.nonce, dv, env.hmac, env.ccm, env.companion);
      match step2
      case Failed(m) => return Returned(Err(m));
      case Panicked => return Panic;
      case Confirmed(conf) =>
        end := SendConfirm(device, env.encodeConfirm(conf), c);
  }

  /** The confirm request of `do_auth` and the reading of its reply. */
  method SendConfirm(device: MiWearDevice, payload: seq<byte>, c: RequestRun<ConfirmReply>) returns (end: AuthEnd)
    requires device.maxFrameSize > 0
    modifies device
    ensures var t := ConfirmSpec(old(device.secKeys), old(device.Link()), device.maxFrameSize, payload, c);
      end == t.end && device.Link() == t.link
    ensures device.secKeys == old(device.secKeys) && device.authKey == old(device.authKey)
      && device.recvBuffer == old(device.recvBuffer)
      && device.pendingAck == old(device.pendingAck) && device.pendingProto == old(device.pendingProto)
      && device.subscribers == old(device.subscribers) && device.networkRunning == old(device.networkRunning)
      && device.isSendingMass == old(device.isSendingMass)
  {
    hide Encode, FragmentWrites;
    // Plain frames are not encrypted; the cipher is never applied.
    var aes: AesCtrFn := (k, n, d) => d;
    var seqNo, r := device.Request(Pb, Plain, payload, aes, c.failAt, c.wait, c.reply);
    if r.Err? {
      return Returned(Err(r.error));
    }
    match r.value
    case ConfirmNotProtobuf => return Returned(Err(PACKET_TYPE_ERROR));
    case ConfirmMissingPayload => return Panic;
    case ConfirmProtobuf => return Returned(Ok(()));
  }

  /* ---- start_auth ---- */

  const ALREADY_AUTHENTICATED := "The device has been authenticated"

  /**
   * `start_auth` (a method of the device in the source): an authenticated
   * device is refused and nothing changes. Otherwise the key is stored and
   * the handshake runs; unless its task panicked, the device's state is then
   * written to the configuration, whatever the handshake returned, and its
   * result is returned.
   */
  method StartAuth(device: MiWearDevice, key: string, env: AuthEnv, v: RequestRun<VerifyReply>, c: RequestRun<ConfirmReply>,
                   store: Config.ConfigStore<AppConfig>, persistOk: bool)
    returns (end: AuthEnd)
    requires device.maxFrameSize > 0
    modifies device, store
    ensures old(device.secKeys).Some? ==>
      end == Returned(Err(ALREADY_AUTHENTICATED)) && unchanged(device) && unchanged(store)
    ensures old(device.secKeys).None? ==>
      var t := DoAuthSpec(key, old(device.Link()), device.maxFrameSize, env, v, c);
      device.authKey == key && end == t.end && device.secKeys == t.keys && device.Link() == t.link
      && (end.Panic? ==> unchanged(store))
      && (end.Returned? ==>
            store.config == SaveState(old(store.config), device.State())
            && store.persisted == (if persistOk then Some(store.config) else old(store.persisted)))
    ensures device.recvBuffer == old(device.recvBuffer)
      && device.pendingAck == old(device.pendingAck) && device.pendingProto == old(device.pendingProto)
      && device.subscribers == old(device.subscribers) && device.networkRunning == old(device.networkRunning)
      && device.isSendingMass == old(device.isSendingMass)
  {
    if device.secKeys.Some? {
      return Returned(Err(ALREADY_AUTHENTICATED));
    }
    device.authKey := key;
    end := DoAuth(device, env, v, c);
    if end.Panic? {
      return;
    }
    var st := device.State();
    var _ := store.Write((cfg: AppConfig) => (SaveState(cfg, st), ()), persistOk);
  }
}

=== FILE: btrecv.dfy ===
/**
 * The receive path (`handle_bt_packet`): a batch of bytes from the link is
 * either the hello frame, or a run of MiWear frames each of which is
 * dispatched by type. Data frames are mapped to a payload kind by channel,
 * handed to whoever waits for them, and acknowledged.
 *
 * What the handler does to the outside world is returned as a list of
 * effects; the device's waiter tables and written frames, and the command
 * queue, are updated in place.
 */
module BtRecv {
  import opened Wrappers
  import opened Bytes
  import opened Strings
  import opened Crypto
  import opened Tools
  import opened Packet
  import opened Device
  import opened CommandPool
  import opened Dhcp

  /** A decoded protobuf `WearPacket`: the fields the dispatcher looks at, and the rest. */
  datatype WearPacket = WearPacket(pbType: u32, id: u32, body: seq<byte>)

  /** `PacketData`: what a Data frame's content is taken to be. */
  datatype PacketData =
    | Protobuf(wp: WearPacket)
    | DataBytes(content: seq<byte>)
    | NetworkBytes(content: seq<byte>)
    | Unsupported(content: seq<byte>)

  /**
   * The channel → payload-kind mapping; None when a Pb payload does not
   * decode as a protobuf.
   */
  function ToPacketData(channel: Channel, content: seq<byte>, decodePb: seq<byte> -> Option<WearPacket>): (r: Option<PacketData>)
    ensures r.None? <==> channel == Pb && decodePb(content).None?
    ensures r.Some? ==>
      (r.value.Protobuf? <==> channel == Pb)
      && (r.value.DataBytes? <==> channel == Mass || channel == FileFitness)
      && (r.value.NetworkBytes? <==> channel == NetWork)
    ensures r.Some? && r.value.Protobuf? ==> decodePb(content) == Some(r.value.wp)
    ensures r.Some? && !r.value.Protobuf? ==> r.value.content == content
  {
    match channel
    case Pb => if decodePb(content).Some? then Some(Protobuf(decodePb(content).value)) else None
    case Mass => Some(DataBytes(content))
    case FileFitness => Some(DataBytes(content))
    case NetWork => Some(NetworkBytes(content))
    case _ => Some(Unsupported(content))
  }

  /* ---- the ACK frame ---- */

  /** `format!("a5a501{:02x}00000000", seq)` */
  function AckHex(seqNo: byte): string {
    "a5a501" + ToHexString([seqNo]) + "00000000"
  }

  lemma {:induction false} ToHexStringAppend(a: seq<byte>, b: seq<byte>)
    ensures ToHexString(a + b) == ToHexString(a) + ToHexString(b)
    decreases |a|
  {
    if |a| > 0 {
      assert (a + b)[1..] == a[1..] + b;
      ToHexStringAppend(a[1..], b);
    } else {
      assert a + b == b;
    }
  }

  lemma HexAckHead()
    ensures ToHexString([0xA5, 0xA5, 0x01]) == "a5a501"
  {
    var r := ToHexString([0xA5, 0xA5, 0x01]);
    assert r[0] == 'a' && r[1] == '5' && r[2] == 'a' && r[3] == '5' && r[4] == '0' && r[5] == '1';
  }

  lemma HexZeros()
    ensures ToHexString([0, 0, 0, 0]) == "00000000"
  {
    var r := ToHexString([0, 0, 0, 0]);
    assert forall i :: 0 <= i < 8 ==> r[i] == '0';
  }

  /** The eight bytes of an empty Ack frame for `seqNo`. */
  function AckFrame(seqNo: byte): seq<byte> {
    [0xA5, 0xA5, 0x01, seqNo, 0, 0, 0, 0]
  }

  /** The ACK text parses to `A5 A5 01 <seq> 00 00 00 00`, which is the encoding of an empty Ack packet. */
  lemma AckFrameBytes(seqNo: byte)
    ensures HexStreamToBytes(AckHex(seqNo)) == Ok([0xA5, 0xA5, 0x01, seqNo, 0, 0, 0, 0])
    ensures HexStreamToBytes(AckHex(seqNo)) == Ok(Encode(MiWearPacket(PktType.Ack, seqNo, [])))
  {
    AckHexIsFrame(seqNo);
    AckEncoding(seqNo);
    assert AckFrame(seqNo) == [0xA5, 0xA5, 0x01, seqNo, 0, 0, 0, 0];
    hide *;
    HexRoundTrip(AckFrame(seqNo));
  }

  lemma AckHexIsFrame(seqNo: byte)
    ensures ToHexString(AckFrame(seqNo)) == AckHex(seqNo)
  {
    var head: seq<byte> := [0xA5, 0xA5, 0x01];
    var zeros: seq<byte> := [0, 0, 0, 0];
    ToHexStringAppend(head, [seqNo] + zeros);
    ToHexStringAppend([seqNo], zeros);
    HexAckHead();
    HexZeros();
    assert head + ([seqNo] + zeros) == AckFrame(seqNo);
  }

  lemma AckEncoding(seqNo: byte)
    ensures Encode(MiWearPacket(PktType.Ack, seqNo, [])) == AckFrame(seqNo)
  {
    Crc16Empty();
    var e := Encode(MiWearPacket(PktType.Ack, seqNo, []));
    assert e[4..6] == U16Le(0) && e[6..8] == U16Le(0);
    assert e[4] == 0 && e[5] == 0 && e[6] == 0 && e[7] == 0;
  }

  /* ---- the hello frame ---- */

  /** Two hex digits name one byte. */
  lemma HexPair(b: byte, v: byte)
    ensures LowerHexDigit(b / 16) == LowerHexDigit(v / 16) && LowerHexDigit(b % 16) == LowerHexDigit(v % 16) <==> b == v
  {
    LowerHexDigitVal(b / 16);
    LowerHexDigitVal(v / 16);
    LowerHexDigitVal(b % 16);
    LowerHexDigitVal(v % 16);
  }

  lemma HexHelloMagic()
    ensures ToHexString([0xBA, 0xDC, 0xFE]) == "badcfe"
  {
    var r := ToHexString([0xBA, 0xDC, 0xFE]);
    assert r[0] == 'b' && r[1] == 'a' && r[2] == 'd' && r[3] == 'c' && r[4] == 'f' && r[5] == 'e';
  }

  /** The hex text starts with "badcfe" exactly when the bytes start with BA DC FE. */
  lemma HelloPrefix(data: seq<byte>)
    ensures StartsWith(ToHexString(data), "badcfe") <==> |data| >= 3 && data[..3] == [0xBA, 0xDC, 0xFE]
  {
    hide ToHexString, HexStreamToBytes;
    var h := ToHexString(data);
    if |data| >= 3 {
      var magic: seq<byte> := [0xBA, 0xDC, 0xFE];
      var head := data[..3];
      assert data == head + data[3..];
      ToHexStringAppend(head, data[3..]);
      HexHelloMagic();
      assert h[..6] == ToHexString(head);
      if ToHexString(head) == ToHexString(magic) {
        HexRoundTrip(head);
        HexRoundTrip(magic);
      }
    }
  }

  /* ---- the session-config reply ---- */

  /** The hello frame `hello_packet` writes, as it spells it in hex. */
  const HELLO_HEX := "badcfe00c00300000100ef"

  /** Its 11 bytes; the first three are the BA DC FE that marks a hello batch. */
  const HELLO: seq<byte> := [0xBA, 0xDC, 0xFE, 0x00, 0xC0, 0x03, 0x00, 0x00, 0x01, 0x00, 0xEF]

  /** The reply to the hello frame, as `session_config_packet` spells it in hex. */
  const SESSION_CONFIG_HEX := "a5a5020016001d4d" + "0101030001000002020000" + "fc03020020000402001027"

  /** Its header: magic, type 2 (SessionConfig), seq 0, length 22, CRC 0x4D1D. */
  const SESSION_CONFIG_HEAD: seq<byte> := [0xA5, 0xA5, 0x02, 0x00, 0x16, 0x00, 0x1D, 0x4D]

  /** Its body: the session parameters the phone announces. */
  const SESSION_CONFIG_BODY: seq<byte> :=
    [0x01, 0x01, 0x03, 0x00, 0x01, 0x00, 0x00, 0x02, 0x02, 0x00, 0x00, 0xFC, 0x03, 0x02, 0x00, 0x20, 0x00, 0x04, 0x02, 0x00, 0x10, 0x27]

  /** The 30 bytes of the reply. */
  const SESSION_CONFIG: seq<byte> := SESSION_CONFIG_HEAD + SESSION_CONFIG_BODY

  /** Register values while computing the CRC of the body. */
  const SessionConfigRegs: seq<bv16> :=
    [0x0000, 0xC0C1, 0x50C0, 0x5110, 0xCC50, 0xFC0D, 0xC53D, 0xD104, 0x0251, 0x3D42, 0x31BD, 0x71F1, 0xC5B0, 0xB584, 0xA234, 0xD7A3, 0xA196, 0x6E21, 0xDBAF, 0xBD1A, 0xCB3C, 0xDDCA, 0x4D1D]

  lemma SessionConfigByte0()
    ensures CrcByte(SessionConfigRegs[0], SESSION_CONFIG_BODY[0]) == SessionConfigRegs[1]
  {
    HalfBytes(0x0000, 0x01, 0x0001, 0xCC01, 0xC0C1);
  }

  lemma SessionConfigByte1()
    ensures CrcByte(SessionConfigRegs[1], SESSION_CONFIG_BODY[1]) == SessionConfigRegs[2]
  {
    HalfBytes(0xC0C1, 0x01, 0xC0C0, 0x0C0C, 0x50C0);
  }

  lemma SessionConfigByte2()
    ensures CrcByte(SessionConfigRegs[2], SESSION_CONFIG_BODY[2]) == SessionConfigRegs[3]
  {
    HalfBytes(0x50C0, 0x03, 0x50C3, 0x110C, 0x5110);
  }

  lemma SessionConfigByte3()
    ensures CrcByte(SessionConfigRegs[3], SESSION_CONFIG_BODY[3]) == SessionConfigRegs[4]
  {
    HalfBytes(0x5110, 0x00, 0x5110, 0x0511, 0xCC50);
  }

  lemma SessionConfigByte4()
    ensures CrcByte(SessionConfigRegs[4], SESSION_CONFIG_BODY[4]) == SessionConfigRegs[5]
  {
    HalfBytes(0xCC50, 0x01, 0xCC51, 0xC0C4, 0xFC0D);
  }

  lemma SessionConfigByte5()
    ensures CrcByte(SessionConfigRegs[5], SESSION_CONFIG_BODY[5]) == SessionConfigRegs[6]
  {
    HalfBytes(0xFC0D, 0x00, 0xFC0D, 0x93C1, 0xC53D);
  }

  lemma SessionConfigByte6()
    ensures CrcByte(SessionConfigRegs[6], SESSION_CONFIG_BODY[6]) == SessionConfigRegs[7]
  {
    HalfBytes(0xC53D, 0x00, 0xC53D, 0x9052, 0xD104);
  }

  lemma SessionConfigByte7()
    ensures CrcByte(SessionConfigRegs[7], SESSION_CONFIG_BODY[7]) == SessionConfigRegs[8]
  {
    HalfBytes(0xD104, 0x02, 0xD106, 0x2510, 0x0251);
  }

  lemma SessionConfigByte8()
    ensures CrcByte(SessionConfigRegs[8], SESSION_CONFIG_BODY[8]) == SessionConfigRegs[9]
  {
    HalfBytes(0x0251, 0x02, 0x0253, 0x1425, 0x3D42);
  }

  lemma SessionConfigByte9()
    ensures CrcByte(SessionConfigRegs[9], SESSION_CONFIG_BODY[9]) == SessionConfigRegs[10]
  {
    HalfBytes(0x3D42, 0x00, 0x3D42, 0xDBD5, 0x31BD);
  }

  lemma SessionConfigByte10()
    ensures CrcByte(SessionConfigRegs[10], SESSION_CONFIG_BODY[10]) == SessionConfigRegs[11]
  {
    HalfBytes(0x31BD, 0x00, 0x31BD, 0x9F1A, 0x71F1);
  }

  lemma SessionConfigByte11()
    ensures CrcByte(SessionConfigRegs[11], SESSION_CONFIG_BODY[11]) == SessionConfigRegs[12]
  {
    HalfBytes(0x71F1, 0xFC, 0x710D, 0x9B11, 0xC5B0);
  }

  lemma SessionConfigByte12()
    ensures CrcByte(SessionConfigRegs[12], SESSION_CONFIG_BODY[12]) == SessionConfigRegs[13]
  {
    HalfBytes(0xC5B0, 0x03, 0xC5B3, 0x185B, 0xB584);
  }

  lemma SessionConfigByte13()
    ensures CrcByte(SessionConfigRegs[13], SESSION_CONFIG_BODY[13]) == SessionConfigRegs[14]
  {
    HalfBytes(0xB584, 0x02, 0xB586, 0x2358, 0xA234);
  }

  lemma SessionConfigByte14()
    ensures CrcByte(SessionConfigRegs[14], SESSION_CONFIG_BODY[14]) == SessionConfigRegs[15]
  {
    HalfBytes(0xA234, 0x00, 0xA234, 0xFA22, 0xD7A3);
  }

  lemma SessionConfigByte15()
    ensures CrcByte(SessionConfigRegs[15], SESSION_CONFIG_BODY[15]) == SessionConfigRegs[16]
  {
    HalfBytes(0xD7A3, 0x20, 0xD783, 0x1978, 0xA196);
  }

  lemma SessionConfigByte16()
    ensures CrcByte(SessionConfigRegs[16], SESSION_CONFIG_BODY[16]) == SessionConfigRegs[17]
  {
    HalfBytes(0xA196, 0x00, 0xA196, 0x2219, 0x6E21);
  }

  lemma SessionConfigByte17()
    ensures CrcByte(SessionConfigRegs[17], SESSION_CONFIG_BODY[17]) == SessionConfigRegs[18]
  {
    HalfBytes(0x6E21, 0x04, 0x6E25, 0x3AE2, 0xDBAF);
  }

  lemma SessionConfigByte18()
    ensures CrcByte(SessionConfigRegs[18], SESSION_CONFIG_BODY[18]) == SessionConfigRegs[19]
  {
    HalfBytes(0xDBAF, 0x02, 0xDBAD, 0x91BB, 0xBD1A);
  }

  lemma SessionConfigByte19()
    ensures CrcByte(SessionConfigRegs[19], SESSION_CONFIG_BODY[19]) == SessionConfigRegs[20]
  {
    HalfBytes(0xBD1A, 0x00, 0xBD1A, 0x73D1, 0xCB3C);
  }

  lemma SessionConfigByte20()
    ensures CrcByte(SessionConfigRegs[20], SESSION_CONFIG_BODY[20]) == SessionConfigRegs[21]
  {
    HalfBytes(0xCB3C, 0x10, 0xCB2C, 0x5CB2, 0xDDCA);
  }

  lemma SessionConfigByte21()
    ensures CrcByte(SessionConfigRegs[21], SESSION_CONFIG_BODY[21]) == SessionConfigRegs[22]
  {
    HalfBytes(0xDDCA, 0x27, 0xDDED, 0x91DF, 0x4D1D);
  }


  lemma SessionConfigCrcStep(i: nat)
    requires i < 22
    ensures CrcByte(SessionConfigRegs[i], SESSION_CONFIG_BODY[i]) == SessionConfigRegs[i + 1]
  {
    if i == 0 { SessionConfigByte0(); }
    else if i == 1 { SessionConfigByte1(); }
    else if i == 2 { SessionConfigByte2(); }
    else if i == 3 { SessionConfigByte3(); }
    else if i == 4 { SessionConfigByte4(); }
    else if i == 5 { SessionConfigByte5(); }
    else if i == 6 { SessionConfigByte6(); }
    else if i == 7 { SessionConfigByte7(); }
    else if i == 8 { SessionConfigByte8(); }
    else if i == 9 { SessionConfigByte9(); }
    else if i == 10 { SessionConfigByte10(); }
    else if i == 11 { SessionConfigByte11(); }
    else if i == 12 { SessionConfigByte12(); }
    else if i == 13 { SessionConfigByte13(); }
    else if i == 14 { SessionConfigByte14(); }
    else if i == 15 { SessionConfigByte15(); }
    else if i == 16 { SessionConfigByte16(); }
    else if i == 17 { SessionConfigByte17(); }
    else if i == 18 { SessionConfigByte18(); }
    else if i == 19 { SessionConfigByte19(); }
    else if i == 20 { SessionConfigByte20(); }
    else { SessionConfigByte21(); }
  }

  lemma {:induction false} SessionConfigCrcPrefix(n: nat)
    requires n <= 22
    ensures Crc16(SESSION_CONFIG_BODY[..n]) == SessionConfigRegs[n]
    decreases n
  {
    if n > 0 {
      SessionConfigCrcPrefix(n - 1);
      Crc16Snoc(SESSION_CONFIG_BODY, n - 1);
      SessionConfigCrcStep(n - 1);
    }
  }

  /** The CRC-16/ARC of the body is the 0x4D1D the header carries. */
  lemma SessionConfigCrc()
    ensures Crc16Value(SESSION_CONFIG_BODY) == 0x4D1D
  {
    SessionConfigCrcPrefix(22);
    assert SESSION_CONFIG_BODY[..22] == SESSION_CONFIG_BODY;
  }

  /** The reply is a well-formed SessionConfig frame with seq 0 and a 22-byte body. */
  lemma SessionConfigEncoded()
    ensures SESSION_CONFIG == Encode(MiWearPacket(PktType.SessionConfig, 0, SESSION_CONFIG_BODY))
  {
    SessionConfigCrc();
    hide Crc16Value, Crc16;
    var p := MiWearPacket(PktType.SessionConfig, 0, SESSION_CONFIG_BODY);
    assert U16Le(|p.body| % 0x1_0000) == [0x16, 0x00];
    assert U16Le(Crc16Value(p.body)) == [0x1D, 0x4D];
    assert MAGIC + [PktTypeCode(p.pktType), p.seqNo] + [0x16, 0x00] + [0x1D, 0x4D] == SESSION_CONFIG_HEAD;
  }

  /**
   * The reply is what its hex spells, and the packet parser reads it back as
   * that SessionConfig frame.
   */
  lemma SessionConfigFrame()
    ensures HexStreamToBytes(SESSION_CONFIG_HEX) == Ok(SESSION_CONFIG)
    ensures Parse(SESSION_CONFIG) == Ok(MiWearPacket(PktType.SessionConfig, 0, SESSION_CONFIG_BODY))
  {
    hide ToHexString, HexStreamToBytes, Encode, Parse;
    SessionConfigHexMatches();
    HexRoundTrip(SESSION_CONFIG);
    var p := MiWearPacket(PktType.SessionConfig, 0, SESSION_CONFIG_BODY);
    SessionConfigEncoded();
    ParseEncode(p, []);
    assert Encode(p) + [] == Encode(p);
  }

  lemma HexDigitsAt(data: seq<byte>, i: nat, hi: char, lo: char)
    requires i < |data|
    requires LowerHexDigit(data[i] / 16) == hi && LowerHexDigit(data[i] % 16) == lo
    ensures ToHexString(data)[2 * i] == hi && ToHexString(data)[2 * i + 1] == lo
  {
  }

  lemma SessionConfigHexHead()
    ensures ToHexString(SESSION_CONFIG_HEAD) == "a5a5020016001d4d"
  {
    hide ToHexString;
    var d := SESSION_CONFIG_HEAD;
    HexDigitsAt(d, 0, 'a', '5');
    HexDigitsAt(d, 1, 'a', '5');
    HexDigitsAt(d, 2, '0', '2');
    HexDigitsAt(d, 3, '0', '0');
    HexDigitsAt(d, 4, '1', '6');
    HexDigitsAt(d, 5, '0', '0');
    HexDigitsAt(d, 6, '1', 'd');
    HexDigitsAt(d, 7, '4', 'd');
  }

  lemma SessionConfigHexLow()
    ensures ToHexString(SESSION_CONFIG_BODY[..11]) == "0101030001000002020000"
  {
    hide ToHexString;
    var d := SESSION_CONFIG_BODY[..11];
    HexDigitsAt(d, 0, '0', '1');
    HexDigitsAt(d, 1, '0', '1');
    HexDigitsAt(d, 2, '0', '3');
    HexDigitsAt(d, 3, '0', '0');
    HexDigitsAt(d, 4, '0', '1');
    HexDigitsAt(d, 5, '0', '0');
    HexDigitsAt(d, 6, '0', '0');
    HexDigitsAt(d, 7, '0', '2');
    HexDigitsAt(d, 8, '0', '2');
    HexDigitsAt(d, 9, '0', '0');
    HexDigitsAt(d, 10, '0', '0');
  }

  lemma SessionConfigHexHigh()
    ensures ToHexString(SESSION_CONFIG_BODY[11..]) == "fc03020020000402001027"
  {
    hide ToHexString;
    var d := SESSION_CONFIG_BODY[11..];
    HexDigitsAt(d, 0, 'f', 'c');
    HexDigitsAt(d, 1, '0', '3');
    HexDigitsAt(d, 2, '0', '2');
    HexDigitsAt(d, 3, '0', '0');
    HexDigitsAt(d, 4, '2', '0');
    HexDigitsAt(d, 5, '0', '0');
    HexDigitsAt(d, 6, '0', '4');
    HexDigitsAt(d, 7, '0', '2');
    HexDigitsAt(d, 8, '0', '0');
    HexDigitsAt(d, 9, '1', '0');
    HexDigitsAt(d, 10, '2', '7');
  }

  lemma SessionConfigHexMatches()
    ensures ToHexString(SESSION_CONFIG) == SESSION_CONFIG_HEX
  {
    hide ToHexString;
    SessionConfigHexHead();
    SessionConfigHexLow();
    SessionConfigHexHigh();
    var body := SESSION_CONFIG_BODY;
    assert body == body[..11] + body[11..];
    ToHexStringAppend(body[..11], body[11..]);
    ToHexStringAppend(SESSION_CONFIG_HEAD, body);
  }

  /** The hello hex decodes to the hello frame, which begins with the hello marker BA DC FE. */
  lemma HelloFrame()
    ensures HexStreamToBytes(HELLO_HEX) == Ok(HELLO)
    ensures |HELLO| >= 3 && HELLO[..3] == [0xBA, 0xDC, 0xFE]
  {
    hide ToHexString, HexStreamToBytes;
    var d := HELLO;
    HexDigitsAt(d, 0, 'b', 'a');
    HexDigitsAt(d, 1, 'd', 'c');
    HexDigitsAt(d, 2, 'f', 'e');
    HexDigitsAt(d, 3, '0', '0');
    HexDigitsAt(d, 4, 'c', '0');
    HexDigitsAt(d, 5, '0', '3');
    HexDigitsAt(d, 6, '0', '0');
    HexDigitsAt(d, 7, '0', '0');
    HexDigitsAt(d, 8, '0', '1');
    HexDigitsAt(d, 9, '0', '0');
    HexDigitsAt(d, 10, 'e', 'f');
    assert ToHexString(HELLO) == HELLO_HEX;
    HexRoundTrip(HELLO);
  }

  /* ---- the specification of the dispatch ---- */

  /** What handling does outside the device and the queue. */
  datatype Effect =
    | SessionConfigSent
    | ParseFailed(error: string)
    | AckDelivered(seqNo: byte)
    | ReplyDelivered(seqNo: byte, data: PacketData)
    | ProtoDelivered(key: ProtoKey)
    | SubscriberCalled(callback: nat, wp: WearPacket)
    | DhcpAnswered(reply: seq<byte>)
    | ForwardedToStack(packet: seq<byte>)
    | StackNotRunning
    | PbDecodeFailed
    | AckSent(seqNo: byte)
    | Panic(reason: string)

  /** The library calls and link answers the handler depends on. */
  datatype RecvCodecs = RecvCodecs(
    decodePb: seq<byte> -> Option<WearPacket>,
    aes: AesCtrFn,
    dhcp: DhcpCodec,
    ackFails: bool,
    helloFails: bool)

  const PANIC_DATA_FIELDS := "data_fields() returned None"
  const PANIC_KEYS := "security keys missing"
  const PANIC_DHCP := "DHCP offset out of range"
  const PANIC_ACK := "ACK write failed"
  const PANIC_HELLO := "session config write failed"

  /** What the handler reads and does not change. */
  datatype RecvEnv = RecvEnv(
    keys: Option<SecurityKeys>, subscribers: map<u32, seq<nat>>, networkRunning: bool,
    priority: seq<Channel>, codecs: RecvCodecs)

  /** What the handler changes: the device's waiter tables and writes, and the command queue. */
  datatype RecvState = RecvState(
    pendingSeq: set<byte>, pendingAck: bool, pendingProto: set<ProtoKey>,
    written: seq<seq<byte>>, queue: seq<Command>)

  /** The outcome of handling: the new state, the effects in order, and whether handling ended early. */
  datatype Step = Step(st: RecvState, effects: seq<Effect>, stop: bool)

  function EnvOf(device: MiWearDevice, pool: Pool, codecs: RecvCodecs): RecvEnv
    reads device, pool
  {
    RecvEnv(device.secKeys, device.subscribers, device.networkRunning, pool.priority, codecs)
  }

  function StateOf(device: MiWearDevice, pool: Pool): RecvState
    reads device, pool
  {
    RecvState(device.pendingSeq, device.pendingAck, device.pendingProto, device.written, pool.queue)
  }

  /** The content of a Data frame: decrypted with the device's dec key when encrypted; None when an unwrap panics. */
  function DataContent(keys: Option<SecurityKeys>, aes: AesCtrFn, payload: PacketPayload): (r: Option<seq<byte>>)
    ensures payload.opcode == Plain ==> r == Some(payload.data)
    ensures payload.opcode == Encrypted ==> (r.Some? <==> keys.Some? && |keys.value.decKey| == 16)
  {
    if payload.opcode == Plain then Some(payload.data)
    else if keys.None? || |keys.value.decKey| != 16 then None
    else
      var k: Digest16 := keys.value.decKey;
      Some(aes(k, k, payload.data))
  }

  function Subscribers(env: RecvEnv, pbType: u32): seq<nat> {
    if pbType in env.subscribers then env.subscribers[pbType] else []
  }

  /** One call per subscriber, in registration order. */
  function SubscriberCalls(subs: seq<nat>, wp: WearPacket): seq<Effect> {
    seq(|subs|, i requires 0 <= i < |subs| => SubscriberCalled(subs[i], wp))
  }

  /** A decoded protobuf wakes its (type, id) waiter, then every subscriber of its type. */
  function ProtoStep(env: RecvEnv, st: RecvState, wp: WearPacket): Step {
    var key := ProtoKey(wp.pbType, wp.id);
    Step(st.(pendingProto := st.pendingProto - {key}),
         (if key in st.pendingProto then [ProtoDelivered(key)] else []) + SubscriberCalls(Subscribers(env, wp.pbType), wp),
         false)
  }

  /** A network packet goes to the DHCP server, and to the network stack when DHCP did not claim it. */
  function NetworkStep(env: RecvEnv, st: RecvState, packet: seq<byte>): Step {
    match DhcpDecision(packet, env.codecs.dhcp)
    case Panicked => Step(st, [Panic(PANIC_DHCP)], true)
    case Handled(reply) =>
      Step(st.(queue := Inserted(env.priority, st.queue, Command(NetWork, Plain, reply, Send, None))), [DhcpAnswered(reply)], false)
    case NotHandled =>
      Step(st, if env.networkRunning then [ForwardedToStack(packet)] else [StackNotRunning], false)
  }

  /** The session-config reply written for a hello frame; a failed write panics. */
  function HelloStep(env: RecvEnv, st: RecvState): Step {
    Step(st.(written := st.written + [SESSION_CONFIG]),
         if env.codecs.helloFails then [Panic(PANIC_HELLO)] else [SessionConfigSent],
         env.codecs.helloFails)
  }

  /** The ACK written for a handled Data frame; a failed write panics. */
  function AckStep(env: RecvEnv, st: RecvState, seqNo: byte): Step {
    Step(st.(written := st.written + [Encode(MiWearPacket(PktType.Ack, seqNo, []))]),
         if env.codecs.ackFails then [Panic(PANIC_ACK)] else [AckSent(seqNo)],
         env.codecs.ackFails)
  }

  /** What happens to a Data frame's payload once its kind is known. */
  function DeliverStep(env: RecvEnv, st: RecvState, seqNo: byte, pd: PacketData): Step {
    var woken := if seqNo in st.pendingSeq then [ReplyDelivered(seqNo, pd)] else [];
    var st1 := st.(pendingSeq := st.pendingSeq - {seqNo});
    var proto := if pd.Protobuf? then ProtoStep(env, st1, pd.wp) else Step(st1, [], false);
    var net := if pd.NetworkBytes? then NetworkStep(env, proto.st, pd.content) else Step(proto.st, [], false);
    if net.stop then Step(net.st, woken + proto.effects + net.effects, true)
    else
      var ack := AckStep(env, net.st, seqNo);
      Step(ack.st, woken + proto.effects + net.effects + ack.effects, ack.stop)
  }

  /** The dispatch of one packet by type. */
  function HandlePacket(env: RecvEnv, st: RecvState, p: MiWearPacket): Step {
    match p.pktType
    case Ack =>
      if st.pendingAck then Step(st.(pendingAck := false), [AckDelivered(p.seqNo)], false)
      else Step(st, [], false)
    case SessionConfig => Step(st, [], false)
    case Data =>
      match DataFields(p)
      case None => Step(st, [Panic(PANIC_DATA_FIELDS)], true)
      case Some(payload) =>
        match DataContent(env.keys, env.codecs.aes, payload)
        case None => Step(st, [Panic(PANIC_KEYS)], true)
        case Some(content) =>
          match ToPacketData(payload.channel, content, env.codecs.decodePb)
          case None => Step(st, [PbDecodeFailed], true)
          case Some(pd) => DeliverStep(env, st, p.seqNo, pd)
  }

  /** The packets in order, until one ends the handling. */
  function HandleAll(env: RecvEnv, st: RecvState, ps: seq<MiWearPacket>): Step
    decreases |ps|
  {
    if |ps| == 0 then Step(st, [], false)
    else
      var first := HandlePacket(env, st, ps[0]);
      if first.stop then first
      else
        var rest := HandleAll(env, first.st, ps[1..]);
        Step(rest.st, first.effects + rest.effects, rest.stop)
  }

  /** `handle_bt_packet` on one batch of received bytes. */
  function HandleBatch(env: RecvEnv, st: RecvState, data: seq<byte>): Step {
    if StartsWith(ToHexString(data), "badcfe") then HelloStep(env, st)
    else
      match ParseAllSpec(data)
      case Err(e) => Step(st, [ParseFailed(e)], false)
      case Ok(ps) => HandleAll(env, st, ps)
  }

  /* ---- properties of the dispatch ---- */

  /**
   * A batch starting BA DC FE is answered with the session-config frame and
   * nothing else: the frame is written to the link whether or not the write
   * succeeds, a failed write panics, nothing is parsed and no other state changes.
   */
  lemma HelloOnly(env: RecvEnv, st: RecvState, data: seq<byte>)
    requires |data| >= 3 && data[..3] == [0xBA, 0xDC, 0xFE]
    ensures var s := HandleBatch(env, st, data);
      s.st == st.(written := st.written + [SESSION_CONFIG]) &&
      s.effects == (if env.codecs.helloFails then [Panic(PANIC_HELLO)] else [SessionConfigSent]) &&
      s.stop == env.codecs.helloFails
    ensures Parse(HandleBatch(env, st, data).st.written[|st.written|]) ==
      Ok(MiWearPacket(PktType.SessionConfig, 0, SESSION_CONFIG_BODY))
  {
    HelloPrefix(data);
    SessionConfigFrame();
  }

  /** An Ack frame clears the single pending-ACK entry, reporting it only if it was there; SessionConfig changes nothing. */
  lemma AckAndSessionConfig(env: RecvEnv, st: RecvState, seqNo: byte, body: seq<byte>)
    ensures var s := HandlePacket(env, st, MiWearPacket(PktType.Ack, seqNo, body));
      !s.st.pendingAck && s.st == st.(pendingAck := false) && !s.stop
      && (s.effects == [AckDelivered(seqNo)] <==> st.pendingAck)
      && (s.effects == [] <==> !st.pendingAck)
    ensures HandlePacket(env, st, MiWearPacket(SessionConfig, seqNo, body)) == Step(st, [], false)
  {
  }

  /** A Pb payload that does not decode ends the handling: no waiter is woken, nothing is written, no ACK. */
  lemma PbDecodeFailureStops(env: RecvEnv, st: RecvState, seqNo: byte, op: OpCode, payload: seq<byte>)
    requires var c := DataContent(env.keys, env.codecs.aes, PacketPayload(Pb, op, payload));
      c.Some? && env.codecs.decodePb(c.value).None?
    ensures HandlePacket(env, st, NewData(seqNo, Pb, op, payload)) == Step(st, [PbDecodeFailed], true)
  {
    DataFieldsNewData(seqNo, Pb, op, payload);
  }

  /** Once a packet ends the handling, the packets after it are never looked at. */
  lemma {:induction false} HandleAllStopped(env: RecvEnv, st: RecvState, ps: seq<MiWearPacket>, qs: seq<MiWearPacket>)
    requires HandleAll(env, st, ps).stop
    ensures HandleAll(env, st, ps + qs) == HandleAll(env, st, ps)
    decreases |ps|
  {
    assert |ps| > 0;
    assert (ps + qs)[0] == ps[0];
    var first := HandlePacket(env, st, ps[0]);
    if !first.stop {
      assert (ps + qs)[1..] == ps[1..] + qs;
      HandleAllStopped(env, first.st, ps[1..], qs);
    }
  }

  /** A handled Data frame removes the waiter for its seq, waking it exactly when it was pending, before any other effect. */
  lemma DeliverWakesSeqWaiter(env: RecvEnv, st: RecvState, seqNo: byte, pd: PacketData)
    ensures var s := DeliverStep(env, st, seqNo, pd);
      s.st.pendingSeq == st.pendingSeq - {seqNo}
      && (|s.effects| > 0 && s.effects[0] == ReplyDelivered(seqNo, pd) <==> seqNo in st.pendingSeq)
  {
    hide *;
    DeliverStepParts(env, st, seqNo, pd);
    var st1 := st.(pendingSeq := st.pendingSeq - {seqNo});
    var woken := if seqNo in st.pendingSeq then [ReplyDelivered(seqNo, pd)] else [];
    if pd.Protobuf? {
      ProtoStepFrame(env, st1, pd.wp);
    }
    var proto := if pd.Protobuf? then ProtoStep(env, st1, pd.wp) else Step(st1, [], false);
    if pd.NetworkBytes? {
      NetworkStepFrame(env, proto.st, pd.content);
    }
    var net := if pd.NetworkBytes? then NetworkStep(env, proto.st, pd.content) else Step(proto.st, [], false);
    AckStepFrame(env, net.st, seqNo);
    var ack := AckStep(env, net.st, seqNo);
    var rest := proto.effects + net.effects + (if net.stop then [] else ack.effects);
    var s := DeliverStep(env, st, seqNo, pd);
    assert s.effects == woken + rest;
    assert s.st.pendingSeq == st1.pendingSeq;
    if seqNo in st.pendingSeq {
      assert s.effects[0] == ReplyDelivered(seqNo, pd);
    } else if |rest| > 0 {
      assert rest[0] in rest;
      assert s.effects[0] == rest[0];
    }
  }

  /** A handled Data frame is answered with the Ack frame unless the DHCP server panicked first; a failed Ack write ends the handling. */
  lemma DeliverAcknowledges(env: RecvEnv, st: RecvState, seqNo: byte, pd: PacketData)
    ensures var s := DeliverStep(env, st, seqNo, pd);
      var dhcpPanic := pd.NetworkBytes? && DhcpDecision(pd.content, env.codecs.dhcp) == Panicked;
      (dhcpPanic ==> s.st.written == st.written && s.stop)
      && (!dhcpPanic ==>
            s.st.written == st.written + [Encode(MiWearPacket(PktType.Ack, seqNo, []))]
            && (s.stop <==> env.codecs.ackFails)
            && (AckSent(seqNo) in s.effects <==> !env.codecs.ackFails))
  {
    hide *;
    DeliverStepParts(env, st, seqNo, pd);
    var st1 := st.(pendingSeq := st.pendingSeq - {seqNo});
    var woken := if seqNo in st.pendingSeq then [ReplyDelivered(seqNo, pd)] else [];
    if pd.Protobuf? {
      ProtoStepFrame(env, st1, pd.wp);
    }
    var proto := if pd.Protobuf? then ProtoStep(env, st1, pd.wp) else Step(st1, [], false);
    if pd.NetworkBytes? {
      NetworkStepFrame(env, proto.st, pd.content);
    }
    var net := if pd.NetworkBytes? then NetworkStep(env, proto.st, pd.content) else Step(proto.st, [], false);
    if !net.stop {
      AckStepFrame(env, net.st, seqNo);
      var ack := AckStep(env, net.st, seqNo);
      var rest := woken + proto.effects + net.effects;
      assert forall e :: e in rest ==> !e.AckSent?;
      assert DeliverStep(env, st, seqNo, pd).effects == rest + ack.effects;
    }
  }

  /** The three stages of `DeliverStep`, named. */
  lemma DeliverStepParts(env: RecvEnv, st: RecvState, seqNo: byte, pd: PacketData)
    ensures var st1 := st.(pendingSeq := st.pendingSeq - {seqNo});
      var woken := if seqNo in st.pendingSeq then [ReplyDelivered(seqNo, pd)] else [];
      var proto := if pd.Protobuf? then ProtoStep(env, st1, pd.wp) else Step(st1, [], false);
      var net := if pd.NetworkBytes? then NetworkStep(env, proto.st, pd.content) else Step(proto.st, [], false);
      var ack := AckStep(env, net.st, seqNo);
      DeliverStep(env, st, seqNo, pd) ==
        if net.stop then Step(net.st, woken + proto.effects + net.effects, true)
        else Step(ack.st, woken + proto.effects + net.effects + ack.effects, ack.stop)
  {
  }

  /** The Ack stage appends the Ack frame and reports either the send or the panic. */
  lemma AckStepFrame(env: RecvEnv, st: RecvState, seqNo: byte)
    ensures var s := AckStep(env, st, seqNo);
      s.st == st.(written := st.written + [Encode(MiWearPacket(PktType.Ack, seqNo, []))]) &&
      s.effects == (if env.codecs.ackFails then [Panic(PANIC_ACK)] else [AckSent(seqNo)]) &&
      s.stop == env.codecs.ackFails
  {
  }

  /** Protobuf delivery touches only the protobuf waiters and neither wakes a seq waiter nor acknowledges. */
  lemma ProtoStepFrame(env: RecvEnv, st: RecvState, wp: WearPacket)
    ensures var s := ProtoStep(env, st, wp);
      s.st == st.(pendingProto := s.st.pendingProto) && !s.stop &&
      forall e :: e in s.effects ==> !e.ReplyDelivered? && !e.AckSent?
  {
  }

  /** The network path keeps the seq waiters and the written frames, stops exactly on a DHCP panic, and neither wakes a seq waiter nor acknowledges. */
  lemma NetworkStepFrame(env: RecvEnv, st: RecvState, packet: seq<byte>)
    ensures var s := NetworkStep(env, st, packet);
      s.st == st.(queue := s.st.queue) &&
      (s.stop <==> DhcpDecision(packet, env.codecs.dhcp) == Panicked) &&
      forall e :: e in s.effects ==> !e.ReplyDelivered? && !e.AckSent?
  {
  }

  /** A decoded protobuf removes its (type, id) waiter and reaches every subscriber of its type, in registration order. */
  lemma ProtoReachesSubscribers(env: RecvEnv, st: RecvState, seqNo: byte, wp: WearPacket)
    ensures var s := DeliverStep(env, st, seqNo, Protobuf(wp));
      var key := ProtoKey(wp.pbType, wp.id);
      var woken := (if seqNo in st.pendingSeq then 1 else 0) + (if key in st.pendingProto then 1 else 0);
      var subs := Subscribers(env, wp.pbType);
      s.st.pendingProto == st.pendingProto - {key}
      && |s.effects| >= woken + |subs|
      && (forall i :: 0 <= i < |subs| ==> s.effects[woken + i] == SubscriberCalled(subs[i], wp))
  {
    hide *;
    var pd := Protobuf(wp);
    DeliverStepParts(env, st, seqNo, pd);
    var key := ProtoKey(wp.pbType, wp.id);
    var st1 := st.(pendingSeq := st.pendingSeq - {seqNo});
    var woken := if seqNo in st.pendingSeq then [ReplyDelivered(seqNo, pd)] else [];
    ProtoStepParts(env, st1, wp);
    var proto := ProtoStep(env, st1, wp);
    var protoWoken := if key in st1.pendingProto then [ProtoDelivered(key)] else [];
    var calls := SubscriberCalls(Subscribers(env, wp.pbType), wp);
    var net := Step(proto.st, [], false);
    AckStepFrame(env, net.st, seqNo);
    var ack := AckStep(env, net.st, seqNo);
    var s := DeliverStep(env, st, seqNo, pd);
    assert s.effects == (woken + protoWoken) + calls + ack.effects;
    assert s.st.pendingProto == st.pendingProto - {key};
  }

  /** Protobuf delivery wakes the (type, id) waiter, then calls each subscriber of the type in order. */
  lemma ProtoStepParts(env: RecvEnv, st: RecvState, wp: WearPacket)
    ensures var key := ProtoKey(wp.pbType, wp.id);
      var subs := Subscribers(env, wp.pbType);
      var calls := SubscriberCalls(subs, wp);
      var s := ProtoStep(env, st, wp);
      s.st == st.(pendingProto := st.pendingProto - {key}) &&
      s.effects == (if key in st.pendingProto then [ProtoDelivered(key)] else []) + calls &&
      |calls| == |subs| && forall i :: 0 <= i < |subs| ==> calls[i] == SubscriberCalled(subs[i], wp)
  {
  }

  /** A network packet reaches the network stack only when DHCP did not claim it and the stack is running. */
  lemma NetworkForwardedUnlessClaimed(env: RecvEnv, st: RecvState, seqNo: byte, packet: seq<byte>)
    ensures var s := DeliverStep(env, st, seqNo, NetworkBytes(packet));
      (ForwardedToStack(packet) in s.effects <==>
         DhcpDecision(packet, env.codecs.dhcp) == NotHandled && env.networkRunning)
  {
    var s := DeliverStep(env, st, seqNo, NetworkBytes(packet));
    var woken := if seqNo in st.pendingSeq then [ReplyDelivered(seqNo, NetworkBytes(packet))] else [];
    var net := NetworkStep(env, st.(pendingSeq := st.pendingSeq - {seqNo}), packet);
    if net.stop {
      assert s.effects == woken + net.effects;
    } else {
      var ack := AckStep(env, net.st, seqNo);
      assert s.effects == woken + net.effects + ack.effects;
    }
  }

  /* ---- the handler ---- */

  /** The device and pool state the handler never changes. */
  datatype Fixed = Fixed(
    recvBuffer: seq<byte>, seqCounter: byte, authKey: string, keys: Option<SecurityKeys>,
    subscribers: map<u32, seq<nat>>, networkRunning: bool, isSendingMass: bool, priority: seq<Channel>)

  function FixedOf(device: MiWearDevice, pool: Pool): Fixed
    reads device, pool
  {
    Fixed(device.recvBuffer, device.seqCounter, device.authKey, device.secKeys,
          device.subscribers, device.networkRunning, device.isSendingMass, pool.priority)
  }

  /** Calls every subscriber of a decoded protobuf's type, in registration order. */
  method CallSubscribers(subs: seq<nat>, wp: WearPacket) returns (fx: seq<Effect>)
    ensures fx == SubscriberCalls(subs, wp)
  {
    fx := [];
    for i := 0 to |subs|
      invariant fx == SubscriberCalls(subs[..i], wp)
    {
      fx := fx + [SubscriberCalled(subs[i], wp)];
    }
    assert subs[..|subs|] == subs;
  }

  /** Wakes the (type, id) waiter of a decoded protobuf, then calls every subscriber of its type. */
  method DeliverProto(device: MiWearDevice, pool: Pool, wp: WearPacket, codecs: RecvCodecs) returns (fx: seq<Effect>)
    modifies device
    ensures var s := ProtoStep(old(EnvOf(device, pool, codecs)), old(StateOf(device, pool)), wp);
      StateOf(device, pool) == s.st && fx == s.effects
    ensures FixedOf(device, pool) == old(FixedOf(device, pool))
  {
    var key := ProtoKey(wp.pbType, wp.id);
    fx := if key in device.pendingProto then [ProtoDelivered(key)] else [];
    device.pendingProto := device.pendingProto - {key};
    var subs := if wp.pbType in device.subscribers then device.subscribers[wp.pbType] else [];
    var calls := CallSubscribers(subs, wp);
    fx := fx + calls;
  }

  /** Offers a network packet to the DHCP server, and forwards it to the network stack if DHCP did not claim it. */
  method DeliverNetwork(device: MiWearDevice, pool: Pool, packet: seq<byte>, codecs: RecvCodecs)
    returns (fx: seq<Effect>, stop: bool)
    modifies pool
    ensures var s := NetworkStep(old(EnvOf(device, pool, codecs)), old(StateOf(device, pool)), packet);
      StateOf(device, pool) == s.st && fx == s.effects && stop == s.stop
    ensures FixedOf(device, pool) == old(FixedOf(device, pool))
  {
    var outcome := ProcessDhcp(pool, packet, codecs.dhcp);
    match outcome {
      case Panicked =>
        fx, stop := [Panic(PANIC_DHCP)], true;
      case Handled(reply) =>
        fx, stop := [DhcpAnswered(reply)], false;
      case NotHandled =>
        fx := if device.networkRunning then [ForwardedToStack(packet)] else [StackNotRunning];
        stop := false;
    }
  }

  /** Writes the ACK for a handled Data frame; a failed write panics. */
  method SendAck(device: MiWearDevice, pool: Pool, seqNo: byte, codecs: RecvCodecs)
    returns (fx: seq<Effect>, stop: bool)
    modifies device
    ensures var s := AckStep(old(EnvOf(device, pool, codecs)), old(StateOf(device, pool)), seqNo);
      StateOf(device, pool) == s.st && fx == s.effects && stop == s.stop
    ensures FixedOf(device, pool) == old(FixedOf(device, pool))
  {
    var ack := HexStreamToBytes(AckHex(seqNo));
    AckFrameBytes(seqNo);
    var r := device.Send(ack.value, codecs.ackFails);
    if r.Err? {
      return [Panic(PANIC_ACK)], true;
    }
    return [AckSent(seqNo)], false;
  }

  /** Hands a Data frame's payload to its waiters and the network path, then acknowledges the frame. */
  method Deliver(device: MiWearDevice, pool: Pool, seqNo: byte, pd: PacketData, codecs: RecvCodecs)
    returns (fx: seq<Effect>, stop: bool)
    modifies device, pool
    ensures var s := DeliverStep(old(EnvOf(device, pool, codecs)), old(StateOf(device, pool)), seqNo, pd);
      StateOf(device, pool) == s.st && fx == s.effects && stop == s.stop
    ensures FixedOf(device, pool) == old(FixedOf(device, pool))
  {
    hide ProtoStep, NetworkStep, AckStep;
    var found := device.TakeSeqPending(seqNo);
    fx := if found then [ReplyDelivered(seqNo, pd)] else [];
    if pd.Protobuf? {
      var pfx := DeliverProto(device, pool, pd.wp, codecs);
      fx := fx + pfx;
    }
    if pd.NetworkBytes? {
      var nfx, nstop := DeliverNetwork(device, pool, pd.content, codecs);
      fx := fx + nfx;
      if nstop {
        return fx, true;
      }
    }
    var afx, astop := SendAck(device, pool, seqNo, codecs);
    fx := fx + afx;
    stop := astop;
  }

  /** The dispatch of one packet by type. */
  method HandleOne(device: MiWearDevice, pool: Pool, p: MiWearPacket, codecs: RecvCodecs)
    returns (fx: seq<Effect>, stop: bool)
    modifies device, pool
    ensures var s := HandlePacket(old(EnvOf(device, pool, codecs)), old(StateOf(device, pool)), p);
      StateOf(device, pool) == s.st && fx == s.effects && stop == s.stop
    ensures FixedOf(device, pool) == old(FixedOf(device, pool))
  {
    match p.pktType {
      case Ack =>
        fx := if device.pendingAck then [AckDelivered(p.seqNo)] else [];
        device.pendingAck := false;
        stop := false;
      case SessionConfig =>
        fx, stop := [], false;
      case Data =>
        var fields := DataFields(p);
        if fields.None? {
          return [Panic(PANIC_DATA_FIELDS)], true;
        }
        var payload := fields.value;
        var content := payload.data;
        if payload.opcode == Encrypted {
          if device.secKeys.None? {
            return [Panic(PANIC_KEYS)], true;
          }
          var decKey := VecToArray16(device.secKeys.value.decKey);
          if decKey.None? {
            return [Panic(PANIC_KEYS)], true;
          }
          content := codecs.aes(decKey.value, decKey.value, content);
        }
        var pd := ToPacketData(payload.channel, content, codecs.decodePb);
        if pd.None? {
          return [PbDecodeFailed], true;
        }
        fx, stop := Deliver(device, pool, p.seqNo, pd.value, codecs);
    }
  }

  lemma HandleBatchParsed(env: RecvEnv, st: RecvState, data: seq<byte>)
    requires !StartsWith(ToHexString(data), "badcfe") && ParseAllSpec(data).Ok?
    ensures HandleBatch(env, st, data) == HandleAll(env, st, ParseAllSpec(data).value)
  {
  }

  lemma HandleAllEmpty(env: RecvEnv, st: RecvState, ps: seq<MiWearPacket>)
    requires |ps| == 0
    ensures HandleAll(env, st, ps) == Step(st, [], false)
  {
  }

  lemma HandleAllStep(env: RecvEnv, st: RecvState, ps: seq<MiWearPacket>, i: nat)
    requires i < |ps|
    ensures var first := HandlePacket(env, st, ps[i]);
      HandleAll(env, st, ps[i..])
        == if first.stop then first
           else var rest := HandleAll(env, first.st, ps[i + 1..]); Step(rest.st, first.effects + rest.effects, rest.stop)
  {
    assert ps[i..][1..] == ps[i + 1..];
  }

  /**
   * `handle_bt_packet`: the hello frame is answered with the session config;
   * otherwise the batch is parsed and its packets handled in order until one
   * ends the handling. A batch that does not parse is only logged.
   */
  /** `hello_packet`: write the hello frame; a failed write is returned as an error. */
  method StartHello(device: MiWearDevice, fails: bool) returns (r: Result<()>)
    modifies device
    ensures device.written == old(device.written) + [HELLO]
    ensures r.Ok? <==> !fails
    ensures device.Link() == old(device.Link()).(written := device.written)
    ensures device.secKeys == old(device.secKeys) && device.recvBuffer == old(device.recvBuffer)
  {
    var pkt := HexStreamToBytes(HELLO_HEX);
    HelloFrame();
    r := device.Send(pkt.value, fails);
  }

  /** `session_config_packet` followed by `unwrap`: write the reply, panic if the write fails. */
  method SendSessionConfig(device: MiWearDevice, pool: Pool, codecs: RecvCodecs)
    returns (log: seq<Effect>)
    modifies device
    ensures var s := HelloStep(old(EnvOf(device, pool, codecs)), old(StateOf(device, pool)));
      StateOf(device, pool) == s.st && log == s.effects
    ensures FixedOf(device, pool) == old(FixedOf(device, pool))
  {
    var pkt := HexStreamToBytes(SESSION_CONFIG_HEX);
    SessionConfigFrame();
    var r := device.Send(pkt.value, codecs.helloFails);
    if r.Err? {
      return [Panic(PANIC_HELLO)];
    }
    return [SessionConfigSent];
  }

  method HandleBtPacket(device: MiWearDevice, pool: Pool, data: seq<byte>, codecs: RecvCodecs)
    returns (log: seq<Effect>)
    modifies device, pool
    ensures var s := HandleBatch(old(EnvOf(device, pool, codecs)), old(StateOf(device, pool)), data);
      StateOf(device, pool) == s.st && log == s.effects
    ensures FixedOf(device, pool) == old(FixedOf(device, pool))
  {
    hide ParseAllSpec, Parse, Crc16Value, ToHexString, HandlePacket, HandleAll, DeliverStep, Encode, DhcpDecision, Inserted;
    var hex := ToHexString(data);
    if StartsWith(hex, "badcfe") {
      log := SendSessionConfig(device, pool, codecs);
      return;
    }
    var parsed := ParseAll(data);
    if parsed.Err? {
      return [ParseFailed(parsed.error)];
    }
    var ps := parsed.value;
    hide HandleBatch;
    ghost var env := EnvOf(device, pool, codecs);
    ghost var st0 := StateOf(device, pool);
    ghost var fixed := FixedOf(device, pool);
    log := [];
    var i := 0;
    assert ps[0..] == ps;
    while i < |ps|
      invariant i <= |ps|
      invariant FixedOf(device, pool) == fixed && EnvOf(device, pool, codecs) == env
      invariant var rest := HandleAll(env, StateOf(device, pool), ps[i..]);
        HandleAll(env, st0, ps) == Step(rest.st, log + rest.effects, rest.stop)
    {
      HandleAllStep(env, StateOf(device, pool), ps, i);
      var fx, stop := HandleOne(device, pool, ps[i], codecs);
      log := log + fx;
      if stop {
        return;
      }
      i := i + 1;
    }
    HandleAllEmpty(env, StateOf(device, pool), ps[i..]);
    HandleBatchParsed(env, st0, data);
  }
}

=== FILE: btspp_android.dfy ===
/**
 * The Android Bluetooth Classic SPP connection (`BTSpp`): a pool that holds
 * payloads while no send actor is open, a send actor that writes each
 * payload in chunks of at most 512 bytes and then flushes, the one-shot
 * "connected" callback, the ordered socket strategies, and scan
 * de-duplication. The socket, the Android framework and the coroutine
 * scheduler are outside: what they answer is a parameter, and the actor's
 * processing of one payload is its own step.
 */
module AndroidSpp {
  import opened Wrappers
  import opened Bytes

  const MAX_PACKET_SIZE := 512

  /** What the output stream has seen. */
  datatype WireOp = Write(chunk: seq<byte>) | Flush

  /** `sendActor`: none, open with the payloads it has not written yet, or closed after a write error. */
  datatype Actor = NoActor | Running(inbox: seq<seq<byte>>) | Closed

  /** The socket strategies, in the order they are tried. */
  datatype Strategy = Channel5 | Channel1 | SdpUuid

  /** The fields of `BTSpp` the model follows; `posted` lists the callbacks handed to the UI thread. */
  datatype SppState = SppState(
    scanned: seq<string>,
    connectedDevice: Option<string>,
    socketOpen: bool,
    actor: Actor,
    pending: seq<seq<byte>>,
    callback: Option<nat>,
    posted: seq<nat>,
    wire: seq<WireOp>,
    errors: nat)

  /* ---- send ---- */

  /** `send`: to an open actor, or into the pending pool otherwise; either way the answer is true. */
  function SendSpec(s: SppState, data: seq<byte>): SppState {
    if s.actor.Running? then s.(actor := Running(s.actor.inbox + [data]))
    else s.(pending := s.pending + [data])
  }

  /** Without an open actor, including after a disconnect or a write error, a payload waits in the pool. */
  lemma SendBuffersWhenClosed(s: SppState, data: seq<byte>)
    requires !s.actor.Running?
    ensures SendSpec(s, data).pending == s.pending + [data]
    ensures SendSpec(s, data).wire == s.wire && SendSpec(s, data).actor == s.actor
  {
  }

  /* ---- the send actor ---- */

  function Writes(cs: seq<seq<byte>>): (w: seq<WireOp>)
    ensures |w| == |cs| && forall i :: 0 <= i < |cs| ==> w[i] == Write(cs[i])
  {
    seq(|cs|, i requires 0 <= i < |cs| => Write(cs[i]))
  }

  /** The chunks the offset loop writes for one payload. */
  function PayloadChunks(payload: seq<byte>): seq<seq<byte>> {
    Chunks(payload, MAX_PACKET_SIZE)
  }

  /**
   * The actor takes the next payload and writes its chunks then a flush; if
   * the write of chunk `k` (or the flush, `k` = number of chunks) throws, the
   * error is reported once and the actor stops for good.
   */
  function ActorStepSpec(s: SppState, failAt: Option<nat>): SppState
    requires s.actor.Running? && |s.actor.inbox| > 0
  {
    var chunks := PayloadChunks(s.actor.inbox[0]);
    if failAt.Some? && failAt.value <= |chunks| then
      s.(wire := s.wire + Writes(chunks[..failAt.value]), errors := s.errors + 1, actor := Closed)
    else
      s.(wire := s.wire + Writes(chunks) + [Flush], actor := Running(s.actor.inbox[1..]))
  }

  /**
   * A payload written without error reaches the stream as chunks of at most
   * 512 bytes that put back together give the payload, followed by a flush.
   */
  lemma ActorStepDelivers(s: SppState, failAt: Option<nat>)
    requires s.actor.Running? && |s.actor.inbox| > 0
    requires failAt.None? || failAt.value > |PayloadChunks(s.actor.inbox[0])|
    ensures var t := ActorStepSpec(s, failAt);
      var added := t.wire[|s.wire|..];
      |added| >= 1 && added[|added| - 1] == Flush
      && (forall i :: 0 <= i < |added| - 1 ==> added[i].Write? && 0 < |added[i].chunk| <= MAX_PACKET_SIZE)
      && Flatten(seq(|added| - 1, i requires 0 <= i < |added| - 1 => added[i].chunk)) == s.actor.inbox[0]
      && t.actor == Running(s.actor.inbox[1..])
  {
    var t := ActorStepSpec(s, failAt);
    var chunks := PayloadChunks(s.actor.inbox[0]);
    var added := t.wire[|s.wire|..];
    assert added == Writes(chunks) + [Flush];
    assert seq(|added| - 1, i requires 0 <= i < |added| - 1 => added[i].chunk) == chunks;
    ChunksFlatten(s.actor.inbox[0], MAX_PACKET_SIZE);
  }

  /** After a write error the actor is closed: nothing more is written and later sends go to the pool. */
  lemma ActorStopsOnError(s: SppState, failAt: Option<nat>, data: seq<byte>)
    requires s.actor.Running? && |s.actor.inbox| > 0
    requires failAt.Some? && failAt.value <= |PayloadChunks(s.actor.inbox[0])|
    ensures var t := ActorStepSpec(s, failAt);
      t.actor == Closed && t.errors == s.errors + 1
      && SendSpec(t, data).pending == t.pending + [data] && SendSpec(t, data).wire == t.wire
  {
  }

  /* ---- connect ---- */

  /** What the framework and the radio answer during a connect. */
  datatype ConnectEnv = ConnectEnv(
    permissionGranted: bool,
    adapterPresent: bool,
    macError: Option<string>,
    bonded: bool,
    bondError: Option<string>,
    channel5Connects: bool,
    channel1Connects: bool,
    sdpConnects: bool)

  /** The course of a connect: what it answers, whether it tried to bond, and the strategies it tried in order. */
  datatype ConnectPlan = ConnectPlan(ok: bool, err: Option<string>, bondAttempted: bool, tried: seq<Strategy>)

  function Connects(env: ConnectEnv, st: Strategy): bool {
    match st
    case Channel5 => env.channel5Connects
    case Channel1 => env.channel1Connects
    case SdpUuid => env.sdpConnects
  }

  /** The strategies tried: each in order, stopping at the first that connects. */
  function TriedStrategies(env: ConnectEnv): (t: seq<Strategy>)
    ensures 1 <= |t| <= 3 && t == [Channel5, Channel1, SdpUuid][..|t|]
    ensures forall i :: 0 <= i < |t| - 1 ==> !Connects(env, t[i])
  {
    if env.channel5Connects then [Channel5]
    else if env.channel1Connects then [Channel5, Channel1]
    else [Channel5, Channel1, SdpUuid]
  }

  const NO_SPP := "No SPP channel/UUID available"

  function Plan(env: ConnectEnv): (p: ConnectPlan)
    ensures p.ok ==> p.err.None? && |p.tried| >= 1 && Connects(env, p.tried[|p.tried| - 1])
    ensures |p.tried| > 0 && !p.ok ==> p.err == Some(NO_SPP) && p.tried == [Channel5, Channel1, SdpUuid]
  {
    if !env.permissionGranted then ConnectPlan(false, Some("No BLUETOOTH_CONNECT permission"), false, [])
    else if !env.adapterPresent then ConnectPlan(false, Some("BluetoothAdapter == null"), false, [])
    else if env.macError.Some? then ConnectPlan(false, Some("Invalid MAC address: " + env.macError.value), false, [])
    else if !env.bonded && env.bondError.Some? then ConnectPlan(false, Some("Bond failed: " + env.bondError.value), true, [])
    else
      var tried := TriedStrategies(env);
      if Connects(env, tried[|tried| - 1]) then ConnectPlan(true, None, !env.bonded, tried)
      else ConnectPlan(false, Some(NO_SPP), !env.bonded, tried)
  }

  /** An invalid MAC fails before any bonding or socket attempt; a bonded device is never bonded again. */
  lemma InvalidMacFailsEarly(env: ConnectEnv)
    ensures env.permissionGranted && env.adapterPresent && env.macError.Some? ==>
      !Plan(env).ok && !Plan(env).bondAttempted && Plan(env).tried == []
    ensures env.bonded ==> !Plan(env).bondAttempted
  {
  }

  /** When all three strategies fail the connect reports that no SPP channel or UUID is available. */
  lemma AllStrategiesFail(env: ConnectEnv)
    requires env.permissionGranted && env.adapterPresent && env.macError.None? && (env.bonded || env.bondError.None?)
    requires !env.channel5Connects && !env.channel1Connects && !env.sdpConnects
    ensures Plan(env) == ConnectPlan(false, Some(NO_SPP), !env.bonded, [Channel5, Channel1, SdpUuid])
  {
  }

  /**
   * A successful connect opens the socket, records the device, starts a new
   * actor holding the pooled payloads in their order, empties the pool, and
   * posts the stored callback, if any, clearing it.
   */
  function ConnectSpec(s: SppState, address: string, env: ConnectEnv): SppState {
    if !Plan(env).ok then s
    else
      s.(socketOpen := true, connectedDevice := Some(address), actor := Running(s.pending), pending := [],
         callback := None, posted := if s.callback.Some? then s.posted + [s.callback.value] else s.posted)
  }

  /** The connected callback: posted at once when connected, stored otherwise. */
  function OnConnectedSpec(s: SppState, cb: nat): SppState {
    if s.connectedDevice.Some? then s.(posted := s.posted + [cb]) else s.(callback := Some(cb))
  }

  /** A stored callback fires on the next successful connect and only once. */
  lemma CallbackFiresOnce(s: SppState, cb: nat, a1: string, a2: string, env: ConnectEnv)
    requires s.connectedDevice.None? && Plan(env).ok
    ensures var t := ConnectSpec(OnConnectedSpec(s, cb), a1, env);
      t.posted == s.posted + [cb] && t.callback.None?
      && ConnectSpec(t, a2, env).posted == t.posted
  {
  }

  /** `disconnect`: actor closed and dropped, pool emptied, socket and device cleared. */
  function DisconnectSpec(s: SppState): SppState {
    s.(actor := NoActor, pending := [], socketOpen := false, connectedDevice := None)
  }

  /** A second disconnect changes nothing. */
  lemma DisconnectIdempotent(s: SppState)
    ensures DisconnectSpec(DisconnectSpec(s)) == DisconnectSpec(s)
    ensures DisconnectSpec(s).pending == [] && DisconnectSpec(s).connectedDevice.None?
  {
  }

  /** Payloads sent while disconnected reach the new actor in the order they were sent. */
  lemma PooledPayloadsDrainInOrder(s: SppState, a: seq<byte>, b: seq<byte>, address: string, env: ConnectEnv)
    requires Plan(env).ok
    ensures var t := ConnectSpec(SendSpec(SendSpec(DisconnectSpec(s), a), b), address, env);
      t.actor == Running([a, b]) && t.pending == []
  {
  }

  /* ---- scanning ---- */

  predicate NoDuplicates(xs: seq<string>) {
    forall i, j :: 0 <= i < j < |xs| ==> xs[i] != xs[j]
  }

  /** The scan receiver: a device not yet listed is appended. */
  function ScanFoundSpec(s: SppState, device: string): SppState {
    if device in s.scanned then s else s.(scanned := s.scanned + [device])
  }

  lemma ScanFoundKeepsDistinct(s: SppState, device: string)
    requires NoDuplicates(s.scanned)
    ensures NoDuplicates(ScanFoundSpec(s, device).scanned)
    ensures device in ScanFoundSpec(s, device).scanned
  {
  }

  /* ---- the object ---- */

  class BtSpp {
    var scanned: seq<string>
    var connectedDevice: Option<string>
    var socketOpen: bool
    var actor: Actor
    var pending: seq<seq<byte>>
    var callback: Option<nat>
    var posted: seq<nat>
    var wire: seq<WireOp>
    var errors: nat

    function State(): SppState
      reads this
    {
      SppState(scanned, connectedDevice, socketOpen, actor, pending, callback, posted, wire, errors)
    }

    constructor ()
      ensures State() == SppState([], None, false, NoActor, [], None, [], [], 0)
    {
      scanned := [];
      connectedDevice := None;
      socketOpen := false;
      actor := NoActor;
      pending := [];
      callback := None;
      posted := [];
      wire := [];
      errors := 0;
    }

    /** `send` */
    method Send(data: seq<byte>) returns (accepted: bool)
      modifies this
      ensures State() == SendSpec(old(State()), data)
      ensures accepted
    {
      if actor.Running? {
        actor := Running(actor.inbox + [data]);
      } else {
        pending := pending + [data];
      }
      accepted := true;
    }

    /** One turn of the actor's `for (payload in channel)` loop, with the offset loop writing the chunks. */
    method ActorStep(failAt: Option<nat>)
      requires actor.Running? && |actor.inbox| > 0
      modifies this
      ensures State() == ActorStepSpec(old(State()), failAt)
    {
      var payload := actor.inbox[0];
      ghost var chunks := PayloadChunks(payload);
      ghost var wire0 := wire;
      PayloadChunkCount(payload);
      assert Writes(chunks[..0]) == [];
      ghost var s0 := State();
      hide Chunks, Writes, ActorStepSpec;
      var offset := 0;
      var k := 0;
      while offset < |payload|
        invariant k <= |chunks| && offset == (if k == |chunks| then |payload| else k * MAX_PACKET_SIZE)
        invariant wire == wire0 + Writes(chunks[..k])
        invariant failAt.None? || failAt.value >= k
        invariant actor == old(actor) && errors == old(errors)
        invariant scanned == old(scanned) && connectedDevice == old(connectedDevice) && socketOpen == old(socketOpen)
        invariant pending == old(pending) && callback == old(callback) && posted == old(posted)
        decreases |payload| - offset
      {
        var len := if MAX_PACKET_SIZE < |payload| - offset then MAX_PACKET_SIZE else |payload| - offset;
        if failAt == Some(k) {
          ActorStepFails(s0, k);
          errors := errors + 1;
          actor := Closed;
          return;
        }
        ChunkLoopStep(payload, k, offset);
        WritesSnoc(chunks, k);
        wire := wire + [Write(payload[offset..offset + len])];
        offset := offset + len;
        k := k + 1;
      }
      assert chunks[..k] == chunks;
      if failAt == Some(k) {
        ActorStepFails(s0, k);
        errors := errors + 1;
        actor := Closed;
        return;
      }
      ActorStepSucceeds(s0, failAt);
      wire := wire + [Flush];
      actor := Running(actor.inbox[1..]);
    }

    /** `connect`: on success the fields are set, a new actor starts, the pool is drained into it, and the callback fires. */
    method Connect(address: string, env: ConnectEnv) returns (ok: bool, err: Option<string>)
      modifies this
      ensures State() == ConnectSpec(old(State()), address, env)
      ensures ok == Plan(env).ok && err == Plan(env).err
    {
      var plan := Plan(env);
      if !plan.ok {
        return false, plan.err;
      }
      socketOpen := true;
      connectedDevice := Some(address);
      actor := Running([]);
      while pending != []
        invariant actor.Running? && actor.inbox + pending == old(pending)
        invariant socketOpen && connectedDevice == Some(address)
        invariant scanned == old(scanned) && callback == old(callback) && posted == old(posted)
        invariant wire == old(wire) && errors == old(errors)
        decreases |pending|
      {
        var next := pending[0];
        pending := pending[1..];
        actor := Running(actor.inbox + [next]);
      }
      if callback.Some? {
        posted := posted + [callback.value];
        callback := None;
      }
      return true, None;
    }

    /** `onConnected` */
    method OnConnected(cb: nat)
      modifies this
      ensures State() == OnConnectedSpec(old(State()), cb)
    {
      if connectedDevice.Some? {
        posted := posted + [cb];
      } else {
        callback := Some(cb);
      }
    }

    /** `disconnect` */
    method Disconnect()
      modifies this
      ensures State() == DisconnectSpec(old(State()))
    {
      actor := NoActor;
      pending := [];
      socketOpen := false;
      connectedDevice := None;
    }

    /** `startScan` clears the list; the receiver then adds each newly found device once. */
    method StartScan()
      modifies this
      ensures State() == old(State()).(scanned := [])
    {
      scanned := [];
    }

    method ScanFound(device: string)
      modifies this
      ensures State() == ScanFoundSpec(old(State()), device)
    {
      if device !in scanned {
        scanned := scanned + [device];
      }
    }
  }

  lemma ActorStepFails(s: SppState, k: nat)
    requires s.actor.Running? && |s.actor.inbox| > 0 && k <= |PayloadChunks(s.actor.inbox[0])|
    ensures ActorStepSpec(s, Some(k)) ==
      s.(wire := s.wire + Writes(PayloadChunks(s.actor.inbox[0])[..k]), errors := s.errors + 1, actor := Closed)
  {
  }

  lemma ActorStepSucceeds(s: SppState, failAt: Option<nat>)
    requires s.actor.Running? && |s.actor.inbox| > 0
    requires failAt.None? || failAt.value > |PayloadChunks(s.actor.inbox[0])|
    ensures ActorStepSpec(s, failAt) ==
      s.(wire := s.wire + Writes(PayloadChunks(s.actor.inbox[0])) + [Flush], actor := Running(s.actor.inbox[1..]))
  {
  }

  /** One pass of the offset loop writes chunk `k` and moves the offset to the start of the next. */
  lemma ChunkLoopStep(payload: seq<byte>, k: nat, offset: nat)
    requires k < |PayloadChunks(payload)| && offset == k * MAX_PACKET_SIZE
    ensures var len := if MAX_PACKET_SIZE < |payload| - offset then MAX_PACKET_SIZE else |payload| - offset;
      offset < |payload| && offset + len <= |payload|
      && payload[offset..offset + len] == PayloadChunks(payload)[k]
      && offset + len == (if k + 1 == |PayloadChunks(payload)| then |payload| else (k + 1) * MAX_PACKET_SIZE)
  {
    var chunks := PayloadChunks(payload);
    ChunkAt(payload, MAX_PACKET_SIZE, k);
    PayloadChunkCount(payload);
    assert (k + 1) * MAX_PACKET_SIZE == offset + MAX_PACKET_SIZE;
    if k + 1 < |chunks| {
      assert (k + 1) * MAX_PACKET_SIZE <= (|chunks| - 1) * MAX_PACKET_SIZE;
    }
  }

  lemma WritesSnoc(cs: seq<seq<byte>>, k: nat)
    requires k < |cs|
    ensures Writes(cs[..k + 1]) == Writes(cs[..k]) + [Write(cs[k])]
  {
  }

  /** The chunk count, and every chunk but the last is full. */
  lemma PayloadChunkCount(payload: seq<byte>)
    ensures var chunks := Chunks(payload, MAX_PACKET_SIZE);
      (|payload| == 0 <==> |chunks| == 0)
      && (|chunks| > 0 ==> (|chunks| - 1) * MAX_PACKET_SIZE < |payload| <= |chunks| * MAX_PACKET_SIZE)
  {
    ChunksLength(payload, MAX_PACKET_SIZE);
  }

  lemma {:induction false} ChunksLength(s: seq<byte>, n: nat)
    requires n > 0
    ensures |Chunks(s, n)| > 0 ==> (|Chunks(s, n)| - 1) * n < |s| <= |Chunks(s, n)| * n
    decreases |s|
  {
    if |s| > n {
      ChunksLength(s[n..], n);
    }
  }
}

=== FILE: bytes.dfy ===
/** Bytes and fixed-width little/big-endian integer encodings. */
module Bytes {
  type byte = x: int | 0 <= x < 0x100
  type u16 = x: int | 0 <= x < 0x1_0000
  type u32 = x: int | 0 <= x < 0x1_0000_0000

  /** `u16::to_le_bytes` */
  function U16Le(x: u16): (r: seq<byte>)
    ensures |r| == 2 && r[0] as int + 0x100 * (r[1] as int) == x
  {
    [x % 0x100, x / 0x100]
  }

  /** `u16::to_be_bytes` */
  function U16Be(x: u16): (r: seq<byte>)
    ensures |r| == 2 && 0x100 * (r[0] as int) + r[1] as int == x
  {
    [x / 0x100, x % 0x100]
  }

  /** `u16::from_le_bytes` */
  function ReadU16Le(lo: byte, hi: byte): (r: u16)
    ensures U16Le(r) == [lo, hi]
  {
    lo as int + 0x100 * (hi as int)
  }

  /** `u32::to_le_bytes` */
  function U32Le(x: u32): (r: seq<byte>)
    ensures |r| == 4
  {
    [x % 0x100, (x / 0x100) % 0x100, (x / 0x100 / 0x100) % 0x100, x / 0x100 / 0x100 / 0x100]
  }

  /** `u32::from_le_bytes` */
  function ReadU32Le(b: seq<byte>): u32
    requires |b| == 4
  {
    b[0] as int + 0x100 * (b[1] as int + 0x100 * (b[2] as int + 0x100 * (b[3] as int)))
  }

  lemma U32LeRoundTrip(x: u32)
    ensures ReadU32Le(U32Le(x)) == x
  {
    var y := x / 0x100;
    var z := y / 0x100;
    assert x == x % 0x100 + 0x100 * y;
    assert y == y % 0x100 + 0x100 * z;
    assert z == z % 0x100 + 0x100 * (z / 0x100);
  }

  /** A sequence of `n` zero bytes. */
  function Zeros(n: nat): (r: seq<byte>)
    ensures |r| == n && forall i :: 0 <= i < n ==> r[i] == 0
  {
    seq(n, _ => 0)
  }

  /** Concatenation of a sequence of byte strings. */
  function Flatten(parts: seq<seq<byte>>): (r: seq<byte>)
    decreases |parts|
  {
    if |parts| == 0 then [] else parts[0] + Flatten(parts[1..])
  }

  lemma {:induction false} FlattenAppend(a: seq<seq<byte>>, b: seq<seq<byte>>)
    ensures Flatten(a + b) == Flatten(a) + Flatten(b)
    decreases |a|
  {
    if |a| == 0 {
      assert a + b == b;
    } else {
      assert (a + b)[1..] == a[1..] + b;
      FlattenAppend(a[1..], b);
    }
  }

  /**
   * `slice.chunks(n)`: consecutive pieces of `n` bytes, the last one possibly
   * shorter; an empty input has no pieces.
   */
  function Chunks(s: seq<byte>, n: nat): (r: seq<seq<byte>>)
    requires n > 0
    ensures forall i :: 0 <= i < |r| ==> 0 < |r[i]| <= n
    ensures forall i :: 0 <= i < |r| - 1 ==> |r[i]| == n
    ensures |s| == 0 <==> |r| == 0
    decreases |s|
  {
    if |s| == 0 then []
    else if |s| <= n then [s]
    else [s[..n]] + Chunks(s[n..], n)
  }

  /** The pieces put back together give the input. */
  lemma {:induction false} ChunksFlatten(s: seq<byte>, n: nat)
    requires n > 0
    ensures Flatten(Chunks(s, n)) == s
    decreases |s|
  {
    if |s| == 0 {
    } else if |s| <= n {
      assert Flatten([s]) == s + Flatten([]);
    } else {
      var r := Chunks(s, n);
      assert r[0] == s[..n] && r[1..] == Chunks(s[n..], n);
      ChunksFlatten(s[n..], n);
      assert s[..n] + s[n..] == s;
    }
  }

  /** Piece `i` starts at byte `i * n`. */
  lemma {:induction false} ChunkAt(s: seq<byte>, n: nat, i: nat)
    requires n > 0 && i < |Chunks(s, n)|
    ensures i * n < |s|
    ensures Chunks(s, n)[i] == s[i * n .. if (i + 1) * n < |s| then (i + 1) * n else |s|]
    decreases i
  {
    if i > 0 {
      var t := s[n..];
      assert |s| > n;
      assert Chunks(s, n) == [s[..n]] + Chunks(t, n);
      ChunkAt(t, n, i - 1);
      hide Chunks;
      var a := (i - 1) * n;
      assert a + n == i * n;
      assert i * n + n == (i + 1) * n;
      var e := if a + n < |t| then a + n else |t|;
      assert Chunks(s, n)[i] == t[a..e];
      SliceOfSlice(s, n, a, e);
    }
  }

  /** A slice of a suffix is a slice of the whole. */
  lemma SliceOfSlice<T>(s: seq<T>, n: nat, a: nat, e: nat)
    requires n <= |s| && a <= e <= |s| - n
    ensures s[n..][a..e] == s[n + a..n + e]
  {
    forall k | 0 <= k < e - a ensures s[n..][a..e][k] == s[n + a..n + e][k] {
      assert s[n..][a + k] == s[n + a + k];
    }
  }

  /** Quotient and remainder are unique: `x == q * n + rem` with `rem < n` fixes both. */
  lemma DivUnique(x: nat, n: nat, q: nat, rem: nat)
    requires n > 0 && rem < n && x == q * n + rem
    ensures x / n == q && x % n == rem
  {
    var k := x / n - q;
    assert k * n == rem - x % n;
    MulSmall(k, n);
  }

  /** A multiple of `n` strictly between `-n` and `n` is zero. */
  lemma MulSmall(k: int, n: int)
    requires n > 0 && -n < k * n < n
    ensures k == 0
  {
    assert k >= 1 ==> k * n >= n;
    assert k <= -1 ==> k * n <= -n;
  }
}

=== FILE: command_pool.dfy ===
/**
 * The command pool: a queue of outgoing commands kept in channel-priority
 * order, popped from the front by a worker that sends each one.
 */
module CommandPool {
  import opened Wrappers
  import opened Bytes
  import opened Strings
  import opened Crypto
  import opened Packet
  import opened Device

  /** `CHANNEL_PRIORITY` as the process starts. */
  const DEFAULT_PRIORITY: seq<Channel> := [Mass, Pb, NetWork]

  /** `channel_priority_index`: the channel's place in the list, or the list length if absent. */
  function PriorityIndex(priority: seq<Channel>, c: Channel): (r: nat)
    ensures r <= |priority|
    decreases |priority|
  {
    if |priority| == 0 then 0
    else if priority[0] == c then 0
    else 1 + PriorityIndex(priority[1..], c)
  }

  /** The index is the first position holding the channel, and equals the length exactly when it is absent. */
  lemma {:induction false} PriorityIndexFirst(priority: seq<Channel>, c: Channel)
    ensures var r := PriorityIndex(priority, c);
      (r < |priority| ==> priority[r] == c && c !in priority[..r])
      && (r == |priority| <==> c !in priority)
    decreases |priority|
  {
    if |priority| > 0 && priority[0] != c {
      PriorityIndexFirst(priority[1..], c);
      var r := PriorityIndex(priority, c);
      if r < |priority| {
        assert priority[..r] == [priority[0]] + priority[1..][..r - 1];
      }
      assert priority == [priority[0]] + priority[1..];
    }
  }

  /** With the default priority Mass leaves first, then Pb, then NetWork, then every other channel. */
  lemma DefaultPriorityOrder(c: Channel)
    requires c != Mass && c != Pb && c != NetWork
    ensures PriorityIndex(DEFAULT_PRIORITY, Mass) < PriorityIndex(DEFAULT_PRIORITY, Pb)
    ensures PriorityIndex(DEFAULT_PRIORITY, Pb) < PriorityIndex(DEFAULT_PRIORITY, NetWork)
    ensures PriorityIndex(DEFAULT_PRIORITY, NetWork) < PriorityIndex(DEFAULT_PRIORITY, c)
  {
    hide PriorityIndex;
    var p := DEFAULT_PRIORITY;
    var p1: seq<Channel> := [Pb, NetWork];
    var p2: seq<Channel> := [NetWork];
    assert p == [Mass] + p1 && p1 == [Pb] + p2 && p2 == [NetWork] + [];
    PriorityIndexCons(Mass, p1, Mass);
    PriorityIndexCons(Mass, p1, Pb);
    PriorityIndexCons(Mass, p1, NetWork);
    PriorityIndexCons(Mass, p1, c);
    PriorityIndexCons(Pb, p2, Pb);
    PriorityIndexCons(Pb, p2, NetWork);
    PriorityIndexCons(Pb, p2, c);
    PriorityIndexCons(NetWork, [], NetWork);
    PriorityIndexCons(NetWork, [], c);
  }

  /** One step of the search. */
  lemma PriorityIndexCons(x: Channel, rest: seq<Channel>, c: Channel)
    ensures PriorityIndex([x] + rest, c) == if x == c then 0 else 1 + PriorityIndex(rest, c)
  {
    assert ([x] + rest)[1..] == rest;
  }

  datatype CommandKind = Send | WaitAck | RegisterAck(unlocked: bool)

  /** A queued command; the responder channel is the `CommandResponse` `Process` returns. */
  datatype Command = Command(channel: Channel, op: OpCode, payload: seq<byte>, kind: CommandKind, timeoutMs: Option<nat>)

  /**
   * What the submitter receives: `Done`, the ACK receiver, an error message,
   * or nothing at all when the worker bails out with `?` and drops the responder.
   */
  datatype CommandResponse = Done | AckReceiver | Failed(msg: string) | Dropped

  function Prio(priority: seq<Channel>, c: Command): nat {
    PriorityIndex(priority, c.channel)
  }

  /** The queue is in non-decreasing priority index. */
  predicate Sorted(priority: seq<Channel>, q: seq<Command>) {
    forall i, j :: 0 <= i < j < |q| ==> Prio(priority, q[i]) <= Prio(priority, q[j])
  }

  /**
   * The insertion point of `push`: one past the last command (`rposition`)
   * whose priority index is at most `p`, or 0 when there is none.
   */
  function InsertPos(priority: seq<Channel>, q: seq<Command>, p: nat): (pos: nat)
    ensures pos <= |q|
    ensures forall i :: pos <= i < |q| ==> Prio(priority, q[i]) > p
    ensures pos > 0 ==> Prio(priority, q[pos - 1]) <= p
    decreases |q|
  {
    if |q| == 0 then 0
    else if Prio(priority, q[|q| - 1]) <= p then |q|
    else
      var init := q[..|q| - 1];
      var pos := InsertPos(priority, init, p);
      assert forall i :: 0 <= i < |init| ==> init[i] == q[i];
      pos
  }

  /** The priority indexes of the queue, front first. */
  function Prios(priority: seq<Channel>, q: seq<Command>): (ps: seq<nat>)
    ensures |ps| == |q| && forall i :: 0 <= i < |q| ==> ps[i] == Prio(priority, q[i])
  {
    seq(|q|, i requires 0 <= i < |q| => Prio(priority, q[i]))
  }

  predicate NonDecreasing(ps: seq<nat>) {
    forall i, j :: 0 <= i < j < |ps| ==> ps[i] <= ps[j]
  }

  lemma InsertNonDecreasing(ps: seq<nat>, pos: nat, p: nat)
    requires NonDecreasing(ps) && pos <= |ps|
    requires forall i :: pos <= i < |ps| ==> ps[i] > p
    requires pos > 0 ==> ps[pos - 1] <= p
    ensures NonDecreasing(ps[..pos] + [p] + ps[pos..])
  {
    var ps' := ps[..pos] + [p] + ps[pos..];
    forall i, j | 0 <= i < j < |ps'|
      ensures ps'[i] <= ps'[j]
    {
      if i < pos && j == pos {
        assert ps[i] <= ps[pos - 1];
      } else if i < pos && j > pos {
        assert ps'[i] == ps[i] && ps'[j] == ps[j - 1];
      } else if i > pos {
        assert ps'[i] == ps[i - 1] && ps'[j] == ps[j - 1];
      }
    }
  }

  /** Inserting at `InsertPos` keeps a sorted queue sorted. */
  lemma InsertKeepsSorted(priority: seq<Channel>, q: seq<Command>, cmd: Command)
    requires Sorted(priority, q)
    ensures var pos := InsertPos(priority, q, Prio(priority, cmd));
      Sorted(priority, q[..pos] + [cmd] + q[pos..])
  {
    hide Prio, InsertPos;
    var p := Prio(priority, cmd);
    var pos := InsertPos(priority, q, p);
    var q' := q[..pos] + [cmd] + q[pos..];
    var ps := Prios(priority, q);
    assert NonDecreasing(ps);
    InsertNonDecreasing(ps, pos, p);
    var ps' := ps[..pos] + [p] + ps[pos..];
    forall i | 0 <= i < |q'| ensures ps'[i] == Prio(priority, q'[i]) {
      if i < pos {
        assert ps'[i] == ps[i] && q'[i] == q[i];
      } else if i > pos {
        assert ps'[i] == ps[i - 1] && q'[i] == q[i - 1];
      }
    }
    forall i, j | 0 <= i < j < |q'| ensures Prio(priority, q'[i]) <= Prio(priority, q'[j]) {
      assert ps'[i] <= ps'[j];
    }
  }

  /** The queue after `push`. */
  function Inserted(priority: seq<Channel>, q: seq<Command>, cmd: Command): seq<Command> {
    var pos := InsertPos(priority, q, Prio(priority, cmd));
    q[..pos] + [cmd] + q[pos..]
  }

  /** `push` adds exactly the new command and keeps the others in their order. */
  lemma InsertedContents(priority: seq<Channel>, q: seq<Command>, cmd: Command)
    ensures |Inserted(priority, q, cmd)| == |q| + 1
    ensures multiset(Inserted(priority, q, cmd)) == multiset(q) + multiset{cmd}
    ensures var pos := InsertPos(priority, q, Prio(priority, cmd));
      Inserted(priority, q, cmd)[pos] == cmd
      && Inserted(priority, q, cmd)[..pos] + Inserted(priority, q, cmd)[pos + 1..] == q
  {
    hide Prio;
    var pos := InsertPos(priority, q, Prio(priority, cmd));
    var q' := q[..pos] + [cmd] + q[pos..];
    assert q == q[..pos] + q[pos..];
    assert multiset(q') == multiset(q[..pos]) + multiset{cmd} + multiset(q[pos..]);
    assert q'[..pos] == q[..pos] && q'[pos + 1..] == q[pos..];
  }

  /**
   * `push` is stable: in a sorted queue the new command lands after every
   * command of equal or higher priority and before every command of lower
   * priority.
   */
  lemma InsertIsStable(priority: seq<Channel>, q: seq<Command>, cmd: Command)
    requires Sorted(priority, q)
    ensures var p := Prio(priority, cmd); var pos := InsertPos(priority, q, p);
      (forall i :: 0 <= i < pos ==> Prio(priority, q[i]) <= p)
      && (forall i :: pos <= i < |q| ==> Prio(priority, q[i]) > p)
  {
    var p := Prio(priority, cmd);
    var pos := InsertPos(priority, q, p);
    forall i | 0 <= i < pos
      ensures Prio(priority, q[i]) <= p
    {
      assert Prio(priority, q[i]) <= Prio(priority, q[pos - 1]);
    }
  }

  /** One row of `to_json_table`. */
  datatype CmdRow = CmdRow(packetLabel: string, infoLabel: string, infoStatus: string, timeoutLabel: string, statusLabel: string)

  /** `{:?}` of a channel. */
  function ChannelName(c: Channel): string {
    match c
    case Pb => "Pb"
    case Mass => "Mass"
    case MassVoice => "MassVoice"
    case FileSensor => "FileSensor"
    case FileFitness => "FileFitness"
    case OTA => "OTA"
    case NetWork => "NetWork"
    case Lyra => "Lyra"
    case FileResearch => "FileResearch"
  }

  function OpName(op: OpCode): string {
    match op
    case Plain => "Plain"
    case Encrypted => "Encrypted"
  }

  function KindName(k: CommandKind): string {
    match k
    case Send => "Send"
    case WaitAck => "WaitAck"
    case RegisterAck(u) => "RegisterAck { unlocked: " + (if u then "true" else "false") + " }"
  }

  function Row(idx: nat, c: Command): CmdRow {
    CmdRow(
      ChannelName(c.channel) + " " + OpName(c.op),
      "CMD #" + NatToString(idx + 1),
      KindName(c.kind),
      if c.timeoutMs.Some? then "Timeout: " + NatToString(c.timeoutMs.value) + "ms" else "No timeout",
      "Pending")
  }

  /** The timeout a WaitAck command waits for its ACK. */
  function EffectiveTimeout(c: Command): nat {
    if c.timeoutMs.Some? then c.timeoutMs.value else REQ_TIMEOUT_MS
  }

  /** When the ACK for a WaitAck command shows up, if at all. */
  datatype AckEvent = AckAfter(ms: nat) | AckSenderDropped | NoAck

  class Pool {
    /** The queue (`VecDeque<Command>`), front first. */
    var queue: seq<Command>
    /** `CHANNEL_PRIORITY`. */
    var priority: seq<Channel>

    constructor ()
      ensures queue == [] && priority == DEFAULT_PRIORITY
    {
      queue := [];
      priority := DEFAULT_PRIORITY;
    }

    /** `set_channel_priority` */
    method SetChannelPriority(p: seq<Channel>)
      modifies this
      ensures priority == p && queue == old(queue)
    {
      priority := p;
    }

    /** `push`: ordered, stable insertion; the queue gains exactly the new command. */
    method Push(cmd: Command)
      modifies this
      ensures queue == Inserted(priority, old(queue), cmd)
      ensures |queue| == |old(queue)| + 1 && multiset(queue) == multiset(old(queue)) + multiset{cmd}
      ensures Sorted(priority, old(queue)) ==> Sorted(priority, queue)
      ensures priority == old(priority)
    {
      hide Sorted, Prio;
      InsertedContents(priority, queue, cmd);
      if Sorted(priority, queue) {
        InsertKeepsSorted(priority, queue, cmd);
      }
      queue := Inserted(priority, queue, cmd);
    }

    /**
     * `pop`: the front command. On an empty queue the worker waits for a
     * push; here that is the `None` answer.
     */
    method Pop() returns (c: Option<Command>)
      modifies this
      ensures |old(queue)| == 0 ==> c == None && queue == old(queue)
      ensures |old(queue)| > 0 ==> c == Some(old(queue)[0]) && queue == old(queue)[1..]
      ensures priority == old(priority)
    {
      if |queue| == 0 {
        return None;
      }
      c := Some(queue[0]);
      queue := queue[1..];
    }

    /** `to_json_table`: one row per queued command, numbered from 1 in queue order. */
    function ToJsonTable(): (rows: seq<CmdRow>)
      reads this
      ensures |rows| == |queue|
      ensures forall i :: 0 <= i < |rows| ==> rows[i].infoLabel == "CMD #" + NatToString(i + 1) && rows[i].statusLabel == "Pending"
    {
      seq(|queue|, i requires 0 <= i < |queue| reads this => Row(i, queue[i]))
    }
  }

  /**
   * `process`: builds and sends the command's frame on `device` and answers
   * the submitter. `failAt` says which write to the link fails, if any; a
   * failed send ends processing with `?`, so the responder is dropped.
   * WaitAck registers the single pending-ACK entry before sending and answers
   * Done only when the ACK comes within its timeout; on a timeout the entry
   * stays registered.
   */
  method Process(device: MiWearDevice, cmd: Command, aes: AesCtrFn, failAt: Option<nat>, ack: AckEvent)
    returns (resp: CommandResponse)
    requires cmd.op == Encrypted ==> device.secKeys.Some? && |device.secKeys.value.encKey| == 16
    requires device.maxFrameSize > 0
    modifies device
    ensures device.seqCounter == NextSeq(old(device.seqCounter))
    ensures var data := if cmd.op == Encrypted then aes(old(device.secKeys).value.encKey, old(device.secKeys).value.encKey, cmd.payload) else cmd.payload;
      device.written == old(device.written) + FragmentWrites(Encode(NewData(old(device.seqCounter), cmd.channel, cmd.op, data)), device.maxFrameSize, failAt)
    ensures var sendOk := !(failAt.Some? && failAt.value < |FragmentWrites(Encode(NewData(old(device.seqCounter), cmd.channel, cmd.op,
        if cmd.op == Encrypted then aes(old(device.secKeys).value.encKey, old(device.secKeys).value.encKey, cmd.payload) else cmd.payload)), device.maxFrameSize, None)|);
      && (!sendOk ==> resp == Dropped)
      && (sendOk && cmd.kind == Send ==> resp == Done)
      && (sendOk && cmd.kind.RegisterAck? ==> resp == AckReceiver)
      && (sendOk && cmd.kind == WaitAck ==>
            resp == (match ack
                     case AckAfter(ms) => if ms < EffectiveTimeout(cmd) then Done else Failed("Ack timeout")
                     case AckSenderDropped => Failed("channel closed")
                     case NoAck => Failed("Ack timeout")))
    ensures cmd.kind == Send ==> device.pendingAck == old(device.pendingAck)
    ensures cmd.kind.RegisterAck? ==> device.pendingAck
    ensures cmd.kind == WaitAck ==> device.pendingAck == !(resp == Done)
    ensures device.recvBuffer == old(device.recvBuffer) && device.secKeys == old(device.secKeys)
    ensures device.pendingSeq == old(device.pendingSeq) && device.pendingProto == old(device.pendingProto)
  {
    var seqNo, frame := device.BuildFrame(cmd.channel, cmd.op, cmd.payload, aes);
    match cmd.kind
    case Send =>
      var r := device.SendFragments(frame, failAt);
      if r.Err? {
        return Dropped;
      }
      resp := Done;
    case WaitAck =>
      device.pendingAck := true;
      var r := device.SendFragments(frame, failAt);
      if r.Err? {
        return Dropped;
      }
      match ack {
        case AckAfter(ms) =>
          if ms < EffectiveTimeout(cmd) {
            // The receive path took the entry when it delivered the ACK.
            device.pendingAck := false;
            resp := Done;
          } else {
            resp := Failed("Ack timeout");
          }
        case AckSenderDropped =>
          resp := Failed("channel closed");
        case NoAck =>
          resp := Failed("Ack timeout");
      }
    case RegisterAck(_) =>
      device.pendingAck := true;
      var r := device.SendFragments(frame, failAt);
      if r.Err? {
        return Dropped;
      }
      resp := AckReceiver;
  }
}

=== FILE: community.dfy ===
/**
 * The official community resource repository: CDN rewriting of raw GitHub
 * URLs, the searchable index of resources, the category list, filtering,
 * pagination, lookup by name and the item totals.
 */
module Community {
  import opened Wrappers
  import opened Strings

  const HTTPS := "https://"
  const RAW_HOST := "raw.githubusercontent.com/"
  const RAW_PREFIX := HTTPS + RAW_HOST
  const JSDELIVR_PREFIX := "https://cdn.jsdelivr.net/gh/"
  const GHFAST_PREFIX := "https://ghfast.top/"
  const REFS_MAIN := "/refs/heads/main/"
  const AT_MAIN := "@main/"

  /** The download mirror the provider was created with. */
  datatype Cdn = Raw | JsDelivr | GhFast

  /** The CDN chosen from its configured name; no name means "raw". */
  function CdnFromName(name: Option<string>): (r: Cdn)
    ensures r == JsDelivr <==> name == Some("jsdelivr")
    ensures r == GhFast <==> name == Some("ghfast")
    ensures r == Raw <==> name != Some("jsdelivr") && name != Some("ghfast")
  {
    var n := if name.Some? then name.value else "raw";
    if n == "jsdelivr" then JsDelivr else if n == "ghfast" then GhFast else Raw
  }

  /**
   * `Cdn::convert_url`: only URLs that mention the raw GitHub host are
   * rewritten, and the raw CDN leaves every URL alone.
   */
  function ConvertUrl(cdn: Cdn, url: string): (r: string)
    ensures !Contains(url, RAW_PREFIX) ==> r == url
    ensures cdn == Raw ==> r == url
  {
    if !Contains(url, RAW_PREFIX) then url
    else match cdn
      case Raw => url
      case JsDelivr => ReplaceAll(ReplaceAll(url, RAW_PREFIX, JSDELIVR_PREFIX), REFS_MAIN, AT_MAIN)
      case GhFast =>
        var rest := StripPrefix(url, HTTPS);
        GHFAST_PREFIX + (if rest.Some? then rest.value else url)
  }

  /** The mirror proxy is put in front of the raw URL with its scheme dropped. */
  lemma ConvertGhFast(path: string)
    ensures ConvertUrl(GhFast, RAW_PREFIX + path) == GHFAST_PREFIX + RAW_HOST + path
  {
    var url := RAW_PREFIX + path;
    ContainsAt(url, RAW_PREFIX, 0);
    assert url == HTTPS + (RAW_HOST + path);
    assert StartsWith(url, HTTPS);
  }

  /** No occurrence of `/refs/heads/main/` starts inside the jsDelivr prefix unless the path continues it. */
  lemma JsDelivrPrefixClean(path: string)
    requires !StartsWith(path, "refs/heads/main/")
    ensures forall i :: 0 <= i < |JSDELIVR_PREFIX| ==> !StartsWith((JSDELIVR_PREFIX + path)[i..], REFS_MAIN)
  {
    var s := JSDELIVR_PREFIX + path;
    forall i | 0 <= i < |JSDELIVR_PREFIX|
      ensures !StartsWith(s[i..], REFS_MAIN)
    {
      if StartsWith(s[i..], REFS_MAIN) {
        assert s[i] == '/' && s[i + 1] == 'r';
        if i == |JSDELIVR_PREFIX| - 1 {
          RefsAtBoundary(path);
          assert false;
        } else {
          assert JSDELIVR_PREFIX[i] == '/' && JSDELIVR_PREFIX[i + 1] == 'r';
          JsDelivrNoSlashR(i);
          assert false;
        }
      }
    }
  }

  /** A `/refs/heads/main/` starting at the prefix's last '/' continues into the path. */
  lemma RefsAtBoundary(path: string)
    requires StartsWith((JSDELIVR_PREFIX + path)[|JSDELIVR_PREFIX| - 1..], REFS_MAIN)
    ensures StartsWith(path, "refs/heads/main/")
  {
    var t := (JSDELIVR_PREFIX + path)[|JSDELIVR_PREFIX| - 1..];
    assert t == ['/'] + path;
    assert path[..16] == t[1..17] == REFS_MAIN[1..];
  }

  lemma JsDelivrNoSlashR(i: nat)
    requires i + 1 < |JSDELIVR_PREFIX|
    ensures !(JSDELIVR_PREFIX[i] == '/' && JSDELIVR_PREFIX[i + 1] == 'r')
  {
  }

  /**
   * jsDelivr: the raw host prefix becomes the jsDelivr GitHub prefix and
   * every `/refs/heads/main/` of the path becomes `@main/`.
   */
  lemma ConvertJsDelivr(path: string)
    requires !Contains(path, RAW_PREFIX)
    requires !StartsWith(path, "refs/heads/main/")
    ensures ConvertUrl(JsDelivr, RAW_PREFIX + path) == JSDELIVR_PREFIX + ReplaceAll(path, REFS_MAIN, AT_MAIN)
  {
    var url := RAW_PREFIX + path;
    ContainsAt(url, RAW_PREFIX, 0);
    assert StartsWith(url, RAW_PREFIX) && url[|RAW_PREFIX|..] == path;
    ReplaceAllAbsent(path, RAW_PREFIX, JSDELIVR_PREFIX);
    assert ReplaceAll(url, RAW_PREFIX, JSDELIVR_PREFIX) == JSDELIVR_PREFIX + path;
    JsDelivrPrefixClean(path);
    ReplaceAllSkip(JSDELIVR_PREFIX, path, REFS_MAIN, AT_MAIN);
  }

  /** `fuzzy_match`: the keyword occurs in the text, ignoring ASCII case. */
  predicate FuzzyMatch(text: string, keyword: string) {
    Contains(ToLower(text), ToLower(keyword))
  }

  lemma LowerUpperChar(c: char)
    ensures LowerChar(UpperChar(c)) == LowerChar(c)
  {
  }

  /** Whatever the case of either side, the answer is the same. */
  lemma FuzzyMatchIgnoresCase(text: string, keyword: string)
    ensures FuzzyMatch(ToUpper(text), ToLower(keyword)) == FuzzyMatch(text, keyword)
    ensures FuzzyMatch(ToLower(text), ToUpper(keyword)) == FuzzyMatch(text, keyword)
  {
    forall c: char ensures LowerChar(UpperChar(c)) == LowerChar(c) && LowerChar(LowerChar(c)) == LowerChar(c) {
      LowerUpperChar(c);
    }
    assert ToLower(ToUpper(text)) == ToLower(text);
    assert ToLower(ToLower(keyword)) == ToLower(keyword);
    assert ToLower(ToLower(text)) == ToLower(text);
    assert ToLower(ToUpper(keyword)) == ToLower(keyword);
  }

  /** A keyword that literally occurs in the text matches; the empty keyword matches everything. */
  lemma FuzzyMatchSubstring(text: string, keyword: string, i: nat)
    requires i + |keyword| <= |text| && text[i..i + |keyword|] == keyword
    ensures FuzzyMatch(text, keyword)
    ensures FuzzyMatch(text, "")
  {
    var lt := ToLower(text);
    assert lt[i..i + |keyword|] == ToLower(keyword);
    ContainsAt(lt, ToLower(keyword), i);
    ContainsAt(lt, ToLower(""), 0);
  }

  /** One row of the repository's `index.csv`; `tags` and `devices` are `;`-separated there. */
  datatype IndexRes = IndexRes(
    name: string, icon: string, cover: string, restype: string,
    tags: seq<string>, devices: seq<string>, path: string, paidType: string)

  /** `split_semicolon`: the `;`-separated pieces, each trimmed. */
  function SplitSemicolon(s: string): (r: seq<string>)
    ensures |r| == |Split(s, ';')|
    ensures forall k :: 0 <= k < |r| ==> r[k] == Trim(Split(s, ';')[k])
  {
    var parts := Split(s, ';');
    seq(|parts|, k requires 0 <= k < |parts| => Trim(parts[k]))
  }

  /**
   * One piece more than there are semicolons; no semicolon gives the whole
   * trimmed string, the empty string gives one empty piece, and without
   * whitespace joining the pieces again gives the input back.
   */
  lemma SplitSemicolonProperties(s: string)
    ensures |SplitSemicolon(s)| == Count(s, ';') + 1
    ensures ';' !in s ==> SplitSemicolon(s) == [Trim(s)]
    ensures s == "" ==> SplitSemicolon(s) == [""]
    ensures (forall i :: 0 <= i < |s| ==> !IsSpace(s[i])) ==> Join(SplitSemicolon(s), ';') == s
  {
    SplitCount(s, ';');
    if ';' !in s {
      SplitNoSep(s, ';');
    }
    if forall i :: 0 <= i < |s| ==> !IsSpace(s[i]) {
      var parts := Split(s, ';');
      forall k | 0 <= k < |parts|
        ensures Trim(parts[k]) == parts[k]
      {
        SplitPieceNoSpace(s, k);
        TrimNoSpace(parts[k]);
      }
      assert SplitSemicolon(s) == parts;
      SplitJoin(s, ';');
    }
  }

  /** Every piece of a split is made of characters of the input. */
  lemma {:induction false} SplitPieceChars(s: string, sep: char)
    ensures forall k, j :: 0 <= k < |Split(s, sep)| && 0 <= j < |Split(s, sep)[k]| ==> Split(s, sep)[k][j] in s
    decreases |s|
  {
    if |s| > 0 {
      SplitPieceChars(s[1..], sep);
    }
  }

  lemma SplitPieceNoSpace(s: string, k: nat)
    requires forall i :: 0 <= i < |s| ==> !IsSpace(s[i])
    requires k < |Split(s, ';')|
    ensures forall j :: 0 <= j < |Split(s, ';')[k]| ==> !IsSpace(Split(s, ';')[k][j])
  {
    SplitPieceChars(s, ';');
  }

  /**
   * The requested categories split into device codenames and hidden paid
   * types: "hidden_paid" hides "paid", "hidden_force_paid" hides
   * "force_paid", empty entries are skipped.
   */
  function CategoryLists(cats: seq<string>): (seq<string>, seq<string>)
    decreases |cats|
  {
    if |cats| == 0 then ([], [])
    else
      var (devices, hidden) := CategoryLists(cats[..|cats| - 1]);
      var v := cats[|cats| - 1];
      if v == "hidden_paid" then (devices, hidden + ["paid"])
      else if v == "hidden_force_paid" then (devices, hidden + ["force_paid"])
      else if v != "" then (devices + [v], hidden)
      else (devices, hidden)
  }

  /** What each list holds, in terms of the requested categories. */
  lemma {:induction false} CategoryListsMembers(cats: seq<string>)
    ensures var (devices, hidden) := CategoryLists(cats);
      (forall x :: x in devices <==> x in cats && x != "" && x != "hidden_paid" && x != "hidden_force_paid") &&
      ("paid" in hidden <==> "hidden_paid" in cats) &&
      ("force_paid" in hidden <==> "hidden_force_paid" in cats) &&
      (forall h :: h in hidden ==> h == "paid" || h == "force_paid")
    decreases |cats|
  {
    if |cats| > 0 {
      var init := cats[..|cats| - 1];
      CategoryListsMembers(init);
      assert cats == init + [cats[|cats| - 1]];
    }
  }

  /** The loop over `search.category` that fills the two lists. */
  method CategoryListsOf(cats: seq<string>) returns (devices: seq<string>, hidden: seq<string>)
    ensures (devices, hidden) == CategoryLists(cats)
  {
    devices, hidden := [], [];
    for i := 0 to |cats|
      invariant (devices, hidden) == CategoryLists(cats[..i])
    {
      assert cats[..i + 1][..i] == cats[..i];
      var v := cats[i];
      if v == "hidden_paid" || v == "hidden_force_paid" {
        hidden := hidden + [if v == "hidden_paid" then "paid" else "force_paid"];
      } else if v != "" {
        devices := devices + [v];
      }
    }
    assert cats[..|cats|] == cats;
  }

  /** The per-resource condition of `get_page`'s filter. */
  predicate Keep(res: IndexRes, filter: Option<string>, devices: seq<string>, hidden: seq<string>) {
    (filter.None? || FuzzyMatch(res.name, filter.value) || exists t :: t in res.tags && FuzzyMatch(t, filter.value)) &&
    (|devices| == 0 || exists d :: d in devices && d in res.devices) &&
    (forall p :: p in hidden ==> p != res.paidType)
  }

  /** The index restricted to the resources that pass, in index order. */
  function FilterIndex(idx: seq<IndexRes>, filter: Option<string>, devices: seq<string>, hidden: seq<string>): (r: seq<IndexRes>)
    ensures |r| <= |idx|
    ensures forall x :: x in r <==> x in idx && Keep(x, filter, devices, hidden)
    decreases |idx|
  {
    if |idx| == 0 then []
    else
      var init := FilterIndex(idx[..|idx| - 1], filter, devices, hidden);
      var last := idx[|idx| - 1];
      assert forall x :: x in idx <==> x in idx[..|idx| - 1] || x == last;
      if Keep(last, filter, devices, hidden) then init + [last] else init
  }

  function Min(a: int, b: int): int {
    if a <= b then a else b
  }

  /** `get_page`'s slice: `[page·limit, min((page+1)·limit, n))`, or nothing when that is empty. */
  function Page<T>(items: seq<T>, page: nat, limit: nat): (r: seq<T>)
    ensures |r| <= limit
    ensures page * limit >= |items| ==> r == []
    ensures forall j :: 0 <= j < |r| ==> page * limit + j < |items| && r[j] == items[page * limit + j]
    ensures page * limit < |items| ==> |r| == Min(limit, |items| - page * limit)
  {
    var start := page * limit;
    var end := Min((page + 1) * limit, |items|);
    if start >= end then [] else items[start..end]
  }

  /** Every item is on exactly one page: item `i` is entry `i % limit` of page `i / limit`. */
  lemma PageOfIndex<T>(items: seq<T>, limit: nat, i: nat)
    requires limit > 0 && i < |items|
    ensures i % limit < |Page(items, i / limit, limit)|
    ensures Page(items, i / limit, limit)[i % limit] == items[i]
  {
    var q := i / limit;
    assert q * limit + i % limit == i;
    assert q * limit <= i;
  }

  /** The entry `get_page` returns for one resource; the description repeats the resource type. */
  datatype Item = Item(name: string, restype: string, description: string, preview: seq<string>, icon: string, paidType: string)

  function ToItem(cdn: Cdn, res: IndexRes): (r: Item)
    ensures r.name == res.name && r.restype == res.restype && r.description == res.restype
    ensures r.preview == [ConvertUrl(cdn, res.cover)] && r.icon == ConvertUrl(cdn, res.icon) && r.paidType == res.paidType
  {
    Item(res.name, res.restype, res.restype, [ConvertUrl(cdn, res.cover)], ConvertUrl(cdn, res.icon), res.paidType)
  }

  /** What a search asks for. */
  datatype SearchConfig = SearchConfig(filter: Option<string>, category: Option<seq<string>>)

  /** The filtered list `get_page` slices: shuffled with the provider's seed when there is no keyword and no category. */
  function PageSource(idx: seq<IndexRes>, search: SearchConfig, shuffle: seq<IndexRes> -> seq<IndexRes>): (r: seq<IndexRes>)
    requires search.filter.Some? && search.category.Some?
  {
    var (devices, hidden) := CategoryLists(search.category.value);
    var filtered := FilterIndex(idx, search.filter, devices, hidden);
    if search.filter.value == "" && |search.category.value| == 0 then shuffle(filtered) else filtered
  }

  /**
   * `get_page`. The source unwraps both search fields, so both must be
   * present; the seeded shuffle is a parameter.
   */
  function GetPage(cdn: Cdn, idx: seq<IndexRes>, page: nat, limit: nat, search: SearchConfig,
                   shuffle: seq<IndexRes> -> seq<IndexRes>): (r: seq<Item>)
    requires search.filter.Some? && search.category.Some?
  {
    var slice := Page(PageSource(idx, search, shuffle), page, limit);
    seq(|slice|, j requires 0 <= j < |slice| => ToItem(cdn, slice[j]))
  }

  /**
   * With a keyword or a category the page is the slice of the filtered
   * index in index order, each resource turned into its item, and every
   * returned resource passed the filter.
   */
  lemma GetPageFiltered(cdn: Cdn, idx: seq<IndexRes>, page: nat, limit: nat, search: SearchConfig,
                        shuffle: seq<IndexRes> -> seq<IndexRes>)
    requires search.filter.Some? && search.category.Some?
    requires search.filter.value != "" || |search.category.value| > 0
    ensures var (devices, hidden) := CategoryLists(search.category.value);
      var filtered := FilterIndex(idx, search.filter, devices, hidden);
      var r := GetPage(cdn, idx, page, limit, search, shuffle);
      |r| == |Page(filtered, page, limit)| &&
      (forall j :: 0 <= j < |r| ==>
        page * limit + j < |filtered| && r[j] == ToItem(cdn, filtered[page * limit + j]) &&
        filtered[page * limit + j] in idx && Keep(filtered[page * limit + j], search.filter, devices, hidden))
  {
    var (devices, hidden) := CategoryLists(search.category.value);
    var filtered := FilterIndex(idx, search.filter, devices, hidden);
    assert PageSource(idx, search, shuffle) == filtered;
    var slice := Page(filtered, page, limit);
    var r := GetPage(cdn, idx, page, limit, search, shuffle);
    assert |r| == |slice|;
    forall j | 0 <= j < |r|
      ensures page * limit + j < |filtered| && r[j] == ToItem(cdn, filtered[page * limit + j])
      ensures filtered[page * limit + j] in idx && Keep(filtered[page * limit + j], search.filter, devices, hidden)
    {
      assert slice[j] == filtered[page * limit + j];
      assert filtered[page * limit + j] in filtered;
    }
  }

  /** `get_item`'s lookup: the first resource with that name. */
  function FindByName(idx: seq<IndexRes>, name: string): (r: Result<IndexRes>)
    decreases |idx|
  {
    if |idx| == 0 then Err("resource not found")
    else if idx[0].name == name then Ok(idx[0])
    else FindByName(idx[1..], name)
  }

  /** Found exactly when some resource has the name, and then it is the first such resource. */
  lemma {:induction false} FindByNameProperties(idx: seq<IndexRes>, name: string)
    ensures FindByName(idx, name).Err? <==> forall i :: 0 <= i < |idx| ==> idx[i].name != name
    ensures FindByName(idx, name).Err? ==> FindByName(idx, name).error == "resource not found"
    ensures FindByName(idx, name).Ok? ==>
      (exists i :: 0 <= i < |idx| && idx[i] == FindByName(idx, name).value &&
        idx[i].name == name && forall j :: 0 <= j < i ==> idx[j].name != name)
    decreases |idx|
  {
    if |idx| > 0 && idx[0].name != name {
      FindByNameProperties(idx[1..], name);
      if FindByName(idx, name).Ok? {
        var i :| 0 <= i < |idx[1..]| && idx[1..][i] == FindByName(idx, name).value &&
          idx[1..][i].name == name && forall j :: 0 <= j < i ==> idx[1..][j].name != name;
        assert idx[i + 1] == idx[1..][i];
        assert forall j :: 0 <= j < i + 1 ==> idx[j].name != name by {
          forall j | 0 <= j < i + 1 ensures idx[j].name != name {
            if j > 0 { assert idx[j] == idx[1..][j - 1]; }
          }
        }
      } else {
        forall i | 0 <= i < |idx| ensures idx[i].name != name {
          if i > 0 { assert idx[i] == idx[1..][i - 1]; }
        }
      }
    }
  }

  /** How many resources' names match the keyword. */
  function CountNameMatches(idx: seq<IndexRes>, keyword: string): nat
    decreases |idx|
  {
    if |idx| == 0 then 0
    else CountNameMatches(idx[..|idx| - 1], keyword) + (if FuzzyMatch(idx[|idx| - 1].name, keyword) then 1 else 0)
  }

  /** `get_total_items`: name matches only, or the whole index without a keyword. */
  function TotalItems(idx: seq<IndexRes>, filter: Option<string>): (r: nat)
    ensures filter.None? ==> r == |idx|
  {
    if filter.Some? then CountNameMatches(idx, filter.value) else |idx|
  }

  /**
   * The total never exceeds the number of resources a keyword search can
   * page through; it can fall short, since tags are not counted.
   */
  lemma {:induction false} TotalAtMostFiltered(idx: seq<IndexRes>, keyword: string)
    ensures TotalItems(idx, Some(keyword)) <= |FilterIndex(idx, Some(keyword), [], [])|
    decreases |idx|
  {
    if |idx| > 0 {
      TotalAtMostFiltered(idx[..|idx| - 1], keyword);
    }
  }

  /** The empty keyword counts every resource. */
  lemma {:induction false} TotalEmptyKeyword(idx: seq<IndexRes>)
    ensures TotalItems(idx, Some("")) == |idx|
    decreases |idx|
  {
    if |idx| > 0 {
      TotalEmptyKeyword(idx[..|idx| - 1]);
      var name := idx[|idx| - 1].name;
      ContainsAt(ToLower(name), ToLower(""), 0);
    }
  }

  /** Strictly increasing: sorted and free of duplicates. */
  predicate StrictlySorted(s: seq<string>) {
    forall i, j :: 0 <= i < j < |s| ==> StrLt(s[i], s[j])
  }

  /** Insertion into a strictly sorted list, dropping a value already there. */
  function InsertSorted(s: seq<string>, x: string): (r: seq<string>)
    requires StrictlySorted(s)
    ensures StrictlySorted(r)
    ensures forall y :: y in r <==> y in s || y == x
    decreases |s|
  {
    if |s| == 0 then [x]
    else if x == s[0] then s
    else if StrLt(x, s[0]) then
      assert forall j :: 0 <= j < |s| ==> StrLt(x, s[j]) by {
        forall j | 0 <= j < |s| ensures StrLt(x, s[j]) {
          if j > 0 { StrLtTransitive(x, s[0], s[j]); }
        }
      }
      [x] + s
    else
      StrLtTotal(x, s[0]);
      var t := InsertSorted(s[1..], x);
      assert forall y :: y in t ==> StrLt(s[0], y) by {
        forall y | y in t ensures StrLt(s[0], y) {
          if y != x {
            var j :| 0 <= j < |s[1..]| && s[1..][j] == y;
            assert s[j + 1] == y;
          }
        }
      }
      assert forall y :: y in s <==> y == s[0] || y in s[1..] by {
        assert s == [s[0]] + s[1..];
      }
      [s[0]] + t
  }

  /** Two strictly sorted lists with the same elements are the same list. */
  lemma {:induction false} StrictlySortedUnique(a: seq<string>, b: seq<string>)
    requires StrictlySorted(a) && StrictlySorted(b)
    requires forall y :: y in a <==> y in b
    ensures a == b
    decreases |a|
  {
    assert |a| > 0 ==> a[0] in a && a[0] in b;
    assert |b| > 0 ==> b[0] in b && b[0] in a;
    if |a| > 0 && |b| > 0 {
      if a[0] != b[0] {
        var i :| 0 <= i < |b| && b[i] == a[0];
        var j :| 0 <= j < |a| && a[j] == b[0];
        assert StrLt(b[0], a[0]) && StrLt(a[0], b[0]);
        StrLtAsymmetric(a[0], b[0]);
      }
      assert a == [a[0]] + a[1..] && b == [b[0]] + b[1..];
      forall y | y in a[1..]
        ensures y in b[1..]
      {
        var k :| 0 <= k < |a[1..]| && a[1..][k] == y;
        assert StrLt(a[0], a[k + 1]);
        StrLtIrreflexive(y);
        assert y in a && y in b && y != b[0];
        var m :| 0 <= m < |b| && b[m] == y;
        assert b[1..][m - 1] == y;
      }
      forall y | y in b[1..]
        ensures y in a[1..]
      {
        var k :| 0 <= k < |b[1..]| && b[1..][k] == y;
        assert StrLt(b[0], b[k + 1]);
        StrLtIrreflexive(y);
        assert y in b && y in a && y != a[0];
        var m :| 0 <= m < |a| && a[m] == y;
        assert a[1..][m - 1] == y;
      }
      StrictlySortedUnique(a[1..], b[1..]);
      assert a == [a[0]] + a[1..] && b == [b[0]] + b[1..];
    }
  }

  /**
   * `get_categories`: the two paid-visibility categories first, then the
   * device codenames sorted and without duplicates.
   */
  method GetCategories(codenames: seq<string>) returns (r: seq<string>)
    ensures |r| >= 2 && r[0] == "hidden_paid" && r[1] == "hidden_force_paid"
    ensures StrictlySorted(r[2..])
    ensures forall y :: y in r[2..] <==> y in codenames
  {
    var sorted: seq<string> := [];
    for i := 0 to |codenames|
      invariant StrictlySorted(sorted)
      invariant forall y :: y in sorted <==> y in codenames[..i]
    {
      assert forall y :: y in codenames[..i + 1] <==> y in codenames[..i] || y == codenames[i] by {
        assert codenames[..i + 1] == codenames[..i] + [codenames[i]];
      }
      sorted := InsertSorted(sorted, codenames[i]);
    }
    assert codenames[..|codenames|] == codenames;
    r := ["hidden_paid", "hidden_force_paid"] + sorted;
    assert r[2..] == sorted;
  }

  /* ---- download progress ---- */

  const REM_BY_ZERO := "attempt to calculate the remainder with a divisor of zero"

  /**
   * `download`'s progress condition as written: more than 100 ms since the
   * last report, or a known total and a byte count that is a multiple of
   * `total / 100`. For a total below 100 bytes that divisor is zero and the
   * remainder panics whenever the clock check does not short-circuit.
   */
  function ProgressDueAsWritten(elapsedMs: nat, total: nat, downloaded: nat): (r: Result<bool>)
    ensures r.Err? <==> elapsedMs <= 100 && 0 < total < 100
    ensures r.Ok? ==> (r.value <==> elapsedMs > 100 || (total > 0 && downloaded % (total / 100) == 0))
  {
    if elapsedMs > 100 then Ok(true)
    else if total == 0 then Ok(false)
    else if total / 100 == 0 then Err(REM_BY_ZERO)
    else Ok(downloaded % (total / 100) == 0)
  }

  /** A 50-byte resource whose first chunk arrives within 100 ms stops the download with a panic. */
  lemma ProgressSmallTotalPanics()
    ensures ProgressDueAsWritten(0, 50, 50) == Err(REM_BY_ZERO)
  {
  }

  /**
   * The condition with the step kept at one byte or more: it never fails,
   * it reports at least once per hundredth of a known total, and it agrees
   * with the written condition wherever that one does not panic.
   */
  function ProgressDue(elapsedMs: nat, total: nat, downloaded: nat): (r: bool)
    ensures ProgressDueAsWritten(elapsedMs, total, downloaded).Ok? ==>
      r == ProgressDueAsWritten(elapsedMs, total, downloaded).value
    ensures elapsedMs > 100 ==> r
    ensures total > 0 && downloaded % (if total / 100 == 0 then 1 else total / 100) == 0 ==> r
  {
    var step := if total / 100 == 0 then 1 else total / 100;
    elapsedMs > 100 || (total > 0 && downloaded % step == 0)
  }
}

=== FILE: config.dfy ===
/**
 * The application configuration store: a recursive JSON merge that applies
 * a patch to the configuration tree, and the write path that updates the
 * in-memory configuration and then tries to persist it.
 */
module Config {
  import opened Wrappers

  /** A JSON value; objects are maps from keys to values. */
  datatype Json =
    | Null
    | Bool(b: bool)
    | Num(n: int)
    | Str(s: string)
    | Arr(items: seq<Json>)
    | Obj(fields: map<string, Json>)

  /**
   * The fields of object `d` after the patch entries with keys in `done` have
   * been applied: a key present in `d` is merged recursively, a new key is
   * inserted.
   */
  function MergeFields(d: map<string, Json>, p: map<string, Json>, done: set<string>): (r: map<string, Json>)
    requires done <= p.Keys
    decreases Obj(p), 0
  {
    map k | k in d.Keys + done ::
      if k in done then (if k in d then Merge(d[k], p[k]) else p[k]) else d[k]
  }

  /**
   * `merge(dst, patch)`: two objects merge key by key; in every other case
   * the destination becomes a copy of the patch.
   */
  function Merge(dst: Json, patch: Json): (r: Json)
    decreases patch, 1
  {
    if dst.Obj? && patch.Obj? then Obj(MergeFields(dst.fields, patch.fields, patch.fields.Keys))
    else patch
  }

  /** Every patch key ends up in the result, merged into the old value when there was one. */
  lemma MergePatchKeys(d: map<string, Json>, p: map<string, Json>)
    ensures Merge(Obj(d), Obj(p)).Obj?
    ensures Merge(Obj(d), Obj(p)).fields.Keys == d.Keys + p.Keys
    ensures forall k :: k in p && k in d ==> Merge(Obj(d), Obj(p)).fields[k] == Merge(d[k], p[k])
    ensures forall k :: k in p && k !in d ==> Merge(Obj(d), Obj(p)).fields[k] == p[k]
  {
  }

  /** Keys the patch does not mention keep their old values. */
  lemma MergeUntouched(d: map<string, Json>, p: map<string, Json>)
    ensures Merge(Obj(d), Obj(p)).Obj? && d.Keys <= Merge(Obj(d), Obj(p)).fields.Keys
    ensures forall k :: k in d && k !in p ==> Merge(Obj(d), Obj(p)).fields[k] == d[k]
  {
  }

  /** When either side is not an object the patch replaces the destination; a null patch overwrites. */
  lemma MergeNonObject(dst: Json, patch: Json)
    requires !dst.Obj? || !patch.Obj?
    ensures Merge(dst, patch) == patch
    ensures patch == Null ==> Merge(dst, patch) == Null
  {
  }

  /** Merging an empty object into an object changes nothing. */
  lemma MergeEmpty(d: map<string, Json>)
    ensures Merge(Obj(d), Obj(map[])) == Obj(d)
  {
    assert MergeFields(d, map[], {}) == d;
  }

  /** A value merged into itself is unchanged. */
  lemma {:induction false} MergeSelf(x: Json)
    ensures Merge(x, x) == x
    decreases x
  {
    if x.Obj? {
      forall k | k in x.fields
        ensures Merge(x.fields[k], x.fields[k]) == x.fields[k]
      {
        MergeSelf(x.fields[k]);
      }
      assert MergeFields(x.fields, x.fields, x.fields.Keys) == x.fields;
    }
  }

  /** Merging the same patch twice is merging it once. */
  lemma {:induction false} MergeIdempotent(dst: Json, patch: Json)
    ensures Merge(Merge(dst, patch), patch) == Merge(dst, patch)
    decreases patch
  {
    if dst.Obj? && patch.Obj? {
      var d := dst.fields;
      var p := patch.fields;
      var m := MergeFields(d, p, p.Keys);
      forall k | k in p
        ensures Merge(m[k], p[k]) == m[k]
      {
        if k in d {
          MergeIdempotent(d[k], p[k]);
        } else {
          MergeSelf(p[k]);
        }
      }
      assert MergeFields(m, p, p.Keys) == m;
    } else {
      MergeSelf(patch);
    }
  }

  /** `merge` as the source runs it. */
  method MergeInto(dst: Json, patch: Json) returns (r: Json)
    ensures r == Merge(dst, patch)
    decreases patch, 2
  {
    if dst.Obj? && patch.Obj? {
      var fields := MergeFieldsInto(dst.fields, patch.fields);
      MergeObjects(dst, patch);
      r := Obj(fields);
    } else {
      r := patch;
    }
  }

  /** The `for (k, v) in p` loop of `merge` on two objects. */
  method MergeFieldsInto(d0: map<string, Json>, p: map<string, Json>) returns (d: map<string, Json>)
    ensures d == MergeFields(d0, p, p.Keys)
    decreases Obj(p), 1
  {
    d := d0;
    var todo := p.Keys;
    ghost var done: set<string> := {};
    MergeFieldsNone(d0, p);
    hide MergeFields;
    while todo != {}
      invariant done <= p.Keys && todo == p.Keys - done
      invariant d == MergeFields(d0, p, done)
      decreases |todo|
    {
      var k :| k in todo;
      d := MergeEntry(d0, p, done, k, d);
      done := done + {k};
      todo := todo - {k};
    }
    assert done == p.Keys by {
      forall k | k in p.Keys ensures k in done {
        assert k !in todo;
      }
    }
  }

  /** One turn of the loop: the entry is merged into a value already there, or inserted. */
  method MergeEntry(d0: map<string, Json>, p: map<string, Json>, ghost done: set<string>, k: string, d: map<string, Json>)
    returns (d': map<string, Json>)
    requires done <= p.Keys && k in p && k !in done && d == MergeFields(d0, p, done)
    ensures d' == MergeFields(d0, p, done + {k})
    decreases Obj(p), 0
  {
    MergeFieldsStep(d0, p, done, k);
    hide MergeFields;
    if k in d {
      assert p[k] < Obj(p);
      var v := MergeInto(d[k], p[k]);
      d' := d[k := v];
    } else {
      d' := d[k := p[k]];
    }
  }

  lemma MergeObjects(dst: Json, patch: Json)
    requires dst.Obj? && patch.Obj?
    ensures Merge(dst, patch) == Obj(MergeFields(dst.fields, patch.fields, patch.fields.Keys))
  {
  }

  /** Before any patch entry is applied the fields are the destination's. */
  lemma MergeFieldsNone(d: map<string, Json>, p: map<string, Json>)
    ensures MergeFields(d, p, {}) == d
  {
  }

  /** Applying one more patch entry updates exactly that key; before it, the key holds its old value if any. */
  lemma MergeFieldsStep(d: map<string, Json>, p: map<string, Json>, done: set<string>, k: string)
    requires done <= p.Keys && k in p && k !in done
    ensures k in MergeFields(d, p, done) <==> k in d
    ensures k in d ==> MergeFields(d, p, done)[k] == d[k]
    ensures MergeFields(d, p, done + {k}) ==
      MergeFields(d, p, done)[k := if k in d then Merge(d[k], p[k]) else p[k]]
  {
  }

  /**
   * The in-memory configuration `C` behind its lock, and what was last
   * persisted to disk (nothing before the first successful save).
   */
  class ConfigStore<C(==)> {
    var config: C
    var persisted: Option<C>

    constructor (initial: C)
      ensures config == initial && persisted == None
    {
      config := initial;
      persisted := None;
    }

    /** `read`: the closure sees the current configuration. */
    method Read<R>(f: C -> R) returns (r: R)
      ensures r == f(config)
    {
      r := f(config);
    }

    /**
     * `write`: the closure updates the configuration and its result is
     * returned; the new configuration is kept even when persisting it fails.
     */
    method Write<R>(f: C -> (C, R), persistOk: bool) returns (r: R)
      modifies this
      ensures config == f(old(config)).0 && r == f(old(config)).1
      ensures persisted == (if persistOk then Some(config) else old(persisted))
    {
      var out := f(config);
      config := out.0;
      if persistOk {
        persisted := Some(config);
      }
      r := out.1;
    }
  }
}

=== FILE: crypto.dfy ===
/**
 * Library primitives the source calls but does not implement (MD5, SHA-256,
 * HMAC-SHA256, CRC-32, AES). The model never looks inside them: each is a
 * parameter of the operations that use it, typed only by its output length.
 */
module Crypto {
  import opened Bytes

  type Digest16 = s: seq<byte> | |s| == 16 witness Zeros(16)
  type Digest32 = s: seq<byte> | |s| == 32 witness Zeros(32)

  /** MD5 of a byte string. */
  type Md5Fn = seq<byte> -> Digest16
  /** SHA-256 of the UTF-8 encoding of a text. */
  type Sha256Fn = string -> Digest32
  /** HMAC-SHA256 under a key. */
  type HmacFn = (seq<byte>, seq<byte>) -> Digest32
  /** CRC-32/ISO-HDLC of a byte string. */
  type Crc32Fn = seq<byte> -> u32
  /** AES-128 in counter mode: key, initial counter block, data. */
  type AesCtrFn = (Digest16, Digest16, seq<byte>) -> seq<byte>
}

=== FILE: device.dfy ===
/**
 * The connected-device object (`MiWearDevice`): receive-buffer reassembly,
 * the sequence counter, frame building, MTU fragmentation, the pending
 * request tables and the authentication guard.
 *
 * The link itself is an abstract sink: every write handed to it is appended
 * to `written`, and whether a write fails is an input of the operation.
 */
module Device {
  import opened Wrappers
  import opened Bytes
  import opened Crypto
  import opened Packet
  import Strings


  /** Default request timeout (`REQ_TIMEOUT`), in milliseconds. */
  const REQ_TIMEOUT_MS := 5000

  datatype ConnectType = BLE | SPP

  datatype SecurityKeys = SecurityKeys(encKey: seq<byte>, decKey: seq<byte>, encNonce: seq<byte>, decNonce: seq<byte>)

  /** `MiWearState`, the device record the configuration stores (the BLE characteristic ids left out). */
  datatype MiWearState = MiWearState(
    name: string,
    addr: string,
    authkey: string,
    maxFrameSize: nat,
    secKeys: Option<SecurityKeys>,
    networkMtu: nat,
    codename: string)

  /** The configuration fields that hold devices: the current one and the paired ones. */
  datatype AppConfig = AppConfig(currentDevice: Option<MiWearState>, pairedDevices: seq<MiWearState>)

  /**
   * The configuration update at the end of `start_auth`: every paired device
   * with the same name becomes `s`, and `s` becomes the current device.
   */
  function SaveState(c: AppConfig, s: MiWearState): AppConfig {
    AppConfig(Some(s), seq(|c.pairedDevices|, j requires 0 <= j < |c.pairedDevices| =>
      if c.pairedDevices[j].name == s.name then s else c.pairedDevices[j]))
  }

  /**
   * The saved state is current; a paired device of that name is replaced by
   * it in place, every other device is kept, nothing is added (a device that
   * was never paired stays unpaired), and saving twice is saving once.
   */
  lemma SaveStateProperties(c: AppConfig, s: MiWearState)
    ensures var r := SaveState(c, s);
      r.currentDevice == Some(s) && |r.pairedDevices| == |c.pairedDevices|
      && (forall j :: 0 <= j < |c.pairedDevices| && c.pairedDevices[j].name == s.name ==> r.pairedDevices[j] == s)
      && (forall j :: 0 <= j < |c.pairedDevices| && c.pairedDevices[j].name != s.name ==> r.pairedDevices[j] == c.pairedDevices[j])
      && ((forall j :: 0 <= j < |c.pairedDevices| ==> c.pairedDevices[j].name != s.name) ==> r.pairedDevices == c.pairedDevices)
      && SaveState(r, s) == r
  {
    var r := SaveState(c, s);
    var rr := SaveState(r, s);
    assert |rr.pairedDevices| == |r.pairedDevices|;
    forall j | 0 <= j < |r.pairedDevices| ensures rr.pairedDevices[j] == r.pairedDevices[j] {
    }
  }

  /** `ProtoKey = (type, id)` of an awaited protobuf reply. */
  datatype ProtoKey = ProtoKey(pbType: u32, id: u32)

  /* ---- sequence numbers ---- */

  /** The `fetch_update` step of the `seq` counter: 255 wraps to 0. */
  function NextSeq(v: byte): (w: byte)
    ensures w == (v + 1) % 0x100
  {
    if v == 255 then 0 else v + 1
  }

  /** The counter after `k` frames have been built on a fresh device. */
  function SeqAfter(k: nat): byte
    decreases k
  {
    if k == 0 then 0 else NextSeq(SeqAfter(k - 1))
  }

  /** Frame number `k` (from 0) carries seq `k mod 256`: 0, 1, …, 255, 0, … */
  lemma {:induction false} SeqAfterCycles(k: nat)
    ensures SeqAfter(k) == k % 0x100
    decreases k
  {
    if k > 0 {
      SeqAfterCycles(k - 1);
    }
  }

  /* ---- receive-buffer scanning ---- */

  datatype ScanResult = ScanResult(frames: seq<byte>, consumed: nat)

  /**
   * What `pop_bt_packet` extracts from a buffer: scanning from the front while
   * more than 8 bytes remain, a complete `A5 A5` frame is taken whole, a
   * non-magic byte is skipped, and an incomplete frame stops the scan.
   */
  function Scan(s: seq<byte>): (r: ScanResult)
    ensures r.consumed <= |s|
    decreases |s|
  {
    if |s| <= HEADER_LEN then ScanResult([], 0)
    else if s[..2] == MAGIC then
      var frameSz := HEADER_LEN + ReadU16Le(s[4], s[5]);
      if frameSz <= |s| then
        var rest := Scan(s[frameSz..]);
        ScanResult(s[..frameSz] + rest.frames, frameSz + rest.consumed)
      else ScanResult([], 0)
    else
      var rest := Scan(s[1..]);
      ScanResult(rest.frames, 1 + rest.consumed)
  }

  /** A run of complete frames, each `A5 A5`, its length field, then that many body bytes. */
  predicate CompleteFrames(f: seq<byte>)
    decreases |f|
  {
    |f| == 0 ||
      (|f| >= HEADER_LEN && f[..2] == MAGIC
       && HEADER_LEN + ReadU16Le(f[4], f[5]) <= |f|
       && CompleteFrames(f[HEADER_LEN + ReadU16Le(f[4], f[5])..]))
  }

  /** Everything the scan returns is whole frames. */
  lemma {:induction false} ScanFramesComplete(s: seq<byte>)
    ensures CompleteFrames(Scan(s).frames)
    decreases |s|
  {
    if |s| > HEADER_LEN {
      if s[..2] == MAGIC {
        var frameSz := HEADER_LEN + ReadU16Le(s[4], s[5]);
        if frameSz <= |s| {
          ScanFramesComplete(s[frameSz..]);
          var f := Scan(s).frames;
          assert f == s[..frameSz] + Scan(s[frameSz..]).frames;
          assert f[..2] == MAGIC && f[4] == s[4] && f[5] == s[5];
          assert f[frameSz..] == Scan(s[frameSz..]).frames;
        }
      } else {
        ScanFramesComplete(s[1..]);
      }
    }
  }

  /** A frame at the front that the buffer does not yet hold in full is left alone. */
  lemma ScanKeepsIncomplete(s: seq<byte>)
    requires |s| > HEADER_LEN && s[..2] == MAGIC && |s| < HEADER_LEN + ReadU16Le(s[4], s[5])
    ensures Scan(s) == ScanResult([], 0)
  {
  }

  /**
   * Complete frames with non-empty bodies are all taken, and a bare 8-byte
   * frame (an empty-body frame such as an ACK) at the tail is neither
   * returned nor consumed.
   */
  lemma {:induction false} ScanEncodedFrames(ps: seq<MiWearPacket>, tail: MiWearPacket)
    requires forall i :: 0 <= i < |ps| ==> 0 < |ps[i].body| < 0x1_0000
    requires |tail.body| == 0
    ensures Scan(EncodeAll(ps) + Encode(tail)) == ScanResult(EncodeAll(ps), |EncodeAll(ps)|)
    decreases |ps|
  {
    var t := Encode(tail);
    assert |t| == HEADER_LEN;
    if |ps| == 0 {
      assert EncodeAll(ps) + t == t;
      ScanShort(t);
    } else {
      var e := Encode(ps[0]);
      var rest := EncodeAll(ps[1..]) + t;
      assert EncodeAll(ps) + t == e + rest;
      ScanFrontFrame(ps[0], rest);
      ScanEncodedFrames(ps[1..], tail);
      hide Encode, Scan, Crc16Value;
      assert EncodeAll(ps) == e + EncodeAll(ps[1..]);
    }
  }

  /** A whole encoded frame with a non-empty body at the front is taken, then the scan goes on after it. */
  lemma ScanFrontFrame(p: MiWearPacket, rest: seq<byte>)
    requires 0 < |p.body| < 0x1_0000
    ensures var e := Encode(p);
      Scan(e + rest) == ScanResult(e + Scan(rest).frames, |e| + Scan(rest).consumed)
  {
    var e := Encode(p);
    var s := e + rest;
    assert s[..2] == e[..2];
    assert s[4] == e[4] && s[5] == e[5];
    assert ReadU16Le(s[4], s[5]) == |p.body| by {
      assert |p.body| % 0x1_0000 == |p.body|;
      var u := U16Le(|p.body|);
      assert e[4] == u[0] && e[5] == u[1];
    }
    hide Encode, Crc16Value;
    assert s[..|e|] == e;
    assert s[|e|..] == rest;
  }

  lemma ScanShort(s: seq<byte>)
    requires |s| <= HEADER_LEN
    ensures Scan(s) == ScanResult([], 0)
  {
  }

  lemma ScanFrameStep(buf: seq<byte>, idx: nat)
    requires idx + HEADER_LEN < |buf| && buf[idx..idx + 2] == MAGIC
    requires idx + HEADER_LEN + ReadU16Le(buf[idx + 4], buf[idx + 5]) <= |buf|
    ensures var end := idx + HEADER_LEN + ReadU16Le(buf[idx + 4], buf[idx + 5]);
      Scan(buf[idx..]) == ScanResult(buf[idx..end] + Scan(buf[end..]).frames, (end - idx) + Scan(buf[end..]).consumed)
  {
    var s := buf[idx..];
    assert s[..2] == buf[idx..idx + 2] && s[4] == buf[idx + 4] && s[5] == buf[idx + 5];
    var end := idx + HEADER_LEN + ReadU16Le(buf[idx + 4], buf[idx + 5]);
    assert s[..end - idx] == buf[idx..end];
    assert s[end - idx..] == buf[end..];
  }

  lemma ScanIncompleteStep(buf: seq<byte>, idx: nat)
    requires idx + HEADER_LEN < |buf| && buf[idx..idx + 2] == MAGIC
    requires idx + HEADER_LEN + ReadU16Le(buf[idx + 4], buf[idx + 5]) > |buf|
    ensures Scan(buf[idx..]) == ScanResult([], 0)
  {
    var s := buf[idx..];
    assert s[..2] == buf[idx..idx + 2] && s[4] == buf[idx + 4] && s[5] == buf[idx + 5];
  }

  lemma ScanSkipStep(buf: seq<byte>, idx: nat)
    requires idx + HEADER_LEN < |buf| && buf[idx..idx + 2] != MAGIC
    ensures Scan(buf[idx..]) == ScanResult(Scan(buf[idx + 1..]).frames, 1 + Scan(buf[idx + 1..]).consumed)
  {
    var s := buf[idx..];
    assert s[..2] == buf[idx..idx + 2];
    assert s[1..] == buf[idx + 1..];
  }

  /* ---- fragmentation ---- */

  /**
   * The writes `send_fragments` hands to the link: the whole frame when it fits
   * in one write, otherwise its `max`-byte chunks; a failing write (number
   * `failAt`, from 0) is the last one attempted.
   */
  function FragmentWrites(frame: seq<byte>, max: nat, failAt: Option<nat>): (w: seq<seq<byte>>)
    requires max > 0
  {
    var all := if |frame| <= max then [frame] else Chunks(frame, max);
    if failAt.Some? && failAt.value < |all| then all[..failAt.value + 1] else all
  }

  /** Without a failure the writes put together give the frame, and none exceeds the frame size. */
  lemma FragmentWritesDeliver(frame: seq<byte>, max: nat)
    requires max > 0
    ensures Flatten(FragmentWrites(frame, max, None)) == frame
    ensures forall i :: 0 <= i < |FragmentWrites(frame, max, None)| ==> |FragmentWrites(frame, max, None)[i]| <= max
    ensures |frame| <= max ==> FragmentWrites(frame, max, None) == [frame]
  {
    if |frame| <= max {
      assert Flatten([frame]) == frame + Flatten([]);
    } else {
      ChunksFlatten(frame, max);
    }
  }

  /** A failing write stops the sequence: what reached the link is a prefix of the frame. */
  lemma FragmentWritesPrefix(frame: seq<byte>, max: nat, k: nat)
    requires max > 0
    ensures |FragmentWrites(frame, max, Some(k))| <= k + 1
    ensures Flatten(FragmentWrites(frame, max, Some(k))) <= frame
  {
    var all := if |frame| <= max then [frame] else Chunks(frame, max);
    FragmentWritesDeliver(frame, max);
    assert Flatten(all) == frame;
    if k < |all| {
      assert all == all[..k + 1] + all[k + 1..];
      FlattenAppend(all[..k + 1], all[k + 1..]);
    }
  }

  /* ---- the device ---- */

  class MiWearDevice {
    /** `max_frame_size`, fixed at connect time. */
    const maxFrameSize: nat
    /** The device's name and address, fixed at connect time. */
    const name: string
    const addr: string
    /** `network_mtu`: the MTU stored for this address when it was connected (0 when none). */
    const networkMtu: nat
    /** `codename`, empty at connect time. */
    const codename: string
    /** `recv_buffer`: bytes received and not yet popped. */
    var recvBuffer: seq<byte>
    /** The `AtomicU8` sequence counter. */
    var seqCounter: byte
    var authKey: string
    var secKeys: Option<SecurityKeys>
    /** Keys of `pending_seq`: requests waiting for the Data reply with that seq. */
    var pendingSeq: set<byte>
    /** Whether `pending_ack` holds its single entry. */
    var pendingAck: bool
    /** Keys of `pending_proto`. */
    var pendingProto: set<ProtoKey>
    /** `proto_subscribers`: callback ids per protobuf type, in registration order. */
    var subscribers: map<u32, seq<nat>>
    /** Whether the network stack's sender (`network_tx`) is installed. */
    var networkRunning: bool
    /** Every write handed to the link, in order. */
    var written: seq<seq<byte>>
    /** `is_sending_mass`: set while a mass transfer queues its parts. */
    var isSendingMass: bool

    /**
     * The state `connect` builds: the link's name, or the requested one when
     * the link reports none; 977-byte frames over SPP, 244 over BLE; the MTU
     * stored for the address; and, registered last, the callback (id
     * `onThirdpartyApp`) for protobuf packets of the ThirdpartyApp type, whose
     * number is `thirdpartyAppType`.
     */
    constructor (connectType: ConnectType, linkName: string, linkAddr: string, requestedName: string, storedMtu: nat,
                 thirdpartyAppType: u32, onThirdpartyApp: nat)
      ensures maxFrameSize == (if connectType == SPP then 977 else 244)
      ensures name == (if linkName == "" then requestedName else linkName) && addr == linkAddr
      ensures networkMtu == storedMtu && codename == ""
      ensures recvBuffer == [] && seqCounter == 0 && authKey == "" && secKeys == None
      ensures pendingSeq == {} && !pendingAck && pendingProto == {}
      ensures subscribers == map[thirdpartyAppType := [onThirdpartyApp]]
      ensures networkRunning && written == [] && !isSendingMass
    {
      maxFrameSize := if connectType == SPP then 977 else 244;
      name := if linkName == "" then requestedName else linkName;
      addr := linkAddr;
      networkMtu := storedMtu;
      codename := "";
      recvBuffer := [];
      seqCounter := 0;
      authKey := "";
      secKeys := None;
      pendingSeq := {};
      pendingAck := false;
      pendingProto := {};
      subscribers := map[];
      networkRunning := true;
      written := [];
      isSendingMass := false;
      new;
      // The last step of `connect`: the ThirdpartyApp packets go to `on_thirdparty_app`.
      SubscribeProto(thirdpartyAppType, onThirdpartyApp);
      assert [] + [onThirdpartyApp] == [onThirdpartyApp];
    }

    /** `push_recv_data`: the new bytes go at the end of the buffer. */
    method PushRecvData(data: seq<byte>)
      modifies this
      ensures recvBuffer == old(recvBuffer) + data
      ensures seqCounter == old(seqCounter) && secKeys == old(secKeys) && authKey == old(authKey)
      ensures pendingSeq == old(pendingSeq) && pendingAck == old(pendingAck) && pendingProto == old(pendingProto)
      ensures subscribers == old(subscribers) && networkRunning == old(networkRunning) && written == old(written) && isSendingMass == old(isSendingMass)
    {
      recvBuffer := recvBuffer + data;
    }

    /**
     * `pop_bt_packet`: returns the complete frames found at the front (None if
     * there are none) and drops from the buffer every byte it scanned past.
     */
    method PopBtPacket() returns (r: Option<seq<byte>>)
      modifies this
      ensures var sr := Scan(old(recvBuffer));
        r == (if |sr.frames| > 0 then Some(sr.frames) else None)
        && recvBuffer == old(recvBuffer)[sr.consumed..]
      ensures seqCounter == old(seqCounter) && secKeys == old(secKeys) && authKey == old(authKey)
      ensures pendingSeq == old(pendingSeq) && pendingAck == old(pendingAck) && pendingProto == old(pendingProto)
      ensures subscribers == old(subscribers) && networkRunning == old(networkRunning) && written == old(written) && isSendingMass == old(isSendingMass)
    {
      hide Scan;
      var buf := recvBuffer;
      var result: seq<byte> := [];
      var idx := 0;
      assert buf[idx..] == buf;
      while |buf| - idx > HEADER_LEN
        invariant idx <= |buf| && unchanged(this)
        invariant Scan(buf) == ScanResult(result + Scan(buf[idx..]).frames, idx + Scan(buf[idx..]).consumed)
        decreases |buf| - idx
      {
        if buf[idx..idx + 2] == MAGIC {
          var len := ReadU16Le(buf[idx + 4], buf[idx + 5]);
          var endIdx := idx + len + HEADER_LEN;
          if |buf| >= endIdx {
            ScanFrameStep(buf, idx);
            result := result + buf[idx..endIdx];
            idx := endIdx;
          } else {
            ScanIncompleteStep(buf, idx);
            break;
          }
        } else {
          ScanSkipStep(buf, idx);
          idx := idx + 1;
        }
      }
      if |buf| - idx <= HEADER_LEN {
        ScanShort(buf[idx..]);
      }
      assert result + [] == result;
      if idx != 0 {
        recvBuffer := recvBuffer[idx..];
      }
      if |result| > 0 {
        return Some(result);
      }
      return None;
    }

    /**
     * `build_frame`: encrypts an Encrypted payload under the stored encryption
     * key (the source unwraps the keys, so they must be present and 16 bytes
     * long), takes the current counter value as the frame's seq and advances
     * the counter.
     */
    method BuildFrame(channel: Channel, op: OpCode, payload: seq<byte>, aes: AesCtrFn)
      returns (seqNo: byte, frame: seq<byte>)
      requires op == Encrypted ==> secKeys.Some? && |secKeys.value.encKey| == 16
      modifies this
      ensures seqNo == old(seqCounter) && seqCounter == NextSeq(old(seqCounter))
      ensures var data := if op == Encrypted then aes(old(secKeys).value.encKey, old(secKeys).value.encKey, payload) else payload;
        frame == Encode(NewData(seqNo, channel, op, data))
      ensures recvBuffer == old(recvBuffer) && secKeys == old(secKeys) && authKey == old(authKey)
      ensures pendingSeq == old(pendingSeq) && pendingAck == old(pendingAck) && pendingProto == old(pendingProto)
      ensures subscribers == old(subscribers) && networkRunning == old(networkRunning) && written == old(written) && isSendingMass == old(isSendingMass)
    {
      var pdata := payload;
      if op == Encrypted {
        var encKey: Digest16 := secKeys.value.encKey;
        pdata := aes(encKey, encKey, pdata);
      }
      seqNo := seqCounter;
      seqCounter := NextSeq(seqCounter);
      frame := Encode(NewData(seqNo, channel, op, pdata));
    }

    /** `send`: one write of `payload` to the link; `fails` is the link's answer. */
    method Send(payload: seq<byte>, fails: bool) returns (r: Result<()>)
      modifies this
      ensures written == old(written) + [payload]
      ensures r.Ok? <==> !fails
      ensures recvBuffer == old(recvBuffer) && seqCounter == old(seqCounter) && secKeys == old(secKeys) && authKey == old(authKey)
      ensures pendingSeq == old(pendingSeq) && pendingAck == old(pendingAck) && pendingProto == old(pendingProto)
      ensures subscribers == old(subscribers) && networkRunning == old(networkRunning) && isSendingMass == old(isSendingMass)
    {
      written := written + [payload];
      r := if fails then Err(WRITE_FAILED) else Ok(());
    }

    /**
     * `send_fragments`: one write when the frame fits in `max_frame_size`,
     * otherwise one write per chunk, stopping at the first failed write
     * (`failAt` numbers the write that fails, if any).
     */
    method SendFragments(frame: seq<byte>, failAt: Option<nat>) returns (r: Result<()>)
      requires maxFrameSize > 0
      modifies this
      ensures written == old(written) + FragmentWrites(frame, maxFrameSize, failAt)
      ensures r.Ok? <==> !(failAt.Some? && failAt.value < |FragmentWrites(frame, maxFrameSize, None)|)
      ensures r.Err? ==> r == Err(WRITE_FAILED)
      ensures recvBuffer == old(recvBuffer) && seqCounter == old(seqCounter) && secKeys == old(secKeys) && authKey == old(authKey)
      ensures pendingSeq == old(pendingSeq) && pendingAck == old(pendingAck) && pendingProto == old(pendingProto)
      ensures subscribers == old(subscribers) && networkRunning == old(networkRunning) && isSendingMass == old(isSendingMass)
    {
      if |frame| <= maxFrameSize {
        written := written + [frame];
        if failAt == Some(0) {
          return Err(WRITE_FAILED);
        }
        return Ok(());
      }
      var chunks := Chunks(frame, maxFrameSize);
      var sent: seq<seq<byte>> := [];
      var i := 0;
      while i < |chunks|
        invariant i <= |chunks|
        invariant failAt.Some? ==> i <= failAt.value
        invariant sent == chunks[..i] && unchanged(this)
      {
        sent := sent + [chunks[i]];
        assert chunks[..i + 1] == chunks[..i] + [chunks[i]];
        if failAt == Some(i) {
          written := written + sent;
          return Err(WRITE_FAILED);
        }
        i := i + 1;
      }
      assert chunks[..i] == chunks;
      written := written + sent;
      return Ok(());
    }

    /**
     * `request`: builds the frame, registers a waiter for its seq, sends it and
     * waits. A failed send ends the request with the send's error; otherwise
     * the request ends with the reply (`reply`, when the receive path delivers
     * it and removes the waiter), or with the error of a dropped sender or of
     * the timeout, which leave the waiter registered.
     */
    method Request<D>(channel: Channel, op: OpCode, payload: seq<byte>, aes: AesCtrFn, failAt: Option<nat>,
                      wait: WaitOutcome, reply: D)
      returns (seqNo: byte, r: Result<D>)
      requires op == Encrypted ==> secKeys.Some? && |secKeys.value.encKey| == 16
      requires maxFrameSize > 0
      modifies this
      ensures seqNo == old(seqCounter)
      ensures var data := if op == Encrypted then aes(old(secKeys).value.encKey, old(secKeys).value.encKey, payload) else payload;
        var frame := Encode(NewData(seqNo, channel, op, data));
        Link() == AfterRequest(old(Link()), frame, maxFrameSize, failAt, wait)
        && r == RequestResult(Sent(frame, maxFrameSize, failAt), wait, reply)
      ensures recvBuffer == old(recvBuffer) && secKeys == old(secKeys) && authKey == old(authKey)
      ensures pendingAck == old(pendingAck) && pendingProto == old(pendingProto)
      ensures subscribers == old(subscribers) && networkRunning == old(networkRunning) && isSendingMass == old(isSendingMass)
    {
      var frame;
      seqNo, frame := BuildFrame(channel, op, payload, aes);
      pendingSeq := pendingSeq + {seqNo};
      var sendResult := SendFragments(frame, failAt);
      if sendResult.Err? {
        return seqNo, Err(sendResult.error);
      }
      match wait
      case Delivered =>
        // The receive path takes the waiter out of the table as it delivers.
        pendingSeq := pendingSeq - {seqNo};
        r := Ok(reply);
      case SenderDropped =>
        r := Err(CHANNEL_CLOSED);
      case TimedOut =>
        r := Err(ELAPSED);
    }

    /** `take_seq_pending`: removes and reports the waiter for `seqNo`, if any. */
    method TakeSeqPending(seqNo: byte) returns (found: bool)
      modifies this
      ensures found <==> seqNo in old(pendingSeq)
      ensures pendingSeq == old(pendingSeq) - {seqNo}
      ensures recvBuffer == old(recvBuffer) && seqCounter == old(seqCounter) && secKeys == old(secKeys) && authKey == old(authKey)
      ensures pendingAck == old(pendingAck) && pendingProto == old(pendingProto)
      ensures subscribers == old(subscribers) && networkRunning == old(networkRunning) && written == old(written) && isSendingMass == old(isSendingMass)
    {
      found := seqNo in pendingSeq;
      pendingSeq := pendingSeq - {seqNo};
    }

    /** `subscribe_proto`: the callback joins the end of its type's list. */
    method SubscribeProto(pbType: u32, callback: nat)
      modifies this
      ensures subscribers == old(subscribers)[pbType := (if pbType in old(subscribers) then old(subscribers)[pbType] else []) + [callback]]
      ensures recvBuffer == old(recvBuffer) && seqCounter == old(seqCounter) && secKeys == old(secKeys) && authKey == old(authKey)
      ensures pendingSeq == old(pendingSeq) && pendingAck == old(pendingAck) && pendingProto == old(pendingProto)
      ensures networkRunning == old(networkRunning) && written == old(written) && isSendingMass == old(isSendingMass)
    {
      var prev := if pbType in subscribers then subscribers[pbType] else [];
      subscribers := subscribers[pbType := prev + [callback]];
    }

    /**
     * `wait_proto`: refuses a second waiter for a key that is already pending;
     * otherwise registers the key and waits. A delivered reply was removed
     * from the table by the receive path; on a dropped sender or a timeout the
     * waiter removes its own entry. Either way the table ends as it started.
     */
    method WaitProto(key: ProtoKey, outcome: WaitOutcome) returns (r: Result<()>)
      modifies this
      ensures key in old(pendingProto) ==> r == Err(AlreadyWaitingMsg(key))
      ensures key !in old(pendingProto) ==> r == match outcome
                                                 case Delivered => Ok(())
                                                 case SenderDropped => Err(SenderDroppedMsg(key))
                                                 case TimedOut => Err(ProtoTimeoutMsg(key))
      ensures pendingProto == old(pendingProto)
      ensures recvBuffer == old(recvBuffer) && seqCounter == old(seqCounter) && secKeys == old(secKeys) && authKey == old(authKey)
      ensures pendingSeq == old(pendingSeq) && pendingAck == old(pendingAck)
      ensures subscribers == old(subscribers) && networkRunning == old(networkRunning) && written == old(written) && isSendingMass == old(isSendingMass)
    {
      if key in pendingProto {
        return Err(AlreadyWaitingMsg(key));
      }
      pendingProto := pendingProto + {key};
      // The receive path removes the entry when it delivers; the waiter removes it otherwise.
      pendingProto := pendingProto - {key};
      match outcome
      case Delivered => r := Ok(());
      case SenderDropped => r := Err(SenderDroppedMsg(key));
      case TimedOut => r := Err(ProtoTimeoutMsg(key));
    }

    /** The `MiWearState` this device holds now. */
    function State(): MiWearState
      reads this
    {
      MiWearState(name, addr, authKey, maxFrameSize, secKeys, networkMtu, codename)
    }

    /** The part of the state a request changes. */
    function Link(): LinkState
      reads this
    {
      LinkState(seqCounter, written, pendingSeq)
    }
  }

  /** How a wait on a oneshot channel ends. */
  datatype WaitOutcome = Delivered | SenderDropped | TimedOut

  /** The part of a device's state a request changes: the counter, the writes and the seq waiters. */
  datatype LinkState = LinkState(seqCounter: byte, written: seq<seq<byte>>, pendingSeq: set<byte>)

  /** Whether every write of `frame` goes through when the link fails at write `failAt`. */
  function Sent(frame: seq<byte>, max: nat, failAt: Option<nat>): bool
    requires max > 0
  {
    !(failAt.Some? && failAt.value < |FragmentWrites(frame, max, None)|)
  }

  /**
   * The link after a request sends `frame` under the current counter value:
   * the counter advanced, the frame's writes appended, and the waiter for
   * that seq gone only when the send went through and the reply was delivered.
   */
  function AfterRequest(l: LinkState, frame: seq<byte>, max: nat, failAt: Option<nat>, wait: WaitOutcome): LinkState
    requires max > 0
  {
    var seqNo := l.seqCounter;
    LinkState(NextSeq(seqNo), l.written + FragmentWrites(frame, max, failAt),
              if Sent(frame, max, failAt) && wait == Delivered then l.pendingSeq - {seqNo} else l.pendingSeq + {seqNo})
  }

  /** What `request` returns: the write error, or how the wait for the reply ended. */
  function RequestResult<D>(sent: bool, wait: WaitOutcome, reply: D): Result<D> {
    if !sent then Err(WRITE_FAILED)
    else match wait
      case Delivered => Ok(reply)
      case SenderDropped => Err(CHANNEL_CLOSED)
      case TimedOut => Err(ELAPSED)
  }

  /** The send error of `send_fragments`. */
  const WRITE_FAILED := "write failed"
  /** The texts of tokio's receive error and elapsed timeout. */
  const CHANNEL_CLOSED := "channel closed"
  const ELAPSED := "deadline has elapsed"

  /** A `ProtoKey` as `{:?}` and `({}, {})` print it. */
  function KeyText(key: ProtoKey): string {
    "(" + Strings.NatToString(key.pbType) + ", " + Strings.NatToString(key.id) + ")"
  }

  function AlreadyWaitingMsg(key: ProtoKey): string {
    "Another request is already waiting for ProtoKey " + KeyText(key)
  }

  function SenderDroppedMsg(key: ProtoKey): string {
    "Failed to receive proto: sender was dropped for ProtoKey " + KeyText(key) + ". Error: " + CHANNEL_CLOSED
  }

  const TIMEOUT_HINT := " (大狗大狗叫叫叫，你的资源疑似没装上。试着重启一下手环？)"

  function ProtoTimeoutMsg(key: ProtoKey): string {
    "Timeout waiting for ProtoKey " + KeyText(key) + TIMEOUT_HINT
  }

  lemma ContainsMiddle(p: string, k: string, q: string)
    ensures Strings.Contains(p + k + q, k)
  {
    var s := p + k + q;
    assert s[|p|..|p| + |k|] == k;
    Strings.ContainsAt(s, k, |p|);
  }

  /** The three errors of `wait_proto` are distinct and each names the key. */
  lemma WaitErrorsNameKey(key: ProtoKey)
    ensures Strings.Contains(AlreadyWaitingMsg(key), KeyText(key))
    ensures Strings.Contains(SenderDroppedMsg(key), KeyText(key))
    ensures Strings.Contains(ProtoTimeoutMsg(key), KeyText(key))
    ensures AlreadyWaitingMsg(key) != SenderDroppedMsg(key) && SenderDroppedMsg(key) != ProtoTimeoutMsg(key)
      && AlreadyWaitingMsg(key) != ProtoTimeoutMsg(key)
  {
    hide Strings.Contains, Strings.NatToString, KeyText;
    var k := KeyText(key);
    var pa := "Another request is already waiting for ProtoKey ";
    var pd := "Failed to receive proto: sender was dropped for ProtoKey ";
    var pt := "Timeout waiting for ProtoKey ";
    var a := AlreadyWaitingMsg(key);
    var d := SenderDroppedMsg(key);
    var t := ProtoTimeoutMsg(key);
    assert a == pa + k + "";
    assert d == pd + k + (". Error: " + CHANNEL_CLOSED);
    assert t == pt + k + TIMEOUT_HINT;
    ContainsMiddle(pa, k, "");
    ContainsMiddle(pd, k, ". Error: " + CHANNEL_CLOSED);
    ContainsMiddle(pt, k, TIMEOUT_HINT);
    assert a[..|pa|] == pa && d[..|pd|] == pd && t[..|pt|] == pt;
    assert a[0] == pa[0] && d[0] == pd[0] && t[0] == pt[0];
  }
}

=== FILE: dhcp.dfy ===
/**
 * The fake DHCP server on the watch's network channel: the Internet
 * checksum of RFC 1071, the Offer/Ack reply of section 4.3.1 of RFC 2131,
 * and the UDP (RFC 768) and IPv4 (section 3.1 of RFC 791) headers it is
 * wrapped in.
 *
 * Parsing the IP/UDP packet and decoding/encoding DHCP messages are library
 * calls; they are parameters here.
 */
module Dhcp {
  import opened Wrappers
  import opened Bytes
  import opened Packet
  import opened CommandPool

  /* ---- RFC 1071 checksum ---- */

  /** The sum of the big-endian 16-bit words; an odd trailing byte is the high byte of a last word. */
  function WordSum(b: seq<byte>): nat
    decreases |b|
  {
    if |b| == 0 then 0
    else if |b| == 1 then b[0] as int * 0x100
    else b[0] as int * 0x100 + b[1] + WordSum(b[2..])
  }

  /** End-around-carry folding of a sum into 16 bits: 0 stays 0, anything else lands in 1..0xFFFF. */
  function Fold(x: nat): (r: nat)
    ensures x == 0 <==> r == 0
    ensures r <= 0xFFFF
  {
    if x == 0 then 0 else (x - 1) % 0xFFFF + 1
  }

  /** The ones'-complement of the folded word sum. */
  function Checksum(b: seq<byte>): u16 {
    0xFFFF - Fold(WordSum(b))
  }

  /** Folding preserves the value modulo 0xFFFF. */
  lemma FoldMod(x: nat)
    ensures Fold(x) % 0xFFFF == x % 0xFFFF
  {
    if x > 0 {
      var q := (x - 1) / 0xFFFF;
      var r := (x - 1) % 0xFFFF;
      assert x == q * 0xFFFF + r + 1;
      if r + 1 == 0xFFFF {
        assert x == (q + 1) * 0xFFFF;
      }
    }
  }

  /** A 16-bit value that agrees with `x` modulo 0xFFFF and is zero exactly when `x` is, is `Fold(x)`. */
  lemma FoldUnique(s: nat, x: nat)
    requires s <= 0xFFFF && s % 0xFFFF == x % 0xFFFF && (s == 0 <==> x == 0)
    ensures s == Fold(x)
  {
    if x > 0 {
      FoldMod(x);
      var f := Fold(x);
      assert f % 0xFFFF == s % 0xFFFF;
      assert f == 0xFFFF <==> f % 0xFFFF == 0;
      assert s == 0xFFFF <==> s % 0xFFFF == 0;
    }
  }

  /** One carry-folding step keeps the value modulo 0xFFFF and shrinks any value above 16 bits. */
  lemma FoldStep(sum: nat)
    requires sum >= 0x1_0000
    ensures (sum % 0x1_0000 + sum / 0x1_0000) % 0xFFFF == sum % 0xFFFF
    ensures 0 < sum % 0x1_0000 + sum / 0x1_0000 < sum
  {
    var hi := sum / 0x1_0000;
    var lo := sum % 0x1_0000;
    assert sum == hi * 0xFFFF + (hi + lo);
  }

  lemma WordSumStep(b: seq<byte>, i: nat)
    requires i + 1 < |b|
    ensures WordSum(b[i..]) == b[i] as int * 0x100 + b[i + 1] + WordSum(b[i + 2..])
  {
    assert b[i..][2..] == b[i + 2..];
  }

  /**
   * `compute_checksum`: sums the words, folds the carries back in, and
   * complements. The sum is an unbounded integer here (see README).
   */
  method ComputeChecksum(buffer: seq<byte>) returns (c: u16)
    ensures c == Checksum(buffer)
  {
    var sum: nat := 0;
    var i := 0;
    assert buffer[i..] == buffer;
    while i + 1 < |buffer|
      invariant i <= |buffer|
      invariant sum + WordSum(buffer[i..]) == WordSum(buffer)
    {
      WordSumStep(buffer, i);
      sum := sum + buffer[i] as int * 0x100 + buffer[i + 1];
      i := i + 2;
    }
    if i < |buffer| {
      assert buffer[i..] == [buffer[i]];
      sum := sum + buffer[i] as int * 0x100;
    } else {
      assert buffer[i..] == [];
    }
    ghost var total := sum;
    while sum >= 0x1_0000
      invariant sum % 0xFFFF == total % 0xFFFF
      invariant sum == 0 <==> total == 0
      decreases sum
    {
      FoldStep(sum);
      sum := sum % 0x1_0000 + sum / 0x1_0000;
    }
    FoldUnique(sum, total);
    c := 0xFFFF - sum;
  }

  /** Words after an even-length prefix add up separately. */
  lemma {:induction false} WordSumConcat(a: seq<byte>, d: seq<byte>)
    requires |a| % 2 == 0
    ensures WordSum(a + d) == WordSum(a) + WordSum(d)
    decreases |a|
  {
    if |a| > 0 {
      assert (a + d)[2..] == a[2..] + d;
      WordSumConcat(a[2..], d);
    } else {
      assert a + d == d;
    }
  }

  lemma WordSumWord(c: u16, d: seq<byte>)
    ensures WordSum(U16Be(c) + d) == c + WordSum(d)
  {
    var w := U16Be(c) + d;
    assert w[2..] == d;
  }

  /**
   * Checksumming a buffer whose checksum field (at an even offset) holds the
   * checksum computed with that field zeroed gives 0: how a receiver verifies
   * the IPv4 header and the UDP datagram.
   */
  lemma ChecksumVerifies(a: seq<byte>, d: seq<byte>)
    requires |a| % 2 == 0
    ensures Checksum(a + U16Be(Checksum(a + [0, 0] + d)) + d) == 0
  {
    var c := Checksum(a + [0, 0] + d);
    var s0 := WordSum(a) + WordSum(d);
    ChecksumFieldSums(a, d, c);
    FoldComplement(s0);
  }

  /** The zeroed field adds nothing to the word sum, and the filled one adds its value. */
  lemma ChecksumFieldSums(a: seq<byte>, d: seq<byte>, c: u16)
    requires |a| % 2 == 0
    ensures WordSum(a + [0, 0] + d) == WordSum(a) + WordSum(d)
    ensures WordSum(a + U16Be(c) + d) == WordSum(a) + WordSum(d) + c
  {
    WordSumConcat(a, [0, 0] + d);
    assert a + [0, 0] + d == a + ([0, 0] + d);
    assert WordSum([0, 0] + d) == WordSum(d) by {
      assert ([0, 0] + d)[2..] == d;
    }
    WordSumConcat(a, U16Be(c) + d);
    assert a + U16Be(c) + d == a + (U16Be(c) + d);
    WordSumWord(c, d);
  }

  /** Adding a sum's own checksum to it folds to 0xFFFF, whose checksum is 0. */
  lemma FoldComplement(s0: nat)
    ensures Fold(s0 + (0xFFFF - Fold(s0))) == 0xFFFF
  {
    var s1 := s0 + (0xFFFF - Fold(s0));
    FoldMod(s0);
    assert s1 > 0;
    assert s1 % 0xFFFF == 0 by {
      assert s1 == s0 - Fold(s0) + 0xFFFF;
    }
    FoldUnique(0xFFFF, s1);
  }

  /* ---- DHCP messages ---- */

  datatype DhcpOpcode = BootRequest | BootReply | UnknownOp(code: byte)

  datatype MessageType = Discover | Offer | Request | Decline | Ack | Nak | Release | Inform | OtherType(code: byte)

  datatype DhcpOption =
    | MessageTypeOpt(t: MessageType)
    | SubnetMask(mask: seq<byte>)
    | Router(routers: seq<seq<byte>>)
    | AddressLeaseTime(secs: u32)
    | ServerIdentifier(server: seq<byte>)
    | OtherOption(data: seq<byte>)

  /** Option codes. */
  const OPT_SUBNET_MASK := 1
  const OPT_ROUTER := 3
  const OPT_LEASE_TIME := 51
  const OPT_MESSAGE_TYPE := 53
  const OPT_SERVER_ID := 54

  /**
   * A DHCP message; `fixed` stands for the fields the reply copies unchanged
   * (htype, hlen, hops, xid, chaddr, sname, file).
   */
  datatype DhcpMessage = DhcpMessage(
    opcode: DhcpOpcode, secs: u16, flags: u16,
    ciaddr: seq<byte>, yiaddr: seq<byte>, siaddr: seq<byte>, giaddr: seq<byte>,
    fixed: seq<byte>, opts: map<nat, DhcpOption>)

  const CLIENT_ADDR: seq<byte> := [10, 1, 10, 2]
  const SERVER_ADDR: seq<byte> := [10, 1, 10, 1]
  const LEASE_SECS := 269352960

  /** The reply's options: Offer for a Discover, Ack for a Request, then the fixed network settings. */
  function ReplyOptions(req: map<nat, DhcpOption>): (opts: map<nat, DhcpOption>)
    ensures opts.Keys <= {OPT_MESSAGE_TYPE, OPT_SUBNET_MASK, OPT_ROUTER, OPT_LEASE_TIME, OPT_SERVER_ID}
  {
    var base := map[
      OPT_SUBNET_MASK := SubnetMask([255, 255, 255, 0]),
      OPT_ROUTER := Router([SERVER_ADDR]),
      OPT_LEASE_TIME := AddressLeaseTime(LEASE_SECS),
      OPT_SERVER_ID := ServerIdentifier(SERVER_ADDR)];
    if OPT_MESSAGE_TYPE in req && req[OPT_MESSAGE_TYPE] == MessageTypeOpt(Discover) then
      base[OPT_MESSAGE_TYPE := MessageTypeOpt(Offer)]
    else if OPT_MESSAGE_TYPE in req && req[OPT_MESSAGE_TYPE] == MessageTypeOpt(Request) then
      base[OPT_MESSAGE_TYPE := MessageTypeOpt(MessageType.Ack)]
    else base
  }

  /** The BootReply built from a BootRequest. */
  function Reply(req: DhcpMessage): DhcpMessage {
    req.(opcode := BootReply, secs := 0, flags := 0,
         ciaddr := [0, 0, 0, 0], yiaddr := CLIENT_ADDR, siaddr := SERVER_ADDR, giaddr := [0, 0, 0, 0],
         opts := ReplyOptions(req.opts))
  }

  /** Discover is answered with an Offer, Request with an Ack, always offering 10.1.10.2 for the fixed lease. */
  lemma ReplyChoice(req: DhcpMessage)
    ensures var r := Reply(req);
      r.opcode == BootReply && r.yiaddr == CLIENT_ADDR && r.siaddr == SERVER_ADDR && r.fixed == req.fixed
      && r.opts[OPT_SUBNET_MASK] == SubnetMask([255, 255, 255, 0])
      && r.opts[OPT_ROUTER] == Router([SERVER_ADDR])
      && r.opts[OPT_LEASE_TIME] == AddressLeaseTime(LEASE_SECS)
      && r.opts[OPT_SERVER_ID] == ServerIdentifier(SERVER_ADDR)
      && ((OPT_MESSAGE_TYPE in req.opts && req.opts[OPT_MESSAGE_TYPE] == MessageTypeOpt(Discover)) ==>
            r.opts[OPT_MESSAGE_TYPE] == MessageTypeOpt(Offer))
      && ((OPT_MESSAGE_TYPE in req.opts && req.opts[OPT_MESSAGE_TYPE] == MessageTypeOpt(Request)) ==>
            r.opts[OPT_MESSAGE_TYPE] == MessageTypeOpt(MessageType.Ack))
      && (OPT_MESSAGE_TYPE in r.opts <==>
            OPT_MESSAGE_TYPE in req.opts && req.opts[OPT_MESSAGE_TYPE] in {MessageTypeOpt(Discover), MessageTypeOpt(Request)})
  {
  }

  /* ---- the reply datagram ---- */

  const IP_SRC: seq<byte> := [255, 255, 255, 255]
  const IP_DST: seq<byte> := SERVER_ADDR
  const PORT_SERVER := 67
  const PORT_CLIENT := 68

  /** `udp_len = (payload + 8) as u16`. */
  function UdpLen(payload: seq<byte>): u16 {
    (|payload| + 8) % 0x1_0000
  }

  /** `ip_len = udp_len + 20` in 16 bits. */
  function IpLen(payload: seq<byte>): u16 {
    (UdpLen(payload) + 20) % 0x1_0000
  }

  /** The first ten bytes of the IPv4 header, before the checksum. */
  function IpHead(ipLen: u16): seq<byte> {
    [0x45, 0x00] + U16Be(ipLen) + [0, 0] + [0, 0] + [0x40, 0x11]
  }

  /** The UDP header without its checksum: ports 67 → 68 and the length. */
  function UdpHead(udpLen: u16): seq<byte> {
    U16Be(PORT_SERVER) + U16Be(PORT_CLIENT) + U16Be(udpLen)
  }

  /** The 12-byte UDP pseudo-header of RFC 768: source, destination, zero, protocol 17, UDP length. */
  function PseudoHeader(payload: seq<byte>): seq<byte> {
    IP_SRC + IP_DST + [0x00, 0x11] + U16Be(UdpLen(payload))
  }

  /** What the UDP checksum covers, with the checksum field zeroed. */
  function PseudoDatagram(payload: seq<byte>): seq<byte> {
    PseudoHeader(payload) + UdpHead(UdpLen(payload)) + [0, 0] + payload
  }

  /** The IPv4 header with a zeroed checksum field. */
  function IpHeaderZeroed(payload: seq<byte>): seq<byte> {
    IpHead(IpLen(payload)) + [0, 0] + IP_SRC + IP_DST
  }

  /** The reply datagram: IPv4 header, UDP header, DHCP message. */
  function ReplyPacket(payload: seq<byte>): seq<byte> {
    IpHead(IpLen(payload)) + U16Be(Checksum(IpHeaderZeroed(payload))) + IP_SRC + IP_DST
      + UdpHead(UdpLen(payload)) + U16Be(Checksum(PseudoDatagram(payload))) + payload
  }

  /**
   * `process_dhcp`'s assembly of the reply packet around an encoded DHCP
   * message: the UDP checksum over the pseudo-header, then the IPv4 header
   * and its checksum.
   */
  method BuildReplyPacket(payload: seq<byte>) returns (pkt: seq<byte>)
    ensures pkt == ReplyPacket(payload)
  {
    var udpLen := UdpLen(payload);
    var ipLen := IpLen(payload);
    var udpHeader := UdpHead(udpLen);
    var fake := IP_SRC + IP_DST + [0x00, 0x11] + U16Be(udpLen) + udpHeader + [0, 0] + payload;
    var udpChecksum := ComputeChecksum(fake);
    udpHeader := udpHeader + U16Be(udpChecksum) + payload;
    var ipHeader := IpHead(ipLen);
    var forChecksum := ipHeader + [0, 0] + IP_SRC + IP_DST;
    var ipChecksum := ComputeChecksum(forChecksum);
    ipHeader := ipHeader + U16Be(ipChecksum) + IP_SRC + IP_DST;
    pkt := ipHeader + udpHeader;
  }

  /**
   * The reply's layout: a 20-byte IPv4 header (version 4, IHL 5, total
   * length, no fragmentation, TTL 64, protocol 17, checksum, 255.255.255.255
   * → 10.1.10.1), an 8-byte UDP header (67 → 68, length, checksum), the message.
   */
  lemma ReplyLayout(payload: seq<byte>)
    ensures var pkt := ReplyPacket(payload);
      |pkt| == 28 + |payload|
      && pkt[..4] == [0x45, 0x00] + U16Be(IpLen(payload))
      && pkt[4..10] == [0, 0, 0, 0, 0x40, 0x11]
      && pkt[10..12] == U16Be(Checksum(IpHeaderZeroed(payload)))
      && pkt[12..16] == [255, 255, 255, 255] && pkt[16..20] == [10, 1, 10, 1]
      && pkt[20..26] == U16Be(67) + U16Be(68) + U16Be(UdpLen(payload))
      && pkt[26..28] == U16Be(Checksum(PseudoDatagram(payload)))
      && pkt[28..] == payload
  {
  }

  /** Re-checksumming the emitted IPv4 header gives 0. */
  lemma IpHeaderVerifies(payload: seq<byte>)
    ensures Checksum(ReplyPacket(payload)[..20]) == 0
  {
    var a := IpHead(IpLen(payload));
    var c := Checksum(IpHeaderZeroed(payload));
    assert IpHeaderZeroed(payload) == a + [0, 0] + (IP_SRC + IP_DST);
    ChecksumVerifies(a, IP_SRC + IP_DST);
    assert ReplyPacket(payload)[..20] == a + U16Be(c) + (IP_SRC + IP_DST);
  }

  /** Re-checksumming the pseudo-header followed by the emitted UDP datagram gives 0. */
  lemma UdpChecksumVerifies(payload: seq<byte>)
    ensures Checksum(PseudoHeader(payload) + ReplyPacket(payload)[20..]) == 0
  {
    var a := PseudoHeader(payload) + UdpHead(UdpLen(payload));
    var c := Checksum(PseudoDatagram(payload));
    assert PseudoDatagram(payload) == a + [0, 0] + payload;
    ChecksumVerifies(a, payload);
    assert PseudoHeader(payload) + ReplyPacket(payload)[20..] == a + U16Be(c) + payload;
  }

  /** The lengths: UDP is payload + 8, IP is UDP + 20 (both in 16 bits). */
  lemma ReplyLengths(payload: seq<byte>)
    requires |payload| + 28 < 0x1_0000
    ensures UdpLen(payload) == |payload| + 8 && IpLen(payload) == UdpLen(payload) + 20
  {
  }

  /* ---- process_dhcp ---- */

  datatype UdpPorts = UdpPorts(src: u16, dst: u16)

  /** What the packet parser reports: the IPv4 header length, if IPv4, and the UDP ports, if UDP. */
  datatype NetView = NetView(ipHeaderLen: Option<nat>, udp: Option<UdpPorts>)

  /** How `process_dhcp` ends: the packet is left alone, answered with a reply datagram, or the slice panics. */
  datatype DhcpOutcome = NotHandled | Handled(reply: seq<byte>) | Panicked

  /** The library calls `process_dhcp` relies on: the packet parser and the DHCP decoder/encoder. */
  datatype DhcpCodec = DhcpCodec(
    parse: seq<byte> -> Option<NetView>,
    decode: seq<byte> -> Option<DhcpMessage>,
    encode: DhcpMessage -> Option<seq<byte>>)

  /** Whether a packet goes to the DHCP server: UDP from port 68 or to port 67. */
  predicate IsDhcpTraffic(v: NetView) {
    v.ipHeaderLen.Some? && v.udp.Some? && (v.udp.value.src == PORT_CLIENT || v.udp.value.dst == PORT_SERVER)
  }

  /**
   * What `process_dhcp` decides for a packet: a BootRequest addressed to the
   * DHCP server is answered once its reply encodes; a DHCP offset past the end
   * of the packet panics; everything else is not handled.
   */
  function DhcpDecision(packet: seq<byte>, codec: DhcpCodec): (r: DhcpOutcome)
    ensures codec.parse(packet).None? || !IsDhcpTraffic(codec.parse(packet).value) ==> r == NotHandled
    ensures r == Panicked <==>
      codec.parse(packet).Some? && IsDhcpTraffic(codec.parse(packet).value)
      && codec.parse(packet).value.ipHeaderLen.value + 8 > |packet|
    ensures r.Handled? ==>
      codec.parse(packet).Some? && IsDhcpTraffic(codec.parse(packet).value)
      && var off := codec.parse(packet).value.ipHeaderLen.value + 8;
         off <= |packet| && codec.decode(packet[off..]).Some?
         && var req := codec.decode(packet[off..]).value;
            req.opcode == BootRequest && codec.encode(Reply(req)).Some?
            && r.reply == ReplyPacket(codec.encode(Reply(req)).value)
  {
    var view := codec.parse(packet);
    if view.None? || !IsDhcpTraffic(view.value) then NotHandled
    else
      var off := view.value.ipHeaderLen.value + 8;
      if off > |packet| then Panicked
      else
        var msg := codec.decode(packet[off..]);
        if msg.None? || msg.value.opcode != BootRequest then NotHandled
        else
          var encoded := codec.encode(Reply(msg.value));
          if encoded.None? then NotHandled
          else Handled(ReplyPacket(encoded.value))
  }

  /** A BootReply or an undecodable message is never answered, and a failed encode leaves the packet unhandled. */
  lemma DhcpDecisionNotHandled(packet: seq<byte>, codec: DhcpCodec)
    requires codec.parse(packet).Some? && IsDhcpTraffic(codec.parse(packet).value)
    requires codec.parse(packet).value.ipHeaderLen.value + 8 <= |packet|
    ensures var req := codec.decode(packet[codec.parse(packet).value.ipHeaderLen.value + 8..]);
      (req.None? || req.value.opcode != BootRequest || codec.encode(Reply(req.value)).None?)
      <==> DhcpDecision(packet, codec) == NotHandled
  {
  }

  /**
   * `process_dhcp`: queues the reply packet, if any, as a Send command on the
   * NetWork channel; the returned outcome is the handled flag.
   */
  method ProcessDhcp(pool: Pool, packet: seq<byte>, codec: DhcpCodec) returns (outcome: DhcpOutcome)
    modifies pool
    ensures outcome == DhcpDecision(packet, codec)
    ensures outcome.Handled? ==>
      pool.queue == Inserted(old(pool.priority), old(pool.queue), Command(NetWork, Plain, outcome.reply, Send, None))
    ensures !outcome.Handled? ==> pool.queue == old(pool.queue)
    ensures pool.priority == old(pool.priority)
  {
    var view := codec.parse(packet);
    if view.None? || !IsDhcpTraffic(view.value) {
      return NotHandled;
    }
    var off := view.value.ipHeaderLen.value + 8;
    if off > |packet| {
      return Panicked;
    }
    var msg := codec.decode(packet[off..]);
    if msg.None? || msg.value.opcode != BootRequest {
      return NotHandled;
    }
    var encoded := codec.encode(Reply(msg.value));
    if encoded.None? {
      return NotHandled;
    }
    var reply := BuildReplyPacket(encoded.value);
    pool.Push(Command(NetWork, Plain, reply, Send, None));
    return Handled(reply);
  }
}

=== FILE: frontapi.dfy ===
/**
 * The front-end commands that edit state rather than forward I/O: patching
 * the ID inside a watchface file, recording and forgetting paired devices,
 * applying a JSON patch to the configuration, and the decision
 * `miwear_connect` makes before connecting.
 */
module FrontApi {
  import opened Wrappers
  import opened Bytes
  import opened Config
  import ResUtils
  import Device

  /* ---- modify_watchface_id ---- */

  /** Where the ID is written and how long it is. */
  const ID_OFFSET: nat := 0x28
  const ID_LEN: nat := 12

  /** The twelve ID bytes: the new ID padded with zero bytes, or cut to twelve. */
  function IdField(newId: seq<byte>): (r: seq<byte>)
    ensures |r| == ID_LEN
    ensures |newId| >= ID_LEN ==> r == newId[..ID_LEN]
    ensures |newId| < ID_LEN ==> r == newId + Zeros(ID_LEN - |newId|)
  {
    if |newId| < ID_LEN then newId + Zeros(ID_LEN - |newId|) else newId[..ID_LEN]
  }

  /** The file with bytes 0x28 to 0x33 replaced by the ID field. */
  function PatchedId(content: seq<byte>, newId: seq<byte>): (r: seq<byte>)
    requires |content| >= ID_OFFSET + ID_LEN
    ensures |r| == |content|
    ensures r[ID_OFFSET..ID_OFFSET + ID_LEN] == IdField(newId)
    ensures r[..ID_OFFSET] == content[..ID_OFFSET] && r[ID_OFFSET + ID_LEN..] == content[ID_OFFSET + ID_LEN..]
  {
    content[..ID_OFFSET] + IdField(newId) + content[ID_OFFSET + ID_LEN..]
  }

  const TOO_SMALL := "File too small to modify"

  /**
   * `modify_watchface_id` on the file's bytes in memory (`newId` is the UTF-8
   * text of the new ID): too short a file is refused and left alone, otherwise
   * the twelve bytes are overwritten one by one.
   */
  method ModifyWatchfaceId(content: array<byte>, newId: seq<byte>) returns (r: Result<()>)
    modifies content
    ensures content.Length < ID_OFFSET + ID_LEN ==> r == Err(TOO_SMALL) && content[..] == old(content[..])
    ensures content.Length >= ID_OFFSET + ID_LEN ==> r == Ok(()) && content[..] == PatchedId(old(content[..]), newId)
  {
    if content.Length < ID_OFFSET + ID_LEN {
      return Err(TOO_SMALL);
    }
    var idBytes := IdField(newId);
    for i := 0 to ID_LEN
      invariant forall k :: 0 <= k < content.Length && !(ID_OFFSET <= k < ID_OFFSET + i) ==> content[k] == old(content[k])
      invariant forall k :: ID_OFFSET <= k < ID_OFFSET + i ==> content[k] == idBytes[k - ID_OFFSET]
    {
      content[ID_OFFSET + i] := idBytes[i];
    }
    assert content[..] == PatchedId(old(content[..]), newId);
    return Ok(());
  }

  /** Patching the same file twice with the same ID is patching it once. */
  lemma PatchIdempotent(content: seq<byte>, newId: seq<byte>)
    requires |content| >= ID_OFFSET + ID_LEN
    ensures PatchedId(PatchedId(content, newId), newId) == PatchedId(content, newId)
  {
  }

  /**
   * `get_watchface_id` reads sixteen bytes from offset 34 while the patch
   * writes twelve from offset 40: the ID read back holds the six bytes before
   * the patch followed by the first ten bytes of the new ID field.
   */
  lemma PatchedIdReadBack(content: seq<byte>, newId: seq<byte>)
    requires |content| >= ID_OFFSET + ID_LEN
    ensures ResUtils.WatchfaceId(PatchedId(content, newId)) == Some(content[34..40] + IdField(newId)[..10])
  {
    var p := PatchedId(content, newId);
    assert p[34..50] == p[34..40] + p[40..50];
    assert p[34..40] == content[34..40];
    assert p[40..50] == p[ID_OFFSET..ID_OFFSET + ID_LEN][..10];
  }

  /* ---- paired devices ---- */

  /** The device record and configuration fields the commands touch. */
  type PairedDevice = Device.MiWearState
  type AppConfig = Device.AppConfig

  /** The record `add_new_device` creates: no frame size or keys yet, an 800-byte network MTU, no codename. */
  function NewDevice(name: string, addr: string, authkey: string): (d: PairedDevice)
    ensures d.addr == addr && d.authkey == authkey && d.name == name
    ensures d.secKeys.None? && d.maxFrameSize == 0 && d.networkMtu == 800 && d.codename == ""
  {
    Device.MiWearState(name, addr, authkey, 0, None, 800, "")
  }

  /** The position of the first device with address `addr`, as `iter_mut().find` finds it. */
  function FindAddr(devs: seq<PairedDevice>, addr: string): (r: Option<nat>)
    ensures r.Some? ==> r.value < |devs| && devs[r.value].addr == addr
    ensures r.Some? ==> forall j :: 0 <= j < r.value ==> devs[j].addr != addr
    ensures r.None? <==> forall j :: 0 <= j < |devs| ==> devs[j].addr != addr
  {
    if |devs| == 0 then None
    else if devs[0].addr == addr then Some(0)
    else match FindAddr(devs[1..], addr)
      case None => None
      case Some(k) => Some(k + 1)
  }

  /** `add_new_device`'s update: a known address gets the new auth key, an unknown one is appended. */
  function Upsert(devs: seq<PairedDevice>, name: string, addr: string, authkey: string): (r: seq<PairedDevice>)
  {
    match FindAddr(devs, addr)
    case Some(i) => devs[i := devs[i].(authkey := authkey)]
    case None => devs + [NewDevice(name, addr, authkey)]
  }

  predicate DistinctAddrs(devs: seq<PairedDevice>) {
    forall i, j :: 0 <= i < j < |devs| ==> devs[i].addr != devs[j].addr
  }

  /**
   * After an upsert exactly one device, or one more, carries `addr` with the
   * new key; every other entry stays where it was; distinct addresses stay
   * distinct.
   */
  lemma UpsertProperties(devs: seq<PairedDevice>, name: string, addr: string, authkey: string)
    ensures var r := Upsert(devs, name, addr, authkey);
      (exists i :: 0 <= i < |r| && r[i].addr == addr && r[i].authkey == authkey) &&
      |r| == (if FindAddr(devs, addr).Some? then |devs| else |devs| + 1) &&
      (forall j :: 0 <= j < |devs| && devs[j].addr != addr ==> r[j] == devs[j])
    ensures DistinctAddrs(devs) ==> DistinctAddrs(Upsert(devs, name, addr, authkey))
  {
    var r := Upsert(devs, name, addr, authkey);
    match FindAddr(devs, addr)
    case Some(i) =>
      assert r[i].addr == addr && r[i].authkey == authkey;
    case None =>
      assert r[|devs|].addr == addr && r[|devs|].authkey == authkey;
  }

  /** Adding the same device twice is adding it once. */
  lemma UpsertIdempotent(devs: seq<PairedDevice>, name: string, addr: string, authkey: string)
    ensures Upsert(Upsert(devs, name, addr, authkey), name, addr, authkey) == Upsert(devs, name, addr, authkey)
  {
    var r := Upsert(devs, name, addr, authkey);
    match FindAddr(devs, addr)
    case Some(i) =>
      assert FindAddr(r, addr) == Some(i) by {
        FindAddrFirst(r, addr, i);
      }
    case None =>
      assert FindAddr(r, addr) == Some(|devs|) by {
        FindAddrFirst(r, addr, |devs|);
      }
  }

  lemma FindAddrFirst(devs: seq<PairedDevice>, addr: string, i: nat)
    requires i < |devs| && devs[i].addr == addr
    requires forall j :: 0 <= j < i ==> devs[j].addr != addr
    ensures FindAddr(devs, addr) == Some(i)
  {
    var r := FindAddr(devs, addr);
    assert r.Some?;
    assert !(r.value < i) && !(r.value > i);
  }

  /** `paired_devices.retain(|dev| dev.addr != addr)` */
  function RemoveAddr(devs: seq<PairedDevice>, addr: string): (r: seq<PairedDevice>)
    ensures forall j :: 0 <= j < |r| ==> r[j].addr != addr && r[j] in devs
    ensures forall d :: d in devs && d.addr != addr ==> d in r
    ensures |r| <= |devs|
  {
    if |devs| == 0 then []
    else (if devs[0].addr != addr then [devs[0]] else []) + RemoveAddr(devs[1..], addr)
  }

  /** Removing an address nobody has changes nothing; removing twice is removing once. */
  lemma RemoveAddrProperties(devs: seq<PairedDevice>, addr: string)
    ensures (forall j :: 0 <= j < |devs| ==> devs[j].addr != addr) ==> RemoveAddr(devs, addr) == devs
    ensures RemoveAddr(RemoveAddr(devs, addr), addr) == RemoveAddr(devs, addr)
  {
    RemoveAbsent(devs, addr);
    RemoveAbsent(RemoveAddr(devs, addr), addr);
  }

  lemma {:induction false} RemoveAbsent(devs: seq<PairedDevice>, addr: string)
    ensures (forall j :: 0 <= j < |devs| ==> devs[j].addr != addr) ==> RemoveAddr(devs, addr) == devs
    decreases |devs|
  {
    if |devs| > 0 {
      RemoveAbsent(devs[1..], addr);
      assert [devs[0]] + devs[1..] == devs;
    }
  }

  /** `miwear_remove_device`'s configuration update: the device leaves the list and, if current, the current slot. */
  function RemoveDeviceSpec(c: AppConfig, addr: string): (r: AppConfig)
  {
    Device.AppConfig(
      if c.currentDevice.Some? && c.currentDevice.value.addr == addr then None else c.currentDevice,
      RemoveAddr(c.pairedDevices, addr))
  }

  lemma RemoveDeviceForgets(c: AppConfig, addr: string)
    ensures forall j :: 0 <= j < |RemoveDeviceSpec(c, addr).pairedDevices| ==>
      RemoveDeviceSpec(c, addr).pairedDevices[j].addr != addr
    ensures RemoveDeviceSpec(c, addr).currentDevice.Some? ==> RemoveDeviceSpec(c, addr).currentDevice.value.addr != addr
    ensures c.currentDevice.Some? && c.currentDevice.value.addr != addr ==>
      RemoveDeviceSpec(c, addr).currentDevice == c.currentDevice
  {
  }

  /** `add_new_device`: the `find` loop, then an update in place or a push, all inside `config::write`. */
  method AddNewDevice(store: ConfigStore<AppConfig>, name: string, addr: string, authkey: string, persistOk: bool)
    modifies store
    ensures store.config == old(store.config).(pairedDevices := Upsert(old(store.config.pairedDevices), name, addr, authkey))
    ensures store.persisted == (if persistOk then Some(store.config) else old(store.persisted))
  {
    var devs := store.config.pairedDevices;
    var i := 0;
    while i < |devs| && devs[i].addr != addr
      invariant i <= |devs|
      invariant forall j :: 0 <= j < i ==> devs[j].addr != addr
    {
      i := i + 1;
    }
    var updated: seq<PairedDevice>;
    if i < |devs| {
      FindAddrFirst(devs, addr, i);
      updated := devs[i := devs[i].(authkey := authkey)];
    } else {
      updated := devs + [NewDevice(name, addr, authkey)];
    }
    var _ := store.Write((c: AppConfig) => (c.(pairedDevices := updated), ()), persistOk);
  }

  /**
   * `miwear_remove_device`: a disconnect is requested when the device is the
   * current one, then the configuration update is written.
   */
  method RemoveDevice(store: ConfigStore<AppConfig>, addr: string, persistOk: bool) returns (disconnect: bool)
    modifies store
    ensures disconnect <==> old(store.config.currentDevice).Some? && old(store.config.currentDevice).value.addr == addr
    ensures store.config == RemoveDeviceSpec(old(store.config), addr)
    ensures store.persisted == (if persistOk then Some(store.config) else old(store.persisted))
  {
    var cur := store.config.currentDevice;
    disconnect := cur.Some? && cur.value.addr == addr;
    var _ := store.Write((c: AppConfig) => (RemoveDeviceSpec(c, addr), ()), persistOk);
  }

  /* ---- app_write_config ---- */

  const INVALID_PATCH := "invalid config patch"

  /**
   * `app_write_config`'s new configuration: the current one as JSON, the patch
   * merged in, and the result read back as a configuration. `encode` and
   * `decode` stand for the serde conversions.
   */
  function PatchedConfig(c: AppConfig, patch: Json, encode: AppConfig -> Json, decode: Json -> Option<AppConfig>): (r: Result<AppConfig>)
    ensures r.Ok? <==> decode(Merge(encode(c), patch)).Some?
  {
    match decode(Merge(encode(c), patch))
    case None => Err(INVALID_PATCH)
    case Some(n) => Ok(n)
  }

  /** With lossless conversions, an empty patch writes back the same configuration. */
  lemma EmptyPatchKeepsConfig(c: AppConfig, encode: AppConfig -> Json, decode: Json -> Option<AppConfig>)
    requires encode(c).Obj? && decode(encode(c)) == Some(c)
    ensures PatchedConfig(c, Obj(map[]), encode, decode) == Ok(c)
  {
    MergeEmpty(encode(c).fields);
  }

  /** `app_write_config`: a patch that does not read back is refused and nothing is written. */
  method AppWriteConfig(store: ConfigStore<AppConfig>, patch: Json, encode: AppConfig -> Json,
                        decode: Json -> Option<AppConfig>, persistOk: bool) returns (r: Result<AppConfig>)
    modifies store
    ensures r == PatchedConfig(old(store.config), patch, encode, decode)
    ensures r.Err? ==> store.config == old(store.config) && store.persisted == old(store.persisted)
    ensures r.Ok? ==> store.config == r.value
    ensures r.Ok? ==> store.persisted == (if persistOk then Some(r.value) else old(store.persisted))
  {
    var cur := store.Read((c: AppConfig) => c);
    var val := MergeInto(encode(cur), patch);
    var decoded := decode(val);
    if decoded.None? {
      return Err(INVALID_PATCH);
    }
    var newCfg := decoded.value;
    var _ := store.Write((c: AppConfig) => (newCfg, ()), persistOk);
    return Ok(newCfg);
  }

  /* ---- miwear_connect ---- */

  /**
   * What `miwear_connect` leaves behind: the address of the connected device
   * (`CONNECTED_DEVICE`), the command's result, whether the old device was
   * asked to disconnect, and whether "device-connected" was emitted.
   */
  datatype ConnectStep = ConnectStep(connected: Option<string>, result: Result<()>, disconnectAsked: bool, emitted: bool)

  /**
   * `miwear_connect(addr)`, given the address of the device connected now.
   * `disconnect` is the old device's disconnect outcome and `connect` that of
   * `MiWearDevice::connect`. Asking for the connected device changes
   * nothing; another connected device is disconnected first, and a failed
   * disconnect ends the command with its error and the old device still
   * connected; a failed connect leaves no device connected.
   */
  function MiwearConnect(current: Option<string>, addr: string, disconnect: Result<()>, connect: Result<()>): (s: ConnectStep)
    ensures s.disconnectAsked <==> current.Some? && current.value != addr
    ensures s.result.Ok? <==> current == Some(addr) || ((current.None? || disconnect.Ok?) && connect.Ok?)
    ensures s.result.Ok? ==> s.connected == Some(addr)
    ensures s.disconnectAsked && disconnect.Err? ==> s.connected == current && s.result == disconnect
    ensures s.result.Err? && !(s.disconnectAsked && disconnect.Err?) ==> s.connected == None && s.result == connect
    ensures s.emitted <==> s.result.Ok? && current != Some(addr)
  {
    if current == Some(addr) then ConnectStep(current, Ok(()), false, false)
    else if current.Some? && disconnect.Err? then ConnectStep(current, Err(disconnect.error), true, false)
    else match connect
      case Err(e) => ConnectStep(None, Err(e), current.Some?, false)
      case Ok(_) => ConnectStep(Some(addr), Ok(()), current.Some?, true)
  }

  /**
   * `miwear_connect` as written. The read guard on `CONNECTED_DEVICE` that
   * yields the current device lives until the end of the `if let` body, and
   * a disconnect that succeeds clears `CONNECTED_DEVICE` through its write
   * lock, which waits for every read guard to go, this one included: the
   * command never completes (None). The other paths end as in
   * `MiwearConnect`, the behaviour with the guard released before the
   * disconnect.
   */
  function MiwearConnectAsWritten(current: Option<string>, addr: string, disconnect: Result<()>, connect: Result<()>): Option<ConnectStep>
  {
    if current == Some(addr) then Some(ConnectStep(current, Ok(()), false, false))
    else if current.Some? then
      match disconnect
      case Err(e) => Some(ConnectStep(current, Err(e), true, false))
      case Ok(_) => None
    else
      match connect
      case Err(e) => Some(ConnectStep(None, Err(e), false, false))
      case Ok(_) => Some(ConnectStep(Some(addr), Ok(()), false, true))
  }

  /**
   * The code as written completes exactly when it does not switch devices
   * over a successful disconnect, and then ends as `MiwearConnect` does; on
   * the switch it never completes, where `MiwearConnect` goes on to connect.
   */
  lemma ConnectAsWrittenAgrees(current: Option<string>, addr: string, disconnect: Result<()>, connect: Result<()>)
    ensures MiwearConnectAsWritten(current, addr, disconnect, connect).None? <==>
      current.Some? && current.value != addr && disconnect.Ok?
    ensures MiwearConnectAsWritten(current, addr, disconnect, connect).Some? ==>
      MiwearConnectAsWritten(current, addr, disconnect, connect).value == MiwearConnect(current, addr, disconnect, connect)
  {
  }

  /** Switching from device `a` to device `b` when both link operations succeed: the code as written hangs; the corrected step connects `b`. */
  lemma SwitchHangsAsWritten(a: string, b: string)
    requires a != b
    ensures MiwearConnectAsWritten(Some(a), b, Ok(()), Ok(())).None?
    ensures MiwearConnect(Some(a), b, Ok(()), Ok(())) == ConnectStep(Some(b), Ok(()), true, true)
  {
  }

  /** Connecting again to the device just connected is a no-op, whatever the link would answer. */
  lemma ConnectIdempotent(current: Option<string>, addr: string, disconnect: Result<()>, connect: Result<()>,
                          disconnect2: Result<()>, connect2: Result<()>)
    requires MiwearConnect(current, addr, disconnect, connect).result.Ok?
    ensures var s := MiwearConnect(current, addr, disconnect, connect);
      MiwearConnect(s.connected, addr, disconnect2, connect2) == ConnectStep(s.connected, Ok(()), false, false)
  {
  }
}

=== FILE: i18n.dfy ===
/**
 * The front end's translations: choosing the starting language and looking
 * up a dotted key in the current language's strings, with English as the
 * fallback and the key itself as the last resort.
 */
module I18n {
  import opened Wrappers
  import opened Strings
  import opened Config

  /** The languages with a resource file, in declaration order. */
  const LANGS: seq<string> := ["zh_CN", "en_US", "zh_HK", "zh_Can", "zh_HX", "zh_Meme", "zh_MS"]

  const DEFAULT_LANG := "en_US"

  /** The names every plain object inherits from `Object.prototype`. */
  const PROTOTYPE_NAMES: seq<string> := ["constructor", "__defineGetter__", "__defineSetter__", "hasOwnProperty",
    "__lookupGetter__", "__lookupSetter__", "isPrototypeOf", "propertyIsEnumerable", "toString", "valueOf",
    "__proto__", "toLocaleString"]

  /** `name in resources` as JavaScript evaluates it: own keys and inherited ones. */
  predicate InResourcesAsWritten(name: string) {
    name in LANGS || name in PROTOTYPE_NAMES
  }

  /** The browser's language tag with '-' replaced by '_'; '' when there is no navigator. */
  function BrowserLang(browser: Option<string>): string {
    if browser.Some? then MapChar(browser.value, '-', '_') else ""
  }

  /**
   * `getDefaultLang` as written. `stored` is the saved language, `None`
   * when storage is unavailable, throws or holds nothing.
   */
  function GetDefaultLangAsWritten(stored: Option<string>, browser: Option<string>): string {
    if stored.Some? && stored.value != "" && InResourcesAsWritten(stored.value) then stored.value
    else if InResourcesAsWritten(BrowserLang(browser)) then BrowserLang(browser)
    else DEFAULT_LANG
  }

  /** A stored "toString" passes the membership test and is returned although no such language exists. */
  lemma DefaultLangAsWrittenAcceptsPrototypeName()
    ensures GetDefaultLangAsWritten(Some("toString"), None) == "toString"
    ensures "toString" !in LANGS
  {
    assert PROTOTYPE_NAMES[8] == "toString";
  }

  /**
   * `getDefaultLang` with membership over the resource keys only: the stored
   * language when it is one, else the browser language when it is one, else
   * English.
   */
  function GetDefaultLang(stored: Option<string>, browser: Option<string>): (r: string)
    ensures r in LANGS
    ensures stored.Some? && stored.value in LANGS ==> r == stored.value
    ensures !(stored.Some? && stored.value in LANGS) && BrowserLang(browser) in LANGS ==> r == BrowserLang(browser)
    ensures !(stored.Some? && stored.value in LANGS) && BrowserLang(browser) !in LANGS ==> r == DEFAULT_LANG
  {
    if stored.Some? && stored.value != "" && stored.value in LANGS then stored.value
    else if BrowserLang(browser) in LANGS then BrowserLang(browser)
    else DEFAULT_LANG
  }

  /** On the real language names both versions agree. */
  lemma DefaultLangAgrees(stored: Option<string>, browser: Option<string>)
    requires stored.Some? ==> stored.value !in PROTOTYPE_NAMES
    requires BrowserLang(browser) !in PROTOTYPE_NAMES
    ensures GetDefaultLangAsWritten(stored, browser) == GetDefaultLang(stored, browser)
  {
  }

  /**
   * With nothing stored, a browser reporting a supported language's tag
   * ("zh-CN" for zh_CN, "en-US" for en_US, ...) starts in that language.
   */
  lemma BrowserTagMapped(lang: string)
    requires lang in LANGS
    ensures GetDefaultLang(None, Some(MapChar(lang, '_', '-'))) == lang
  {
    assert forall i :: 0 <= i < |LANGS| ==> '-' !in LANGS[i];
    var tag := MapChar(lang, '_', '-');
    var back := MapChar(tag, '-', '_');
    assert |back| == |lang|;
    forall i | 0 <= i < |lang| ensures back[i] == lang[i] {
    }
    assert back == lang;
  }

  /** `acc?.[cur]` for one key segment; `None` is `undefined`. */
  function Step(acc: Json, cur: string): Option<Json> {
    match acc
    case Obj(fields) => if cur in fields then Some(fields[cur]) else None
    case Arr(items) =>
      var i := ParseIndex(cur);
      if i.Some? && i.value < |items| then Some(items[i.value]) else None
    case Str(s) =>
      var i := ParseIndex(cur);
      if i.Some? && i.value < |s| then Some(Str([s[i.value]])) else None
    case _ => None
  }

  /** A canonical array index: decimal digits without a leading zero. */
  function ParseIndex(cur: string): (r: Option<nat>)
    ensures r.Some? ==> |cur| > 0 && (forall i :: 0 <= i < |cur| ==> '0' <= cur[i] <= '9')
  {
    if |cur| > 0 && (|cur| == 1 || cur[0] != '0') && (forall i :: 0 <= i < |cur| ==> '0' <= cur[i] <= '9') then
      Some(DigitsValue(cur))
    else None
  }

  function DigitsValue(s: string): nat
    requires forall i :: 0 <= i < |s| ==> '0' <= s[i] <= '9'
    decreases |s|
  {
    if |s| == 0 then 0 else DigitsValue(s[..|s| - 1]) * 10 + (s[|s| - 1] - '0') as nat
  }

  /** `path.reduce((acc, cur) => acc?.[cur], root)` */
  function Resolve(root: Json, path: seq<string>): Option<Json>
    decreases |path|
  {
    if |path| == 0 then Some(root)
    else
      var acc := Resolve(root, path[..|path| - 1]);
      if acc.Some? then Step(acc.value, path[|path| - 1]) else None
  }

  /** Once a segment is missing, every longer path stays undefined, without error. */
  lemma {:induction false} ResolveMissing(root: Json, path: seq<string>, more: seq<string>)
    requires Resolve(root, path) == None
    ensures Resolve(root, path + more) == None
    decreases |more|
  {
    if |more| == 0 {
      assert path + more == path;
    } else {
      var init := more[..|more| - 1];
      ResolveMissing(root, path, init);
      assert (path + more)[..|path + more| - 1] == path + init;
    }
  }

  /** Resolving a path in two parts is resolving the second part from where the first led. */
  lemma {:induction false} ResolveAppend(root: Json, path: seq<string>, more: seq<string>)
    ensures Resolve(root, path + more) ==
      if Resolve(root, path).Some? then Resolve(Resolve(root, path).value, more) else None
    decreases |more|
  {
    if |more| == 0 {
      assert path + more == path;
      if Resolve(root, path).None? {
        ResolveMissing(root, path, more);
      }
    } else {
      var init := more[..|more| - 1];
      ResolveAppend(root, path, init);
      assert (path + more)[..|path + more| - 1] == path + init;
      if Resolve(root, path).None? {
        ResolveMissing(root, path, more);
      }
    }
  }

  /** Through nested objects, each segment selects the field of that name. */
  lemma ResolveFields(fields: map<string, Json>, k: string, rest: seq<string>)
    requires k in fields
    ensures Resolve(Obj(fields), [k] + rest) == Resolve(fields[k], rest)
  {
    ResolveAppend(Obj(fields), [k], rest);
    assert [k][..0] == [];
  }

  /**
   * `t`. `key` is `None` for null or undefined; `current` and `english`
   * are the resource trees of the current language and of en_US.
   */
  function T(key: Option<string>, current: Json, english: Json): (r: string)
    ensures key.None? ==> r == ""
    ensures key == Some("") ==> r == ""
  {
    if key.None? || key.value == "" then ""
    else
      var path := Split(key.value, '.');
      var result := Resolve(current, path);
      if result.Some? && result.value.Str? then result.value.s
      else
        var fallback := Resolve(english, path);
        if fallback.Some? && fallback.value.Str? then fallback.value.s
        else key.value
  }

  /** The lookup led to a string. */
  predicate IsString(o: Option<Json>) {
    o.Some? && o.value.Str?
  }

  /**
   * For a non-empty key: the current language's string when the path
   * leads to one, else English's, else the key unchanged.
   */
  lemma TLookup(key: string, current: Json, english: Json)
    requires key != ""
    ensures var cur := Resolve(current, Split(key, '.'));
      IsString(cur) ==> T(Some(key), current, english) == cur.value.s
    ensures var cur := Resolve(current, Split(key, '.'));
      var en := Resolve(english, Split(key, '.'));
      !IsString(cur) && IsString(en) ==> T(Some(key), current, english) == en.value.s
    ensures var cur := Resolve(current, Split(key, '.'));
      var en := Resolve(english, Split(key, '.'));
      !IsString(cur) && !IsString(en) ==> T(Some(key), current, english) == key
  {
  }

  /** A one-segment key names a top-level entry of the current language. */
  lemma TTopLevel(key: string, fields: map<string, Json>, english: Json)
    requires key != "" && '.' !in key && key in fields && fields[key].Str?
    ensures T(Some(key), Obj(fields), english) == fields[key].s
  {
    SplitNoSep(key, '.');
    assert [key][..0] == [];
    assert Resolve(Obj(fields), [key]) == Step(Obj(fields), key);
  }

  /** The provider's state: the saved language and the language in use. */
  class I18nProvider {
    var stored: Option<string>
    var lang: string

    /** The provider starts in the default language for what is saved and what the browser reports. */
    constructor (stored: Option<string>, browser: Option<string>)
      ensures this.stored == stored && lang == GetDefaultLang(stored, browser)
    {
      this.stored := stored;
      lang := GetDefaultLang(stored, browser);
    }

    /** `setLang`: saves the language and switches to it. */
    method SetLang(l: string)
      modifies this
      ensures stored == Some(l) && lang == l
    {
      stored := Some(l);
      lang := l;
    }
  }

  /** A language chosen with `setLang` is the one the next start picks, whatever the browser says. */
  lemma SetLangPersists(l: string, browser: Option<string>)
    requires l in LANGS
    ensures GetDefaultLang(Some(l), browser) == l
  {
  }
}

=== FILE: macos_spp.dfy ===
/**
 * The macOS back end of the Bluetooth Classic SPP plugin: the '-'-separated
 * address form IOBluetooth uses, the shared state the inquiry and RFCOMM
 * delegates update, and the connect flow over a list of RFCOMM channels.
 * IOBluetooth itself is not modelled; the statuses it returns are inputs
 * (0 is `kIOReturnSuccess`).
 */
module MacSpp {
  import opened Wrappers
  import opened Bytes
  import opened Strings

  /* ---- address formats ---- */

  /** `normalize_addr_from_macos`: '-' becomes ':' and letters are upper-cased. */
  function NormalizeAddr(raw: string): (r: string)
    ensures |r| == |raw| && '-' !in r
    ensures forall i :: 0 <= i < |r| ==> r[i] == (if raw[i] == '-' then ':' else UpperChar(raw[i]))
  {
    ToUpper(MapChar(raw, '-', ':'))
  }

  /** `addr_to_macos_format`: ':' becomes '-' and letters are upper-cased. */
  function ToMacosAddr(addr: string): (r: string)
    ensures |r| == |addr| && ':' !in r
    ensures forall i :: 0 <= i < |r| ==> r[i] == (if addr[i] == ':' then '-' else UpperChar(addr[i]))
  {
    ToUpper(MapChar(addr, ':', '-'))
  }

  /** An address in the canonical form: upper case, ':' as separator, no '-'. */
  predicate Canonical(a: string) {
    '-' !in a && ToUpper(a) == a
  }

  /** A canonical address survives the trip to the macOS form and back. */
  lemma MacRoundTrip(a: string)
    requires Canonical(a)
    ensures NormalizeAddr(ToMacosAddr(a)) == a
  {
    var m := ToMacosAddr(a);
    forall i | 0 <= i < |a|
      ensures NormalizeAddr(m)[i] == a[i]
    {
      assert UpperChar(a[i]) == a[i];
    }
  }

  /** Normalising twice is normalising once. */
  lemma NormalizeIdempotent(raw: string)
    ensures NormalizeAddr(NormalizeAddr(raw)) == NormalizeAddr(raw)
  {
  }

  /** Converting to the macOS form twice is converting once. */
  lemma ToMacosIdempotent(addr: string)
    ensures ToMacosAddr(ToMacosAddr(addr)) == ToMacosAddr(addr)
  {
  }

  /** The normalised form is canonical. */
  lemma NormalizeCanonical(raw: string)
    ensures Canonical(NormalizeAddr(raw))
  {
  }

  /* ---- shared state ---- */

  /** `SPPDevice` */
  datatype SppDevice = SppDevice(name: Option<string>, address: string)

  /**
   * `SharedState` with the parts of `MainThreadState` the model tracks: is an
   * inquiry in flight, is an RFCOMM channel held. `callbackCalls` counts runs of
   * the connected callback, `listenerErrors` the "Connection closed" errors
   * handed to the data listener, and `wire` the byte strings written.
   */
  datatype MacState = MacState(
    scanned: seq<SppDevice>,
    scanLoopRunning: bool,
    inquiryActive: bool,
    connected: Option<SppDevice>,
    channelOpen: bool,
    hasCallback: bool,
    hasListener: bool,
    callbackCalls: nat,
    listenerErrors: nat,
    wire: seq<seq<byte>>)

  predicate DistinctAddresses(devs: seq<SppDevice>) {
    forall i, j :: 0 <= i < j < |devs| ==> devs[i].address != devs[j].address
  }

  predicate Known(devs: seq<SppDevice>, address: string) {
    exists i :: 0 <= i < |devs| && devs[i].address == address
  }

  /** `deviceInquiryDeviceFound`: the address is normalised, then appended unless already listed. */
  function DeviceFoundSpec(st: MacState, rawAddr: string, name: Option<string>): (r: MacState)
  {
    var addr := NormalizeAddr(rawAddr);
    if Known(st.scanned, addr) then st else st.(scanned := st.scanned + [SppDevice(name, addr)])
  }

  lemma DeviceFoundKeepsDistinct(st: MacState, rawAddr: string, name: Option<string>)
    requires DistinctAddresses(st.scanned)
    ensures DistinctAddresses(DeviceFoundSpec(st, rawAddr, name).scanned)
    ensures Known(DeviceFoundSpec(st, rawAddr, name).scanned, NormalizeAddr(rawAddr))
    ensures DeviceFoundSpec(st, rawAddr, name).scanned[..|st.scanned|] == st.scanned
  {
    var r := DeviceFoundSpec(st, rawAddr, name);
    if !Known(st.scanned, NormalizeAddr(rawAddr)) {
      assert r.scanned[|st.scanned|].address == NormalizeAddr(rawAddr);
    }
  }

  /** Two raw addresses differing only in separator and case are listed once. */
  lemma DeviceFoundDeduplicatesForms(st: MacState, raw1: string, raw2: string, name1: Option<string>, name2: Option<string>)
    requires NormalizeAddr(raw1) == NormalizeAddr(raw2)
    ensures DeviceFoundSpec(DeviceFoundSpec(st, raw1, name1), raw2, name2) == DeviceFoundSpec(st, raw1, name1)
  {
    var s1 := DeviceFoundSpec(st, raw1, name1);
    assert Known(s1.scanned, NormalizeAddr(raw1)) by {
      if !Known(st.scanned, NormalizeAddr(raw1)) {
        assert s1.scanned[|st.scanned|].address == NormalizeAddr(raw1);
      }
    }
  }

  /**
   * `deviceInquiryComplete`: the finished inquiry is dropped; a new one starts
   * only while the loop flag is set and this one was not aborted, and a
   * failure to start it clears the flag.
   */
  function InquiryCompleteSpec(st: MacState, aborted: bool, restartStatus: int): (r: MacState)
  {
    var s1 := st.(inquiryActive := false);
    if s1.scanLoopRunning && !aborted then
      if restartStatus == 0 then s1.(inquiryActive := true) else s1.(scanLoopRunning := false)
    else s1
  }

  lemma InquiryRestartRule(st: MacState, aborted: bool, restartStatus: int)
    ensures InquiryCompleteSpec(st, aborted, restartStatus).inquiryActive <==>
      st.scanLoopRunning && !aborted && restartStatus == 0
    ensures InquiryCompleteSpec(st, aborted, restartStatus).scanLoopRunning <==>
      st.scanLoopRunning && (aborted || restartStatus == 0)
    ensures InquiryCompleteSpec(st, aborted, restartStatus).scanned == st.scanned
  {
  }

  /** `stop_scan_impl`: the loop flag is cleared and the current inquiry stopped. */
  function StopScanSpec(st: MacState): (r: MacState)
  {
    st.(scanLoopRunning := false, inquiryActive := false)
  }

  /**
   * `start_scan_impl`: stop, clear the list, set the loop flag, then start the
   * first inquiry; a start failure is reported and leaves the flag set.
   */
  function StartScanSpec(st: MacState, startStatus: int): (MacState, Result<()>)
  {
    var s1 := StopScanSpec(st).(scanned := [], scanLoopRunning := true);
    if startStatus == 0 then (s1.(inquiryActive := true), Ok(()))
    else (s1, Err("Failed to start scan, error code: " + IntToString(startStatus)))
  }

  lemma StartScanClears(st: MacState, startStatus: int)
    ensures StartScanSpec(st, startStatus).0.scanned == [] && StartScanSpec(st, startStatus).0.scanLoopRunning
    ensures StartScanSpec(st, startStatus).1.Ok? <==> startStatus == 0
    ensures StartScanSpec(st, startStatus).0.inquiryActive <==> startStatus == 0
  {
  }

  /* ---- connect_impl ---- */

  /** The channels tried: the one SDP reports for UUID 0x1101 (when it is not 0), then 5, then 1. */
  function TryChannels(sdpChannel: Option<nat>): (r: seq<nat>)
    ensures |r| >= 2 && r[|r| - 2..] == [5, 1]
    ensures sdpChannel.Some? && sdpChannel.value != 0 ==> r == [sdpChannel.value, 5, 1]
    ensures !(sdpChannel.Some? && sdpChannel.value != 0) ==> r == [5, 1]
  {
    (if sdpChannel.Some? && sdpChannel.value != 0 then [sdpChannel.value] else []) + [5, 1]
  }

  /** The position of the first channel whose open request is accepted. */
  function FirstAccepted(chans: seq<nat>, status: nat -> int): (r: Option<nat>)
    ensures r.Some? ==> r.value < |chans| && status(chans[r.value]) == 0
    ensures r.Some? ==> forall j :: 0 <= j < r.value ==> status(chans[j]) != 0
    ensures r.None? <==> forall j :: 0 <= j < |chans| ==> status(chans[j]) != 0
  {
    if |chans| == 0 then None
    else if status(chans[0]) == 0 then Some(0)
    else match FirstAccepted(chans[1..], status)
      case None => None
      case Some(k) => Some(k + 1)
  }

  /**
   * What IOBluetooth reports during one connect: whether a device object for
   * the address exists, its name, the SDP channel, and the status of opening
   * each channel.
   */
  datatype DeviceInfo = DeviceInfo(name: Option<string>, sdpChannel: Option<nat>)

  const ALL_FAILED := "All RFCOMM channel attempts failed (last=Some("

  /** `connect_impl`: the device is recorded as soon as a channel open request is accepted. */
  function ConnectSpec(st: MacState, addr: string, device: Option<DeviceInfo>, status: nat -> int): (MacState, Result<bool>)
  {
    var s1 := StopScanSpec(st);
    if device.None? then (s1, Err("Device not found for " + addr))
    else
      var chans := TryChannels(device.value.sdpChannel);
      match FirstAccepted(chans, status)
      case Some(_) => (s1.(channelOpen := true, connected := Some(SppDevice(device.value.name, addr))), Ok(true))
      case None => (s1, Err(ALL_FAILED + IntToString(status(1)) + "))"))
  }

  /**
   * A connect succeeds exactly when some channel in the list accepts; a
   * failure reports the status of channel 1, the last one tried, and leaves
   * the connected device as it was.
   */
  lemma ConnectOutcome(st: MacState, addr: string, d: DeviceInfo, status: nat -> int)
    ensures var chans := TryChannels(d.sdpChannel);
      ConnectSpec(st, addr, Some(d), status).1 == Ok(true) <==> exists j :: 0 <= j < |chans| && status(chans[j]) == 0
    ensures ConnectSpec(st, addr, Some(d), status).1.Ok? ==>
      ConnectSpec(st, addr, Some(d), status).0.connected == Some(SppDevice(d.name, addr))
    ensures ConnectSpec(st, addr, Some(d), status).1.Err? ==>
      ConnectSpec(st, addr, Some(d), status).1.error == ALL_FAILED + IntToString(status(1)) + "))" &&
      ConnectSpec(st, addr, Some(d), status).0.connected == st.connected
  {
    var chans := TryChannels(d.sdpChannel);
    if FirstAccepted(chans, status).Some? {
      var k := FirstAccepted(chans, status).value;
      assert status(chans[k]) == 0;
    }
  }

  /** Without an SDP channel, channel 5 wins whenever it accepts, and channel 1 only when 5 refuses. */
  lemma ConnectOrder(d: DeviceInfo, status: nat -> int)
    requires d.sdpChannel.None? || d.sdpChannel == Some(0)
    ensures status(5) == 0 ==> FirstAccepted(TryChannels(d.sdpChannel), status) == Some(0)
    ensures status(5) != 0 && status(1) == 0 ==> FirstAccepted(TryChannels(d.sdpChannel), status) == Some(1)
  {
    assert TryChannels(d.sdpChannel) == [5, 1];
    assert [5, 1][1..] == [1];
  }

  /**
   * `rfcommChannelOpenComplete`: on success the channel is kept and the
   * callback runs; otherwise the device is forgotten and the listener told.
   */
  function OpenCompleteSpec(st: MacState, status: int): (r: MacState)
  {
    if status == 0 then
      st.(channelOpen := true, callbackCalls := st.callbackCalls + (if st.hasCallback then 1 else 0))
    else
      st.(connected := None, listenerErrors := st.listenerErrors + (if st.hasListener then 1 else 0))
  }

  /** `disconnect_impl`: the channel is closed and the device forgotten. */
  function DisconnectSpec(st: MacState): (r: MacState)
  {
    st.(channelOpen := false, connected := None)
  }

  lemma DisconnectIdempotent(st: MacState)
    ensures DisconnectSpec(DisconnectSpec(st)) == DisconnectSpec(st)
    ensures !DisconnectSpec(st).channelOpen && DisconnectSpec(st).connected.None?
  {
  }

  /**
   * `rfcommChannelClosed`: the device is forgotten, the listener told, then
   * everything is cleaned up (disconnect, stop scan).
   */
  function ChannelClosedSpec(st: MacState): (r: MacState)
  {
    var s1 := st.(channelOpen := false, connected := None,
                  listenerErrors := st.listenerErrors + (if st.hasListener then 1 else 0));
    StopScanSpec(DisconnectSpec(s1))
  }

  /** `send_impl`: the write length is converted with `as u16`, so only `len % 65536` bytes go out. */
  function SendSpec(st: MacState, data: seq<byte>, writeStatus: int): (MacState, Result<()>)
  {
    if !st.channelOpen then (st, Err("Device not connected, cannot send data"))
    else
      var s1 := st.(wire := st.wire + [data[..|data| % 0x1_0000]]);
      if writeStatus == 0 then (s1, Ok(()))
      else (s1, Err("Failed to send data, error code: " + IntToString(writeStatus)))
  }

  /** Data shorter than 65536 bytes is written whole. */
  lemma SendShortWhole(st: MacState, data: seq<byte>, writeStatus: int)
    requires st.channelOpen && |data| < 0x1_0000
    ensures SendSpec(st, data, writeStatus).0.wire == st.wire + [data]
  {
    assert data[..|data|] == data;
  }

  /** The shared macOS back-end state. */
  class MacBt {
    var scanned: seq<SppDevice>
    var scanLoopRunning: bool
    var inquiryActive: bool
    var connected: Option<SppDevice>
    var channelOpen: bool
    var hasCallback: bool
    var hasListener: bool
    var callbackCalls: nat
    var listenerErrors: nat
    var wire: seq<seq<byte>>

    function State(): MacState
      reads this
    {
      MacState(scanned, scanLoopRunning, inquiryActive, connected, channelOpen,
               hasCallback, hasListener, callbackCalls, listenerErrors, wire)
    }

    constructor ()
      ensures State() == MacState([], false, false, None, false, false, false, 0, 0, [])
    {
      scanned := [];
      scanLoopRunning := false;
      inquiryActive := false;
      connected := None;
      channelOpen := false;
      hasCallback := false;
      hasListener := false;
      callbackCalls := 0;
      listenerErrors := 0;
      wire := [];
    }

    /** `deviceInquiryDeviceFound` with the `any(|d| d.address == addr)` scan. */
    method DeviceFound(rawAddr: string, name: Option<string>)
      modifies this
      ensures State() == DeviceFoundSpec(old(State()), rawAddr, name)
    {
      var addr := NormalizeAddr(rawAddr);
      var i := 0;
      while i < |scanned|
        invariant i <= |scanned|
        invariant forall j :: 0 <= j < i ==> scanned[j].address != addr
        invariant State() == old(State())
      {
        if scanned[i].address == addr {
          return;
        }
        i := i + 1;
      }
      scanned := scanned + [SppDevice(name, addr)];
    }

    /** `deviceInquiryComplete` */
    method InquiryComplete(aborted: bool, restartStatus: int)
      modifies this
      ensures State() == InquiryCompleteSpec(old(State()), aborted, restartStatus)
    {
      inquiryActive := false;
      if scanLoopRunning && !aborted {
        if restartStatus == 0 {
          inquiryActive := true;
        } else {
          scanLoopRunning := false;
        }
      }
    }

    /** `stop_scan_impl` */
    method StopScan()
      modifies this
      ensures State() == StopScanSpec(old(State()))
    {
      scanLoopRunning := false;
      inquiryActive := false;
    }

    /** `start_scan_impl` */
    method StartScan(startStatus: int) returns (r: Result<()>)
      modifies this
      ensures (State(), r) == StartScanSpec(old(State()), startStatus)
    {
      StopScan();
      scanned := [];
      scanLoopRunning := true;
      if startStatus != 0 {
        return Err("Failed to start scan, error code: " + IntToString(startStatus));
      }
      inquiryActive := true;
      return Ok(());
    }

    /** `connect_impl`: the `for ch_id in try_channels` loop. */
    method Connect(addr: string, device: Option<DeviceInfo>, status: nat -> int) returns (r: Result<bool>)
      modifies this
      ensures (State(), r) == ConnectSpec(old(State()), addr, device, status)
    {
      StopScan();
      if device.None? {
        return Err("Device not found for " + addr);
      }
      var chans := TryChannels(device.value.sdpChannel);
      var lastError: Option<int> := None;
      for i := 0 to |chans|
        invariant forall j :: 0 <= j < i ==> status(chans[j]) != 0
        invariant i > 0 ==> lastError == Some(status(chans[i - 1]))
        invariant State() == StopScanSpec(old(State()))
      {
        var st := status(chans[i]);
        if st == 0 {
          channelOpen := true;
          connected := Some(SppDevice(device.value.name, addr));
          FirstAcceptedAt(chans, status, i);
          return Ok(true);
        }
        lastError := Some(st);
      }
      assert chans[|chans| - 1] == 1;
      return Err(ALL_FAILED + IntToString(lastError.value) + "))");
    }

    /** `rfcommChannelOpenComplete` */
    method OpenComplete(status: int)
      modifies this
      ensures State() == OpenCompleteSpec(old(State()), status)
    {
      if status == 0 {
        channelOpen := true;
        if hasCallback {
          callbackCalls := callbackCalls + 1;
        }
      } else {
        connected := None;
        if hasListener {
          listenerErrors := listenerErrors + 1;
        }
      }
    }

    /** `on_connected_impl`: only stored; it runs at the next successful channel open. */
    method OnConnected()
      modifies this
      ensures State() == old(State()).(hasCallback := true)
    {
      hasCallback := true;
    }

    /** `set_data_listener_impl` */
    method SetDataListener()
      modifies this
      ensures State() == old(State()).(hasListener := true)
    {
      hasListener := true;
    }

    /** `disconnect_impl` */
    method Disconnect()
      modifies this
      ensures State() == DisconnectSpec(old(State()))
    {
      channelOpen := false;
      connected := None;
    }

    /** `rfcommChannelClosed` followed by `cleanup_bluetooth_resources` */
    method ChannelClosed()
      modifies this
      ensures State() == ChannelClosedSpec(old(State()))
    {
      channelOpen := false;
      connected := None;
      if hasListener {
        listenerErrors := listenerErrors + 1;
      }
      Disconnect();
      StopScan();
    }

    /** `send_impl` */
    method Send(data: seq<byte>, writeStatus: int) returns (r: Result<()>)
      modifies this
      ensures (State(), r) == SendSpec(old(State()), data, writeStatus)
    {
      if !channelOpen {
        return Err("Device not connected, cannot send data");
      }
      wire := wire + [data[..|data| % 0x1_0000]];
      if writeStatus != 0 {
        return Err("Failed to send data, error code: " + IntToString(writeStatus));
      }
      return Ok(());
    }
  }

  /** The loop stops at the first accepted channel, which is the one `FirstAccepted` names. */
  lemma FirstAcceptedAt(chans: seq<nat>, status: nat -> int, i: nat)
    requires i < |chans| && status(chans[i]) == 0
    requires forall j :: 0 <= j < i ==> status(chans[j]) != 0
    ensures FirstAccepted(chans, status) == Some(i)
  {
    var r := FirstAccepted(chans, status);
    assert r.Some?;
    assert !(r.value < i);
    assert !(r.value > i);
  }
}

=== FILE: mass.dfy ===
/**
 * Mass transfer (`send_mass`): a file is wrapped in a mass packet, cut into
 * fragments sized to the slice length the device asked for, and queued part
 * by part, each part prefixed with the part count and its own 1-based number.
 * A process-wide resume state remembers, per file and device, the next part
 * the device has not yet acknowledged.
 */
module Mass {
  import opened Wrappers
  import opened Bytes
  import opened Strings
  import opened Crypto
  import opened Device
  import opened MassPacket

  /* ---- resume state ---- */

  /** `ResumeState` */
  datatype ResumeState = ResumeState(deviceAddr: string, massId: seq<byte>, currentPart: u16)

  /** A stored state resumes a transfer when it is for the same file (by MD5) and the same device. */
  predicate Resumes(s: Option<ResumeState>, addr: string, md5: seq<byte>) {
    s.Some? && s.value.massId == md5 && s.value.deviceAddr == addr
  }

  /** The part a transfer starts from. */
  function StartPart(s: Option<ResumeState>, addr: string, md5: seq<byte>): u16 {
    if Resumes(s, addr, md5) then s.value.currentPart else 1
  }

  /**
   * The state once an acknowledgement for `part` of `total` arrives: the next
   * part, or cleared after the last one. The `u16` increment wraps.
   */
  function ResumeAfterAck(s: Option<ResumeState>, part: u16, total: u16): (r: Option<ResumeState>)
    ensures s.None? ==> r.None?
    ensures s.Some? && part < 0xFFFF ==> (r.None? <==> part + 1 > total)
    ensures r.Some? ==> r == Some(s.value.(currentPart := (part + 1) % 0x1_0000)) && r.value.currentPart <= total
  {
    var next := (part + 1) % 0x1_0000;
    if s.None? || next > total then None
    else Some(s.value.(currentPart := next))
  }

  /** The stored state after acknowledgements for parts `from`..`total`, in that order. */
  function AckParts(s: Option<ResumeState>, from: nat, total: u16): Option<ResumeState>
    requires from >= 1
    decreases total + 1 - from
  {
    if from > total then s
    else AckParts(ResumeAfterAck(s, from, total), from + 1, total)
  }

  lemma {:induction false} AckPartsNone(from: nat, total: u16)
    requires from >= 1
    ensures AckParts(None, from, total) == None
    decreases total + 1 - from
  {
    if from <= total {
      AckPartsNone(from + 1, total);
    }
  }

  /** Acknowledging every part up to the last clears the stored state (with fewer than 65535 parts). */
  lemma {:induction false} AckPartsClears(s: Option<ResumeState>, from: nat, total: u16)
    requires 1 <= from <= total < 0xFFFF
    ensures AckParts(s, from, total) == None
    decreases total - from
  {
    var next := ResumeAfterAck(s, from, total);
    if from == total {
      AckPartsNone(from + 1, total);
    } else if next.None? {
      AckPartsNone(from + 1, total);
    } else {
      AckPartsClears(next, from + 1, total);
    }
  }

  /** After the acknowledgement of part `k` (not the last), a new transfer of the same file to the same device starts at `k + 1`. */
  lemma ResumeContinues(s: Option<ResumeState>, addr: string, md5: seq<byte>, k: u16, total: u16)
    requires Resumes(s, addr, md5) && k < total
    ensures StartPart(ResumeAfterAck(s, k, total), addr, md5) == k + 1
  {
  }

  /** `RESUME_STATE`, the process-wide slot. */
  class ResumeStore {
    var state: Option<ResumeState>

    constructor ()
      ensures state == None
    {
      state := None;
    }

    /** `clear_resume_state` */
    method Clear()
      modifies this
      ensures state == None
    {
      state := None;
    }

    /**
     * The lookup at the start of `send_mass`: resume from the stored part, or
     * reset the state to part 1 of this file and device.
     */
    method Begin(addr: string, md5: seq<byte>) returns (startPart: u16)
      modifies this
      ensures startPart == StartPart(old(state), addr, md5)
      ensures Resumes(old(state), addr, md5) ==> state == old(state)
      ensures !Resumes(old(state), addr, md5) ==> state == Some(ResumeState(addr, md5, 1))
    {
      if state.Some? && state.value.massId == md5 && state.value.deviceAddr == addr {
        startPart := state.value.currentPart;
      } else {
        state := Some(ResumeState(addr, md5, 1));
        startPart := 1;
      }
    }

    /** The task waiting for part `part`'s acknowledgement. */
    method OnAck(part: u16, total: u16)
      modifies this
      ensures state == ResumeAfterAck(old(state), part, total)
    {
      if state.Some? {
        var next := (part + 1) % 0x1_0000;
        if next > total {
          state := None;
        } else {
          state := Some(state.value.(currentPart := next));
        }
      }
    }
  }

  /* ---- fragment sizing ---- */

  const SLICE_ZERO := "Device reported expected_slice_length of 0, cannot proceed."

  /** The bytes of a Data body taken by channel, opcode, part count and part number. */
  const PART_OVERHEAD := 6

  /** A fragment's capacity: the device's slice length less the 6 bytes of framing; nothing left is an error. */
  function FragmentMax(sliceLen: nat): (r: Result<nat>)
    ensures r.Ok? <==> sliceLen > PART_OVERHEAD
    ensures r.Ok? ==> r.value == sliceLen - PART_OVERHEAD && r.value > 0
    ensures sliceLen == 0 ==> r == Err(SLICE_ZERO)
  {
    if sliceLen == 0 then Err(SLICE_ZERO)
    else if sliceLen <= PART_OVERHEAD then
      Err("Calculated mass_fragment_max_len is 0. Device limit (" + NatToString(sliceLen) + ") is too small.")
    else Ok((sliceLen - PART_OVERHEAD) as nat)
  }

  function CeilDiv(a: nat, n: nat): nat
    requires n > 0
  {
    (a + n - 1) / n
  }

  /** `ceil(len / frag) as u16`: the float-to-integer cast saturates at 65535. */
  function TotalParts(len: nat, frag: nat): (t: u16)
    requires frag > 0
  {
    if CeilDiv(len, frag) > 0xFFFF then 0xFFFF else CeilDiv(len, frag)
  }

  /** A non-empty payload gets at least one part; without saturation the parts exactly cover it. */
  lemma TotalPartsCover(len: nat, frag: nat)
    requires frag > 0
    ensures len > 0 ==> TotalParts(len, frag) >= 1
    ensures len == 0 ==> TotalParts(len, frag) == 0
    ensures CeilDiv(len, frag) <= 0xFFFF ==>
      (TotalParts(len, frag) - 1) * frag < len <= TotalParts(len, frag) * frag || len == 0
  {
    var c := CeilDiv(len, frag);
    assert c * frag <= len + frag - 1 < (c + 1) * frag;
    assert (c - 1) * frag == c * frag - frag;
  }

  /** Part `i` (from 0) starts inside the payload. */
  lemma PartStartInside(len: nat, frag: nat, i: nat)
    requires frag > 0 && i < CeilDiv(len, frag)
    ensures i * frag < len
  {
    var c := CeilDiv(len, frag);
    assert c * frag <= len + frag - 1;
    assert i * frag <= (c - 1) * frag == c * frag - frag;
  }

  /** The bytes of the payload carried by part `i` (from 0). */
  function Fragment(inner: seq<byte>, frag: nat, i: nat): (f: seq<byte>)
    requires frag > 0 && i < CeilDiv(|inner|, frag)
    ensures 0 < |f| <= frag
  {
    PartStartInside(|inner|, frag, i);
    inner[i * frag .. if (i + 1) * frag < |inner| then (i + 1) * frag else |inner|]
  }

  /** The Data payload of part `i` (from 0): part count, 1-based part number, both LE, then the fragment. */
  function PartPayload(inner: seq<byte>, frag: nat, total: u16, i: nat): (p: seq<byte>)
    requires frag > 0 && i < total <= CeilDiv(|inner|, frag)
    ensures |p| == 4 + |Fragment(inner, frag, i)|
    ensures ReadU16Le(p[0], p[1]) == total && ReadU16Le(p[2], p[3]) == i + 1 && p[4..] == Fragment(inner, frag, i)
  {
    U16Le(total) + U16Le(i + 1) + Fragment(inner, frag, i)
  }

  /** The payloads of parts `a`..`b - 1`. */
  function Parts(inner: seq<byte>, frag: nat, total: u16, a: nat, b: nat): (ps: seq<seq<byte>>)
    requires frag > 0 && total <= CeilDiv(|inner|, frag) && (a >= b || b <= total)
    ensures |ps| == if a >= b then 0 else b - a
    ensures forall j :: 0 <= j < |ps| ==> ps[j] == PartPayload(inner, frag, total, a + j)
  {
    if a >= b then [] else seq(b - a, j requires 0 <= j < b - a => PartPayload(inner, frag, total, a + j))
  }

  /** Division with a known quotient and remainder. */
  lemma CeilDivStep(m: nat, n: nat)
    requires n > 0
    ensures CeilDiv(m + n, n) == CeilDiv(m, n) + 1
  {
    var x := m + n - 1;
    var q := x / n;
    assert x == q * n + x % n;
    assert x + n == (q + 1) * n + x % n;
    DivUnique(x + n, n, q + 1, x % n);
  }

  lemma {:induction false} ChunksCount(s: seq<byte>, n: nat)
    requires n > 0
    ensures |Chunks(s, n)| == CeilDiv(|s|, n)
    decreases |s|
  {
    if |s| == 0 {
      DivUnique(n - 1, n, 0, n - 1);
    } else if |s| <= n {
      DivUnique(|s| + n - 1, n, 1, |s| - 1);
    } else {
      ChunksCount(s[n..], n);
      CeilDivStep(|s| - n, n);
    }
  }

  /** Without saturation, the fragments of all parts put back together give the whole payload. */
  lemma FragmentsCover(inner: seq<byte>, frag: nat)
    requires frag > 0 && CeilDiv(|inner|, frag) <= 0xFFFF
    ensures var total := TotalParts(|inner|, frag);
      Flatten(seq(total, i requires 0 <= i < total => Fragment(inner, frag, i))) == inner
  {
    var total := TotalParts(|inner|, frag);
    var chunks := Chunks(inner, frag);
    ChunksCount(inner, frag);
    var frags := seq(total, i requires 0 <= i < total => Fragment(inner, frag, i));
    forall i | 0 <= i < total
      ensures frags[i] == chunks[i]
    {
      ChunkAt(inner, frag, i);
    }
    assert frags == chunks;
    ChunksFlatten(inner, frag);
  }

  /* ---- send_mass ---- */

  /** What the prepare request carries: `data_type as u32`, the MD5 as data id, `len as u32`. */
  datatype PrepareRequest = PrepareRequest(dataType: nat, dataId: seq<byte>, dataLength: u32)

  function BuildPrepareRequest(dataType: MassDataType, md5: seq<byte>, len: nat): (r: PrepareRequest)
    ensures r.dataType == DataTypeCode(dataType) && r.dataId == md5
    ensures len < 0x1_0000_0000 ==> r.dataLength == len
  {
    PrepareRequest(DataTypeCode(dataType), md5, len % 0x1_0000_0000)
  }

  /** The device's answer to the prepare request, as far as `send_mass` looks at it. */
  datatype PrepareReply = NoMass | NoPrepareResponse | Prepared(ready: bool, expectedSliceLength: nat)

  /** The fragment capacity the prepare exchange yields, or the error that ends the transfer. */
  function Plan(reply: Result<PrepareReply>): (r: Result<nat>)
    ensures r.Ok? <==> reply.Ok? && reply.value.Prepared? && reply.value.ready && reply.value.expectedSliceLength > PART_OVERHEAD
    ensures reply.Ok? && reply.value.Prepared? && !reply.value.ready ==> r == Err("Mass data prepare was not READY.")
  {
    match reply
    case Err(_) => Err("Mass prepare request_proto call failed")
    case Ok(NoMass) => Err("Mass field was not present in the received protobuf.")
    case Ok(NoPrepareResponse) => Err("Prepare response field was not present in the received protobuf.")
    case Ok(Prepared(ready, sliceLen)) =>
      if !ready then Err("Mass data prepare was not READY.")
      else FragmentMax(sliceLen)
  }

  /** How the link behaves during the part loop: part numbers are 1-based. */
  datatype Interruption = Uninterrupted | DisconnectedBefore(part: nat) | SendFailed(part: nat)

  const DISCONNECTED := "Device disconnected during mass send"

  function SendFailedMsg(part: nat, total: nat): string {
    "Failed to send mass data part " + NatToString(part) + "/" + NatToString(total)
  }

  /**
   * The parts from `startPart` on, up to the first interruption: a disconnect
   * noticed before part `p` stops with parts before `p` queued; a failed send
   * of part `p` stops with `p` queued.
   */
  function PartLoop(inner: seq<byte>, frag: nat, total: u16, startPart: nat, intr: Interruption): (r: (Result<()>, seq<seq<byte>>))
    requires frag > 0 && total <= CeilDiv(|inner|, frag) && startPart >= 1
  {
    var lo := startPart - 1;
    if intr.DisconnectedBefore? && lo < intr.part <= total then (Err(DISCONNECTED), Parts(inner, frag, total, lo, intr.part - 1))
    else if intr.SendFailed? && lo < intr.part <= total then (Err(SendFailedMsg(intr.part, total)), Parts(inner, frag, total, lo, intr.part))
    else (Ok(()), Parts(inner, frag, total, lo, total))
  }

  /** One more part appended. */
  lemma PartsSnoc(inner: seq<byte>, frag: nat, total: u16, a: nat, b: nat)
    requires frag > 0 && total <= CeilDiv(|inner|, frag) && a <= b < total
    ensures Parts(inner, frag, total, a, b + 1) == Parts(inner, frag, total, a, b) + [PartPayload(inner, frag, total, b)]
  {
    hide *;
    var l := Parts(inner, frag, total, a, b + 1);
    var m := Parts(inner, frag, total, a, b);
    var r := m + [PartPayload(inner, frag, total, b)];
    assert |l| == |r|;
    forall j | 0 <= j < |l| ensures l[j] == r[j] {
      if j < |m| {
        assert r[j] == m[j];
      } else {
        assert j == b - a;
      }
    }
  }

  /**
   * A transfer that is not interrupted succeeds and queues every part from
   * the start part on, each carrying the part count and its own number, in
   * increasing order.
   */
  lemma PartLoopComplete(inner: seq<byte>, frag: nat, startPart: nat)
    requires frag > 0 && startPart >= 1
    ensures var total := TotalParts(|inner|, frag);
      var out := PartLoop(inner, frag, total, startPart, Uninterrupted);
      out.0.Ok? && |out.1| == (if startPart - 1 >= total then 0 else total - (startPart - 1))
      && forall j :: 0 <= j < |out.1| ==>
           |out.1[j]| >= 4 && ReadU16Le(out.1[j][0], out.1[j][1]) == total
           && ReadU16Le(out.1[j][2], out.1[j][3]) == startPart + j
  {
    var total := TotalParts(|inner|, frag);
    var out := PartLoop(inner, frag, total, startPart, Uninterrupted);
    assert out.1 == Parts(inner, frag, total, startPart - 1, total);
  }

  /**
   * What `progress_cb` receives for part `i` (from 0): the fraction of the
   * parts sent so far, the part count, the 1-based part number and the
   * length of the part's payload.
   */
  datatype MassProgress = MassProgress(progress: real, totalParts: nat, currentPartNum: nat, payloadLen: nat)

  function ProgressFor(inner: seq<byte>, frag: nat, total: u16, i: nat): MassProgress
    requires frag > 0 && i < total <= CeilDiv(|inner|, frag)
  {
    MassProgress((i + 1) as real / total as real, total, i + 1, |PartPayload(inner, frag, total, i)|)
  }

  /** The reports for parts `a`..`b - 1`. */
  function Progresses(inner: seq<byte>, frag: nat, total: u16, a: nat, b: nat): (ps: seq<MassProgress>)
    requires frag > 0 && total <= CeilDiv(|inner|, frag) && (a >= b || b <= total)
    ensures |ps| == if a >= b then 0 else b - a
    ensures forall j :: 0 <= j < |ps| ==> ps[j] == ProgressFor(inner, frag, total, a + j)
  {
    if a >= b then [] else seq(b - a, j requires 0 <= j < b - a => ProgressFor(inner, frag, total, a + j))
  }

  /**
   * The progress reports of the part loop. A part is reported before the
   * disconnect check and before its send, so an interrupted part is reported
   * whichever way it is interrupted.
   */
  function ProgressLoop(inner: seq<byte>, frag: nat, total: u16, startPart: nat, intr: Interruption): seq<MassProgress>
    requires frag > 0 && total <= CeilDiv(|inner|, frag) && startPart >= 1
  {
    var lo := startPart - 1;
    if (intr.DisconnectedBefore? || intr.SendFailed?) && lo < intr.part <= total then Progresses(inner, frag, total, lo, intr.part)
    else Progresses(inner, frag, total, lo, total)
  }

  lemma ProgressesSnoc(inner: seq<byte>, frag: nat, total: u16, a: nat, b: nat)
    requires frag > 0 && total <= CeilDiv(|inner|, frag) && a <= b < total
    ensures Progresses(inner, frag, total, a, b + 1) == Progresses(inner, frag, total, a, b) + [ProgressFor(inner, frag, total, b)]
  {
    hide *;
    var l := Progresses(inner, frag, total, a, b + 1);
    var m := Progresses(inner, frag, total, a, b);
    var r := m + [ProgressFor(inner, frag, total, b)];
    assert |l| == |r|;
    forall j | 0 <= j < |l| ensures l[j] == r[j] {
      if j < |m| {
        assert r[j] == m[j];
      } else {
        assert j == b - a;
      }
    }
  }

  /** A part number `n` of `total` is a fraction in (0, 1], and exactly 1 for the last part. */
  lemma FractionInRange(n: nat, total: nat)
    requires 0 < n <= total
    ensures 0.0 < n as real / total as real <= 1.0
    ensures n as real / total as real == 1.0 <==> n == total
  {
    var f := n as real / total as real;
    assert f * total as real == n as real;
  }

  /**
   * The reports match the queued parts one for one, in order, with the
   * payload length of each queued part; a disconnect adds one report for the
   * part it stopped. Every fraction lies in (0, 1], and it reaches 1 exactly
   * at the last part.
   */
  lemma ProgressMatchesParts(inner: seq<byte>, frag: nat, total: u16, startPart: nat, intr: Interruption)
    requires frag > 0 && total <= CeilDiv(|inner|, frag) && startPart >= 1
    ensures var out := PartLoop(inner, frag, total, startPart, intr);
      var reps := ProgressLoop(inner, frag, total, startPart, intr);
      |reps| == |out.1| + (if intr.DisconnectedBefore? && startPart - 1 < intr.part <= total then 1 else 0)
      && (forall j :: 0 <= j < |out.1| ==>
            reps[j].payloadLen == |out.1[j]| && reps[j].currentPartNum == startPart + j && reps[j].totalParts == total)
      && (forall j :: 0 <= j < |reps| ==> 0.0 < reps[j].progress <= 1.0 && (reps[j].progress == 1.0 <==> reps[j].currentPartNum == total))
  {
    var out := PartLoop(inner, frag, total, startPart, intr);
    var reps := ProgressLoop(inner, frag, total, startPart, intr);
    forall j | 0 <= j < |reps|
      ensures 0.0 < reps[j].progress <= 1.0 && (reps[j].progress == 1.0 <==> reps[j].currentPartNum == total)
    {
      FractionInRange(startPart + j, total);
    }
  }

  /** The `for` loop over the parts. */
  method SendParts(inner: seq<byte>, frag: nat, total: u16, startPart: u16, intr: Interruption)
    returns (r: Result<()>, queued: seq<seq<byte>>, reported: seq<MassProgress>)
    requires frag > 0 && total <= CeilDiv(|inner|, frag) && startPart >= 1
    ensures (r, queued) == PartLoop(inner, frag, total, startPart, intr)
    ensures reported == ProgressLoop(inner, frag, total, startPart, intr)
  {
    hide Fragment, Parts, Progresses;
    var i := startPart - 1;
    queued := [];
    reported := [];
    while i < total
      invariant startPart - 1 <= i && (i <= total || i == startPart - 1)
      invariant queued == Parts(inner, frag, total, startPart - 1, i)
      invariant reported == Progresses(inner, frag, total, startPart - 1, i)
      invariant !(intr.DisconnectedBefore? && startPart - 1 < intr.part <= i)
      invariant !(intr.SendFailed? && startPart - 1 < intr.part <= i)
    {
      var partNum := i + 1;
      var payload := U16Le(total) + U16Le(partNum) + Fragment(inner, frag, i);
      assert payload == PartPayload(inner, frag, total, i);
      reported := reported + [MassProgress(partNum as real / total as real, total, partNum, |payload|)];
      assert reported[|reported| - 1] == ProgressFor(inner, frag, total, i);
      ProgressesSnoc(inner, frag, total, startPart - 1, i);
      if intr == DisconnectedBefore(partNum) {
        return Err(DISCONNECTED), queued, reported;
      }
      PartsSnoc(inner, frag, total, startPart - 1, i);
      queued := queued + [payload];
      if intr == SendFailed(partNum) {
        return Err(SendFailedMsg(partNum, total)), queued, reported;
      }
      i := i + 1;
    }
    r := Ok(());
  }

  /**
   * `send_mass`: the resume lookup, the prepare exchange (`prepare` answers
   * the request), the mass packet, the fragment size, then the parts. The
   * returned lists are the part payloads handed to the command pool and the
   * reports given to `progress_cb`, in order.
   * `is_sending_mass` is set for the loop and cleared only when it completes.
   */
  method SendMass(device: MiWearDevice, store: ResumeStore, fileData: seq<byte>, dataType: MassDataType,
                  addr: string, md5: Md5Fn, crc32: Crc32Fn,
                  prepare: PrepareRequest -> Result<PrepareReply>, intr: Interruption)
    returns (r: Result<()>, queued: seq<seq<byte>>, reported: seq<MassProgress>)
    modifies device, store
    ensures Resumes(old(store.state), addr, md5(fileData)) ==> store.state == old(store.state)
    ensures !Resumes(old(store.state), addr, md5(fileData)) ==> store.state == Some(ResumeState(addr, md5(fileData), 1))
    ensures var plan := Plan(prepare(BuildPrepareRequest(dataType, md5(fileData), |fileData|)));
      (plan.Err? ==> r == Err(plan.error) && queued == [] && reported == [] && device.isSendingMass == old(device.isSendingMass))
      && (plan.Ok? ==>
            var inner := EncodeWithCrc32(Build(fileData, dataType, md5), crc32);
            var total := TotalParts(|inner|, plan.value);
            var start := StartPart(old(store.state), addr, md5(fileData));
            (start >= 1 ==> (r, queued) == PartLoop(inner, plan.value, total, start, intr)
                            && reported == ProgressLoop(inner, plan.value, total, start, intr))
            && (start == 0 ==> r.Ok? && queued == [] && reported == [])
            && device.isSendingMass == r.Err?)
    ensures device.pendingSeq == old(device.pendingSeq) && device.written == old(device.written)
      && device.secKeys == old(device.secKeys) && device.recvBuffer == old(device.recvBuffer)
  {
    var fileMd5 := md5(fileData);
    var startPart := store.Begin(addr, fileMd5);
    var reply := prepare(BuildPrepareRequest(dataType, fileMd5, |fileData|));
    var plan := Plan(reply);
    if plan.Err? {
      return Err(plan.error), [], [];
    }
    var inner := EncodeWithCrc32(Build(fileData, dataType, md5), crc32);
    var frag := plan.value;
    var total := TotalParts(|inner|, frag);
    device.isSendingMass := true;
    if startPart == 0 {
      // `start_part - 1` wraps to 65535 and the loop is empty.
      device.isSendingMass := false;
      return Ok(()), [], [];
    }
    r, queued, reported := SendParts(inner, frag, total, startPart, intr);
    if r.Ok? {
      device.isSendingMass := false;
    }
  }
}

=== FILE: mass_packet.dfy ===
/**
 * The inner payload of a mass transfer: a header naming the kind of data,
 * its MD5 and its length, the data itself, and a CRC-32 over all of it.
 */
module MassPacket {
  import opened Bytes
  import opened Crypto

  /** `MassDataType` */
  datatype MassDataType = Watchface | Firmware | NotificationIcon | ThirdpartyApp

  function DataTypeCode(t: MassDataType): (b: byte)
    ensures b in {16, 32, 50, 64}
  {
    match t
    case Watchface => 16
    case Firmware => 32
    case NotificationIcon => 50
    case ThirdpartyApp => 64
  }

  /** Distinct kinds have distinct codes. */
  lemma DataTypeCodeInjective(a: MassDataType, b: MassDataType)
    ensures DataTypeCode(a) == DataTypeCode(b) ==> a == b
  {
  }

  /** `MassPacket`: the original data with its MD5 and 32-bit length. */
  datatype MassPacketData = MassPacketData(dataType: MassDataType, md5: seq<byte>, length: u32, data: seq<byte>)

  /** `MassPacket::build`: the length is `len() as u32`, truncated to 32 bits. */
  function Build(data: seq<byte>, dataType: MassDataType, md5: Md5Fn): (p: MassPacketData)
    ensures p.data == data && p.dataType == dataType && |p.md5| == 16
    ensures |data| < 0x1_0000_0000 ==> p.length == |data|
  {
    MassPacketData(dataType, md5(data), |data| % 0x1_0000_0000, data)
  }

  /** The bytes the CRC-32 covers: compression flag 0, type, MD5, length (LE), data. */
  function CrcPayload(p: MassPacketData): seq<byte> {
    [0x00, DataTypeCode(p.dataType)] + p.md5 + U32Le(p.length) + p.data
  }

  /** `encode_with_crc32`: the covered bytes followed by their CRC-32, little-endian. */
  function EncodeWithCrc32(p: MassPacketData, crc32: Crc32Fn): seq<byte> {
    var payload := CrcPayload(p);
    payload + U32Le(crc32(payload))
  }

  /**
   * The layout of a built mass packet: 26 bytes around the data, the data at
   * offset 22, the length field equal to the data length and the last four
   * bytes the CRC-32 of everything before them.
   */
  lemma EncodeLayout(data: seq<byte>, dataType: MassDataType, md5: Md5Fn, crc32: Crc32Fn)
    requires |data| < 0x1_0000_0000
    ensures var out := EncodeWithCrc32(Build(data, dataType, md5), crc32);
      |out| == |data| + 26
      && out[0] == 0x00 && out[1] == DataTypeCode(dataType)
      && out[2..18] == md5(data)
      && ReadU32Le(out[18..22]) == |data|
      && out[22..22 + |data|] == data
      && out[..|out| - 4] == CrcPayload(Build(data, dataType, md5))
      && ReadU32Le(out[|out| - 4..]) == crc32(out[..|out| - 4])
  {
    var p := Build(data, dataType, md5);
    var payload := CrcPayload(p);
    var out := EncodeWithCrc32(p, crc32);
    assert out[18..22] == U32Le(|data|);
    U32LeRoundTrip(|data|);
    assert out[..|out| - 4] == payload;
    assert out[|out| - 4..] == U32Le(crc32(payload));
    U32LeRoundTrip(crc32(payload));
  }
}

=== FILE: meter.dfy ===
/**
 * The sliding-window bandwidth meter of the network stack: two queues of
 * (time, length) events, one for writes and one for reads. Events older than
 * the window are dropped from the front whenever an event is added or a
 * speed is asked for. Times are instants in nanoseconds from some origin; the
 * clock is a parameter and never runs backwards.
 */
module Meter {
  /** One transfer: when it happened and how many bytes it moved. */
  datatype Event = Event(t: nat, length: nat)

  /** `now - t` on `Instant`: the duration since `t`, zero if `t` is later. */
  function Elapsed(now: nat, t: nat): nat {
    if now >= t then now - t else 0
  }

  /** Event times never decrease along the queue. */
  predicate Chronological(q: seq<Event>) {
    forall i, j :: 0 <= i < j < |q| ==> q[i].t <= q[j].t
  }

  /** No event lies after `now`. */
  predicate NotAfter(q: seq<Event>, now: nat) {
    forall i :: 0 <= i < |q| ==> q[i].t <= now
  }

  /** The queue after `evict_old`: front events older than the window removed, up to the first one inside it. */
  function Evict(q: seq<Event>, now: nat, window: nat): (r: seq<Event>)
    ensures |r| <= |q| && r == q[|q| - |r|..]
    ensures |r| > 0 ==> Elapsed(now, r[0].t) <= window
    ensures forall i :: 0 <= i < |q| - |r| ==> Elapsed(now, q[i].t) > window
    decreases |q|
  {
    if |q| > 0 && Elapsed(now, q[0].t) > window then Evict(q[1..], now, window) else q
  }

  /** Eviction keeps a chronological queue chronological. */
  lemma {:induction false} EvictChronological(q: seq<Event>, now: nat, window: nat)
    requires Chronological(q)
    ensures Chronological(Evict(q, now, window))
    decreases |q|
  {
    if |q| > 0 && Elapsed(now, q[0].t) > window {
      var tail := q[1..];
      assert forall i, j :: 0 <= i < j < |tail| ==> tail[i] == q[i + 1] && tail[j] == q[j + 1];
      EvictChronological(tail, now, window);
    }
  }

  /** The events of `q` inside the window, in order. */
  function InWindow(q: seq<Event>, now: nat, window: nat): (r: seq<Event>)
    ensures forall i :: 0 <= i < |r| ==> Elapsed(now, r[i].t) <= window
    decreases |q|
  {
    if |q| == 0 then []
    else (if Elapsed(now, q[0].t) <= window then [q[0]] else []) + InWindow(q[1..], now, window)
  }

  lemma {:induction false} InWindowAll(q: seq<Event>, now: nat, window: nat)
    requires forall i :: 0 <= i < |q| ==> Elapsed(now, q[i].t) <= window
    ensures InWindow(q, now, window) == q
    decreases |q|
  {
    if |q| > 0 {
      InWindowAll(q[1..], now, window);
    }
  }

  /**
   * With chronological times none after `now`, eviction keeps exactly the
   * events inside the window, so every event left is at most `window` old.
   */
  lemma {:induction false} EvictKeepsWindow(q: seq<Event>, now: nat, window: nat)
    requires Chronological(q) && NotAfter(q, now)
    ensures Evict(q, now, window) == InWindow(q, now, window)
    ensures forall i :: 0 <= i < |Evict(q, now, window)| ==> Elapsed(now, Evict(q, now, window)[i].t) <= window
    decreases |q|
  {
    hide Chronological, NotAfter;
    if |q| > 0 {
      if Elapsed(now, q[0].t) > window {
        var tail := q[1..];
        TailOrdered(q, now);
        EvictKeepsWindow(tail, now, window);
        assert Evict(q, now, window) == Evict(tail, now, window);
        assert InWindow(q, now, window) == [] + InWindow(tail, now, window);
      } else {
        FrontInWindow(q, now, window);
        InWindowAll(q, now, window);
        assert Evict(q, now, window) == q;
      }
    }
  }

  /** When the oldest event is inside the window, so is every later one. */
  lemma FrontInWindow(q: seq<Event>, now: nat, window: nat)
    requires |q| > 0 && Chronological(q) && NotAfter(q, now) && Elapsed(now, q[0].t) <= window
    ensures forall i :: 0 <= i < |q| ==> Elapsed(now, q[i].t) <= window
  {
    forall i | 0 <= i < |q| ensures Elapsed(now, q[i].t) <= window {
      assert q[0].t <= q[i].t;
    }
  }

  /** Dropping the oldest event keeps the queue chronological and not after `now`. */
  lemma TailOrdered(q: seq<Event>, now: nat)
    requires |q| > 0 && Chronological(q) && NotAfter(q, now)
    ensures Chronological(q[1..]) && NotAfter(q[1..], now)
  {
    var tail := q[1..];
    assert forall i :: 0 <= i < |tail| ==> tail[i] == q[i + 1];
  }

  /** The bytes of all events in `q`. */
  function Total(q: seq<Event>): nat {
    if |q| == 0 then 0 else q[0].length + Total(q[1..])
  }

  /**
   * `speed_inner` on an already evicted queue: bytes per second over the time
   * since the oldest event (at least a millisecond), or 0 when nothing moved.
   */
  function Speed(q: seq<Event>, now: nat): (s: real)
    ensures s >= 0.0
    ensures s == 0.0 <==> Total(q) == 0
  {
    if Total(q) == 0 then 0.0
    else
      var secs := Elapsed(now, q[0].t) as real / 1_000_000_000.0;
      var actual := if secs > 0.001 then secs else 0.001;
      Total(q) as real / actual
  }

  class BandwidthMeter {
    const window: nat
    var writeEvents: seq<Event>
    var readEvents: seq<Event>

    /** Both queues chronological. */
    predicate Valid()
      reads this
    {
      Chronological(writeEvents) && Chronological(readEvents)
    }

    constructor (window: nat)
      ensures this.window == window && writeEvents == [] && readEvents == [] && Valid()
    {
      this.window := window;
      writeEvents := [];
      readEvents := [];
    }

    /** `evict_old`: pop the front while it is older than the window. */
    method EvictOld(q: seq<Event>, now: nat) returns (r: seq<Event>)
      ensures r == Evict(q, now, window)
    {
      r := q;
      while |r| > 0 && Elapsed(now, r[0].t) > window
        invariant Evict(r, now, window) == Evict(q, now, window)
        decreases |r|
      {
        r := r[1..];
      }
    }

    /** `add_written`: append the event at `now`, then evict from the write queue; the read queue is untouched. */
    method AddWritten(length: nat, now: nat)
      requires Valid() && NotAfter(writeEvents, now)
      modifies this
      ensures Valid()
      ensures writeEvents == Evict(old(writeEvents) + [Event(now, length)], now, window)
      ensures readEvents == old(readEvents)
    {
      var q := writeEvents + [Event(now, length)];
      AppendChronological(writeEvents, Event(now, length));
      EvictChronological(q, now, window);
      writeEvents := EvictOld(q, now);
    }

    /** `add_read`: append the event at `now`, then evict from the read queue; the write queue is untouched. */
    method AddRead(length: nat, now: nat)
      requires Valid() && NotAfter(readEvents, now)
      modifies this
      ensures Valid()
      ensures readEvents == Evict(old(readEvents) + [Event(now, length)], now, window)
      ensures writeEvents == old(writeEvents)
    {
      var q := readEvents + [Event(now, length)];
      AppendChronological(readEvents, Event(now, length));
      EvictChronological(q, now, window);
      readEvents := EvictOld(q, now);
    }

    /** `write_speed`: evict the write queue, then measure what is left. */
    method WriteSpeed(now: nat) returns (speed: real)
      requires Valid()
      modifies this
      ensures Valid()
      ensures writeEvents == Evict(old(writeEvents), now, window) && readEvents == old(readEvents)
      ensures speed == Speed(writeEvents, now)
    {
      EvictChronological(writeEvents, now, window);
      writeEvents := EvictOld(writeEvents, now);
      speed := Speed(writeEvents, now);
    }

    /** `read_speed`: evict the read queue, then measure what is left. */
    method ReadSpeed(now: nat) returns (speed: real)
      requires Valid()
      modifies this
      ensures Valid()
      ensures readEvents == Evict(old(readEvents), now, window) && writeEvents == old(writeEvents)
      ensures speed == Speed(readEvents, now)
    {
      EvictChronological(readEvents, now, window);
      readEvents := EvictOld(readEvents, now);
      speed := Speed(readEvents, now);
    }
  }

  /** An event added at `now` to a chronological queue with nothing after `now` keeps it chronological. */
  lemma AppendChronological(q: seq<Event>, e: Event)
    requires Chronological(q) && NotAfter(q, e.t)
    ensures Chronological(q + [e]) && NotAfter(q + [e], e.t)
  {
  }

  /**
   * After an event is added at `now`, the queue holds exactly the old events
   * still inside the window followed by the new event.
   */
  lemma PushKeepsWindow(q: seq<Event>, length: nat, now: nat, window: nat)
    requires Chronological(q) && NotAfter(q, now)
    ensures Evict(q + [Event(now, length)], now, window) == InWindow(q, now, window) + [Event(now, length)]
  {
    var e := Event(now, length);
    AppendChronological(q, e);
    EvictKeepsWindow(q + [e], now, window);
    InWindowAppend(q, e, now, window);
  }

  lemma {:induction false} InWindowAppend(q: seq<Event>, e: Event, now: nat, window: nat)
    requires Elapsed(now, e.t) <= window
    ensures InWindow(q + [e], now, window) == InWindow(q, now, window) + [e]
    decreases |q|
  {
    if |q| == 0 {
      assert q + [e] == [e];
    } else {
      assert (q + [e])[1..] == q[1..] + [e];
      InWindowAppend(q[1..], e, now, window);
    }
  }
}

=== FILE: packet.dfy ===
/**
 * The MiWear link-layer frame (src-tauri/src/miwear/packet.rs):
 *
 *   A5 A5 | type | seq | body length (u16 LE) | CRC-16/ARC of body (u16 LE) | body
 *
 * with batch parsing of a receive buffer and the Data-frame header
 * `channel | opcode | payload`.
 */
module Packet {
  import opened Wrappers
  import opened Bytes

  const MAGIC: seq<byte> := [0xA5, 0xA5]
  const HEADER_LEN := 8

  datatype PktType = Ack | SessionConfig | Data

  function PktTypeCode(t: PktType): byte {
    match t
    case Ack => 1
    case SessionConfig => 2
    case Data => 3
  }

  /** `PktType::from(u8)`: only the low nibble is looked at, unknown values read as Data. */
  function PktTypeFromByte(b: byte): (t: PktType)
    ensures b % 16 == 1 ==> t == Ack
    ensures b % 16 == 2 ==> t == SessionConfig
    ensures b % 16 != 1 && b % 16 != 2 ==> t == Data
  {
    match b % 16
    case 1 => Ack
    case 2 => SessionConfig
    case 3 => Data
    case _ => Data
  }

  datatype Channel = Pb | Mass | MassVoice | FileSensor | FileFitness | OTA | NetWork | Lyra | FileResearch

  function ChannelCode(c: Channel): (b: byte)
    ensures 1 <= b <= 9
  {
    match c
    case Pb => 1
    case Mass => 2
    case MassVoice => 3
    case FileSensor => 4
    case FileFitness => 5
    case OTA => 6
    case NetWork => 7
    case Lyra => 8
    case FileResearch => 9
  }

  /** `Channel::from(u8)`: codes 1..9, anything else reads as Pb. */
  function ChannelFromByte(b: byte): (c: Channel)
    ensures (b < 1 || b > 9) ==> c == Pb
  {
    match b
    case 1 => Pb
    case 2 => Mass
    case 3 => MassVoice
    case 4 => FileSensor
    case 5 => FileFitness
    case 6 => OTA
    case 7 => NetWork
    case 8 => Lyra
    case 9 => FileResearch
    case _ => Pb
  }

  lemma ChannelRoundTrip(c: Channel)
    ensures ChannelFromByte(ChannelCode(c)) == c
  {
  }

  lemma PktTypeRoundTrip(t: PktType)
    ensures PktTypeFromByte(PktTypeCode(t)) == t
  {
  }

  datatype OpCode = Plain | Encrypted

  function OpCodeByte(op: OpCode): byte {
    match op
    case Plain => 1
    case Encrypted => 2
  }

  /* ---- CRC-16/ARC: reflected polynomial 0xA001, initial value 0 ---- */

  /**
   * One bit of the CRC shift register: shift right, and XOR the polynomial in
   * when the bit shifted out was set (written with a mask instead of a branch;
   * CrcShiftBranch shows the two agree).
   */
  function CrcShift(crc: bv16): bv16 {
    (crc >> 1) ^ ((0 - (crc & 1)) & 0xA001)
  }

  lemma CrcShiftBranch(crc: bv16)
    ensures CrcShift(crc) == if crc & 1 != 0 then (crc >> 1) ^ 0xA001 else crc >> 1
  {
    var low := crc & 1;
    assert low == 0 || low == 1;
    if low == 1 {
      assert 0 - low == 0xFFFF;
    } else {
      assert 0 - low == 0;
    }
  }

  /** `k` shifts of the register. */
  function CrcShifts(crc: bv16, k: nat): bv16
    decreases k
  {
    if k == 0 then crc else CrcShift(CrcShifts(crc, k - 1))
  }

  /** The register after absorbing one byte. */
  function CrcByte(crc: bv16, b: byte): bv16 {
    CrcShifts(crc ^ (b as bv16), 8)
  }

  /** CRC-16/ARC of a byte string, absorbing bytes front to back from 0. */
  function Crc16(data: seq<byte>): bv16
    decreases |data|
  {
    if |data| == 0 then 0 else CrcByte(Crc16(data[..|data| - 1]), data[|data| - 1])
  }

  function Crc16Value(data: seq<byte>): u16 {
    Crc16(data) as int
  }

  lemma Crc16Snoc(data: seq<byte>, i: nat)
    requires i < |data|
    ensures Crc16(data[..i + 1]) == CrcByte(Crc16(data[..i]), data[i])
  {
    assert data[..i + 1][..i] == data[..i];
  }

  /** `crc16_arc`: the loop over the bytes. */
  method Crc16Arc(data: seq<byte>) returns (crc: u16)
    ensures crc == Crc16Value(data)
  {
    var reg: bv16 := 0;
    for i := 0 to |data|
      invariant reg == Crc16(data[..i])
    {
      Crc16Snoc(data, i);
      reg := CrcAbsorb(reg, data[i]);
    }
    assert data[..|data|] == data;
    crc := reg as int;
  }

  /** The body of the byte loop of `crc16_arc`: XOR the byte in, then eight shifts. */
  method CrcAbsorb(crc: bv16, b: byte) returns (reg: bv16)
    ensures reg == CrcByte(crc, b)
  {
    reg := crc ^ (b as bv16);
    ghost var start := reg;
    for k := 0 to 8
      invariant reg == CrcShifts(start, k)
    {
      CrcShiftBranch(reg);
      reg := if reg & 1 != 0 then (reg >> 1) ^ 0xA001 else reg >> 1;
    }
  }

  lemma Crc16Empty()
    ensures Crc16Value([]) == 0
  {
  }

  lemma {:induction false} ShiftsCompose(x: bv16, a: nat, b: nat)
    ensures CrcShifts(CrcShifts(x, a), b) == CrcShifts(x, a + b)
    decreases b
  {
    if b > 0 { ShiftsCompose(x, a, b - 1); }
  }

  lemma HalfBytes(crc: bv16, b: byte, x: bv16, y: bv16, z: bv16)
    requires x == crc ^ (b as bv16) && CrcShifts(x, 4) == y && CrcShifts(y, 4) == z
    ensures CrcByte(crc, b) == z
  {
    ShiftsCompose(x, 4, 4);
  }

  /** Register values while computing the check value over "123456789". */
  const CheckRegs: seq<bv16> := [0, 0xD4C1, 0x4594, 0xBA04, 0x14BA, 0xA455, 0x29E4, 0x9D68, 0x3C9D, 0xBB3D]
  const CheckInput: seq<byte> := [0x31, 0x32, 0x33, 0x34, 0x35, 0x36, 0x37, 0x38, 0x39]

  lemma CheckByte0() ensures CrcByte(0x0000, 0x31) == 0xD4C1 { HalfBytes(0x0000, 0x31, 0x0031, 0xCC02, 0xD4C1); }
  lemma CheckByte1() ensures CrcByte(0xD4C1, 0x32) == 0x4594 { HalfBytes(0xD4C1, 0x32, 0xD4F3, 0x194F, 0x4594); }
  lemma CheckByte2() ensures CrcByte(0x4594, 0x33) == 0xBA04 { HalfBytes(0x4594, 0x33, 0x45A7, 0xE05B, 0xBA04); }
  lemma CheckByte3() ensures CrcByte(0xBA04, 0x34) == 0x14BA { HalfBytes(0xBA04, 0x34, 0xBA30, 0x0BA3, 0x14BA); }
  lemma CheckByte4() ensures CrcByte(0x14BA, 0x35) == 0xA455 { HalfBytes(0x14BA, 0x35, 0x148F, 0x4548, 0xA455); }
  lemma CheckByte5() ensures CrcByte(0xA455, 0x36) == 0x29E4 { HalfBytes(0xA455, 0x36, 0xA463, 0x1E46, 0x29E4); }
  lemma CheckByte6() ensures CrcByte(0x29E4, 0x37) == 0x9D68 { HalfBytes(0x29E4, 0x37, 0x29D3, 0x169D, 0x9D68); }
  lemma CheckByte7() ensures CrcByte(0x9D68, 0x38) == 0x3C9D { HalfBytes(0x9D68, 0x38, 0x9D50, 0x09D5, 0x3C9D); }
  lemma CheckByte8() ensures CrcByte(0x3C9D, 0x39) == 0xBB3D { HalfBytes(0x3C9D, 0x39, 0x3CA4, 0xF3CB, 0xBB3D); }

  lemma CheckStep(i: nat)
    requires i < 9
    ensures CrcByte(CheckRegs[i], CheckInput[i]) == CheckRegs[i + 1]
  {
    if i == 0 { CheckByte0(); }
    else if i == 1 { CheckByte1(); }
    else if i == 2 { CheckByte2(); }
    else if i == 3 { CheckByte3(); }
    else if i == 4 { CheckByte4(); }
    else if i == 5 { CheckByte5(); }
    else if i == 6 { CheckByte6(); }
    else if i == 7 { CheckByte7(); }
    else { CheckByte8(); }
  }

  lemma CheckPrefix(s: seq<byte>, n: nat)
    requires s == CheckInput && n <= 9
    ensures Crc16(s[..n]) == CheckRegs[n]
    decreases n
  {
    if n > 0 {
      CheckPrefix(s, n - 1);
      Crc16Snoc(s, n - 1);
      CheckStep(n - 1);
    }
  }

  /** The standard check value of CRC-16/ARC: the CRC of ASCII "123456789" is 0xBB3D. */
  lemma Crc16CheckValue()
    ensures Crc16Value(CheckInput) == 0xBB3D
  {
    CheckPrefix(CheckInput, 9);
    assert CheckInput[..9] == CheckInput;
  }

  /* ---- frames ---- */

  datatype MiWearPacket = MiWearPacket(pktType: PktType, seqNo: byte, body: seq<byte>)

  /** `encode`: the body length is truncated to 16 bits as `as u16` does. */
  function Encode(p: MiWearPacket): (r: seq<byte>)
    ensures |r| == HEADER_LEN + |p.body|
    ensures r[..2] == MAGIC && r[2] == PktTypeCode(p.pktType) && r[3] == p.seqNo
    ensures r[4..6] == U16Le(|p.body| % 0x1_0000)
    ensures r[6..8] == U16Le(Crc16Value(p.body))
    ensures r[HEADER_LEN..] == p.body
  {
    MAGIC + [PktTypeCode(p.pktType), p.seqNo] + U16Le(|p.body| % 0x1_0000) + U16Le(Crc16Value(p.body)) + p.body
  }

  /** `parse`: one frame at the start of `buf`; bytes after the frame are ignored. */
  function Parse(buf: seq<byte>): (r: Result<MiWearPacket>)
    ensures |buf| < HEADER_LEN ==> r == Err("Incomplete header")
    ensures |buf| >= HEADER_LEN && buf[..2] != MAGIC ==> r == Err("Magic mismatch")
    ensures r.Ok? ==> |r.value.body| < 0x1_0000 && HEADER_LEN + |r.value.body| <= |buf|
  {
    if |buf| < HEADER_LEN then Err("Incomplete header")
    else if buf[..2] != MAGIC then Err("Magic mismatch")
    else
      var len := ReadU16Le(buf[4], buf[5]);
      var frameSz := HEADER_LEN + len;
      if |buf| < frameSz then Err("Incomplete frame")
      else if ReadU16Le(buf[6], buf[7]) != Crc16Value(buf[HEADER_LEN..frameSz]) then Err("CRC mismatch")
      else Ok(MiWearPacket(PktTypeFromByte(buf[2]), buf[3], buf[HEADER_LEN..frameSz]))
  }

  /** An accepted frame starts with the magic, and its header describes the body that follows it. */
  lemma ParseAccepted(buf: seq<byte>)
    requires Parse(buf).Ok?
    ensures var p := Parse(buf).value; var n := |p.body|;
      buf[..2] == MAGIC && ReadU16Le(buf[4], buf[5]) == n
      && buf[HEADER_LEN..HEADER_LEN + n] == p.body
      && ReadU16Le(buf[6], buf[7]) == Crc16Value(p.body)
      && p.seqNo == buf[3] && p.pktType == PktTypeFromByte(buf[2])
  {
  }

  /** A frame that declares more body than the buffer holds, or whose CRC is wrong, is rejected. */
  lemma ParseRejects(buf: seq<byte>)
    requires |buf| >= HEADER_LEN && buf[..2] == MAGIC
    ensures |buf| < HEADER_LEN + ReadU16Le(buf[4], buf[5]) ==> Parse(buf) == Err("Incomplete frame")
    ensures HEADER_LEN + ReadU16Le(buf[4], buf[5]) <= |buf|
      && ReadU16Le(buf[6], buf[7]) != Crc16Value(buf[HEADER_LEN..HEADER_LEN + ReadU16Le(buf[4], buf[5])])
      ==> Parse(buf) == Err("CRC mismatch")
  {
  }

  /** Encoding then parsing gives the packet back, whatever follows the frame. */
  lemma ParseEncode(p: MiWearPacket, rest: seq<byte>)
    requires |p.body| < 0x1_0000
    ensures Parse(Encode(p) + rest) == Ok(p)
  {
    hide Crc16Value;
    var buf := Encode(p) + rest;
    var e := Encode(p);
    assert buf[..|e|] == e;
    assert buf[..2] == e[..2];
    assert buf[4..6] == e[4..6] && buf[6..8] == e[6..8];
    assert ReadU16Le(buf[4], buf[5]) == |p.body|;
    assert buf[HEADER_LEN..HEADER_LEN + |p.body|] == e[HEADER_LEN..] == p.body;
    PktTypeRoundTrip(p.pktType);
  }

  /* ---- batch parsing ---- */

  /** `iter().position(|&b| b == x)` */
  function Position(s: seq<byte>, x: byte): (r: Option<nat>)
    ensures r.None? <==> x !in s
    ensures r.Some? ==> r.value < |s| && s[r.value] == x && x !in s[..r.value]
    decreases |s|
  {
    if |s| == 0 then None
    else if s[0] == x then Some(0)
    else match Position(s[1..], x)
      case None => None
      case Some(i) => assert s[1..][..i] == s[1..i + 1]; Some(i + 1)
  }

  predicate StartsWithMagic(s: seq<byte>) {
    |s| >= 2 && s[..2] == MAGIC
  }

  /**
   * What `parse_all` returns for the buffer suffix it has still to scan: a
   * frame at a magic start, otherwise a jump to the next 0xA5 after the
   * current byte, otherwise "Magic not found".
   */
  function ParseAllSpec(buf: seq<byte>): Result<seq<MiWearPacket>>
    decreases |buf|
  {
    if |buf| == 0 then Ok([])
    else if StartsWithMagic(buf) then
      match Parse(buf)
      case Err(e) => Err(e)
      case Ok(p) =>
        match ParseAllSpec(buf[HEADER_LEN + |p.body|..])
        case Err(e) => Err(e)
        case Ok(ps) => Ok([p] + ps)
    else
      match Position(buf[1..], 0xA5)
      case None => Err("Magic not found")
      case Some(rel) => ParseAllSpec(buf[rel + 1..])
  }

  function Prepend(ps: seq<MiWearPacket>, r: Result<seq<MiWearPacket>>): Result<seq<MiWearPacket>> {
    match r
    case Err(e) => Err(e)
    case Ok(qs) => Ok(ps + qs)
  }

  lemma PrependAssoc(ps: seq<MiWearPacket>, qs: seq<MiWearPacket>, r: Result<seq<MiWearPacket>>)
    ensures Prepend(ps, Prepend(qs, r)) == Prepend(ps + qs, r)
  {
    if r.Ok? {
      assert ps + (qs + r.value) == (ps + qs) + r.value;
    }
  }

  /** One frame at the front: the batch result is that packet followed by the rest. */
  lemma ParseAllSpecFrame(buf: seq<byte>)
    requires StartsWithMagic(buf) && Parse(buf).Ok?
    ensures HEADER_LEN + |Parse(buf).value.body| <= |buf|
    ensures ParseAllSpec(buf)
      == Prepend([Parse(buf).value], ParseAllSpec(buf[HEADER_LEN + |Parse(buf).value.body|..]))
  {
    hide Crc16Value;
  }

  /** No magic at the front: the batch resumes at the next 0xA5. */
  lemma ParseAllSpecSkip(buf: seq<byte>, rel: nat)
    requires |buf| > 0 && !StartsWithMagic(buf) && Position(buf[1..], 0xA5) == Some(rel)
    ensures ParseAllSpec(buf) == ParseAllSpec(buf[rel + 1..])
  {
    hide Crc16Value;
  }

  lemma ParseAllSpecLost(buf: seq<byte>)
    requires |buf| > 0 && !StartsWithMagic(buf) && Position(buf[1..], 0xA5).None?
    ensures ParseAllSpec(buf) == Err("Magic not found")
  {
    hide Crc16Value;
  }

  lemma ParseAllSpecEmpty(buf: seq<byte>)
    requires |buf| == 0
    ensures ParseAllSpec(buf) == Ok([])
  {
  }

  /** `parse_all`: the scanning loop over `idx`. */
  method ParseAll(buf: seq<byte>) returns (r: Result<seq<MiWearPacket>>)
    ensures r == ParseAllSpec(buf)
  {
    hide ParseAllSpec, Parse, Position, Crc16Value;
    var packets: seq<MiWearPacket> := [];
    var idx := 0;
    assert buf[idx..] == buf;
    assert forall qs: seq<MiWearPacket> :: packets + qs == qs;
    while idx < |buf|
      invariant idx <= |buf|
      invariant ParseAllSpec(buf) == Prepend(packets, ParseAllSpec(buf[idx..]))
      decreases |buf| - idx
    {
      var rest := buf[idx..];
      if !StartsWithMagic(rest) {
        var pos := Position(buf[idx + 1..], 0xA5);
        assert rest[1..] == buf[idx + 1..];
        if pos.None? {
          ParseAllSpecLost(rest);
          return Err("Magic not found");
        }
        ParseAllSpecSkip(rest, pos.value);
        assert rest[pos.value + 1..] == buf[idx + pos.value + 1..];
        idx := idx + pos.value + 1;
        continue;
      }
      var pkt := Parse(rest);
      if pkt.Err? {
        ParseAllBadFrame(rest);
        return Err(pkt.error);
      }
      var frameSz := HEADER_LEN + |pkt.value.body|;
      ParseAllSpecFrame(rest);
      assert rest[frameSz..] == buf[idx + frameSz..];
      PrependAssoc(packets, [pkt.value], ParseAllSpec(buf[idx + frameSz..]));
      packets := packets + [pkt.value];
      idx := idx + frameSz;
    }
    ParseAllSpecEmpty(buf[idx..]);
    assert packets + [] == packets;
    r := Ok(packets);
  }

  function EncodeAll(ps: seq<MiWearPacket>): seq<byte>
    decreases |ps|
  {
    if |ps| == 0 then [] else Encode(ps[0]) + EncodeAll(ps[1..])
  }

  /** Parsing a concatenation of encoded frames gives the packets back in order. */
  lemma {:induction false} ParseAllEncodeAll(ps: seq<MiWearPacket>)
    requires forall i :: 0 <= i < |ps| ==> |ps[i].body| < 0x1_0000
    ensures ParseAllSpec(EncodeAll(ps)) == Ok(ps)
    decreases |ps|
  {
    hide Crc16Value;
    if |ps| > 0 {
      var buf := EncodeAll(ps);
      var e := Encode(ps[0]);
      ParseEncode(ps[0], EncodeAll(ps[1..]));
      assert buf[..2] == e[..2];
      assert buf[HEADER_LEN + |ps[0].body|..] == EncodeAll(ps[1..]);
      ParseAllEncodeAll(ps[1..]);
      assert [ps[0]] + ps[1..] == ps;
    }
  }

  /** The first occurrence is the one `Position` reports. */
  lemma {:induction false} PositionIs(s: seq<byte>, x: byte, k: nat)
    requires k < |s| && s[k] == x && x !in s[..k]
    ensures Position(s, x) == Some(k)
    decreases k
  {
    if k > 0 {
      assert s[..k][0] == s[0];
      assert s[1..][..k - 1] == s[..k][1..];
      PositionIs(s[1..], x, k - 1);
    }
  }

  /** Leading bytes that hold no 0xA5 are skipped. */
  lemma ParseAllSkipsJunk(junk: seq<byte>, rest: seq<byte>)
    requires |junk| > 0 && 0xA5 !in junk
    requires |rest| > 0 && rest[0] == 0xA5
    ensures ParseAllSpec(junk + rest) == ParseAllSpec(rest)
  {
    hide ParseAllSpec, Parse;
    var buf := junk + rest;
    assert buf[0] == junk[0];
    var tail := buf[1..];
    assert tail == junk[1..] + rest;
    assert tail[..|junk| - 1] == junk[1..];
    assert junk == [junk[0]] + junk[1..];
    PositionIs(tail, 0xA5, |junk| - 1);
    ParseAllSpecSkip(buf, |junk| - 1);
    assert buf[|junk|..] == rest;
  }

  /** A buffer with no 0xA5 at all fails with "Magic not found". */
  lemma ParseAllNoMagic(buf: seq<byte>)
    requires |buf| > 0 && 0xA5 !in buf
    ensures ParseAllSpec(buf) == Err("Magic not found")
  {
    assert buf[0] != 0xA5;
    assert forall i :: 0 <= i < |buf[1..]| ==> buf[1..][i] == buf[i + 1];
  }

  /** A magic start that does not parse fails the whole batch. */
  lemma ParseAllBadFrame(buf: seq<byte>)
    requires StartsWithMagic(buf) && Parse(buf).Err?
    ensures ParseAllSpec(buf) == Err(Parse(buf).error)
  {
  }

  /* ---- Data frames ---- */

  datatype PacketPayload = PacketPayload(channel: Channel, opcode: OpCode, data: seq<byte>)

  /** `data_fields` */
  function DataFields(p: MiWearPacket): (r: Option<PacketPayload>)
    ensures r.Some? <==> p.pktType == Data && |p.body| >= 2 && (p.body[1] == 1 || p.body[1] == 2)
    ensures r.Some? ==>
      ChannelCode(r.value.channel) == p.body[0] || (p.body[0] !in {1, 2, 3, 4, 5, 6, 7, 8, 9} && r.value.channel == Pb)
    ensures r.Some? ==> OpCodeByte(r.value.opcode) == p.body[1] && [p.body[0], p.body[1]] + r.value.data == p.body
  {
    if p.pktType != Data || |p.body| < 2 then None
    else
      var ch := ChannelFromByte(p.body[0]);
      match p.body[1]
      case 1 => Some(PacketPayload(ch, Plain, p.body[2..]))
      case 2 => Some(PacketPayload(ch, Encrypted, p.body[2..]))
      case _ => None
  }

  /** `new_data`: a Data frame whose body is `channel | opcode | payload`. */
  function NewData(seqNo: byte, channel: Channel, op: OpCode, payload: seq<byte>): (p: MiWearPacket)
    ensures p.pktType == Data && p.seqNo == seqNo && |p.body| == 2 + |payload|
  {
    MiWearPacket(Data, seqNo, [ChannelCode(channel), OpCodeByte(op)] + payload)
  }

  lemma DataFieldsNewData(seqNo: byte, channel: Channel, op: OpCode, payload: seq<byte>)
    ensures DataFields(NewData(seqNo, channel, op, payload)) == Some(PacketPayload(channel, op, payload))
  {
    var p := NewData(seqNo, channel, op, payload);
    assert p.body[2..] == payload;
    ChannelRoundTrip(channel);
  }
}

=== FILE: pathhelper.dfy ===
/**
 * `getFilenameFromPath`: the last segment of a URI-decoded path, with both
 * '/' and '\' taken as separators.
 */
module PathHelper {
  import opened Wrappers

  predicate IsSeparator(c: char) {
    c == '/' || c == '\\'
  }

  /** `s.split(/[\\/]/)`: the pieces between separators, built from the end. */
  function SplitPath(s: string): (r: seq<string>)
    ensures |r| > 0
    decreases |s|
  {
    if |s| == 0 then [""]
    else
      var last := s[|s| - 1];
      var t := SplitPath(s[..|s| - 1]);
      if IsSeparator(last) then t + [""] else t[..|t| - 1] + [t[|t| - 1] + [last]]
  }

  function Last(parts: seq<string>): string
    requires |parts| > 0
  {
    parts[|parts| - 1]
  }

  predicate NoSeparator(p: string) {
    forall i :: 0 <= i < |p| ==> !IsSeparator(p[i])
  }

  /** No piece holds a separator. */
  lemma {:induction false} SplitPathPieces(s: string)
    ensures forall k :: 0 <= k < |SplitPath(s)| ==> NoSeparator(SplitPath(s)[k])
    decreases |s|
  {
    if |s| > 0 {
      var init := s[..|s| - 1];
      var c := s[|s| - 1];
      SplitPathPieces(init);
      var t := SplitPath(init);
      var r := SplitPath(s);
      if !IsSeparator(c) {
        var l := t[|t| - 1];
        assert NoSeparator(l);
        assert NoSeparator(l + [c]);
        assert r == t[..|t| - 1] + [l + [c]];
      } else {
        assert r == t + [""];
      }
    }
  }

  /**
   * The last piece is what follows the last separator: it ends the string,
   * and what comes before it is empty or ends in a separator.
   */
  lemma {:induction false} SplitPathLast(s: string)
    ensures |Last(SplitPath(s))| <= |s| && s[|s| - |Last(SplitPath(s))|..] == Last(SplitPath(s))
    ensures |Last(SplitPath(s))| < |s| ==> IsSeparator(s[|s| - |Last(SplitPath(s))| - 1])
    decreases |s|
  {
    if |s| > 0 {
      var init := s[..|s| - 1];
      var c := s[|s| - 1];
      SplitPathLast(init);
      LastStep(s);
      hide SplitPath, Last;
      var l := Last(SplitPath(init));
      if !IsSeparator(c) {
        var n := |init| - |l|;
        assert init[n..] == l;
        assert s[n..] == l + [c] by {
          forall k | 0 <= k < |l| + 1 ensures s[n..][k] == (l + [c])[k] {
            if k < |l| {
              assert s[n + k] == init[n + k] == l[k];
            }
          }
        }
        if n > 0 {
          assert s[n - 1] == init[n - 1];
        }
      }
    }
  }

  /** How the last piece grows by one character. */
  lemma LastStep(s: string)
    requires |s| > 0
    ensures Last(SplitPath(s)) == if IsSeparator(s[|s| - 1]) then "" else Last(SplitPath(s[..|s| - 1])) + [s[|s| - 1]]
  {
  }

  /**
   * The filename of `path`. `decode` is `decodeURIComponent`: `None` stands
   * for the URIError it throws on a malformed escape, which propagates to
   * the caller as `Err`. An empty path gives `Ok(None)` (undefined).
   */
  function GetFilename(path: string, decode: string -> Option<string>): (r: Result<Option<string>>)
    ensures path == "" <==> r == Ok(None)
    ensures r.Err? <==> path != "" && decode(path).None?
    ensures r.Ok? && path != "" ==> r.value == Some(Last(SplitPath(decode(path).value)))
  {
    if path == "" then Ok(None)
    else match decode(path)
      case None => Err("URIError: URI malformed")
      case Some(decoded) => Ok(Some(Last(SplitPath(decoded))))
  }

  /**
   * For a non-empty path that decodes, the filename is defined, holds no
   * separator, is the end of the decoded path right after its last
   * separator, and is empty when the decoded path ends in a separator.
   */
  lemma FilenameProperties(path: string, decode: string -> Option<string>)
    requires path != "" && decode(path).Some?
    ensures var d := decode(path).value;
      var f := Last(SplitPath(d));
      GetFilename(path, decode) == Ok(Some(f)) && NoSeparator(f) &&
      |f| <= |d| && d[|d| - |f|..] == f &&
      (|f| < |d| ==> IsSeparator(d[|d| - |f| - 1])) &&
      (|d| > 0 && IsSeparator(d[|d| - 1]) ==> f == "")
  {
    var d := decode(path).value;
    SplitPathPieces(d);
    SplitPathLast(d);
    var t := SplitPath(d);
    var f := Last(t);
    assert NoSeparator(t[|t| - 1]);
    if |f| > 0 {
      assert d[|d| - 1] == d[|d| - |f|..][|f| - 1] == f[|f| - 1];
    }
  }
}

=== FILE: permission.dfy ===
/**
 * The permission rule applied whenever a plugin calls a guarded API: the
 * plugin's manifest lists its permissions, "debug" stands for every
 * permission in a debug build, and is refused outright in a release build.
 */
module Permission {
  import opened Wrappers

  const DEBUG_PERMISSION := "debug"

  /** The two errors the check can throw into the plugin. */
  datatype PermissionError = DebugDisabled | Denied(permission: string)

  /** The text of each error. */
  function Message(e: PermissionError): string {
    match e
    case DebugDisabled => "debug permission are disabled in release build"
    case Denied(p) => "permission denied: " + p
  }

  /**
   * `plugin_permission_check`. `listed` is the calling plugin's manifest
   * permissions, or `None` when no plugin of that name is loaded (or the
   * plugin manager could not be reached); `None` as the result means the
   * call may proceed, `Some(e)` is the error thrown into the plugin, with text `Message(e)`.
   *
   * A call is allowed exactly when the plugin is known and, in a debug
   * build, lists the permission or "debug", or, in a release build, lists
   * the permission and the permission is not "debug". Every refusal that
   * involves "debug" in a release build carries the debug-disabled message,
   * every other refusal names the permission.
   */
  function PermissionCheck(listed: Option<seq<string>>, permission: string, debugBuild: bool): (r: Option<PermissionError>)
    ensures r.None? <==>
      (listed.Some? &&
       if debugBuild then permission in listed.value || DEBUG_PERMISSION in listed.value
       else permission in listed.value && permission != DEBUG_PERMISSION)
    ensures r.Some? ==> r.value == DebugDisabled || r.value == Denied(permission)
    ensures r == Some(DebugDisabled) <==>
      (!debugBuild &&
       (permission == DEBUG_PERMISSION || (listed.Some? && DEBUG_PERMISSION in listed.value && permission !in listed.value)))
  {
    var debug := listed.Some? && DEBUG_PERMISSION in listed.value;
    var checked := listed.Some? && permission in listed.value;
    var result := debug || checked;
    if (permission == DEBUG_PERMISSION && !debugBuild) || (!checked && debug && !debugBuild) then Some(DebugDisabled)
    else if result then None
    else Some(Denied(permission))
  }

  /** A plugin that is not loaded is never allowed anything. */
  lemma UnknownPluginDenied(permission: string, debugBuild: bool)
    ensures PermissionCheck(None, permission, debugBuild) ==
      if permission == DEBUG_PERMISSION && !debugBuild then Some(DebugDisabled) else Some(Denied(permission))
  {
  }

  /** In a debug build, holding "debug" grants every permission. */
  lemma DebugGrantsAll(listed: seq<string>, permission: string)
    requires DEBUG_PERMISSION in listed
    ensures PermissionCheck(Some(listed), permission, true) == None
  {
  }

  /** In a release build, "debug" without the permission itself yields the debug-disabled error, never a grant. */
  lemma ReleaseDebugRefused(listed: seq<string>, permission: string)
    requires DEBUG_PERMISSION in listed && permission !in listed
    ensures PermissionCheck(Some(listed), permission, false) == Some(DebugDisabled)
  {
  }
}

=== FILE: pluginstore.dfy ===
/**
 * The official plugin store: repository and folder URLs normalised to raw
 * GitHub file URLs, the searchable list of plugin manifests, sorting by
 * name, pagination with every file URL rewritten, lookup and totals.
 */
module PluginStore {
  import opened Wrappers
  import opened Strings
  import opened Community

  const GITHUB_PREFIX := "https://github.com/"

  /** `s.trim_end_matches('/') + "/"`: the text with exactly one trailing slash. */
  function WithOneSlash(s: string): (r: string)
    ensures |r| > 0 && r[|r| - 1] == '/'
    ensures |r| == 1 || r[|r| - 2] != '/'
    ensures r[..|r| - 1] <= s
    ensures forall i :: |r| - 1 <= i < |s| ==> s[i] == '/'
  {
    TrimEndChar(s, '/') + "/"
  }

  /** Normalising twice is normalising once; so the store's base is stable. */
  lemma WithOneSlashIdempotent(s: string)
    ensures WithOneSlash(WithOneSlash(s)) == WithOneSlash(s)
  {
    var t := TrimEndChar(s, '/');
    var u := t + "/";
    assert u[..|u| - 1] == t;
  }

  /** Extra trailing slashes make no difference. */
  lemma WithOneSlashTrailing(s: string)
    ensures WithOneSlash(s + "/") == WithOneSlash(s)
  {
    assert (s + "/")[..|s|] == s;
  }

  /** The raw location of a plugin repository, always ending in '/'. */
  function ToRaw(repo: string): (r: string)
    ensures |r| > 0 && r[|r| - 1] == '/'
    ensures StartsWith(repo, RAW_PREFIX) || !StartsWith(repo, GITHUB_PREFIX) ==> r == WithOneSlash(repo)
  {
    if StartsWith(repo, RAW_PREFIX) then WithOneSlash(repo)
    else if StartsWith(repo, GITHUB_PREFIX) then ReplaceAll(TrimEndChar(repo, '/'), GITHUB_PREFIX, RAW_PREFIX) + REFS_MAIN
    else WithOneSlash(repo)
  }

  /** A GitHub repository page becomes the raw host plus its main branch. */
  lemma ToRawGithub(path: string)
    requires |path| > 0 && path[|path| - 1] != '/'
    requires !Contains(path, GITHUB_PREFIX)
    ensures ToRaw(GITHUB_PREFIX + path) == RAW_PREFIX + path + REFS_MAIN
  {
    var repo := GITHUB_PREFIX + path;
    GithubIsNotRaw(path);
    assert StartsWith(repo, GITHUB_PREFIX) by {
      assert repo[..|GITHUB_PREFIX|] == GITHUB_PREFIX;
    }
    assert TrimEndChar(repo, '/') == repo;
    ReplaceGithubPrefix(path);
  }

  lemma PrefixesDiffer()
    ensures GITHUB_PREFIX[8] == 'g' && RAW_PREFIX[8] == 'r'
  {
  }

  lemma GithubIsNotRaw(path: string)
    ensures !StartsWith(GITHUB_PREFIX + path, RAW_PREFIX)
  {
    var repo := GITHUB_PREFIX + path;
    PrefixesDiffer();
    assert repo[8] == GITHUB_PREFIX[8];
  }

  lemma ReplaceGithubPrefix(path: string)
    requires !Contains(path, GITHUB_PREFIX)
    ensures ReplaceAll(GITHUB_PREFIX + path, GITHUB_PREFIX, RAW_PREFIX) == RAW_PREFIX + path
  {
    var repo := GITHUB_PREFIX + path;
    assert StartsWith(repo, GITHUB_PREFIX) by {
      assert repo[..|GITHUB_PREFIX|] == GITHUB_PREFIX;
    }
    assert repo[|GITHUB_PREFIX|..] == path;
    ReplaceAllAbsent(path, GITHUB_PREFIX, RAW_PREFIX);
  }

  /** Once the repository text is long enough to be told apart, trailing slashes do not change its raw location. */
  lemma ToRawTrailing(repo: string)
    requires |repo| >= |RAW_PREFIX|
    ensures ToRaw(repo + "/") == ToRaw(repo)
  {
    var s := repo + "/";
    assert s[..|s| - 1] == repo;
    assert s[..|RAW_PREFIX|] == repo[..|RAW_PREFIX|];
    assert s[..|GITHUB_PREFIX|] == repo[..|GITHUB_PREFIX|];
    WithOneSlashTrailing(repo);
  }

  /** `build_file_url`: repository root, folder with one trailing '/', then the file, through the CDN. */
  function BuildFileUrl(cdn: Cdn, repo: string, folder: string, file: string): string {
    ConvertUrl(cdn, ToRaw(repo) + WithOneSlash(folder) + file)
  }

  /** For a GitHub repository on the raw CDN the file sits under the main branch, in its folder. */
  lemma BuildFileUrlGithub(path: string, folder: string, file: string)
    requires |path| > 0 && path[|path| - 1] != '/'
    requires !Contains(path, GITHUB_PREFIX)
    ensures BuildFileUrl(Raw, GITHUB_PREFIX + path, folder, file) ==
      RAW_PREFIX + path + REFS_MAIN + TrimEndChar(folder, '/') + "/" + file
  {
    ToRawGithub(path);
  }

  /** A plugin's manifest as the store lists it. */
  datatype PluginManifest = PluginManifest(
    name: string, icon: string, version: string, description: string, author: string,
    website: string, entry: string, apiLevel: nat, permissions: seq<string>, additionalFiles: seq<string>)

  /** One index entry: the repository it came from, its folder there, and its manifest. */
  datatype Entry = Entry(repo: string, folder: string, manifest: PluginManifest)

  /** The manifest with icon, entry and every additional file turned into download URLs; nothing else changes. */
  function Rewrite(cdn: Cdn, e: Entry): (r: PluginManifest)
    ensures r.icon == BuildFileUrl(cdn, e.repo, e.folder, e.manifest.icon)
    ensures r.entry == BuildFileUrl(cdn, e.repo, e.folder, e.manifest.entry)
    ensures |r.additionalFiles| == |e.manifest.additionalFiles|
    ensures forall k :: 0 <= k < |r.additionalFiles| ==>
      r.additionalFiles[k] == BuildFileUrl(cdn, e.repo, e.folder, e.manifest.additionalFiles[k])
    ensures r.(icon := e.manifest.icon, entry := e.manifest.entry, additionalFiles := e.manifest.additionalFiles) == e.manifest
  {
    var m := e.manifest;
    var files := seq(|m.additionalFiles|, k requires 0 <= k < |m.additionalFiles| =>
      BuildFileUrl(cdn, e.repo, e.folder, m.additionalFiles[k]));
    m.(icon := BuildFileUrl(cdn, e.repo, e.folder, m.icon),
       entry := BuildFileUrl(cdn, e.repo, e.folder, m.entry),
       additionalFiles := files)
  }

  predicate NameMatches(e: Entry, filter: Option<string>) {
    filter.None? || FuzzyMatch(e.manifest.name, filter.value)
  }

  /** The entries whose names match the keyword, in index order. */
  function FilterByName(idx: seq<Entry>, filter: Option<string>): (r: seq<Entry>)
    ensures |r| <= |idx|
    ensures forall e :: e in r <==> e in idx && NameMatches(e, filter)
    decreases |idx|
  {
    if |idx| == 0 then []
    else
      var init := FilterByName(idx[..|idx| - 1], filter);
      var last := idx[|idx| - 1];
      assert forall e :: e in idx <==> e in idx[..|idx| - 1] || e == last;
      if NameMatches(last, filter) then init + [last] else init
  }

  /** Names never decrease along the list. */
  predicate SortedByName(s: seq<Entry>) {
    forall i, j :: 0 <= i < j < |s| ==> !StrLt(s[j].manifest.name, s[i].manifest.name)
  }

  /** Insertion after every entry whose name is not greater. */
  function InsertByName(s: seq<Entry>, x: Entry): (r: seq<Entry>)
    ensures |r| == |s| + 1
    decreases |s|
  {
    if |s| == 0 then [x]
    else if StrLt(x.manifest.name, s[0].manifest.name) then [x] + s
    else [s[0]] + InsertByName(s[1..], x)
  }

  /** The list sorted by name, each entry inserted in list order (a stable sort). */
  function SortByName(s: seq<Entry>): (r: seq<Entry>)
    ensures |r| == |s|
    decreases |s|
  {
    if |s| == 0 then [] else InsertByName(SortByName(s[..|s| - 1]), s[|s| - 1])
  }

  /** Insertion adds exactly the new entry. */
  lemma {:induction false} InsertByNameMultiset(s: seq<Entry>, x: Entry)
    ensures multiset(InsertByName(s, x)) == multiset(s) + multiset{x}
    decreases |s|
  {
    if |s| > 0 {
      assert s == [s[0]] + s[1..];
      if !StrLt(x.manifest.name, s[0].manifest.name) {
        InsertByNameMultiset(s[1..], x);
      }
    }
  }

  /** An entry whose name is not greater than any name of a sorted list can go in front. */
  lemma ConsSorted(h: Entry, t: seq<Entry>)
    requires SortedByName(t)
    requires forall k :: 0 <= k < |t| ==> !StrLt(t[k].manifest.name, h.manifest.name)
    ensures SortedByName([h] + t)
  {
    var r := [h] + t;
    forall i, j | 0 <= i < j < |r| ensures !StrLt(r[j].manifest.name, r[i].manifest.name) {
      assert r[j] == t[j - 1];
      if i > 0 {
        assert r[i] == t[i - 1];
      }
    }
  }

  /** In a sorted list no name is below the first. */
  lemma FirstIsLeast(s: seq<Entry>, x: Entry)
    requires SortedByName(s) && |s| > 0 && StrLt(x.manifest.name, s[0].manifest.name)
    ensures forall k :: 0 <= k < |s| ==> !StrLt(s[k].manifest.name, x.manifest.name)
  {
    forall k | 0 <= k < |s| ensures !StrLt(s[k].manifest.name, x.manifest.name) {
      StrLtTotal(s[0].manifest.name, s[k].manifest.name);
      if s[0].manifest.name != s[k].manifest.name {
        StrLtTransitive(x.manifest.name, s[0].manifest.name, s[k].manifest.name);
        StrLtAsymmetric(x.manifest.name, s[k].manifest.name);
      } else {
        StrLtAsymmetric(x.manifest.name, s[0].manifest.name);
      }
    }
  }

  /** Insertion into a sorted list keeps it sorted. */
  lemma {:induction false} InsertByNameSorted(s: seq<Entry>, x: Entry)
    requires SortedByName(s)
    ensures SortedByName(InsertByName(s, x))
    decreases |s|
  {
    if |s| > 0 {
      if StrLt(x.manifest.name, s[0].manifest.name) {
        FirstIsLeast(s, x);
        ConsSorted(x, s);
      } else {
        var t := InsertByName(s[1..], x);
        InsertByNameSorted(s[1..], x);
        InsertByNameMultiset(s[1..], x);
        forall k | 0 <= k < |t| ensures !StrLt(t[k].manifest.name, s[0].manifest.name) {
          var y := t[k];
          assert y in multiset(t);
          if y != x {
            assert y in multiset(s[1..]);
            var j :| 0 <= j < |s[1..]| && s[1..][j] == y;
            assert s[j + 1] == y;
          }
        }
        ConsSorted(s[0], t);
      }
    }
  }

  /** The sort returns a sorted list. */
  lemma {:induction false} SortByNameSorted(s: seq<Entry>)
    ensures SortedByName(SortByName(s))
    decreases |s|
  {
    if |s| > 0 {
      var init := s[..|s| - 1];
      SortByNameSorted(init);
      InsertByNameSorted(SortByName(init), s[|s| - 1]);
    }
  }

  /** The sort returns a permutation of its input. */
  lemma {:induction false} SortByNameMultiset(s: seq<Entry>)
    ensures multiset(SortByName(s)) == multiset(s)
    decreases |s|
  {
    if |s| > 0 {
      var init := s[..|s| - 1];
      var last := s[|s| - 1];
      SortByNameMultiset(init);
      InsertByNameMultiset(SortByName(init), last);
      assert s == init + [last];
    }
  }

  /** The sort returns a sorted permutation of its input. */
  lemma SortByNameProperties(s: seq<Entry>)
    ensures SortedByName(SortByName(s))
    ensures multiset(SortByName(s)) == multiset(s)
  {
    SortByNameSorted(s);
    SortByNameMultiset(s);
  }

  /** Each entry's manifest rewritten, in order. */
  function RewriteAll(cdn: Cdn, s: seq<Entry>): (r: seq<PluginManifest>)
    ensures |r| == |s| && forall k :: 0 <= k < |s| ==> r[k] == Rewrite(cdn, s[k])
  {
    seq(|s|, k requires 0 <= k < |s| => Rewrite(cdn, s[k]))
  }

  /** The manifests `get_page` returns. */
  function PageSpec(cdn: Cdn, idx: seq<Entry>, page: nat, limit: nat, filter: Option<string>): seq<PluginManifest> {
    RewriteAll(cdn, Page(SortByName(FilterByName(idx, filter)), page, limit))
  }

  /**
   * `get_page`: filter by name, sort by name, cut the page and push each
   * manifest with its URLs rewritten.
   */
  method GetPage(cdn: Cdn, idx: seq<Entry>, page: nat, limit: nat, filter: Option<string>) returns (res: seq<PluginManifest>)
    ensures res == PageSpec(cdn, idx, page, limit, filter)
  {
    var filtered := FilterByName(idx, filter);
    var sorted := SortFiltered(filtered);
    var slice := Page(sorted, page, limit);
    res := PushRewritten(cdn, slice);
  }

  /** The loop pushing each manifest of the page, rewritten, into the result. */
  method PushRewritten(cdn: Cdn, slice: seq<Entry>) returns (res: seq<PluginManifest>)
    ensures res == RewriteAll(cdn, slice)
  {
    hide Rewrite, BuildFileUrl, ConvertUrl;
    res := [];
    for j := 0 to |slice|
      invariant |res| == j
      invariant forall k :: 0 <= k < j ==> res[k] == Rewrite(cdn, slice[k])
    {
      res := res + [Rewrite(cdn, slice[j])];
    }
  }

  /** The `sort_by` on the filtered entries, one insertion at a time. */
  method SortFiltered(filtered: seq<Entry>) returns (sorted: seq<Entry>)
    ensures sorted == SortByName(filtered)
  {
    SortByNameEmpty(filtered[..0]);
    hide SortByName, InsertByName;
    sorted := [];
    for i := 0 to |filtered|
      invariant sorted == SortByName(filtered[..i])
    {
      SortByNameSnoc(filtered, i);
      sorted := InsertByName(sorted, filtered[i]);
    }
    assert filtered[..|filtered|] == filtered;
  }

  lemma SortByNameEmpty(s: seq<Entry>)
    requires |s| == 0
    ensures SortByName(s) == []
  {
  }

  /** Sorting one more entry inserts it into the sorted prefix. */
  lemma SortByNameSnoc(s: seq<Entry>, i: nat)
    requires i < |s|
    ensures SortByName(s[..i + 1]) == InsertByName(SortByName(s[..i]), s[i])
  {
    assert s[..i + 1][..i] == s[..i];
  }

  /** Every returned manifest is a rewritten index entry whose name matches, and a page holds at most `limit` of them. */
  lemma PageFromIndex(cdn: Cdn, idx: seq<Entry>, page: nat, limit: nat, filter: Option<string>)
    ensures |PageSpec(cdn, idx, page, limit, filter)| <= limit
    ensures forall j :: 0 <= j < |PageSpec(cdn, idx, page, limit, filter)| ==>
      exists e :: e in idx && NameMatches(e, filter) && PageSpec(cdn, idx, page, limit, filter)[j] == Rewrite(cdn, e)
  {
    hide Rewrite;
    var filtered := FilterByName(idx, filter);
    var sorted := SortByName(filtered);
    var slice := Page(sorted, page, limit);
    var r := PageSpec(cdn, idx, page, limit, filter);
    SortByNameProperties(filtered);
    PageIn(sorted, page, limit);
    forall j | 0 <= j < |r|
      ensures exists e :: e in idx && NameMatches(e, filter) && r[j] == Rewrite(cdn, e)
    {
      var e := slice[j];
      assert e in multiset(sorted);
      assert e in filtered;
    }
  }

  /** The names on a page never decrease. */
  lemma PageSortedByName(cdn: Cdn, idx: seq<Entry>, page: nat, limit: nat, filter: Option<string>)
    ensures forall i, j :: 0 <= i < j < |PageSpec(cdn, idx, page, limit, filter)| ==>
      !StrLt(PageSpec(cdn, idx, page, limit, filter)[j].name, PageSpec(cdn, idx, page, limit, filter)[i].name)
  {
    var slice := Page(SortByName(FilterByName(idx, filter)), page, limit);
    var r := PageSpec(cdn, idx, page, limit, filter);
    SortByNameProperties(FilterByName(idx, filter));
    SortedPage(SortByName(FilterByName(idx, filter)), page, limit);
    forall i, j | 0 <= i < j < |r|
      ensures !StrLt(r[j].name, r[i].name)
    {
      assert r[i].name == slice[i].manifest.name && r[j].name == slice[j].manifest.name;
    }
  }

  /** Every entry of a page is an entry of the list. */
  lemma PageIn<T>(items: seq<T>, page: nat, limit: nat)
    ensures forall j :: 0 <= j < |Page(items, page, limit)| ==> Page(items, page, limit)[j] in items
  {
  }

  /** A page of a list sorted by name is sorted by name. */
  lemma SortedPage(s: seq<Entry>, page: nat, limit: nat)
    requires SortedByName(s)
    ensures SortedByName(Page(s, page, limit))
  {
    var p := Page(s, page, limit);
    forall i, j | 0 <= i < j < |p|
      ensures !StrLt(p[j].manifest.name, p[i].manifest.name)
    {
      assert p[i] == s[page * limit + i] && p[j] == s[page * limit + j];
    }
  }

  /** `get_total_items`: how many entries' names match, or every entry without a keyword. */
  function TotalItems(idx: seq<Entry>, filter: Option<string>): nat
    decreases |idx|
  {
    if |idx| == 0 then 0
    else TotalItems(idx[..|idx| - 1], filter) + (if NameMatches(idx[|idx| - 1], filter) then 1 else 0)
  }

  /** The total is the length of the list `get_page` pages through; without a keyword it is the index size. */
  lemma {:induction false} TotalIsPageSource(idx: seq<Entry>, filter: Option<string>)
    ensures TotalItems(idx, filter) == |SortByName(FilterByName(idx, filter))|
    ensures filter.None? ==> TotalItems(idx, filter) == |idx|
    decreases |idx|
  {
    if |idx| > 0 {
      TotalIsPageSource(idx[..|idx| - 1], filter);
    }
  }

  /** `get_item`'s search: the first entry whose manifest has the name. */
  function FindEntry(idx: seq<Entry>, name: string): (r: Result<Entry>)
    decreases |idx|
  {
    if |idx| == 0 then Err("plugin not found")
    else if idx[0].manifest.name == name then Ok(idx[0])
    else FindEntry(idx[1..], name)
  }

  /** `get_item`: the entry found, with its file references rewritten. */
  function FindPlugin(cdn: Cdn, idx: seq<Entry>, name: string): (r: Result<PluginManifest>)
  {
    match FindEntry(idx, name)
    case Ok(e) => Ok(Rewrite(cdn, e))
    case Err(msg) => Err(msg)
  }

  /** Found exactly when some entry has the name, and then it is the first such entry. */
  lemma {:induction false} FindEntryProperties(idx: seq<Entry>, name: string)
    ensures FindEntry(idx, name).Err? <==> forall i :: 0 <= i < |idx| ==> idx[i].manifest.name != name
    ensures FindEntry(idx, name).Err? ==> FindEntry(idx, name).error == "plugin not found"
    ensures FindEntry(idx, name).Ok? ==>
      (exists i :: 0 <= i < |idx| && idx[i] == FindEntry(idx, name).value && idx[i].manifest.name == name &&
        forall j :: 0 <= j < i ==> idx[j].manifest.name != name)
    decreases |idx|
  {
    if |idx| > 0 && idx[0].manifest.name != name {
      FindEntryProperties(idx[1..], name);
      if FindEntry(idx, name).Ok? {
        var i :| 0 <= i < |idx[1..]| && idx[1..][i] == FindEntry(idx, name).value && idx[1..][i].manifest.name == name &&
          forall j :: 0 <= j < i ==> idx[1..][j].manifest.name != name;
        assert idx[i + 1] == idx[1..][i];
        forall j | 0 <= j < i + 1 ensures idx[j].manifest.name != name {
          if j > 0 { assert idx[j] == idx[1..][j - 1]; }
        }
      } else {
        forall i | 0 <= i < |idx| ensures idx[i].manifest.name != name {
          if i > 0 { assert idx[i] == idx[1..][i - 1]; }
        }
      }
    }
  }

  /** Found exactly when some entry has the name, and then it is the first such entry, rewritten. */
  lemma FindPluginProperties(cdn: Cdn, idx: seq<Entry>, name: string)
    ensures FindPlugin(cdn, idx, name).Err? <==> forall i :: 0 <= i < |idx| ==> idx[i].manifest.name != name
    ensures FindPlugin(cdn, idx, name).Err? ==> FindPlugin(cdn, idx, name).error == "plugin not found"
    ensures FindPlugin(cdn, idx, name).Ok? ==>
      (exists i :: 0 <= i < |idx| && idx[i].manifest.name == name &&
        FindPlugin(cdn, idx, name).value == Rewrite(cdn, idx[i]) &&
        forall j :: 0 <= j < i ==> idx[j].manifest.name != name)
  {
    hide Rewrite;
    FindEntryProperties(idx, name);
  }
}

=== FILE: resutils.dfy ===
/**
 * Resource helpers: classifying a file by its first bytes, its extension and
 * its tail, and reading the watchface ID out of a watchface file. The file's
 * contents (empty when it cannot be read) and its name are inputs.
 */
module ResUtils {
  import opened Wrappers
  import opened Bytes

  /* ---- UTF-8 well-formedness (section 4 of RFC 3629) ---- */

  predicate Tail(b: byte) {
    0x80 <= b <= 0xBF
  }

  /** The length of the well-formed UTF-8 character at the front of `b`, or 0 if there is none. */
  function CharLen(b: seq<byte>): (n: nat)
    requires |b| > 0
    ensures n <= 4 && n <= |b|
  {
    var c := b[0];
    if c <= 0x7F then 1
    else if 0xC2 <= c <= 0xDF then
      if |b| >= 2 && Tail(b[1]) then 2 else 0
    else if 0xE0 <= c <= 0xEF then
      var lo := if c == 0xE0 then 0xA0 else 0x80;
      var hi := if c == 0xED then 0x9F else 0xBF;
      if |b| >= 3 && lo <= b[1] <= hi && Tail(b[2]) then 3 else 0
    else if 0xF0 <= c <= 0xF4 then
      var lo := if c == 0xF0 then 0x90 else 0x80;
      var hi := if c == 0xF4 then 0x8F else 0xBF;
      if |b| >= 4 && lo <= b[1] <= hi && Tail(b[2]) && Tail(b[3]) then 4 else 0
    else 0
  }

  /** `std::str::from_utf8(b).is_ok()`: the bytes are a sequence of well-formed characters. */
  predicate Utf8Valid(b: seq<byte>)
    decreases |b|
  {
    |b| == 0 || (CharLen(b) > 0 && Utf8Valid(b[CharLen(b)..]))
  }

  /** Plain ASCII is valid UTF-8. */
  lemma {:induction false} AsciiIsUtf8(b: seq<byte>)
    requires forall i :: 0 <= i < |b| ==> b[i] < 0x80
    ensures Utf8Valid(b)
    decreases |b|
  {
    if |b| > 0 {
      AsciiIsUtf8(b[1..]);
    }
  }

  /* ---- get_file_type ---- */

  datatype FileType = Null | Abp | QuickApp | Zip | Text | Watchface | Binary

  /** The names the source returns. */
  function FileTypeName(t: FileType): string {
    match t
    case Null => "null"
    case Abp => "abp"
    case QuickApp => "quickapp"
    case Zip => "zip"
    case Text => "text"
    case Watchface => "watchface"
    case Binary => "binary"
  }

  /** Distinct types have distinct names. */
  lemma FileTypeNameInjective(a: FileType, b: FileType)
    ensures FileTypeName(a) == FileTypeName(b) ==> a == b
  {
  }

  const ZIP_MAGIC: seq<byte> := [0x50, 0x4B, 0x03, 0x04]
  const WATCHFACE_MAGIC: seq<byte> := [0x5A, 0xA5, 0x34, 0x12]
  /** "toolkit" in ASCII. */
  const TOOLKIT: seq<byte> := [0x74, 0x6F, 0x6F, 0x6C, 0x6B, 0x69, 0x74]

  predicate HasPrefix(data: seq<byte>, p: seq<byte>) {
    |data| >= |p| && data[..|p|] == p
  }

  /** `p` occurs in `data` at offset `i`. */
  predicate OccursAt(data: seq<byte>, p: seq<byte>, i: nat) {
    i + |p| <= |data| && data[i..i + |p|] == p
  }

  predicate ContainsBytes(data: seq<byte>, p: seq<byte>) {
    exists i: nat | i <= |data| :: OccursAt(data, p, i)
  }

  /** The last 256 bytes, or all of them if there are fewer. */
  function TailBytes(data: seq<byte>): (t: seq<byte>)
    ensures |t| == if |data| > 256 then 256 else |data|
    ensures t == data[|data| - |t|..]
  {
    if |data| > 256 then data[|data| - 256..] else data
  }

  /**
   * `Path::extension` of a file name: the text after its last '.', none when
   * there is no '.' or the only '.' starts the name, and none for "..".
   */
  function Extension(name: string): Option<string> {
    if name == ".." then None
    else LastDot(name, |name|)
  }

  function LastDot(name: string, k: nat): (r: Option<string>)
    requires k <= |name|
    decreases k
  {
    if k == 0 then None
    else if name[k - 1] == '.' then (if k - 1 == 0 then None else Some(name[k..]))
    else LastDot(name, k - 1)
  }

  /**
   * `get_file_type` on the file's bytes and its file name: ZIP content is an
   * "abp" package by extension, a quick app when its tail mentions "toolkit",
   * otherwise a plain zip; then UTF-8 text; then a watchface by magic; then binary.
   */
  function FileTypeOf(data: seq<byte>, fileName: string): (t: FileType)
    ensures t == Null <==> |data| == 0
    ensures t in {Abp, QuickApp, Zip} <==> |data| > 0 && HasPrefix(data, ZIP_MAGIC)
    ensures t == Abp <==> HasPrefix(data, ZIP_MAGIC) && Extension(fileName) == Some("abp")
    ensures t == Text <==> |data| > 0 && !HasPrefix(data, ZIP_MAGIC) && Utf8Valid(data)
  {
    if |data| == 0 then Null
    else if HasPrefix(data, ZIP_MAGIC) then
      if Extension(fileName) == Some("abp") then Abp
      else if ContainsBytes(TailBytes(data), TOOLKIT) then QuickApp
      else Zip
    else if Utf8Valid(data) then Text
    else if HasPrefix(data, WATCHFACE_MAGIC) then Watchface
    else Binary
  }

  /** A non-abp ZIP is a quick app exactly when "toolkit" occurs in its last 256 bytes. */
  lemma ZipKinds(data: seq<byte>, fileName: string)
    requires HasPrefix(data, ZIP_MAGIC) && Extension(fileName) != Some("abp")
    ensures FileTypeOf(data, fileName) == QuickApp <==> ContainsBytes(TailBytes(data), TOOLKIT)
    ensures FileTypeOf(data, fileName) == Zip <==> !ContainsBytes(TailBytes(data), TOOLKIT)
  {
  }

  /** Content starting with the watchface magic is never ZIP nor UTF-8, so it is always a watchface. */
  lemma WatchfaceMagic(data: seq<byte>, fileName: string)
    requires HasPrefix(data, WATCHFACE_MAGIC)
    ensures FileTypeOf(data, fileName) == Watchface
  {
    assert data[..4] == WATCHFACE_MAGIC;
    assert data[0] == 0x5A && data[1] == 0xA5;
    assert !HasPrefix(data, ZIP_MAGIC) by {
      assert data[..4][0] != ZIP_MAGIC[0];
    }
    assert CharLen(data) == 1;
    assert data[1..][0] == 0xA5;
    assert CharLen(data[1..]) == 0;
    assert !Utf8Valid(data);
  }

  /** Non-empty ASCII content that is not ZIP is text. */
  lemma AsciiIsText(data: seq<byte>, fileName: string)
    requires |data| > 0 && !HasPrefix(data, ZIP_MAGIC)
    requires forall i :: 0 <= i < |data| ==> data[i] < 0x80
    ensures FileTypeOf(data, fileName) == Text
  {
    AsciiIsUtf8(data);
  }

  /** Positions without a '.' are passed over by the backwards search. */
  lemma {:induction false} LastDotSkips(name: string, j: nat, k: nat)
    requires j <= k <= |name| && forall i :: j <= i < k ==> name[i] != '.'
    ensures LastDot(name, k) == LastDot(name, j)
    decreases k
  {
    if k > j {
      LastDotSkips(name, j, k - 1);
    }
  }

  /**
   * The extension is what follows the last '.': `n + "." + e` has extension
   * `e` for a non-empty stem; a name whose only '.' leads it, or that has no
   * '.', has none.
   */
  lemma ExtensionCases(n: string, e: string)
    requires '.' !in e
    ensures |n| > 0 && n + "." + e != ".." ==> Extension(n + "." + e) == Some(e)
    ensures Extension("." + e) == None
    ensures Extension(e) == None
  {
    var name := n + "." + e;
    if |n| > 0 && name != ".." {
      assert name[|n|] == '.' && name[|n| + 1..] == e;
      LastDotSkips(name, |n| + 1, |name|);
    }
    var lead := "." + e;
    assert lead[0] == '.' && lead[1..] == e;
    LastDotSkips(lead, 1, |lead|);
    LastDotSkips(e, 0, |e|);
  }

  /* ---- get_watchface_id ---- */

  /** `get_watchface_id`: bytes 34 to 49, or nothing for a shorter file. */
  function WatchfaceId(data: seq<byte>): (r: Option<seq<byte>>)
    ensures r.None? <==> |data| < 50
    ensures r.Some? ==> |r.value| == 16 && r.value == data[34..50]
  {
    if |data| < 34 + 16 then None else Some(data[34..34 + 16])
  }
}

=== FILE: strings.dfy ===
/**
 * Text helpers shared by the model. Strings are sequences of characters and
 * the case and whitespace rules are the ASCII ones.
 */
module Strings {
  import opened Wrappers

  predicate StartsWith(s: string, p: string) {
    |p| <= |s| && s[..|p|] == p
  }

  predicate EndsWith(s: string, p: string) {
    |p| <= |s| && s[|s| - |p|..] == p
  }

  /** `str::contains` for a string pattern. */
  predicate Contains(s: string, p: string)
    decreases |s|
  {
    StartsWith(s, p) || (|s| > 0 && Contains(s[1..], p))
  }

  lemma {:induction false} ContainsAt(s: string, p: string, i: nat)
    requires i + |p| <= |s| && s[i..i + |p|] == p
    ensures Contains(s, p)
    decreases i
  {
    if i == 0 {
      assert s[..|p|] == s[0..|p|];
    } else {
      assert s[1..][i - 1..i - 1 + |p|] == s[i..i + |p|];
      ContainsAt(s[1..], p, i - 1);
    }
  }

  /** `str::replace`: every non-overlapping occurrence, scanning left to right. */
  function ReplaceAll(s: string, from: string, to: string): string
    requires |from| > 0
    decreases |s|
  {
    if |s| < |from| then s
    else if StartsWith(s, from) then to + ReplaceAll(s[|from|..], from, to)
    else [s[0]] + ReplaceAll(s[1..], from, to)
  }

  lemma {:induction false} ReplaceAllAbsent(s: string, from: string, to: string)
    requires |from| > 0 && !Contains(s, from)
    ensures ReplaceAll(s, from, to) == s
    decreases |s|
  {
    if |s| >= |from| {
      ReplaceAllAbsent(s[1..], from, to);
      assert [s[0]] + s[1..] == s;
    }
  }

  /** A prefix in which no occurrence of `from` starts is copied through by `ReplaceAll`. */
  lemma {:induction false} ReplaceAllSkip(p: string, q: string, from: string, to: string)
    requires |from| > 0
    requires forall i :: 0 <= i < |p| ==> !StartsWith((p + q)[i..], from)
    ensures ReplaceAll(p + q, from, to) == p + ReplaceAll(q, from, to)
    decreases |p|
  {
    if |p| == 0 {
      assert p + q == q;
    } else {
      var s := p + q;
      assert s[0..] == s;
      if |s| >= |from| {
        assert s[1..] == p[1..] + q;
        forall i | 0 <= i < |p| - 1
          ensures !StartsWith((p[1..] + q)[i..], from)
        {
          assert (p[1..] + q)[i..] == s[i + 1..];
        }
        assert !StartsWith(s, from);
        ReplaceAllSkip(p[1..], q, from, to);
        assert ReplaceAll(s, from, to) == [p[0]] + (p[1..] + ReplaceAll(q, from, to));
        assert [p[0]] + p[1..] == p;
      }
    }
  }

  /** `str::strip_prefix` */
  function StripPrefix(s: string, p: string): (r: Option<string>)
    ensures r.Some? <==> StartsWith(s, p)
    ensures r.Some? ==> p + r.value == s
  {
    if StartsWith(s, p) then Some(s[|p|..]) else None
  }

  /** `str::trim_end_matches(c)` for one character. */
  function TrimEndChar(s: string, c: char): (r: string)
    ensures r <= s
    ensures |r| == 0 || r[|r| - 1] != c
    ensures forall i :: |r| <= i < |s| ==> s[i] == c
    decreases |s|
  {
    if |s| > 0 && s[|s| - 1] == c then TrimEndChar(s[..|s| - 1], c) else s
  }

  predicate IsSpace(ch: char) {
    ch == ' ' || ch == '\t' || ch == '\n' || ch == '\r' || ch == '\U{0B}' || ch == '\U{0C}'
  }

  function TrimStart(s: string): (r: string)
    ensures |r| <= |s| && r == s[|s| - |r|..]
    ensures |r| == 0 || !IsSpace(r[0])
    ensures forall i :: 0 <= i < |s| - |r| ==> IsSpace(s[i])
    decreases |s|
  {
    if |s| > 0 && IsSpace(s[0]) then TrimStart(s[1..]) else s
  }

  function TrimEnd(s: string): (r: string)
    ensures r <= s
    ensures |r| == 0 || !IsSpace(r[|r| - 1])
    ensures forall i :: |r| <= i < |s| ==> IsSpace(s[i])
    decreases |s|
  {
    if |s| > 0 && IsSpace(s[|s| - 1]) then TrimEnd(s[..|s| - 1]) else s
  }

  /** `str::trim` */
  function Trim(s: string): string {
    TrimEnd(TrimStart(s))
  }

  lemma TrimNoSpace(s: string)
    requires forall i :: 0 <= i < |s| ==> !IsSpace(s[i])
    ensures Trim(s) == s
  {
  }

  /** `str::split(sep)` for one character: the pieces between separators. */
  function Split(s: string, sep: char): (r: seq<string>)
    ensures |r| > 0
    decreases |s|
  {
    if |s| == 0 then [""]
    else if s[0] == sep then [""] + Split(s[1..], sep)
    else var t := Split(s[1..], sep); [[s[0]] + t[0]] + t[1..]
  }

  /** Pieces joined with `sep` in between. */
  function Join(parts: seq<string>, sep: char): string
    decreases |parts|
  {
    if |parts| == 0 then ""
    else if |parts| == 1 then parts[0]
    else parts[0] + [sep] + Join(parts[1..], sep)
  }

  function Count(s: string, c: char): nat
    decreases |s|
  {
    if |s| == 0 then 0 else (if s[0] == c then 1 else 0) + Count(s[1..], c)
  }

  lemma {:induction false} SplitJoin(s: string, sep: char)
    ensures Join(Split(s, sep), sep) == s
    decreases |s|
  {
    if |s| > 0 {
      SplitJoin(s[1..], sep);
      var t := Split(s[1..], sep);
      if s[0] != sep {
        if |t| == 1 {
        } else {
          assert ([[s[0]] + t[0]] + t[1..])[1..] == t[1..];
          assert Join(t, sep) == t[0] + [sep] + Join(t[1..], sep);
        }
      } else {
        assert ([""] + t)[1..] == t;
      }
    }
  }

  lemma {:induction false} SplitCount(s: string, sep: char)
    ensures |Split(s, sep)| == Count(s, sep) + 1
    decreases |s|
  {
    if |s| > 0 { SplitCount(s[1..], sep); }
  }

  lemma {:induction false} SplitPiecesFree(s: string, sep: char)
    ensures forall k :: 0 <= k < |Split(s, sep)| ==> sep !in Split(s, sep)[k]
    decreases |s|
  {
    if |s| > 0 { SplitPiecesFree(s[1..], sep); }
  }

  /** A piece without the separator splits to itself. */
  lemma {:induction false} SplitNoSep(p: string, sep: char)
    requires sep !in p
    ensures Split(p, sep) == [p]
    decreases |p|
  {
    if |p| > 0 {
      SplitNoSep(p[1..], sep);
      assert [p[0]] + p[1..] == p;
    }
  }

  /** Splitting a separator-free piece followed by the separator peels that piece off. */
  lemma {:induction false} SplitCons(p: string, rest: string, sep: char)
    requires sep !in p
    ensures Split(p + [sep] + rest, sep) == [p] + Split(rest, sep)
    decreases |p|
  {
    var s := p + [sep] + rest;
    if |p| == 0 {
      assert s[1..] == rest;
    } else {
      assert s[1..] == p[1..] + [sep] + rest;
      SplitCons(p[1..], rest, sep);
      assert [p[0]] + p[1..] == p;
    }
  }

  /** Joining separator-free pieces and splitting again gives the pieces back. */
  lemma {:induction false} JoinSplit(parts: seq<string>, sep: char)
    requires |parts| > 0
    requires forall k :: 0 <= k < |parts| ==> sep !in parts[k]
    ensures Split(Join(parts, sep), sep) == parts
    decreases |parts|
  {
    if |parts| == 1 {
      SplitNoSep(parts[0], sep);
    } else {
      JoinSplit(parts[1..], sep);
      SplitCons(parts[0], Join(parts[1..], sep), sep);
      assert [parts[0]] + parts[1..] == parts;
    }
  }

  function LowerChar(c: char): char {
    if 'A' <= c <= 'Z' then (c as int + 32) as char else c
  }

  function UpperChar(c: char): char {
    if 'a' <= c <= 'z' then (c as int - 32) as char else c
  }

  /** `str::to_lowercase` restricted to ASCII letters. */
  function ToLower(s: string): (r: string)
    ensures |r| == |s| && forall i :: 0 <= i < |s| ==> r[i] == LowerChar(s[i])
  {
    seq(|s|, i requires 0 <= i < |s| => LowerChar(s[i]))
  }

  /** `str::to_uppercase` restricted to ASCII letters. */
  function ToUpper(s: string): (r: string)
    ensures |r| == |s| && forall i :: 0 <= i < |s| ==> r[i] == UpperChar(s[i])
  {
    seq(|s|, i requires 0 <= i < |s| => UpperChar(s[i]))
  }

  /** Every occurrence of character `a` replaced by `b`. */
  function MapChar(s: string, a: char, b: char): (r: string)
    ensures |r| == |s| && forall i :: 0 <= i < |s| ==> r[i] == (if s[i] == a then b else s[i])
  {
    seq(|s|, i requires 0 <= i < |s| => if s[i] == a then b else s[i])
  }

  function DigitChar(d: nat): char
    requires d < 10
  {
    "0123456789"[d]
  }

  /** Decimal rendering of a natural number, as `format!("{}")` and JS templates print it. */
  function NatToString(n: nat): (r: string)
    ensures |r| > 0 && forall i :: 0 <= i < |r| ==> '0' <= r[i] <= '9'
    decreases n
  {
    if n < 10 then [DigitChar(n)] else NatToString(n / 10) + [DigitChar(n % 10)]
  }

  /** Decimal rendering of an integer with a leading '-' when negative. */
  function IntToString(i: int): (r: string)
    ensures |r| > 0 && (r[0] == '-' <==> i < 0)
    ensures forall k :: 0 <= k < |r| ==> r[k] == '-' || '0' <= r[k] <= '9'
  {
    if i < 0 then "-" + NatToString(-i) else NatToString(i)
  }

  /** Lexicographic order on strings, character by character, a proper prefix first (Rust's `Ord` for `String`). */
  predicate StrLt(a: string, b: string)
    decreases |a|
  {
    |b| > 0 && (|a| == 0 || a[0] < b[0] || (a[0] == b[0] && StrLt(a[1..], b[1..])))
  }

  lemma {:induction false} StrLtIrreflexive(a: string)
    ensures !StrLt(a, a)
    decreases |a|
  {
    if |a| > 0 { StrLtIrreflexive(a[1..]); }
  }

  lemma {:induction false} StrLtTransitive(a: string, b: string, c: string)
    requires StrLt(a, b) && StrLt(b, c)
    ensures StrLt(a, c)
    decreases |a|
  {
    if |a| > 0 && a[0] == b[0] && b[0] == c[0] {
      StrLtTransitive(a[1..], b[1..], c[1..]);
    }
  }

  lemma {:induction false} StrLtTotal(a: string, b: string)
    ensures a == b || StrLt(a, b) || StrLt(b, a)
    decreases |a|
  {
    if |a| > 0 && |b| > 0 && a[0] == b[0] {
      StrLtTotal(a[1..], b[1..]);
      if a[1..] == b[1..] {
        assert a == [a[0]] + a[1..] && b == [b[0]] + b[1..];
      }
    }
  }

  lemma StrLtAsymmetric(a: string, b: string)
    requires StrLt(a, b)
    ensures !StrLt(b, a)
  {
    if StrLt(b, a) {
      StrLtTransitive(a, b, a);
      StrLtIrreflexive(a);
    }
  }
}

=== FILE: tasklist.dfy ===
/**
 * The front end's task queue: a list of download or install tasks with a
 * set of the ids already queued and a run status, worked through one task
 * at a time by `run` and interruptible by `stop`.
 */
module TaskQueue {
  import opened Wrappers

  datatype TaskStatus = TaskPending | TaskRunning | TaskSuccess | TaskError

  /** A task's progress record; `progress` is a percentage. */
  datatype Payload = Payload(url: string, progress: real, status: TaskStatus, fileSize: Option<string>, progressDesc: Option<string>)

  datatype TaskItem = TaskItem(id: string, name: string, description: string, payload: Option<Payload>)

  /** The fields an `update` may overwrite; absent fields keep their value. */
  datatype TaskPatch = TaskPatch(name: Option<string>, description: Option<string>, payload: Option<Payload>)

  datatype ListKind = Download | Install

  datatype ListStatus = Pending | Running | Stopping

  /** The list's whole state. */
  datatype ListState = ListState(items: seq<TaskItem>, ids: set<string>, status: ListStatus)

  function IdsOf(items: seq<TaskItem>): set<string> {
    set i | 0 <= i < |items| :: items[i].id
  }

  predicate DistinctIds(items: seq<TaskItem>) {
    forall i, j :: 0 <= i < j < |items| ==> items[i].id != items[j].id
  }

  /** The id set records exactly the queued ids, and no id is queued twice. */
  predicate ValidState(st: ListState) {
    st.ids == IdsOf(st.items) && DistinctIds(st.items)
  }

  function ApplyPatch(item: TaskItem, patch: TaskPatch): (r: TaskItem)
    ensures r.id == item.id
    ensures r.name == (if patch.name.Some? then patch.name.value else item.name)
    ensures r.description == (if patch.description.Some? then patch.description.value else item.description)
    ensures r.payload == (if patch.payload.Some? then patch.payload else item.payload)
  {
    TaskItem(item.id,
      if patch.name.Some? then patch.name.value else item.name,
      if patch.description.Some? then patch.description.value else item.description,
      if patch.payload.Some? then patch.payload else item.payload)
  }

  /** `update`: every task with the id gets the patch, every other task is untouched. */
  function UpdateItems(items: seq<TaskItem>, id: string, patch: TaskPatch): (r: seq<TaskItem>)
    ensures |r| == |items|
    ensures forall j :: 0 <= j < |items| ==> r[j] == if items[j].id == id then ApplyPatch(items[j], patch) else items[j]
  {
    seq(|items|, j requires 0 <= j < |items| => if items[j].id == id then ApplyPatch(items[j], patch) else items[j])
  }

  /** The list without the tasks carrying `id`, in order. */
  function WithoutId(items: seq<TaskItem>, id: string): (r: seq<TaskItem>)
    ensures |r| <= |items|
    decreases |items|
  {
    if |items| == 0 then []
    else WithoutId(items[..|items| - 1], id) + (if items[|items| - 1].id != id then [items[|items| - 1]] else [])
  }

  /** `filter` keeps exactly the tasks with another id. */
  lemma {:induction false} WithoutIdMembers(items: seq<TaskItem>, id: string)
    ensures forall x :: x in WithoutId(items, id) <==> x in items && x.id != id
    decreases |items|
  {
    if |items| > 0 {
      var init := items[..|items| - 1];
      WithoutIdMembers(init, id);
      assert items == init + [items[|items| - 1]];
    }
  }

  function AddSpec(st: ListState, item: TaskItem): ListState {
    if item.id in st.ids then st else st.(items := st.items + [item], ids := st.ids + {item.id})
  }

  function RemoveSpec(st: ListState, id: string): ListState {
    var items := WithoutId(st.items, id);
    ListState(items, st.ids - {id}, if |items| == 0 then Pending else st.status)
  }

  function ClearSpec(st: ListState): ListState {
    ListState([], {}, Pending)
  }

  function StopSpec(st: ListState): ListState {
    if st.status == Running then st.(status := Stopping) else st
  }

  /**
   * `add` with a queued id changes nothing; a new id is recorded and its
   * task appended at the end. Every operation keeps the id set exact.
   */
  lemma {:induction false} AddProperties(st: ListState, item: TaskItem)
    requires ValidState(st)
    ensures item.id in st.ids ==> AddSpec(st, item) == st
    ensures item.id !in st.ids ==> AddSpec(st, item).items == st.items + [item] && AddSpec(st, item).ids == st.ids + {item.id}
    ensures ValidState(AddSpec(st, item))
  {
    if item.id !in st.ids {
      Snoc(st.items, item);
    }
  }

  /** Appending a task adds its id; with a fresh id the ids stay distinct. */
  lemma Snoc(items: seq<TaskItem>, x: TaskItem)
    ensures IdsOf(items + [x]) == IdsOf(items) + {x.id}
    ensures DistinctIds(items) && x.id !in IdsOf(items) ==> DistinctIds(items + [x])
  {
    var r := items + [x];
    forall y | y in IdsOf(r) ensures y in IdsOf(items) + {x.id} {
      var i :| 0 <= i < |r| && r[i].id == y;
      if i < |items| { assert items[i] == r[i]; }
    }
    forall y | y in IdsOf(items) ensures y in IdsOf(r) {
      var i :| 0 <= i < |items| && items[i].id == y;
      assert r[i] == items[i];
    }
    assert r[|items|] == x;
    if DistinctIds(items) && x.id !in IdsOf(items) {
      forall i, j | 0 <= i < j < |r| ensures r[i].id != r[j].id {
        if j == |items| {
          assert r[i].id in IdsOf(items);
        }
      }
    }
  }

  /**
   * `remove` drops every task with the id, forgets the id, keeps the order
   * of the rest, and goes back to pending when the list empties.
   */
  lemma RemoveProperties(st: ListState, id: string)
    requires ValidState(st)
    ensures var r := RemoveSpec(st, id);
      (forall x :: x in r.items <==> x in st.items && x.id != id) &&
      r.ids == st.ids - {id} &&
      (|r.items| == 0 ==> r.status == Pending) &&
      (|r.items| > 0 ==> r.status == st.status)
    ensures ValidState(RemoveSpec(st, id))
  {
    WithoutIdMembers(st.items, id);
    WithoutIdValid(st.items, id);
  }

  lemma {:induction false} WithoutIdValid(items: seq<TaskItem>, id: string)
    requires DistinctIds(items)
    ensures IdsOf(WithoutId(items, id)) == IdsOf(items) - {id}
    ensures DistinctIds(WithoutId(items, id))
    decreases |items|
  {
    if |items| > 0 {
      var init := items[..|items| - 1];
      var last := items[|items| - 1];
      assert items == init + [last];
      WithoutIdValid(init, id);
      Snoc(init, last);
      forall i | 0 <= i < |init| ensures init[i].id != last.id {
        assert init[i] == items[i];
      }
      assert last.id !in IdsOf(init);
      if last.id != id {
        assert WithoutId(items, id) == WithoutId(init, id) + [last];
        Snoc(WithoutId(init, id), last);
      } else {
        assert WithoutId(items, id) == WithoutId(init, id) + [] == WithoutId(init, id);
        assert IdsOf(items) - {id} == IdsOf(init) - {id};
      }
    }
  }

  /** `update` keeps the ids, so it keeps the id set exact; it never changes another task. */
  lemma UpdateProperties(st: ListState, id: string, patch: TaskPatch)
    requires ValidState(st)
    ensures ValidState(st.(items := UpdateItems(st.items, id, patch)))
    ensures forall j :: 0 <= j < |st.items| && st.items[j].id != id ==> UpdateItems(st.items, id, patch)[j] == st.items[j]
  {
    var r := UpdateItems(st.items, id, patch);
    assert forall j :: 0 <= j < |r| ==> r[j].id == st.items[j].id;
    assert IdsOf(r) == IdsOf(st.items) by {
      forall x | x in IdsOf(r) ensures x in IdsOf(st.items) {
        var i :| 0 <= i < |r| && r[i].id == x;
        assert st.items[i].id == x;
      }
      forall x | x in IdsOf(st.items) ensures x in IdsOf(r) {
        var i :| 0 <= i < |st.items| && st.items[i].id == x;
        assert r[i].id == x;
      }
    }
  }

  /** A task's progress, 0 when it has no payload. */
  function ItemProgress(item: TaskItem): real {
    if item.payload.Some? then item.payload.value.progress else 0.0
  }

  function SumProgress(items: seq<TaskItem>): real
    decreases |items|
  {
    if |items| == 0 then 0.0 else SumProgress(items[..|items| - 1]) + ItemProgress(items[|items| - 1])
  }

  /** `progress`: the mean task progress, and 100 for an empty list. */
  function ProgressOf(items: seq<TaskItem>): (r: real)
    ensures |items| == 0 ==> r == 100.0
  {
    if |items| == 0 then 100.0 else SumProgress(items) / (|items| as real)
  }

  lemma {:induction false} SumProgressBounds(items: seq<TaskItem>)
    requires forall i :: 0 <= i < |items| ==> 0.0 <= ItemProgress(items[i]) <= 100.0
    ensures 0.0 <= SumProgress(items) <= 100.0 * (|items| as real)
    decreases |items|
  {
    if |items| > 0 {
      SumProgressBounds(items[..|items| - 1]);
    }
  }

  /** With every task between 0 and 100 percent, so is the list. */
  lemma ProgressInRange(items: seq<TaskItem>)
    requires forall i :: 0 <= i < |items| ==> 0.0 <= ItemProgress(items[i]) <= 100.0
    ensures 0.0 <= ProgressOf(items) <= 100.0
  {
    if |items| > 0 {
      SumProgressBounds(items);
      var n := |items| as real;
      var s := SumProgress(items);
      assert s / n * n == s;
      assert (100.0 - s / n) * n == 100.0 * n - s;
    }
  }

  /** `run` only attempts tasks whose payload status is pending or error. */
  predicate Attemptable(item: TaskItem) {
    item.payload.Some? && (item.payload.value.status == TaskPending || item.payload.value.status == TaskError)
  }

  /** The ids of the tasks `run` would attempt, in list order. */
  function AttemptIds(items: seq<TaskItem>): (r: seq<string>)
    ensures |r| <= |items|
    decreases |items|
  {
    if |items| == 0 then []
    else AttemptIds(items[..|items| - 1]) + (if Attemptable(items[|items| - 1]) then [items[|items| - 1].id] else [])
  }

  /** Some attemptable task of `items` has id `id`. */
  predicate AttemptableIn(items: seq<TaskItem>, id: string) {
    exists i :: 0 <= i < |items| && Attemptable(items[i]) && items[i].id == id
  }

  /** Every attempted id belongs to an attemptable task. */
  lemma {:induction false} AttemptIdsAttemptable(items: seq<TaskItem>)
    ensures forall k :: 0 <= k < |AttemptIds(items)| ==> AttemptableIn(items, AttemptIds(items)[k])
    decreases |items|
  {
    if |items| > 0 {
      var init := items[..|items| - 1];
      AttemptIdsAttemptable(init);
      forall k | 0 <= k < |AttemptIds(items)|
        ensures AttemptableIn(items, AttemptIds(items)[k])
      {
        var last := items[|items| - 1];
        assert AttemptIds(items) == AttemptIds(init) + (if Attemptable(last) then [last.id] else []);
        if k < |AttemptIds(init)| {
          var i :| 0 <= i < |init| && Attemptable(init[i]) && init[i].id == AttemptIds(init)[k];
          assert items[i] == init[i];
          assert items[i].id == AttemptIds(items)[k];
        } else {
          assert Attemptable(last) && last.id == AttemptIds(items)[k];
        }
      }
    }
  }

  /** The attempts made over a prefix of the list are a prefix of all attempts. */
  lemma {:induction false} AttemptIdsPrefix(items: seq<TaskItem>, i: nat)
    requires i <= |items|
    ensures |AttemptIds(items[..i])| <= |AttemptIds(items)|
    ensures AttemptIds(items[..i]) == AttemptIds(items)[..|AttemptIds(items[..i])|]
    decreases |items| - i
  {
    if i == |items| {
      assert items[..i] == items;
    } else {
      AttemptIdsPrefix(items, i + 1);
      assert items[..i + 1][..i] == items[..i];
    }
  }

  /** The payload `run` writes for a task whose action threw `message`: error status, same url and progress, no file size. */
  function FailurePatch(p: Payload, message: string): TaskPatch {
    TaskPatch(None, None, Some(Payload(p.url, p.progress, TaskError, None, Some(message))))
  }

  /** Task `item` after its action threw `message`. */
  function MarkFailed(item: TaskItem, message: string): (r: TaskItem)
    requires item.payload.Some?
    ensures r.id == item.id && r.name == item.name && r.description == item.description
    ensures r.payload.Some? && r.payload.value.status == TaskError && r.payload.value.progressDesc == Some(message)
    ensures r.payload.value.url == item.payload.value.url && r.payload.value.progress == item.payload.value.progress
  {
    ApplyPatch(item, FailurePatch(item.payload.value, message))
  }

  /** The ids in `attempted`, as a set. */
  function Tried(attempted: seq<string>): set<string> {
    set k | 0 <= k < |attempted| :: attempted[k]
  }

  /** Some attempted action threw. */
  predicate Failed(attempted: seq<string>, outcome: string -> Option<string>) {
    exists k :: 0 <= k < |attempted| && outcome(attempted[k]).Some?
  }

  /** The list after the tasks whose ids are in `tried` ran: every one whose action threw is marked failed. */
  function MarkFailures(items: seq<TaskItem>, tried: set<string>, outcome: string -> Option<string>): (r: seq<TaskItem>)
    ensures |r| == |items|
    ensures forall j :: 0 <= j < |items| ==> r[j].id == items[j].id
  {
    seq(|items|, j requires 0 <= j < |items| =>
      if items[j].id in tried && Attemptable(items[j]) && outcome(items[j].id).Some? then MarkFailed(items[j], outcome(items[j].id).value)
      else items[j])
  }

  /** With auto-clean disabled, every task's payload status goes back to pending. */
  function ResetStatuses(items: seq<TaskItem>): (r: seq<TaskItem>)
    ensures |r| == |items|
    ensures forall j :: 0 <= j < |items| ==> r[j].id == items[j].id && r[j].payload.Some? == items[j].payload.Some?
    ensures forall j :: 0 <= j < |items| && r[j].payload.Some? ==> r[j].payload.value.status == TaskPending
  {
    seq(|items|, j requires 0 <= j < |items| =>
      if items[j].payload.Some? then items[j].(payload := Some(items[j].payload.value.(status := TaskPending))) else items[j])
  }

  /** How many tasks a run attempts: it stops after the `stopAfter`-th when there are more. */
  function AttemptCount(total: nat, stopAfter: Option<nat>): (n: nat)
    ensures n <= total
  {
    if stopAfter.Some? && 0 < stopAfter.value < total then stopAfter.value else total
  }

  /**
   * The state a `run` leaves and the ids it attempted, in order. Each
   * task's action is a call the model cannot see: `outcome(id)` is the
   * error message it throws, if any, and `stopAfter` is the number of
   * actions after which `stop` is called while they run.
   * `disableAutoClean` is the configuration flag read at the end.
   */
  function RunSpec(st: ListState, kind: ListKind, outcome: string -> Option<string>, stopAfter: Option<nat>,
                   disableAutoClean: bool): (ListState, seq<string>)
  {
    var all := AttemptIds(st.items);
    var n := AttemptCount(|all|, stopAfter);
    var marked := MarkFailures(st.items, Tried(all[..n]), outcome);
    if n < |all| then (ListState(marked, st.ids, Pending), all[..n])
    else if (!disableAutoClean || kind == Download) && !Failed(all, outcome) then (ListState([], {}, Pending), all)
    else (ListState(if disableAutoClean then ResetStatuses(marked) else marked, st.ids, Pending), all)
  }

  /**
   * A run always ends pending with the id set exact. It attempts, in list
   * order, only tasks whose status is pending or error, all of them unless
   * stopped, and never more than the actions run before the stop.
   */
  lemma RunProperties(st: ListState, kind: ListKind, outcome: string -> Option<string>, stopAfter: Option<nat>,
                      disableAutoClean: bool)
    requires ValidState(st)
    ensures var (r, attempted) := RunSpec(st, kind, outcome, stopAfter, disableAutoClean);
      ValidState(r) && r.status == Pending &&
      |attempted| <= |AttemptIds(st.items)| && attempted == AttemptIds(st.items)[..|attempted|] &&
      (forall k :: 0 <= k < |attempted| ==> AttemptableIn(st.items, attempted[k])) &&
      (stopAfter.Some? && stopAfter.value > 0 ==> |attempted| <= stopAfter.value) &&
      (stopAfter.None? ==> attempted == AttemptIds(st.items))
  {
    var all := AttemptIds(st.items);
    var n := AttemptCount(|all|, stopAfter);
    var marked := MarkFailures(st.items, Tried(all[..n]), outcome);
    AttemptIdsAttemptable(st.items);
    SameIdsValid(st.items, marked);
    SameIdsValid(marked, ResetStatuses(marked));
    assert all[..|all|] == all;
  }

  /**
   * The list is emptied exactly when the run completed, nothing failed and
   * auto-clean applies (always for downloads). Otherwise every task stays
   * in place: one whose action threw carries the error and its message
   * (its status back to pending when auto-clean is disabled and the run
   * completed), every other task is as it was apart from that reset.
   */
  lemma RunOutcome(st: ListState, kind: ListKind, outcome: string -> Option<string>, stopAfter: Option<nat>,
                   disableAutoClean: bool)
    requires ValidState(st)
    ensures var (r, attempted) := RunSpec(st, kind, outcome, stopAfter, disableAutoClean);
      var completed := |attempted| == |AttemptIds(st.items)|;
      var cleans := completed && (!disableAutoClean || kind == Download) && !Failed(attempted, outcome);
      (cleans ==> r.items == [] && r.ids == {}) &&
      (!cleans ==>
         r.ids == st.ids && |r.items| == |st.items| &&
         forall j :: 0 <= j < |st.items| ==>
           var item := st.items[j];
           var reset := disableAutoClean && completed;
           r.items[j].id == item.id &&
           if item.id in Tried(attempted) && Attemptable(item) && outcome(item.id).Some? then
             r.items[j].payload.Some? && r.items[j].payload.value.progressDesc == Some(outcome(item.id).value) &&
             r.items[j].payload.value.status == (if reset then TaskPending else TaskError)
           else !reset ==> r.items[j] == item)
  {
    var all := AttemptIds(st.items);
    var n := AttemptCount(|all|, stopAfter);
    assert all[..|all|] == all;
  }

  /** Attempting one more task appends its id when it is attemptable. */
  lemma AttemptIdsStep(items: seq<TaskItem>, i: nat)
    requires i < |items|
    ensures AttemptIds(items[..i + 1]) == AttemptIds(items[..i]) + (if Attemptable(items[i]) then [items[i].id] else [])
  {
    assert items[..i + 1][..i] == items[..i];
  }

  /** The failure flag after one more attempt. */
  lemma FailedAppend(attempted: seq<string>, id: string, outcome: string -> Option<string>)
    ensures Failed(attempted + [id], outcome) <==> Failed(attempted, outcome) || outcome(id).Some?
  {
    var a := attempted + [id];
    if Failed(attempted, outcome) {
      var k :| 0 <= k < |attempted| && outcome(attempted[k]).Some?;
      assert a[k] == attempted[k];
    }
    assert a[|attempted|] == id;
  }

  /** A run that reaches an attemptable task after `attempted` has not yet attempted everything. */
  lemma StopPoint(snapshot: seq<TaskItem>, i: nat, attempted: seq<string>)
    requires i < |snapshot| && Attemptable(snapshot[i]) && attempted == AttemptIds(snapshot[..i])
    ensures |attempted| < |AttemptIds(snapshot)| && attempted == AttemptIds(snapshot)[..|attempted|]
  {
    AttemptIdsStep(snapshot, i);
    AttemptIdsPrefix(snapshot, i + 1);
    var all := AttemptIds(snapshot);
    assert all[..|attempted| + 1][..|attempted|] == all[..|attempted|];
  }

  class TaskList {
    const kind: ListKind
    var items: seq<TaskItem>
    var ids: set<string>
    var status: ListStatus

    function State(): ListState
      reads this
    {
      ListState(items, ids, status)
    }

    ghost predicate Valid()
      reads this
    {
      ValidState(State())
    }

    constructor (kind: ListKind)
      ensures this.kind == kind && State() == ListState([], {}, Pending) && Valid()
    {
      this.kind := kind;
      items := [];
      ids := {};
      status := Pending;
    }

    /** `progress` */
    function Progress(): (r: real)
      reads this
      ensures r == ProgressOf(items)
    {
      ProgressOf(items)
    }

    /** `update` */
    method Update(id: string, patch: TaskPatch)
      modifies this
      ensures State() == old(State()).(items := UpdateItems(old(items), id, patch))
    {
      items := UpdateItems(items, id, patch);
    }

    /**
     * `add`. The result says whether `add` goes on to start `run`: for a
     * download list that is idle, once the task was queued.
     */
    method Add(item: TaskItem) returns (startsRun: bool)
      modifies this
      ensures State() == AddSpec(old(State()), item)
      ensures startsRun <==> item.id !in old(ids) && kind == Download && old(status) == Pending
    {
      if item.id in ids {
        return false;
      }
      ids := ids + {item.id};
      items := items + [item];
      startsRun := kind == Download && status == Pending;
    }

    /** `remove` */
    method Remove(id: string)
      modifies this
      ensures State() == RemoveSpec(old(State()), id)
    {
      items := WithoutId(items, id);
      ids := ids - {id};
      if |items| == 0 {
        status := Pending;
      }
    }

    /** `clear` */
    method Clear()
      modifies this
      ensures State() == ClearSpec(old(State()))
    {
      items := [];
      status := Pending;
      ids := {};
    }

    /** `stop`: a running list is asked to stop; otherwise nothing changes. */
    method Stop()
      modifies this
      ensures State() == StopSpec(old(State()))
    {
      if status == Running {
        status := Stopping;
      }
    }

    /**
     * `run`, over the list as it was when the run started: the attemptable
     * tasks are run in order until a stop request is seen.
     */
    method Run(outcome: string -> Option<string>, stopAfter: Option<nat>, disableAutoClean: bool)
      returns (attempted: seq<string>)
      requires Valid()
      modifies this
      ensures (State(), attempted) == RunSpec(old(State()), kind, outcome, stopAfter, disableAutoClean)
      ensures Valid()
    {
      RunStart(items, outcome);
      hide AttemptIds, MarkFailures, UpdateItems, ResetStatuses, Tried, Failed;
      var snapshot := items;
      status := Running;
      var errored := false;
      attempted := [];
      for i := 0 to |snapshot|
        invariant attempted == AttemptIds(snapshot[..i])
        invariant items == MarkFailures(snapshot, Tried(attempted), outcome)
        invariant ids == old(ids) && snapshot == old(items)
        invariant status == if stopAfter == Some(|attempted|) && |attempted| > 0 then Stopping else Running
        invariant stopAfter.Some? && stopAfter.value > 0 ==> |attempted| <= stopAfter.value
        invariant errored <==> Failed(attempted, outcome)
      {
        var item := snapshot[i];
        AttemptIdsStep(snapshot, i);
        if Attemptable(item) {
          if status == Stopping {
            StopPoint(snapshot, i, attempted);
            status := Pending;
            RunProperties(old(State()), kind, outcome, stopAfter, disableAutoClean);
            return;
          }
          RunStep(snapshot, i, attempted, outcome);
          FailedAppend(attempted, item.id, outcome);
          attempted := attempted + [item.id];
          var failure := outcome(item.id);
          if stopAfter == Some(|attempted|) {
            status := Stopping;
          }
          if failure.Some? {
            errored := true;
            items := UpdateItems(items, item.id, FailurePatch(item.payload.value, failure.value));
          }
        }
      }
      assert snapshot[..|snapshot|] == snapshot;
      assert attempted[..|attempted|] == attempted;
      if disableAutoClean {
        items := ResetStatuses(items);
      }
      if (!disableAutoClean || kind == Download) && !errored {
        items := [];
        ids := {};
      }
      status := Pending;
      RunProperties(old(State()), kind, outcome, stopAfter, disableAutoClean);
    }
  }

  /** Before the first attempt nothing is marked and nothing failed. */
  lemma RunStart(snapshot: seq<TaskItem>, outcome: string -> Option<string>)
    ensures AttemptIds(snapshot[..0]) == [] && MarkFailures(snapshot, Tried([]), outcome) == snapshot && !Failed([], outcome)
  {
  }

  /** One attempt: marking task `i`'s failure is the `update` by its id. */
  lemma RunStep(snapshot: seq<TaskItem>, i: nat, attempted: seq<string>, outcome: string -> Option<string>)
    requires i < |snapshot| && DistinctIds(snapshot) && Attemptable(snapshot[i])
    requires attempted == AttemptIds(snapshot[..i])
    ensures var item := snapshot[i];
      var before := MarkFailures(snapshot, Tried(attempted), outcome);
      MarkFailures(snapshot, Tried(attempted + [item.id]), outcome) ==
        if outcome(item.id).Some? then UpdateItems(before, item.id, FailurePatch(item.payload.value, outcome(item.id).value))
        else before
  {
    var item := snapshot[i];
    var a' := attempted + [item.id];
    assert Tried(a') == Tried(attempted) + {item.id} by {
      forall x | x in Tried(a') ensures x in Tried(attempted) + {item.id} {
        var k :| 0 <= k < |a'| && a'[k] == x;
        if k < |attempted| { assert a'[k] == attempted[k]; }
      }
      forall x | x in Tried(attempted) ensures x in Tried(a') {
        var k :| 0 <= k < |attempted| && attempted[k] == x;
        assert a'[k] == x;
      }
      assert a'[|attempted|] == item.id;
    }
    AttemptIdsBefore(snapshot, i);
    assert item.id !in Tried(attempted);
    var before := MarkFailures(snapshot, Tried(attempted), outcome);
    var after := MarkFailures(snapshot, Tried(a'), outcome);
    if outcome(item.id).Some? {
      var upd := UpdateItems(before, item.id, FailurePatch(item.payload.value, outcome(item.id).value));
      forall j | 0 <= j < |snapshot| ensures after[j] == upd[j] {
        if j != i {
          assert snapshot[j].id != item.id;
        }
      }
      assert after == upd;
    } else {
      forall j | 0 <= j < |snapshot| ensures after[j] == before[j] {
      }
      assert after == before;
    }
  }

  /** Ids attempted before position `i` differ from the id at `i`. */
  lemma AttemptIdsBefore(snapshot: seq<TaskItem>, i: nat)
    requires i < |snapshot| && DistinctIds(snapshot)
    ensures forall k :: 0 <= k < |AttemptIds(snapshot[..i])| ==> AttemptIds(snapshot[..i])[k] != snapshot[i].id
  {
    var pre := snapshot[..i];
    AttemptIdsAttemptable(pre);
    forall k | 0 <= k < |AttemptIds(pre)|
      ensures AttemptIds(pre)[k] != snapshot[i].id
    {
      assert AttemptableIn(pre, AttemptIds(pre)[k]);
      var j :| 0 <= j < |pre| && Attemptable(pre[j]) && pre[j].id == AttemptIds(pre)[k];
      assert snapshot[j] == pre[j];
    }
  }

  /** Two lists with the same ids position by position have the same id set, and the same distinctness. */
  lemma SameIdsValid(a: seq<TaskItem>, b: seq<TaskItem>)
    requires |a| == |b| && forall j :: 0 <= j < |a| ==> a[j].id == b[j].id
    ensures IdsOf(a) == IdsOf(b)
    ensures DistinctIds(a) ==> DistinctIds(b)
  {
    forall x | x in IdsOf(a) ensures x in IdsOf(b) {
      var i :| 0 <= i < |a| && a[i].id == x;
      assert b[i].id == x;
    }
    forall x | x in IdsOf(b) ensures x in IdsOf(a) {
      var i :| 0 <= i < |b| && b[i].id == x;
      assert a[i].id == x;
    }
  }
}

=== FILE: time_text.dfy ===
/**
 * `timeToRead`: a duration in milliseconds rendered in the largest of
 * seconds, minutes, hours or days whose count stays under the next unit.
 */
module TimeText {
  import opened Strings

  datatype Unit = Seconds | Minutes | Hours | Days

  /** Milliseconds per unit. */
  function UnitMs(u: Unit): (ms: nat)
    ensures ms > 0
  {
    match u
    case Seconds => 1000
    case Minutes => 60 * 1000
    case Hours => 60 * 60 * 1000
    case Days => 24 * 60 * 60 * 1000
  }

  /** The suffix written after the count. */
  function UnitText(u: Unit): string {
    match u
    case Seconds => "秒"
    case Minutes => "分钟"
    case Hours => "小时"
    case Days => "天"
  }

  /**
   * The unit chosen for `time` ms and the count in it. `Math.floor` of the
   * quotient is floor division, which is Dafny's `/` for a positive divisor.
   */
  function Bucket(time: int): (r: (int, Unit))
    ensures r.0 == time / UnitMs(r.1)
  {
    if time / 1000 < 60 then (time / 1000, Seconds)
    else if time / (60 * 1000) < 60 then (time / (60 * 1000), Minutes)
    else if time / (60 * 60 * 1000) < 24 then (time / (60 * 60 * 1000), Hours)
    else (time / (24 * 60 * 60 * 1000), Days)
  }

  function TimeToRead(time: int): (r: string)
    ensures r == IntToString(Bucket(time).0) + UnitText(Bucket(time).1)
  {
    var (count, unit) := Bucket(time);
    IntToString(count) + UnitText(unit)
  }

  /**
   * Which unit is chosen: seconds below one minute, minutes below one hour,
   * hours below one day, days otherwise; and the count is then at least 1
   * and below the size of the next unit.
   */
  lemma BucketThresholds(time: int)
    ensures Bucket(time).1 == Seconds <==> time < 60 * 1000
    ensures Bucket(time).1 == Minutes <==> 60 * 1000 <= time < 60 * 60 * 1000
    ensures Bucket(time).1 == Hours <==> 60 * 60 * 1000 <= time < 24 * 60 * 60 * 1000
    ensures Bucket(time).1 == Days <==> 24 * 60 * 60 * 1000 <= time
    ensures Bucket(time).1 == Minutes ==> 1 <= Bucket(time).0 < 60
    ensures Bucket(time).1 == Hours ==> 1 <= Bucket(time).0 < 24
    ensures Bucket(time).1 == Days ==> 1 <= Bucket(time).0
  {
    FloorDivBelow(time, 1000, 60);
    FloorDivBelow(time, 60 * 1000, 60);
    FloorDivBelow(time, 60 * 60 * 1000, 24);
    FloorDivBelow(time, 24 * 60 * 60 * 1000, 1);
  }

  /** `time / d < n` exactly when `time < n * d`. */
  lemma FloorDivBelow(time: int, d: int, n: int)
    requires d > 0
    ensures time / d < n <==> time < n * d
    ensures time / d >= 1 <==> time >= d
  {
    var q := time / d;
    var m := time % d;
    assert time == q * d + m && 0 <= m < d;
    if q < n {
      assert q <= n - 1;
      MulLe(q, n - 1, d);
    } else {
      MulLe(n, q, d);
    }
    if q >= 1 {
      MulLe(1, q, d);
    } else {
      MulLe(q, 0, d);
    }
  }

  lemma MulLe(a: int, b: int, d: int)
    requires a <= b && d > 0
    ensures a * d <= b * d
  {
    assert b * d - a * d == (b - a) * d;
  }

  /** A longer duration never gets a smaller unit. */
  lemma BucketMonotone(t1: int, t2: int)
    requires t1 <= t2
    ensures Bucket(t1).1 == Days ==> Bucket(t2).1 == Days
    ensures Bucket(t1).1 == Hours ==> Bucket(t2).1 == Hours || Bucket(t2).1 == Days
    ensures Bucket(t1).1 == Minutes ==> Bucket(t2).1 != Seconds
  {
    BucketThresholds(t1);
    BucketThresholds(t2);
  }

  /**
   * The text carries exactly one unit suffix: it ends with the chosen
   * unit's text and with no other, and the count before it is plain decimal.
   */
  lemma OneSuffix(time: int, u: Unit)
    ensures EndsWith(TimeToRead(time), UnitText(u)) <==> u == Bucket(time).1
    ensures var n := |TimeToRead(time)| - |UnitText(Bucket(time).1)|;
      forall k :: 0 <= k < n ==> TimeToRead(time)[k] == '-' || '0' <= TimeToRead(time)[k] <= '9'
  {
    var r := TimeToRead(time);
    var digits := IntToString(Bucket(time).0);
    assert r == digits + UnitText(Bucket(time).1);
    if EndsWith(r, UnitText(u)) {
      assert r[|r| - 1] == UnitText(u)[|UnitText(u)| - 1];
      assert r[|r| - 1] == UnitText(Bucket(time).1)[|UnitText(Bucket(time).1)| - 1];
    }
  }
}

=== FILE: tools.dfy ===
/** Hex codecs, the UUID substring test and the unlock-code rule (src-tauri/src/tools.rs). */
module Tools {
  import opened Wrappers
  import opened Bytes
  import opened Strings
  import opened Crypto

  function LowerHexDigit(d: nat): char
    requires d < 16
  {
    "0123456789abcdef"[d]
  }

  /** The value of one hexadecimal digit of either case. */
  function HexVal(c: char): (r: Option<nat>)
    ensures r.Some? ==> r.value < 16
  {
    if '0' <= c <= '9' then Some(c as int - '0' as int)
    else if 'a' <= c <= 'f' then Some(c as int - 'a' as int + 10)
    else if 'A' <= c <= 'F' then Some(c as int - 'A' as int + 10)
    else None
  }

  lemma LowerHexDigitVal(d: nat)
    requires d < 16
    ensures HexVal(LowerHexDigit(d)) == Some(d)
  {
  }

  const InvalidDigit := "invalid digit found in string"

  /**
   * `u8::from_str_radix(s, 16)` on a two-character string: either two hex
   * digits, or a '+' sign followed by one digit.
   */
  function ParseHexByte(a: char, b: char): (r: Result<byte>)
  {
    if a == '+' then
      match HexVal(b)
      case Some(v) => Ok(v)
      case None => Err(InvalidDigit)
    else
      match (HexVal(a), HexVal(b))
      case (Some(hi), Some(lo)) => Ok(16 * hi + lo)
      case _ => Err(InvalidDigit)
  }

  /** `to_hex_string`: two lower-case digits per byte. */
  function ToHexString(data: seq<byte>): (r: string)
    ensures |r| == 2 * |data|
    ensures forall i :: 0 <= i < |data| ==>
      r[2 * i] == LowerHexDigit(data[i] / 16) && r[2 * i + 1] == LowerHexDigit(data[i] % 16)
  {
    if |data| == 0 then ""
    else [LowerHexDigit(data[0] / 16), LowerHexDigit(data[0] % 16)] + ToHexString(data[1..])
  }

  /** `hex_stream_to_bytes`: the pairs of characters parsed in order. */
  function HexStreamToBytes(hex: string): (r: Result<seq<byte>>)
    ensures |hex| % 2 != 0 ==> r == Err("Hex string has an odd length")
    ensures r.Ok? ==> |r.value| == |hex| / 2
    decreases |hex|
  {
    if |hex| % 2 != 0 then Err("Hex string has an odd length")
    else if |hex| == 0 then Ok([])
    else
      match ParseHexByte(hex[0], hex[1])
      case Err(e) => Err(e)
      case Ok(b) =>
        match HexStreamToBytes(hex[2..])
        case Err(e) => Err(e)
        case Ok(rest) => Ok([b] + rest)
  }

  lemma {:induction false} HexRoundTrip(data: seq<byte>)
    ensures HexStreamToBytes(ToHexString(data)) == Ok(data)
  {
    if |data| > 0 {
      var s := ToHexString(data);
      assert s == [LowerHexDigit(data[0] / 16), LowerHexDigit(data[0] % 16)] + ToHexString(data[1..]);
      PairParses(data[0]);
      hide ToHexString, ParseHexByte, LowerHexDigit;
      HexRoundTrip(data[1..]);
      HexStreamStep(s, data[0], data[1..]);
      assert [data[0]] + data[1..] == data;
    }
  }

  /** The two lower-case digits of a byte parse back to it. */
  lemma PairParses(b: byte)
    ensures ParseHexByte(LowerHexDigit(b / 16), LowerHexDigit(b % 16)) == Ok(b)
  {
    LowerHexDigitVal(b / 16);
    LowerHexDigitVal(b % 16);
  }

  /** A good leading pair is prepended to whatever the rest parses to. */
  lemma HexStreamStep(s: string, b: byte, rest: seq<byte>)
    requires |s| >= 2 && ParseHexByte(s[0], s[1]) == Ok(b) && HexStreamToBytes(s[2..]) == Ok(rest)
    ensures HexStreamToBytes(s) == Ok([b] + rest)
  {
    hide ParseHexByte;
    var n := |s| - 2;
    assert n % 2 == 0;
    assert |s| % 2 == 0 by { assert |s| == n + 2; }
  }

  /**
   * `hex_stream_to_bytes` accepts an explicit '+' sign in place of a pair's
   * high digit, as `from_str_radix` does: "+d" reads as "0d" for every
   * character `d`, the value of a hex digit and an error otherwise.
   */
  lemma PlusSignAccepted(d: char)
    ensures HexStreamToBytes(['+', d]) == HexStreamToBytes(['0', d])
    ensures HexVal(d).Some? ==> HexStreamToBytes(['+', d]) == Ok([HexVal(d).value])
    ensures HexVal(d).None? ==> HexStreamToBytes(['+', d]).Err?
  {
    var p := ['+', d];
    var z := ['0', d];
    assert p[2..] == [] && z[2..] == [];
    assert HexStreamToBytes([]) == Ok([]);
    if HexVal(d).Some? {
      assert [HexVal(d).value] + [] == [HexVal(d).value];
    }
  }

  /** `vec_to_array_16_opt` */
  function VecToArray16(v: seq<byte>): (r: Option<Digest16>)
    ensures r.Some? <==> |v| == 16
    ensures r.Some? ==> r.value == v
  {
    if |v| == 16 then var a: Digest16 := v; Some(a) else None
  }

  /** The hyphenated lower-case form `Uuid::to_string` prints for 16 bytes. */
  function UuidToString(u: Digest16): (r: string)
    ensures |r| == 36 && r[8] == '-'
  {
    ToHexString(u[..4]) + "-" + ToHexString(u[4..6]) + "-" + ToHexString(u[6..8]) + "-"
      + ToHexString(u[8..10]) + "-" + ToHexString(u[10..])
  }

  /** `str::find(c)`: the first index of `c`. */
  function FindChar(s: string, c: char): (r: Option<nat>)
    ensures r.None? <==> c !in s
    ensures r.Some? ==> r.value < |s| && s[r.value] == c && c !in s[..r.value]
    decreases |s|
  {
    if |s| == 0 then None
    else if s[0] == c then Some(0)
    else match FindChar(s[1..], c)
      case None => None
      case Some(i) => assert s[1..][..i] == s[1..i + 1]; Some(i + 1)
  }

  lemma {:induction false} HexHasNoDash(data: seq<byte>)
    ensures '-' !in ToHexString(data)
  {
    if |data| > 0 {
      HexHasNoDash(data[1..]);
    }
  }

  /** `uuid_contains` */
  function UuidContains(uuid: Digest16, target: string, onlyPrefix: bool): bool {
    var text := UuidToString(uuid);
    if onlyPrefix then
      match FindChar(text, '-')
      case Some(idx) => Contains(text[..idx], target)
      case None => false
    else Contains(text, target)
  }

  /** With `onlyPrefix`, only the first four bytes (eight digits before the first '-') are searched. */
  lemma UuidPrefixOnly(uuid: Digest16, target: string)
    ensures UuidContains(uuid, target, true) == Contains(ToHexString(uuid[..4]), target)
  {
    var text := UuidToString(uuid);
    assert text[..8] == ToHexString(uuid[..4]);
    HexHasNoDash(uuid[..4]);
  }

  /** The text whose SHA-256 yields the unlock code: cleaned MAC, trimmed SN, then "XIAOMI". */
  function UnlockInput(mac: string, sn: string): string {
    Trim(ReplaceAll(mac, ":", "")) + Trim(sn) + "XIAOMI"
  }

  /** `calc_unlock_code`: ten decimal digits, digit i being byte i of the hash modulo 10. */
  method CalcUnlockCode(mac: string, sn: string, sha256: Sha256Fn) returns (code: string)
    ensures |code| == 10
    ensures forall i :: 0 <= i < 10 ==> code[i] == DigitChar(sha256(UnlockInput(mac, sn))[i] % 10)
  {
    code := UnlockDigits(sha256(UnlockInput(mac, sn)));
  }

  /** The digit loop of `calc_unlock_code`: one decimal digit per leading hash byte. */
  method UnlockDigits(hash: Digest32) returns (code: string)
    ensures |code| == 10
    ensures forall i :: 0 <= i < 10 ==> code[i] == DigitChar(hash[i] % 10)
  {
    code := "";
    for i := 0 to 10
      invariant |code| == i
      invariant forall j :: 0 <= j < i ==> code[j] == DigitChar(hash[j] % 10)
    {
      code := code + [DigitChar(hash[i] % 10)];
    }
  }

  lemma {:induction false} RemoveColonsGone(s: string)
    ensures !Contains(ReplaceAll(s, ":", ""), ":")
    decreases |s|
  {
    if |s| >= 1 {
      RemoveColonsGone(s[1..]);
      var t := ReplaceAll(s[1..], ":", "");
      if !StartsWith(s, ":") {
        assert s[0] != ':';
        assert ReplaceAll(s, ":", "") == [s[0]] + t;
        assert ([s[0]] + t)[1..] == t;
        assert !StartsWith([s[0]] + t, ":");
      } else {
        assert ReplaceAll(s, ":", "") == "" + t;
        assert "" + t == t;
      }
    }
  }

  /** The unlock code does not depend on whether the MAC is given with or without colons. */
  lemma UnlockInputColonFree(mac: string, sn: string)
    ensures UnlockInput(ReplaceAll(mac, ":", ""), sn) == UnlockInput(mac, sn)
  {
    RemoveColonsGone(mac);
    ReplaceAllAbsent(ReplaceAll(mac, ":", ""), ":", "");
  }
}

=== FILE: win_spp.dfy ===
/**
 * The Windows back end of the Bluetooth Classic SPP plugin: the text form of
 * a 48-bit Bluetooth address and its parser, the NUL-terminated device name,
 * and the global state that scanning, connecting, sending and disconnecting
 * update. Sockets, radios, pairing dialogs, events and threads are not
 * modelled; what they report is passed in.
 */
module WinSpp {
  import opened Wrappers
  import opened Bytes
  import opened Strings
  import Tools

  /** 2^48: Bluetooth addresses have 48 bits. */
  const ADDR_LIMIT: nat := 0x1_0000_0000_0000

  /* ---- bth_addr_to_string ---- */

  function UpperHexDigit(d: nat): char
    requires d < 16
  {
    "0123456789ABCDEF"[d]
  }

  lemma UpperHexDigitVal(d: nat)
    requires d < 16
    ensures Tools.HexVal(UpperHexDigit(d)) == Some(d)
    ensures UpperHexDigit(d) != ':' && UpperHexDigit(d) != '+'
  {
  }

  /** `format!("{:02X}", b)` */
  function HexPairUpper(b: byte): (r: string)
    ensures |r| == 2
  {
    [UpperHexDigit(b / 16), UpperHexDigit(b % 16)]
  }

  function Pow256(n: nat): (p: nat)
    ensures p > 0
  {
    if n == 0 then 1 else 256 * Pow256(n - 1)
  }

  /** The low `n` bytes of `a`, most significant first (the tail of `u64::to_be_bytes`). */
  function BytesBE(a: nat, n: nat): (r: seq<byte>)
    ensures |r| == n
  {
    if n == 0 then [] else BytesBE(a / 256, n - 1) + [a % 256]
  }

  /** `u64::from_be_bytes`: the bytes read as a base-256 number, most significant first. */
  function FromBE(bs: seq<byte>): nat {
    if |bs| == 0 then 0 else FromBE(bs[..|bs| - 1]) * 256 + bs[|bs| - 1]
  }

  /** `bth_addr_to_string`: bytes 2 to 7 of the big-endian `u64`, as upper-case pairs joined by ':'. */
  function BthAddrToString(a: nat): (r: string)
  {
    Join(AddrPairs(a), ':')
  }

  function AddrPairs(a: nat): (r: seq<string>)
    ensures |r| == 6
  {
    var o := BytesBE(a, 6);
    seq(6, k requires 0 <= k < 6 => HexPairUpper(o[k]))
  }

  /** The text is 17 characters long with a ':' after every pair, and only the low 48 bits matter. */
  lemma BthAddrToStringShape(a: nat)
    ensures |BthAddrToString(a)| == 17
    ensures forall k :: 0 <= k < 5 ==> BthAddrToString(a)[3 * k + 2] == ':'
    ensures BthAddrToString(a) == BthAddrToString(a % ADDR_LIMIT)
  {
    JoinPairsShape(AddrPairs(a));
    BytesBELow(a, 6);
    assert Pow256(6) == ADDR_LIMIT;
  }

  /** Two-character pieces joined by ':' put a ':' at every third position. */
  lemma {:induction false} JoinPairsShape(p: seq<string>)
    requires |p| > 0 && forall k :: 0 <= k < |p| ==> |p[k]| == 2
    ensures |Join(p, ':')| == 3 * |p| - 1
    ensures forall k :: 0 <= k < |p| - 1 ==> Join(p, ':')[3 * k + 2] == ':'
    decreases |p|
  {
    if |p| > 1 {
      JoinPairsShape(p[1..]);
      var j := Join(p, ':');
      var rest := Join(p[1..], ':');
      assert j == p[0] + [':'] + rest;
      forall k | 0 <= k < |p| - 1
        ensures j[3 * k + 2] == ':'
      {
        if k > 0 {
          assert j[3 * k + 2] == rest[3 * (k - 1) + 2];
        }
      }
    }
  }

  /** The low `n` bytes do not depend on what lies above them. */
  lemma {:induction false} BytesBELow(a: nat, n: nat)
    ensures BytesBE(a, n) == BytesBE(a % Pow256(n), n)
    decreases n
  {
    if n > 0 {
      var m := Pow256(n - 1);
      var b := a % (256 * m);
      ModStep(a, m);
      ModStep(b, m);
      // b / 256 and a / 256 agree below m, and b and a agree modulo 256
      ModOfMod(a, m);
      BytesBELow(a / 256, n - 1);
      BytesBELow(b / 256, n - 1);
    }
  }

  /** Peeling the last byte: `(x / 256 % m) * 256 + x % 256 == x % (256 * m)`. */
  lemma ModStep(x: nat, m: nat)
    requires m > 0
    ensures (x / 256 % m) * 256 + x % 256 == x % (256 * m)
  {
    var q := x / 256;
    var r := x % 256;
    var q2 := q / m;
    var s := q % m;
    assert q == q2 * m + s;
    assert x == q2 * (256 * m) + (s * 256 + r) by {
      assert x == 256 * q + r;
    }
    DivUnique(x, 256 * m, q2, s * 256 + r);
  }

  /** Reducing modulo `256 * m` keeps the last byte and the rest modulo `m`. */
  lemma ModOfMod(a: nat, m: nat)
    requires m > 0
    ensures (a % (256 * m)) % 256 == a % 256
    ensures (a % (256 * m)) / 256 % m == a / 256 % m
  {
    var b := a % (256 * m);
    ModStep(a, m);
    var s := a / 256 % m;
    var r := a % 256;
    assert b == s * 256 + r;
    DivUnique(b, 256, s, r);
    DivUnique(s, m, 0, s);
  }

  /** Reading the low `n` bytes back gives `a` modulo `256^n`. */
  lemma {:induction false} FromBEBytesBE(a: nat, n: nat)
    ensures FromBE(BytesBE(a, n)) == a % Pow256(n)
    decreases n
  {
    if n > 0 {
      var bs := BytesBE(a, n);
      assert bs[..n - 1] == BytesBE(a / 256, n - 1);
      FromBEBytesBE(a / 256, n - 1);
      ModStep(a, Pow256(n - 1));
    }
  }

  /** `n` bytes read as a number stay below `256^n`. */
  lemma {:induction false} FromBEBound(bs: seq<byte>)
    ensures FromBE(bs) < Pow256(|bs|)
    decreases |bs|
  {
    if |bs| > 0 {
      FromBEBound(bs[..|bs| - 1]);
    }
  }

  /** Leading zero bytes do not change the value. */
  lemma {:induction false} FromBELeadingZero(bs: seq<byte>)
    ensures FromBE([0] + bs) == FromBE(bs)
    decreases |bs|
  {
    if |bs| > 0 {
      assert ([0] + bs)[..|bs|] == [0] + bs[..|bs| - 1];
      FromBELeadingZero(bs[..|bs| - 1]);
    }
  }

  /* ---- string_to_bth_addr ---- */

  /** The value of a string of hexadecimal digits, or nothing if some character is not one. */
  function HexDigitsValue(s: string): Option<nat>
    decreases |s|
  {
    if |s| == 0 then Some(0)
    else
      match (HexDigitsValue(s[..|s| - 1]), Tools.HexVal(s[|s| - 1]))
      case (Some(v), Some(d)) => Some(16 * v + d)
      case _ => None
  }

  /**
   * `u8::from_str_radix(part, 16)`: an optional '+' sign, at least one hex
   * digit of either case, any number of leading zeros, and a value below 256.
   */
  function ParseU8Hex(s: string): (r: Option<byte>)
    ensures r.Some? ==> |s| > 0
  {
    if |s| == 0 then None
    else
      var digits := if s[0] == '+' then s[1..] else s;
      if |digits| == 0 then None
      else
        match HexDigitsValue(digits)
        case Some(v) => if v < 256 then Some(v) else None
        case None => None
  }

  /** Every upper-case pair parses back to its byte. */
  lemma ParseHexPair(b: byte)
    ensures ParseU8Hex(HexPairUpper(b)) == Some(b)
  {
    var s := HexPairUpper(b);
    UpperHexDigitVal(b / 16);
    UpperHexDigitVal(b % 16);
    assert s[..1][..0] == [];
    assert s[..1] == [s[0]];
    assert HexDigitsValue(s[..1]) == Some(b / 16);
  }

  /** The index of the last part among the first `k` that is not a hex byte. */
  function LastBadPart(parts: seq<string>, k: nat): (r: Option<nat>)
    requires k <= |parts|
    ensures r.Some? ==> r.value < k && ParseU8Hex(parts[r.value]).None?
    ensures r.None? <==> forall j :: 0 <= j < k ==> ParseU8Hex(parts[j]).Some?
    ensures r.Some? ==> forall j :: r.value < j < k ==> ParseU8Hex(parts[j]).Some?
  {
    if k == 0 then None
    else if ParseU8Hex(parts[k - 1]).None? then Some(k - 1)
    else LastBadPart(parts, k - 1)
  }

  /** The parsed bytes of six well-formed parts. */
  function PartBytes(parts: seq<string>): (r: seq<byte>)
    requires |parts| == 6 && LastBadPart(parts, 6).None?
    ensures |r| == 6 && forall k :: 0 <= k < 6 ==> Some(r[k]) == ParseU8Hex(parts[k])
  {
    seq(6, k requires 0 <= k < 6 => ParseU8Hex(parts[k]).value)
  }

  /**
   * What `string_to_bth_addr` returns: six ':'-separated parts, checked from
   * the last to the first, each a hex byte, the first the most significant.
   */
  function ParseAddr(s: string): (r: Result<nat>)
    ensures r.Ok? <==> |Split(s, ':')| == 6 && forall k :: 0 <= k < 6 ==> ParseU8Hex(Split(s, ':')[k]).Some?
    ensures r.Ok? ==> r.value < ADDR_LIMIT
  {
    var parts := Split(s, ':');
    if |parts| != 6 then Err("Invalid Bluetooth address format: " + s)
    else
      match LastBadPart(parts, 6)
      case Some(k) => Err("Invalid hex byte in address: " + parts[k])
      case None =>
        FromBEBound(PartBytes(parts));
        Ok(FromBE(PartBytes(parts)))
  }

  /** `string_to_bth_addr` */
  method StringToBthAddr(s: string) returns (r: Result<nat>)
    ensures r == ParseAddr(s)
  {
    var parts := Split(s, ':');
    if |parts| != 6 {
      return Err("Invalid Bluetooth address format: " + s);
    }
    var bad, bytes := FillAddrBuffer(parts);
    if bad.Some? {
      ParseAddrBadPart(s, bad.value);
      return Err("Invalid hex byte in address: " + parts[bad.value]);
    }
    BufferValue(s, bytes[..]);
    return Ok(FromBE(bytes[..]));
  }

  /**
   * The loop of `string_to_bth_addr`: the parts, from the last to the first,
   * are parsed into bytes 7 down to 2 of an eight-byte buffer; it stops at
   * the first part (from the end) that is not a hex byte.
   */
  method FillAddrBuffer(parts: seq<string>) returns (bad: Option<nat>, bytes: array<byte>)
    requires |parts| == 6
    ensures bad == LastBadPart(parts, 6)
    ensures bad.Some? ==> LastBadPart(parts, 6) == LastBadPart(parts, bad.value + 1)
    ensures bytes.Length == 8
    ensures bad.None? ==>
      (bytes[0] == 0 && bytes[1] == 0 &&
       forall k :: 2 <= k < 8 ==> Some(bytes[k]) == ParseU8Hex(parts[k - 2]))
  {
    hide *;
    bytes := new byte[8](_ => 0);
    for i := 0 to 6
      invariant LastBadPart(parts, 6) == LastBadPart(parts, 6 - i)
      invariant bytes[0] == 0 && bytes[1] == 0
      invariant forall k :: 8 - i <= k < 8 ==> Some(bytes[k]) == ParseU8Hex(parts[k - 2])
    {
      var part := parts[5 - i];
      var b := ParseU8Hex(part);
      if b.None? {
        LastBadPartHit(parts, 6 - i);
        return Some(5 - i), bytes;
      }
      LastBadPartStep(parts, 6 - i);
      bytes[7 - i] := b.value;
    }
    LastBadPartNone(parts);
    return None, bytes;
  }

  /** A bad part at `k - 1` is where the backwards scan stops. */
  lemma LastBadPartHit(parts: seq<string>, k: nat)
    requires 0 < k <= |parts| && ParseU8Hex(parts[k - 1]).None?
    ensures LastBadPart(parts, k) == Some(k - 1)
  {
  }

  /** Having scanned down to nothing, the scan finds no bad part. */
  lemma LastBadPartNone(parts: seq<string>)
    ensures LastBadPart(parts, 0) == None
  {
  }

  /** A good part at `k - 1` is skipped by the backwards scan. */
  lemma LastBadPartStep(parts: seq<string>, k: nat)
    requires 0 < k <= |parts| && ParseU8Hex(parts[k - 1]).Some?
    ensures LastBadPart(parts, k) == LastBadPart(parts, k - 1)
  {
  }

  /** When the scan from the end first stops at `k`, the parse fails naming that part. */
  lemma ParseAddrBadPart(s: string, k: nat)
    requires |Split(s, ':')| == 6 && k < 6
    requires LastBadPart(Split(s, ':'), 6) == LastBadPart(Split(s, ':'), k + 1)
    requires ParseU8Hex(Split(s, ':')[k]).None?
    ensures ParseAddr(s) == Err("Invalid hex byte in address: " + Split(s, ':')[k])
  {
  }

  /** The eight-byte buffer the loop fills holds two zero bytes and then the parts' bytes. */
  lemma BufferValue(s: string, b: seq<byte>)
    requires |Split(s, ':')| == 6 && |b| == 8 && b[0] == 0 && b[1] == 0
    requires forall k :: 2 <= k < 8 ==> Some(b[k]) == ParseU8Hex(Split(s, ':')[k - 2])
    ensures ParseAddr(s) == Ok(FromBE(b))
  {
    var parts := Split(s, ':');
    assert forall j :: 0 <= j < 6 ==> ParseU8Hex(parts[j]) == Some(b[j + 2]);
    assert LastBadPart(parts, 6).None?;
    var pb := PartBytes(parts);
    assert b == [0] + ([0] + pb);
    FromBELeadingZero([0] + pb);
    FromBELeadingZero(pb);
  }

  /** One printed pair has no ':' and parses back to its byte. */
  lemma PairParses(b: byte)
    ensures ':' !in HexPairUpper(b) && ParseU8Hex(HexPairUpper(b)) == Some(b)
  {
    UpperHexDigitVal(b / 16);
    UpperHexDigitVal(b % 16);
    ParseHexPair(b);
  }

  /** Printing an address and parsing it back gives its low 48 bits. */
  lemma AddrRoundTrip(a: nat)
    ensures ParseAddr(BthAddrToString(a)) == Ok(a % ADDR_LIMIT)
  {
    var pairs := AddrPairs(a);
    forall k | 0 <= k < 6
      ensures ':' !in pairs[k] && ParseU8Hex(pairs[k]) == Some(BytesBE(a, 6)[k])
    {
      PairParses(BytesBE(a, 6)[k]);
    }
    hide AddrPairs, ParseU8Hex, HexPairUpper;
    JoinSplit(pairs, ':');
    assert PartBytes(pairs) == BytesBE(a, 6);
    FromBEBytesBE(a, 6);
  }

  /** Any address below 2^48 survives printing and parsing. */
  lemma AddrRoundTripExact(a: nat)
    requires a < ADDR_LIMIT
    ensures ParseAddr(BthAddrToString(a)) == Ok(a)
  {
    AddrRoundTrip(a);
    DivUnique(a, ADDR_LIMIT, 0, a);
  }

  /** Text without exactly five ':' is rejected as malformed before any part is looked at. */
  lemma ParseRejectsWrongCount(s: string)
    requires Count(s, ':') != 5
    ensures ParseAddr(s) == Err("Invalid Bluetooth address format: " + s)
  {
    SplitCount(s, ':');
  }

  /* ---- string_from_utf16_char_array ---- */

  /** The UTF-16 units before the first NUL (all of them when there is none). */
  function Utf16UntilNul(chars: seq<u16>): (r: seq<u16>)
    ensures |r| <= |chars| && r == chars[..|r|]
    ensures 0 !in r
    ensures |r| < |chars| ==> chars[|r|] == 0
  {
    if |chars| == 0 || chars[0] == 0 then [] else [chars[0]] + Utf16UntilNul(chars[1..])
  }

  /* ---- GlobalState ---- */

  /** `SPPDevice` */
  datatype SppDevice = SppDevice(name: Option<string>, address: string)

  /** The fields of `GlobalState` the model tracks; `callbackCalls` counts how often the connected callback ran. */
  datatype WinState = WinState(
    wsaInitialized: bool,
    scanned: seq<SppDevice>,
    scanning: bool,
    connected: Option<SppDevice>,
    socket: Option<nat>,
    hasCallback: bool,
    callbackCalls: nat)

  /** No two scanned devices share an address. */
  predicate DistinctAddresses(devs: seq<SppDevice>) {
    forall i, j :: 0 <= i < j < |devs| ==> devs[i].address != devs[j].address
  }

  predicate Known(devs: seq<SppDevice>, address: string) {
    exists i :: 0 <= i < |devs| && devs[i].address == address
  }

  /** One device reported by the scan thread: appended unless its address is already listed. */
  function ScanFoundSpec(st: WinState, dev: SppDevice): (r: WinState)
  {
    if Known(st.scanned, dev.address) then st else st.(scanned := st.scanned + [dev])
  }

  lemma ScanFoundKeepsDistinct(st: WinState, dev: SppDevice)
    requires DistinctAddresses(st.scanned)
    ensures DistinctAddresses(ScanFoundSpec(st, dev).scanned)
    ensures Known(ScanFoundSpec(st, dev).scanned, dev.address)
    ensures ScanFoundSpec(st, dev).scanned[..|st.scanned|] == st.scanned
  {
    if !Known(st.scanned, dev.address) {
      assert ScanFoundSpec(st, dev).scanned[|st.scanned|] == dev;
    }
  }

  /** The error `init_winsock_if_needed` reports when `WSAStartup` returns `code`. */
  function WsaError(code: nat): string {
    "WSAStartup failed with error: " + NatToString(code)
  }

  /**
   * `start_scan_impl`: WinSock is started if needed (`wsaResult` is what
   * `WSAStartup` returns), a running scan is stopped, and the list is emptied
   * as the new scan begins.
   */
  function StartScanSpec(st: WinState, wsaResult: nat): (WinState, Result<()>)
  {
    if !st.wsaInitialized && wsaResult != 0 then (st, Err(WsaError(wsaResult)))
    else (st.(wsaInitialized := true, scanned := [], scanning := true), Ok(()))
  }

  /** The devices the scan thread reports, one after the other. */
  function ScanReports(st: WinState, devs: seq<SppDevice>): WinState
    decreases |devs|
  {
    if |devs| == 0 then st else ScanReports(ScanFoundSpec(st, devs[0]), devs[1..])
  }

  /** Reports keep the list free of duplicate addresses and every reported address ends up listed. */
  lemma {:induction false} ScanReportsDistinct(st: WinState, devs: seq<SppDevice>)
    requires DistinctAddresses(st.scanned)
    ensures DistinctAddresses(ScanReports(st, devs).scanned)
    ensures forall i :: 0 <= i < |devs| ==> Known(ScanReports(st, devs).scanned, devs[i].address)
    ensures forall a :: Known(st.scanned, a) ==> Known(ScanReports(st, devs).scanned, a)
    decreases |devs|
  {
    if |devs| > 0 {
      var st1 := ScanFoundSpec(st, devs[0]);
      ScanFoundKeepsDistinct(st, devs[0]);
      ScanReportsDistinct(st1, devs[1..]);
      forall a | Known(st.scanned, a) ensures Known(st1.scanned, a) {
        var i :| 0 <= i < |st.scanned| && st.scanned[i].address == a;
        assert st1.scanned[i] == st.scanned[i];
      }
      forall i | 0 <= i < |devs| ensures Known(ScanReports(st, devs).scanned, devs[i].address) {
        if i > 0 {
          assert devs[i] == devs[1..][i - 1];
        }
      }
    }
  }

  /**
   * A scan that starts lists, without duplicates, exactly what the reports
   * name: every listed device was reported and every reported address is listed.
   */
  lemma StartThenReports(st: WinState, wsaResult: nat, devs: seq<SppDevice>)
    requires st.wsaInitialized || wsaResult == 0
    ensures StartScanSpec(st, wsaResult).1 == Ok(()) && StartScanSpec(st, wsaResult).0.scanning
    ensures var r := ScanReports(StartScanSpec(st, wsaResult).0, devs);
      DistinctAddresses(r.scanned)
      && (forall i :: 0 <= i < |devs| ==> Known(r.scanned, devs[i].address))
      && (forall j :: 0 <= j < |r.scanned| ==> r.scanned[j] in devs)
  {
    var s0 := StartScanSpec(st, wsaResult).0;
    ScanReportsDistinct(s0, devs);
    ScanReportsFromDevs(s0, devs);
  }

  /** Every device in the list after the reports was already listed or was reported. */
  lemma {:induction false} ScanReportsFromDevs(st: WinState, devs: seq<SppDevice>)
    ensures forall j :: 0 <= j < |ScanReports(st, devs).scanned| ==>
      ScanReports(st, devs).scanned[j] in st.scanned || ScanReports(st, devs).scanned[j] in devs
    decreases |devs|
  {
    if |devs| > 0 {
      var st1 := ScanFoundSpec(st, devs[0]);
      ScanReportsFromDevs(st1, devs[1..]);
      forall j | 0 <= j < |ScanReports(st, devs).scanned|
        ensures ScanReports(st, devs).scanned[j] in st.scanned || ScanReports(st, devs).scanned[j] in devs
      {
        var d := ScanReports(st, devs).scanned[j];
        assert d in st1.scanned || d in devs[1..];
        if d in st1.scanned && d !in st.scanned {
          assert st1.scanned == st.scanned + [devs[0]];
          assert d == devs[0];
        }
      }
    }
  }

  /** `stop_scan_impl`: the flag is cleared; the list of found devices stays. */
  function StopScanSpec(st: WinState): (r: WinState)
  {
    st.(scanning := false)
  }

  /** `disconnect_internal`: the handles and the device information are dropped. */
  function DisconnectSpec(st: WinState): (r: WinState)
  {
    st.(socket := None, connected := None)
  }

  lemma DisconnectIdempotent(st: WinState)
    ensures DisconnectSpec(DisconnectSpec(st)) == DisconnectSpec(st)
    ensures DisconnectSpec(st).socket.None? && DisconnectSpec(st).connected.None?
    ensures DisconnectSpec(st).scanned == st.scanned && DisconnectSpec(st).hasCallback == st.hasCallback
  {
  }

  /** `on_connected_impl`: the callback runs at once when a device is connected, and is stored either way. */
  function OnConnectedSpec(st: WinState): (r: WinState)
  {
    st.(hasCallback := true, callbackCalls := st.callbackCalls + (if st.connected.Some? then 1 else 0))
  }

  lemma OnConnectedStores(st: WinState)
    ensures OnConnectedSpec(st).hasCallback
    ensures OnConnectedSpec(st).callbackCalls == st.callbackCalls + 1 <==> st.connected.Some?
    ensures OnConnectedSpec(st).callbackCalls == st.callbackCalls <==> st.connected.None?
  {
  }

  /* ---- connect_impl ---- */

  /**
   * What the system reports during one connect: the `WSAStartup` result
   * (0 on success), the device name Windows knows, and the outcome of the
   * socket attempts on RFCOMM channel 5, on channel 1, and by the SPP service
   * class UUID 0x1101 (a socket or an error text).
   */
  datatype ConnectEnv = ConnectEnv(
    wsaResult: nat,
    deviceName: string,
    channel5: Result<nat>,
    channel1: Result<nat>,
    sppUuid: Result<nat>)

  /** The attempt chain: channel 5, else channel 1, else the service UUID; the last error is reported. */
  function Attempts(env: ConnectEnv): (r: Result<nat>)
    ensures env.channel5.Ok? ==> r == env.channel5
    ensures env.channel5.Err? && env.channel1.Ok? ==> r == env.channel1
    ensures env.channel5.Err? && env.channel1.Err? ==> r == env.sppUuid
  {
    if env.channel5.Ok? then env.channel5
    else if env.channel1.Ok? then env.channel1
    else env.sppUuid
  }

  /** `connect_impl` as a function of the state before it. */
  function ConnectSpec(st: WinState, addr: string, env: ConnectEnv): (WinState, Result<bool>)
  {
    if !st.wsaInitialized && env.wsaResult != 0 then
      (st, Err(WsaError(env.wsaResult)))
    else
      var s1 := StopScanSpec(st.(wsaInitialized := true));
      if s1.connected.Some? && s1.connected.value.address == addr then (s1, Ok(true))
      else
        var s2 := DisconnectSpec(s1);
        match ParseAddr(addr)
        case Err(e) => (s2, Err(e))
        case Ok(_) =>
          match Attempts(env)
          case Err(e) => (s2, Err(e))
          case Ok(sock) =>
            (s2.(socket := Some(sock), connected := Some(SppDevice(Some(env.deviceName), addr)),
                 callbackCalls := s2.callbackCalls + (if s2.hasCallback then 1 else 0)), Ok(true))
  }

  /** Connecting to the address already connected stops a scan and changes nothing else. */
  lemma ConnectSameAddress(st: WinState, addr: string, env: ConnectEnv)
    requires st.wsaInitialized && st.connected.Some? && st.connected.value.address == addr
    ensures ConnectSpec(st, addr, env) == (st.(scanning := false), Ok(true))
  {
  }

  /** Any other address drops the old connection before the address is even parsed. */
  lemma ConnectTearsDownFirst(st: WinState, addr: string, env: ConnectEnv)
    requires st.wsaInitialized || env.wsaResult == 0
    requires !(st.connected.Some? && st.connected.value.address == addr)
    requires ParseAddr(addr).Err?
    ensures ConnectSpec(st, addr, env).1 == Err(ParseAddr(addr).error)
    ensures ConnectSpec(st, addr, env).0.connected.None? && ConnectSpec(st, addr, env).0.socket.None?
  {
  }

  /**
   * A connect to a new, well-formed address succeeds exactly when one of the
   * three attempts does; the winning socket and the address are recorded, and
   * a stored callback runs once.
   */
  lemma ConnectOutcome(st: WinState, addr: string, env: ConnectEnv)
    requires st.wsaInitialized || env.wsaResult == 0
    requires !(st.connected.Some? && st.connected.value.address == addr)
    requires ParseAddr(addr).Ok?
    ensures ConnectSpec(st, addr, env).1 == Ok(true) <==>
      env.channel5.Ok? || env.channel1.Ok? || env.sppUuid.Ok?
    ensures ConnectSpec(st, addr, env).1.Ok? ==>
      ConnectSpec(st, addr, env).0.socket == Some(Attempts(env).value) &&
      ConnectSpec(st, addr, env).0.connected == Some(SppDevice(Some(env.deviceName), addr)) &&
      ConnectSpec(st, addr, env).0.callbackCalls == st.callbackCalls + (if st.hasCallback then 1 else 0)
    ensures ConnectSpec(st, addr, env).1.Err? ==>
      ConnectSpec(st, addr, env).1.error == env.sppUuid.error && ConnectSpec(st, addr, env).0.connected.None?
  {
  }

  /* ---- send_impl ---- */

  /**
   * The `total_sent` loop from offset `total`: `accept` says how many bytes a
   * `send` call takes from what is left (0 or less is a failure, reported with
   * `lastError`).
   */
  function SendFrom(data: seq<byte>, total: nat, accept: seq<byte> -> int, lastError: nat): Result<()>
    decreases |data| - total
  {
    if total >= |data| then Ok(())
    else
      var sent := accept(data[total..]);
      if sent > 0 then SendFrom(data, total + sent, accept, lastError)
      else Err("send failed with error: " + NatToString(lastError))
  }

  /** `send_impl` as a function: "Not connected" without a socket, otherwise the loop. */
  function SendSpec(st: WinState, data: seq<byte>, accept: seq<byte> -> int, lastError: nat): Result<()>
  {
    if st.socket.None? then Err("Not connected. Cannot send data.")
    else SendFrom(data, 0, accept, lastError)
  }

  /** Empty data is sent without a single `send` call. */
  lemma SendEmpty(st: WinState, accept: seq<byte> -> int, lastError: nat)
    requires st.socket.Some?
    ensures SendSpec(st, [], accept, lastError) == Ok(())
  {
  }

  /** A socket that takes everything offered sends any data in one call. */
  lemma SendAllAtOnce(st: WinState, data: seq<byte>, accept: seq<byte> -> int, lastError: nat)
    requires st.socket.Some?
    requires forall d :: accept(d) == |d|
    ensures SendSpec(st, data, accept, lastError) == Ok(())
  {
    if |data| > 0 {
      assert data[0..] == data;
      assert accept(data[0..]) == |data|;
      assert SendFrom(data, |data|, accept, lastError) == Ok(());
    }
  }

  /** A socket that refuses the first call fails the send with the error code. */
  lemma SendFirstRefused(st: WinState, data: seq<byte>, accept: seq<byte> -> int, lastError: nat)
    requires st.socket.Some? && |data| > 0 && accept(data) <= 0
    ensures SendSpec(st, data, accept, lastError) == Err("send failed with error: " + NatToString(lastError))
  {
    assert data[0..] == data;
  }

  /** The shared Windows back-end state. */
  class WinBt {
    var wsaInitialized: bool
    var scanned: seq<SppDevice>
    var scanning: bool
    var connected: Option<SppDevice>
    var socket: Option<nat>
    var hasCallback: bool
    var callbackCalls: nat

    function State(): WinState
      reads this
    {
      WinState(wsaInitialized, scanned, scanning, connected, socket, hasCallback, callbackCalls)
    }

    constructor ()
      ensures State() == WinState(false, [], false, None, None, false, 0)
    {
      wsaInitialized := false;
      scanned := [];
      scanning := false;
      connected := None;
      socket := None;
      hasCallback := false;
      callbackCalls := 0;
    }

    /** `start_scan_impl`: WinSock start-up, then a stop of any running scan, then a fresh list. */
    method StartScan(wsaResult: nat) returns (r: Result<()>)
      modifies this
      ensures (State(), r) == StartScanSpec(old(State()), wsaResult)
    {
      if !wsaInitialized {
        if wsaResult != 0 {
          return Err(WsaError(wsaResult));
        }
        wsaInitialized := true;
      }
      StopScan();
      if !scanning {
        scanned := [];
        scanning := true;
      }
      r := Ok(());
    }

    /** `stop_scan_impl` */
    method StopScan()
      modifies this
      ensures State() == StopScanSpec(old(State()))
    {
      scanning := false;
    }

    /** The scan thread's `any(|d| d.address == dev.address)` test and push. */
    method ScanFound(dev: SppDevice)
      modifies this
      ensures State() == ScanFoundSpec(old(State()), dev)
    {
      var i := 0;
      while i < |scanned|
        invariant i <= |scanned|
        invariant forall j :: 0 <= j < i ==> scanned[j].address != dev.address
        invariant State() == old(State())
      {
        if scanned[i].address == dev.address {
          return;
        }
        i := i + 1;
      }
      scanned := scanned + [dev];
    }

    /** `disconnect_internal` */
    method DisconnectInternal()
      modifies this
      ensures State() == DisconnectSpec(old(State()))
    {
      socket := None;
      connected := None;
    }

    /** `on_connected_impl` */
    method OnConnected()
      modifies this
      ensures State() == OnConnectedSpec(old(State()))
    {
      if connected.Some? {
        callbackCalls := callbackCalls + 1;
      }
      hasCallback := true;
    }

    /** `connect_impl` */
    method Connect(addr: string, env: ConnectEnv) returns (r: Result<bool>)
      modifies this
      ensures (State(), r) == ConnectSpec(old(State()), addr, env)
    {
      hide ParseAddr, NatToString, Split, LastBadPart, PartBytes, FromBE;
      if !wsaInitialized {
        if env.wsaResult != 0 {
          return Err(WsaError(env.wsaResult));
        }
        wsaInitialized := true;
      }
      StopScan();
      if connected.Some? && connected.value.address == addr {
        return Ok(true);
      }
      DisconnectInternal();
      var parsed := StringToBthAddr(addr);
      if parsed.Err? {
        return Err(parsed.error);
      }
      var sock := env.channel5;
      if sock.Err? {
        sock := env.channel1;
      }
      if sock.Err? {
        sock := env.sppUuid;
      }
      if sock.Err? {
        return Err(sock.error);
      }
      socket := Some(sock.value);
      connected := Some(SppDevice(Some(env.deviceName), addr));
      if hasCallback {
        callbackCalls := callbackCalls + 1;
      }
      return Ok(true);
    }

    /** `send_impl`: the state is read, never changed. */
    method Send(data: seq<byte>, accept: seq<byte> -> int, lastError: nat) returns (r: Result<()>)
      ensures r == SendSpec(State(), data, accept, lastError)
    {
      if socket.None? {
        return Err("Not connected. Cannot send data.");
      }
      var total := 0;
      while total < |data|
        invariant SendFrom(data, total, accept, lastError) == SendFrom(data, 0, accept, lastError)
        decreases |data| - total
      {
        var sent := accept(data[total..]);
        if sent > 0 {
          total := total + sent;
        } else {
          return Err("send failed with error: " + NatToString(lastError));
        }
      }
      return Ok(());
    }
  }
}

=== FILE: wrappers.dfy ===
/** Option and Result values shared by every module of the model. */
module Wrappers {
  datatype Option<T> = None | Some(value: T)

  /** An error carries the message text the source produces. */
  datatype Result<T> = Ok(value: T) | Err(error: string)
  {
    predicate IsFailure() { Err? }
  }
}
